=== FILE: README.md ===
# legiLLM pipeline engine, modelled in Dafny

legiLLM takes legislative bill records and runs them through a two-stage AI
relevance pipeline. The first stage is a batched filter pass: bills are sent to a
language model in batches, and each one is marked relevant or not, with a
reason. The second stage is a per-bill analysis pass: the full bill text is
fetched through a cache and a hook, and a structured analysis is asked for. The
output of every stage goes through one storage contract, which has three
backends that can replace one another: local JSON files, blob storage, and a
relational database.

This project models that engine in Dafny, one module per source file:

- `StorageProvider` holds the shared contract and path layout. The backends are
  `LocalFileStorage` and `AzureBlobStorage`, both classes over a map of stored
  files, and `DatabaseStorage`, a class over its tables. `StorageProviderFactory`
  picks the backend from the environment and the configuration.
- `FormatNormalizer` turns the two upstream shapes of a filtered-bills file
  (the filter pass's output and the vector-search output) into one list of
  canonical records.
- `HookSystem`, `HookRegistry` and `LegiScanHook` model the ordered, cacheable
  enrichment hooks that run at named pipeline timings. The LegiScan hook
  fetches full text through an on-disk cache, modelled in `CacheFiles`.
- `AiFilterPass` and `AiAnalysisPass` model prompt building, response parsing,
  the relevance checks and failure isolation. `LlmProvider` models the factory
  that picks a chat-completion backend from the environment and the
  configuration.
- `DataSourcePlugins` models the plugin registry and manager that gather bills
  from files, databases and HTTP sources.
- The scripts are `RunFilterPass`, `RunAnalysisPass`, `RunDirectAnalysis` (with
  the shared `AnalysisLoop` and `TestSelection`), `AnalyzeBillStats`,
  `FetchLegiScanBills` and `SplitResultsFile`. `Chunking` holds the batch
  arithmetic shared by the filter pass and the splitter.
- Shared helpers: `Wrappers` (Option, Result, Python exceptions, the
  environment), `PyJson` (an ordered JSON value with Python's dict and list
  semantics), `PyStrings` (Python string methods) and `Sorting`.

The outside world enters as parameters:
- The environment is a map from names to values.
- The file system and the blob container are maps from paths to stored
  documents.
- HTTP, the language model and the LegiScan API are oracle functions from a
  request to a reply or a failure.
- `json.loads` is a partial parsing function given as a parameter.
- `time.sleep` is recorded as a trace of pauses.

## Model

| member | source | states |
|---|---|---|
| StorageProvider.RawPath | src/local_file_storage.py:39-45 | A raw file lives under `raw/` and ends in `.json`. |
| StorageProvider.RawPathIgnoresExtension | src/local_file_storage.py:41-45 | `n` and `n + ".json"` address the same raw file. |
| StorageProvider.RawPathInjective | src/local_file_storage.py:50-56 | Names that differ once a trailing `.json` is removed address different raw files, so a load reads back what the save under the same name wrote. |
| StorageProvider.SavedFilteredIsCandidate | src/local_file_storage.py:64-95 | The file `save_filtered_results` writes is the first candidate `load_filtered_results` tries when the run id carries `filter_results_`, and the second one otherwise. |
| StorageProvider.FirstExisting | src/local_file_storage.py:91-101 | The candidate loop returns the first candidate whose file exists (every earlier one is absent), and finds nothing exactly when no candidate exists. |
| StorageProvider.FirstExistingAt | src/local_file_storage.py:91-99 | The first existing candidate is the one at the first position whose file exists. |
| StorageProvider.FilteredRoundTrip | src/local_file_storage.py:64-101 | Saving filter results and loading them returns the saved document, except when the run id has no prefix and `filtered/{run_id}.json` exists separately; that file is then returned instead. |
| StorageProvider.FirstCandidateDiffers | src/local_file_storage.py:84-95 | Without the prefix, the first candidate is never the file the save wrote. |
| StorageProvider.FilteredMissing | src/local_file_storage.py:91-101 | The filtered load raises FileNotFoundError exactly when none of the four candidate files exists. |
| StorageProvider.AnalysisPathsDiffer | src/local_file_storage.py:125-130 | The relevant and the not-relevant files of a run are two different files. |
| StorageProvider.LoadAnalysis | src/local_file_storage.py:134-170 | A successful analysis load has at least one non-empty list. |
| StorageProvider.AnalysisRoundTrip | src/local_file_storage.py:103-170 | Saving both lists and loading them returns them, unless both are empty, which raises FileNotFoundError. |
| StorageProvider.CachePathInjective | src/local_file_storage.py:172-187 | Ids whose `str` differs have different cache files. |
| StorageProvider.CacheSaveGet | src/local_file_storage.py:172-187 | After `save_bill_to_cache(id, d)`, getting `id` returns `d`; every other id reads as before, and an unknown id reads None. |
| StorageProvider.BillList | src/local_file_storage.py:248-262 | A list document is its own bill list; a document that is neither a list nor a dict has no bill list. |
| StorageProvider.FindBill | src/local_file_storage.py:264-270 | The search returns the first dict whose `bill_number` matches (no earlier one matches), and None exactly when none matches. |
| StorageProvider.FindBillAt | src/local_file_storage.py:264-270 | The search returns the bill at the first matching position. |
| StorageProvider.LocatedBills | src/local_file_storage.py:244-273 | A FileNotFoundError, JSONDecodeError or KeyError means "no bill"; any exception that escapes is none of those three. |
| StorageProvider.BillByNumber | src/local_file_storage.py:244-273 | A caught load error gives None, and a bill that is returned matches the number. |
| StorageProvider.BillExistsAgrees | src/azure_blob_storage.py:240-294 | The blob backend's `bill_exists_in_raw` is true exactly when `get_bill_by_number` returns a bill, and the two raise alike. |
| StorageProvider.BillExists | src/azure_blob_storage.py:240-266 | The existence check on a loaded bill list. It succeeds exactly when `get_bill_by_number` does, and is then true exactly when that lookup finds a bill (`BillExistsAgrees`). `AzureBlobStorage.AzureBlobStorage.BillExistsInRaw` computes it. |
| StorageProviderFactory.SelectedBackend | src/storage_provider.py:196-197 | The backend name is `storage.backend`, and `'local'` when `storage` is absent; it fails exactly when the config or its `storage` entry is not a dict. |
| StorageProviderFactory.Create | src/storage_provider.py:196-215 | Without `storage` the result is the local backend on `data`. Each backend that is built is the one its name selects. Any other name raises `ValueError("Unknown storage backend: …")`. |
| StorageProviderFactory.SetItem | src/storage_provider.py:248-249 | Item assignment succeeds exactly on a dict and then stores the value under the key. |
| StorageProviderFactory.OverrideBackend | src/storage_provider.py:245-249 | An unset or empty `STORAGE_BACKEND` leaves the config unchanged. |
| StorageProviderFactory.EnvBackendWins | src/storage_provider.py:245-251 | A non-empty `STORAGE_BACKEND` becomes the selected backend, `storage` is created when missing, and every other top-level key is kept. |
| StorageProviderFactory.UnknownEnvBackend | src/storage_provider.py:214-215 | An unknown backend name from the environment makes `create_from_env` raise ValueError naming it. |
| StorageProviderFactory.CreateFromEnv | src/storage_provider.py:218-251 | Without a config it uses the file config or `{}`. The caller's dict is changed in place by the override. The result is `create` of the overridden config. |
| LocalFileStorage.DataDirectory | src/local_file_storage.py:26-27 | A missing or falsy config gives `data`; `data_directory` is used when present, and a value that is not a str is a TypeError. |
| LocalFileStorage.LoadRaw | src/local_file_storage.py:50-62 | The load succeeds exactly when the raw file exists and returns its contents; otherwise it raises FileNotFoundError. |
| LocalFileStorage.RawRoundTrip | src/local_file_storage.py:39-62 | A raw save followed by a load returns the data, with or without `.json` on either name. |
| LocalFileStorage.FirstSegment | src/local_file_storage.py:195-197 | The directory entry a path lies in has no `/`. |
| LocalFileStorage.LocalFileStorage.constructor | src/local_file_storage.py:19-37 | The backend starts on its data directory and the files already there. |
| LocalFileStorage.LocalFileStorage.SaveRawData | src/local_file_storage.py:39-48 | Writes the data to the raw path and changes no other file. |
| LocalFileStorage.LocalFileStorage.LoadRawData | src/local_file_storage.py:50-62 | Agrees with `LoadRaw` on the current files. |
| LocalFileStorage.LocalFileStorage.SaveFilteredResults | src/local_file_storage.py:64-79 | Writes only `filtered/filter_results_{run_id}.json`. |
| LocalFileStorage.LocalFileStorage.LoadFilteredResults | src/local_file_storage.py:81-101 | The candidate loop returns what `LoadFiltered` specifies: the first existing candidate, or FileNotFoundError. |
| LocalFileStorage.LocalFileStorage.SaveAnalysisResults | src/local_file_storage.py:103-132 | Writes exactly the relevant file and the not-relevant file. |
| LocalFileStorage.LocalFileStorage.LoadAnalysisResults | src/local_file_storage.py:134-170 | Agrees with `LoadAnalysis`: missing files read as `[]`, and two empty lists raise FileNotFoundError. |
| LocalFileStorage.LocalFileStorage.GetBillFromCache | src/local_file_storage.py:172-180 | Returns the cached bill, or None when its file is absent. |
| LocalFileStorage.LocalFileStorage.SaveBillToCache | src/local_file_storage.py:182-187 | Writes only the cache file of that id. |
| LocalFileStorage.LocalFileStorage.CollectStems | src/local_file_storage.py:195-197 | One stem per `*.json` entry, and exactly the stems of those entries. |
| LocalFileStorage.LocalFileStorage.ListStems | src/local_file_storage.py:189-199 | The listing is sorted, has one name per `*.json` entry, and holds exactly their stems. |
| LocalFileStorage.LocalFileStorage.ListRawFiles | src/local_file_storage.py:189-199 | Sorted stems of the `*.json` entries of `raw/`. |
| LocalFileStorage.LocalFileStorage.ListFilteredResults | src/local_file_storage.py:201-211 | Sorted stems of the `*.json` entries of `filtered/`. |
| LocalFileStorage.LocalFileStorage.LocateBills | src/local_file_storage.py:244-262 | Locates the bill list as `LocatedBills` specifies: a caught error means "no bill", and other errors escape. |
| LocalFileStorage.LocalFileStorage.LocateBillsAsWritten | src/local_file_storage.py:212-231 | Locates the bill list the way `bill_exists_in_raw` does, including its handling of a plain dict. |
| LocalFileStorage.LocalFileStorage.GetBillByNumber | src/local_file_storage.py:244-273 | The search loop returns `BillByNumber`: the first matching bill, or None. |
| LocalFileStorage.LocalFileStorage.BillExistsInRaw | src/local_file_storage.py:212-241 | The search loop returns what the as-written existence check specifies. |
| LocalFileStorage.RecordDictNeverMatches | src/local_file_storage.py:226-236 | For a plain dict whose first value is a dict, the check searches the dict's string keys and never reports a bill. |
| LocalFileStorage.BillExistsDisagreesWithLookup | src/local_file_storage.py:226-273 | On `{"HB1": {"bill_number": "HB1"}}`, `get_bill_by_number("HB1")` finds the bill, but `bill_exists_in_raw("HB1")` says False. |
| LocalFileStorage.BillExistsRaisesOnEmptyDict | src/local_file_storage.py:226-227 | On `{}`, the existence check raises IndexError, which is not caught, while the lookup returns None. |
| AzureBlobStorage.Settings | src/azure_blob_storage.py:30-36 | The config must be a dict. The connection string, read from the named environment variable (default `AZURE_STORAGE_CONNECTION_STRING`), must be non-empty or ValueError is raised. The container defaults to `legiscan-data`. |
| AzureBlobStorage.Download | src/azure_blob_storage.py:68-77 | Returns the blob when it exists, and otherwise raises `FileNotFoundError("Blob not found: …")`. |
| AzureBlobStorage.ListedBlobShape | src/azure_blob_storage.py:218-223 | A listed blob is its prefix, its listed name and `.json`, so distinct blobs list under distinct names. |
| AzureBlobStorage.AzureBlobStorage.constructor | src/azure_blob_storage.py:18-53 | The backend works on the configured container and the blobs already in it. |
| AzureBlobStorage.AzureBlobStorage.UploadJson | src/azure_blob_storage.py:62-66 | An upload overwrites the one blob and changes nothing else. |
| AzureBlobStorage.AzureBlobStorage.DownloadJson | src/azure_blob_storage.py:68-77 | Agrees with `Download`. |
| AzureBlobStorage.AzureBlobStorage.SaveRawData | src/azure_blob_storage.py:89-95 | Writes only the raw blob of that name, at the same path as the local backend. |
| AzureBlobStorage.AzureBlobStorage.LoadRawData | src/azure_blob_storage.py:97-103 | Reads the raw blob, or raises FileNotFoundError. |
| AzureBlobStorage.AzureBlobStorage.SaveFilteredResults | src/azure_blob_storage.py:105-116 | Writes only the filtered blob of the run. |
| AzureBlobStorage.AzureBlobStorage.LoadFilteredResults | src/azure_blob_storage.py:118-137 | The candidate loop returns what `LoadFiltered` specifies, as the local backend does. |
| AzureBlobStorage.AzureBlobStorage.SaveAnalysisResults | src/azure_blob_storage.py:139-164 | Writes exactly the two analysis blobs of the run. |
| AzureBlobStorage.AzureBlobStorage.LoadAnalysisResults | src/azure_blob_storage.py:166-198 | Agrees with `LoadAnalysis`. |
| AzureBlobStorage.AzureBlobStorage.GetBillFromCache | src/azure_blob_storage.py:200-207 | Returns the cached bill, or None when its blob is absent. |
| AzureBlobStorage.AzureBlobStorage.SaveBillToCache | src/azure_blob_storage.py:209-212 | Writes only the cache blob of that id. |
| AzureBlobStorage.AzureBlobStorage.ListNames | src/azure_blob_storage.py:214-238 | The listing is strictly sorted, with one name per `.json` blob under the prefix: exactly the names with prefix and extension sliced off. |
| AzureBlobStorage.AzureBlobStorage.ListRawFiles | src/azure_blob_storage.py:214-225 | Sorted names of the `.json` blobs under `raw/`. |
| AzureBlobStorage.AzureBlobStorage.ListFilteredResults | src/azure_blob_storage.py:227-238 | Sorted names of the `.json` blobs under `filtered/`. |
| AzureBlobStorage.AzureBlobStorage.LocateBills | src/azure_blob_storage.py:268-286 | Locates the bill list as `LocatedBills` specifies. |
| AzureBlobStorage.AzureBlobStorage.BillExistsInRaw | src/azure_blob_storage.py:240-266 | The search loop returns `BillExists`, which agrees with `get_bill_by_number` (`BillExistsAgrees`). |
| AzureBlobStorage.AzureBlobStorage.GetBillByNumber | src/azure_blob_storage.py:268-294 | The search loop returns `BillByNumber`: the first matching bill, or None. |
| DatabaseStorage.Settings | src/database_storage.py:34-41 | The config must be a dict. The connection string comes from the named environment variable (default `DATABASE_CONNECTION_STRING`) and must be non-empty, else ValueError. File fallback is off unless configured. |
| DatabaseStorage.FindRow | src/database_storage.py:130-135 | The row found has the bill_id asked for, and there is none exactly when no row has it. |
| DatabaseStorage.UpsertBill | src/database_storage.py:129-151 | After an upsert every row is the new row or an old one. |
| DatabaseStorage.UpsertFind | src/database_storage.py:129-151 | After an upsert its bill_id reads the new row, and every other id reads as before. |
| DatabaseStorage.UpsertUnique | src/database_storage.py:135 | An upsert keeps bill_id a primary key. |
| DatabaseStorage.UpsertBills | src/database_storage.py:119-178 | The save loop skips non-dicts and falsy bill_ids, and upserts the rest in order. |
| DatabaseStorage.SaveBillsUnique | src/database_storage.py:119-178 | The save loop keeps bill_id unique. |
| DatabaseStorage.KeyFindsRow | src/database_storage.py:131-135 | With bill_id unique, as the upsert's conflict key keeps it, looking up any stored row's bill_id finds that very row. |
| DatabaseStorage.DatabaseStorage.ValidKeyFindsRow | src/database_storage.py:131-135 | In a store that keeps its invariant, each bill_id reads back exactly the row stored under it. |
| DatabaseStorage.LastSaved | src/database_storage.py:119-127 | Returns the last bill of the list saved under the id, or None when no saved bill has that id. |
| DatabaseStorage.SaveBillsLookup | src/database_storage.py:119-178 | After the loop an id holds the row built from the last saved bill with that id; an id no bill touches is unchanged. |
| DatabaseStorage.ExtractBills | src/database_storage.py:105-113 | A list is its own bill list, and a document without `summary.masterlist` or `bills` has none. Only a `summary` that cannot be searched raises. |
| DatabaseStorage.SaveRawTxn | src/database_storage.py:100-185 | A committed raw save changes only the bills table, and a database failure commits nothing. |
| DatabaseStorage.RawSaveStoresBills | src/database_storage.py:100-185 | Saving a `summary.masterlist` document succeeds. Each id then reads the row of its last saved bill. |
| DatabaseStorage.NameParts | src/database_storage.py:197 | `split('_')` yields at least one part. |
| DatabaseStorage.Matching | src/database_storage.py:196-216 | The query keeps exactly the rows matching the upper-cased state and, when the last part is all digits, the year. |
| DatabaseStorage.NullsLast | src/database_storage.py:216 | Sorted non-NULL numbers followed by the NULLs are in `ORDER BY bill_number` order. |
| DatabaseStorage.OrderByNumber | src/database_storage.py:216 | The result is in `ORDER BY bill_number` order and is a permutation of the input. |
| DatabaseStorage.RawDatas | src/database_storage.py:224 | One parsed `raw_data` document per row, in order. |
| DatabaseStorage.RawDocExtracts | src/database_storage.py:105-107 | The document `load_raw_data` rebuilds is one that `save_raw_data` reads back bill by bill (round trip of the layout). |
| DatabaseStorage.FirstWithNumber | src/database_storage.py:566-574 | Returns the first row with that bill_number, and None exactly when no row has it. |
| DatabaseStorage.FirstWithNumberAt | src/database_storage.py:566-574 | The first match is the row at the first matching position. |
| DatabaseStorage.SaveResultsFails | src/database_storage.py:246-278 | The results loop raises exactly when some item is not a dict. |
| DatabaseStorage.SaveResultsPrefixFails | src/database_storage.py:246-278 | Once the loop has raised, the later items change nothing. |
| DatabaseStorage.SaveResultsLoop | src/database_storage.py:246-278 | The loop computes `SaveResults`. |
| DatabaseStorage.TargetOf | src/database_storage.py:247-261 | The bill id an item writes to is the one its truthy bill_number resolves to, if any. |
| DatabaseStorage.SaveResultsLast | src/database_storage.py:263-278 | The last item upserts the row of its bill for this run, or changes nothing. |
| DatabaseStorage.SaveResultsOutside | src/database_storage.py:263-278 | Rows of other runs are untouched. |
| DatabaseStorage.SaveResultsCovers | src/database_storage.py:246-278 | Every item whose bill resolves has a row for this run, made from some item that resolves to the same bill. |
| DatabaseStorage.SaveResultsOnly | src/database_storage.py:246-278 | Every changed row belongs to this run and to a bill some item resolves to. |
| DatabaseStorage.SaveResultsEffect | src/database_storage.py:246-278 | The three above together: a completed loop writes exactly the rows of this run's resolved bills. |
| DatabaseStorage.RecordRunEffect | src/database_storage.py:281-297 | The run is recorded as completed with the given counts. An existing run keeps its stage. Other runs are unchanged. |
| DatabaseStorage.FilterSaveEffect | src/database_storage.py:233-304 | A committed filter save gives every resolvable relevant bill a relevant row for the run. It leaves other runs, the bills and the analysis rows alone, and records `total_analyzed` as processed. |
| DatabaseStorage.FilterSaveRejectsNonDict | src/database_storage.py:246-247 | A relevant bill that is not a dict aborts the transaction. |
| DatabaseStorage.Tag | src/database_storage.py:369 | Each bill is paired with the flag of its list. |
| DatabaseStorage.AnalysisTxn | src/database_storage.py:365-450 | The statements of the analysis save compute `SaveAnalysisTxn`. |
| DatabaseStorage.AnalysisInserts | src/database_storage.py:369-443 | The insert loop over both lists, then the run record, compute `AnalysisCommit`. |
| DatabaseStorage.AnalysisSaveEffect | src/database_storage.py:358-450 | A committed analysis save gives each resolvable relevant bill a row for the run, touches no other run, table or bill, and records `len(relevant) + len(not_relevant)` processed and `len(relevant)` relevant. |
| DatabaseStorage.AnalysisCommitEffect | src/database_storage.py:369-443 | The same facts for the inserts and run record alone. |
| DatabaseStorage.Enumerate | src/database_storage.py:325 | A result set lists each row of the query once. |
| DatabaseStorage.JoinFilters | src/database_storage.py:312-323 | One joined row per key, in order. |
| DatabaseStorage.JoinAnalyses | src/database_storage.py:458-478 | One joined row per key, in order. |
| DatabaseStorage.JoinFilterList | src/database_storage.py:312-323 | Joining each relevant filter key of the run once lists the run's joined rows once each. |
| DatabaseStorage.JoinAnalysisList | src/database_storage.py:458-478 | Joining each analysis key of the run once lists the run's joined rows once each. |
| DatabaseStorage.ReorderFilterJoin | src/database_storage.py:322 | `ORDER BY` keeps the listing of the filter join. |
| DatabaseStorage.ReorderAnalysisJoin | src/database_storage.py:477 | `ORDER BY` keeps the listing of the analysis join. |
| DatabaseStorage.Subtract | src/database_storage.py:352 | `bills_processed - len(...)` succeeds exactly on a number and subtracts. |
| DatabaseStorage.FilterRecords | src/database_storage.py:338-346 | One four-field record per joined row, in order. |
| DatabaseStorage.FilterDocCounts | src/database_storage.py:348-356 | Without a filter run the summary is 0 analysed, `len` relevant and `-len` not relevant. With one, not-relevant plus the rows equals `bills_processed`, and a non-numeric count raises. |
| DatabaseStorage.Partition | src/database_storage.py:488-508 | Each entry of a list is the record of a row whose relevance matches the list, and every such row has its record in the list. The list is never longer than the rows. |
| DatabaseStorage.PartitionAppend | src/database_storage.py:488-508 | The rows are taken in their order: two runs of rows, one after the other, give their two lists one after the other. |
| DatabaseStorage.DrawnFromPrefix | src/database_storage.py:488-508 | A record drawn from a prefix of the rows is drawn from the rows. |
| DatabaseStorage.SplitPartitions | src/database_storage.py:488-508 | Every row lands in exactly one of the two lists. |
| DatabaseStorage.DbBillByNumber | src/database_storage.py:566-574 | A bill that is returned is the `raw_data` of a row with that number. |
| DatabaseStorage.DbBillExistsAgrees | src/database_storage.py:560-574 | `bill_exists_in_raw` is true exactly when `get_bill_by_number` finds a bill, and that bill is a dict. |
| DatabaseStorage.Strs | src/database_storage.py:547-558 | One string value per name, and exactly those names. |
| DatabaseStorage.DatabaseStorage.constructor | src/database_storage.py:22-58 | Starts valid on the existing tables. A file backend on `data` exists exactly when file fallback is on. |
| DatabaseStorage.DatabaseStorage.SaveRawData | src/database_storage.py:100-189 | Commits `SaveRawTxn` or leaves the tables unchanged and raises. The file fallback mirrors only a successful save. |
| DatabaseStorage.DatabaseStorage.LoadRawData | src/database_storage.py:191-231 | Raises FileNotFoundError exactly when no row matches. Otherwise it returns the rebuilt document of the matching rows, ordered by bill number. |
| DatabaseStorage.DatabaseStorage.SaveFilteredResults | src/database_storage.py:233-308 | Commits `SaveFilterTxn` or rolls back and raises. The file fallback mirrors only a successful save. |
| DatabaseStorage.DatabaseStorage.SaveAnalysisResults | src/database_storage.py:358-454 | Commits `SaveAnalysisTxn` or rolls back and raises. The file fallback mirrors only a successful save. |
| DatabaseStorage.DatabaseStorage.LoadFilteredResults | src/database_storage.py:310-356 | No relevant row raises FileNotFoundError. Otherwise the document lists the run's joined rows once each, ordered by bill number. |
| DatabaseStorage.DatabaseStorage.LoadAnalysisResults | src/database_storage.py:456-510 | No row raises FileNotFoundError. Otherwise the rows, ordered by bill number, are split by `is_relevant`. |
| DatabaseStorage.DatabaseStorage.GetBillFromCache | src/database_storage.py:512-520 | Returns the cached response, or None. |
| DatabaseStorage.DatabaseStorage.SaveBillToCache | src/database_storage.py:522-536 | Upserts only the cache entry of that id, and the fallback file only on success. |
| DatabaseStorage.DatabaseStorage.ListRawFiles | src/database_storage.py:538-547 | Lists each distinct `state_bills_year` identifier once in text order, with NULL (a NULL state or year) last. |
| DatabaseStorage.DatabaseStorage.ListFilteredResults | src/database_storage.py:549-558 | Lists each distinct run id of `filter_results` once, strictly sorted. |
| DatabaseStorage.DatabaseStorage.BillExistsInRaw | src/database_storage.py:560-564 | True exactly when some row has that bill_number; the file name is ignored. |
| DatabaseStorage.DatabaseStorage.GetBillByNumber | src/database_storage.py:566-574 | Returns `DbBillByNumber`: the first row's raw data, or None. |
| FormatNormalizer.KeysOf | src/format_normalizer.py:35 | `data.keys()` exists exactly on a dict and lists its keys in order. |
| FormatNormalizer.DetectFormat | src/format_normalizer.py:14-36 | `original` exactly when `relevant_bills` is present. `alan` exactly when it is absent and `results` is present. A dict with neither raises ValueError listing its keys. |
| FormatNormalizer.BothKeysIsOriginal | src/format_normalizer.py:28-31 | A document with both keys is read as `original`. |
| FormatNormalizer.Format4 | src/format_normalizer.py:134 | `{x:.4f}` succeeds exactly on a number (a non-number raises) and renders its value. |
| FormatNormalizer.CanonicalKeysInOrder | src/format_normalizer.py:90-96 | Every normalised record has the keys `bill_number, title, url, reason, extra_metadata`, in that order. |
| FormatNormalizer.CanonicalLookup | src/format_normalizer.py:90-96 | Each canonical key holds the value it was built from. |
| FormatNormalizer.AlanMetadataFields | src/format_normalizer.py:141-149 | The vector-format metadata has its seven keys in order, and keeps the score and the distance as given. |
| FormatNormalizer.OriginalRecordFields | src/format_normalizer.py:89-97 | An AI-format bill keeps its own `bill_number`, `title`, `url` and `reason` (None when missing), with empty metadata. |
| FormatNormalizer.AlanRecordFields | src/format_normalizer.py:130-151 | A vector-format bill takes its number from `number`, and its reason states the score and distance to four places. The metadata keeps both numbers. |
| FormatNormalizer.AlanBadScore | src/format_normalizer.py:132-134 | A non-numeric similarity score raises. |
| FormatNormalizer.BillsOf | src/format_normalizer.py:85 | The bills are the iterated list under the format's key, `[]` when it is missing; line 125 reads the vector-search format the same way. |
| FormatNormalizer.Normalized | src/format_normalizer.py:39-65 | Normalisation succeeds only on a detected format, and then normalises that format's bills. |
| FormatNormalizer.OriginalRecordFixed | src/format_normalizer.py:89-97 | Normalising an already normalised AI-format record changes nothing. |
| FormatNormalizer.OriginalRecordsFixed | src/format_normalizer.py:85-99 | The same holds for a whole list. |
| FormatNormalizer.OriginalIdempotent | src/format_normalizer.py:39-99 | Normalising AI-format results, wrapping them as `relevant_bills` and normalising again gives the same records. |
| FormatNormalizer.NormalizeBills | src/format_normalizer.py:88-153 | The loop builds exactly the normalised records, or raises on the first bad bill. |
| FormatNormalizer.NormalizeFilterResults | src/format_normalizer.py:39-65 | The function computes `Normalized`. |
| FormatNormalizer.FormatInfoFields | src/format_normalizer.py:156-191 | Gives the format name, the bill count, `has_summary` (AI format only) and `has_similarity_scores` (vector format only), and the first bill's keys or `[]`. |
| BillIndex.BillsByNumber | scripts/run_analysis_pass.py:65 | Building the index requires every bill to be a dict with a hashable `bill_number`; each entry is a bill filed under its own number. |
| BillIndex.NumberIndexed | scripts/run_analysis_pass.py:65 | Every bill's number is a key. |
| BillIndex.IndexedNumber | scripts/run_analysis_pass.py:65 | Every key is some bill's number. |
| BillIndex.LastBillFiled | scripts/run_analysis_pass.py:65 | A bill with no later namesake is the one filed. |
| BillIndex.IndexStep | scripts/run_analysis_pass.py:65 | Adding a bill overwrites the entry of its number. |
| BillIndex.LastBillWins | scripts/run_analysis_pass.py:65 | The last bill of each number wins. |
| BillIndex.IndexKeys | scripts/run_analysis_pass.py:65 | The keys are exactly the bills' numbers. |
| CacheFiles.ReadJson | src/hook_system.py:165-174 | Reading a cache file succeeds exactly when it exists and parses, and gives its contents. |
| CacheFiles.FileSystem.constructor | src/hook_system.py:75-87 | The file system starts with the given files. |
| CacheFiles.FileSystem.Read | src/hook_system.py:167-174 | Agrees with `ReadJson`. |
| CacheFiles.FileSystem.Write | src/hook_system.py:187-195 | Writing a file changes only that file. |
| HookSystem.CacheKey | src/hook_system.py:48-64 | The default key is `{class name}_{item_id}`, and it exists exactly when the context has an `item_id`. The LegiScan hook uses its own key. |
| HookSystem.CacheLoad | src/hook_system.py:152-174 | Without a cache directory nothing is loaded. |
| HookSystem.CacheSave | src/hook_system.py:176-195 | Without a cache directory nothing is written. |
| HookSystem.CacheRoundTrip | src/hook_system.py:152-195 | A str, dict or list that is saved loads back unchanged. |
| HookSystem.RunAppend | src/hook_system.py:127-150 | Running two lists of hooks in turn is the same as running their concatenation; each hook starts from the previous result. |
| HookSystem.Run | src/hook_system.py:124-150 | The hook loop's specification. Running two hook lists in turn equals running their concatenation (`RunAppend`). Without a cache directory it applies the hooks in order, skipping any that raise, and writes nothing (`NoCacheDirIsApplication`). A cache hit replaces the data without running the hook (`CacheHitIgnoresData`). `HookSystem.HookManager.ExecuteHooks` computes it. |
| HookSystem.CacheHitIgnoresData | src/hook_system.py:132-137 | On a cache hit the hook does not run: the cached value replaces the data, whatever the data was. |
| HookSystem.CachedResultReplays | src/hook_system.py:132-144 | With a cache directory, a hook's cached result is replayed on the next call with the same `item_id`, even for different data. |
| HookSystem.FailingHookKeepsData | src/hook_system.py:146-148 | A hook that raises leaves the data and the cache as they were. |
| HookSystem.NoCacheDirIsApplication | src/hook_system.py:124-150 | Without a cache directory, running hooks applies them in order, skipping any that raise, and writes nothing. |
| HookSystem.HookManager.constructor | src/hook_system.py:75-87 | The manager starts with no hooks and the given cache directory. |
| HookSystem.HookManager.RegisterHook | src/hook_system.py:89-105 | Appends the hook to its timing's list, creating the list when missing, and leaves other timings alone. |
| HookSystem.HookManager.LoadFromCache | src/hook_system.py:152-174 | Agrees with `CacheLoad`. |
| HookSystem.HookManager.SaveToCache | src/hook_system.py:176-195 | Agrees with `CacheSave`. |
| HookSystem.HookManager.ExecuteHooks | src/hook_system.py:107-150 | The loop over the timing's hooks computes `Run`, both the result and the cache files; a timing with no hooks returns the data. |
| HookRegistry.CacheDirParam | src/hook_registry.py:61-63 | A falsy `cache_dir` means none. A truthy one must be a str, and is then kept as a path. |
| HookRegistry.CreateHookFromConfig | src/hook_registry.py:22-72 | A hook is built only from a dict whose `type` is `legiscan`. A missing, falsy or unknown type gives None. |
| HookRegistry.LegiScanFromConfig | src/hook_registry.py:55-65 | A `legiscan` config builds the hook with `params.api_key` or else `LEGISCAN_API_KEY`, and with `params.cache_dir` or else the default directory. |
| HookRegistry.RegisterConfigsFrame | src/hook_registry.py:118-127 | Registering one timing's configs only appends to that timing's list. |
| HookRegistry.RegisterConfigsStops | src/hook_registry.py:118-127 | Once a config raises, the later configs are not processed. |
| HookRegistry.RegisterTimingsStops | src/hook_registry.py:115-127 | Once a timing raises, the later timings are not processed. |
| HookRegistry.DisabledRegistersNothing | src/hook_registry.py:108-112 | With hooks not enabled, nothing is registered. |
| HookRegistry.UnknownTypesRegisterNothing | src/hook_registry.py:118-127 | Configs of unknown or missing types register nothing and raise nothing, because hook creation at lines 43-52 gives None for them. |
| HookRegistry.RegisterConfigsOn | src/hook_registry.py:118-127 | The loop over one timing's configs computes `RegisterConfigs`. |
| HookRegistry.RegisterNext | src/hook_registry.py:119-125 | One config is created and, when it gives a hook, registered. |
| HookRegistry.RegisterHooksFromConfig | src/hook_registry.py:75-127 | The whole registration computes `RegisterFromConfig`. |
| HookRegistry.RegisterTimingsOn | src/hook_registry.py:115-127 | The loop over the four timings computes `RegisterTimings`. |
| HookRegistry.RegisterTimingOn | src/hook_registry.py:116-127 | One timing's list is read, defaulting to `[]`, and registered. |
| LegiScanHook.Create | src/hooks/legiscan_hook.py:28-37 | A falsy key falls back to `LEGISCAN_API_KEY`. The cache directory defaults to `data/cache/legiscan_cache`. |
| LegiScanHook.CacheKey | src/hooks/legiscan_hook.py:202-216 | The key is `legiscan_bill_{item_id}`, and exists exactly when `item_id` is truthy. |
| LegiScanHook.FetchCacheHit | src/hooks/legiscan_hook.py:99-107 | A readable cached bill is returned without calling the service. |
| LegiScanHook.FetchCachesBill | src/hooks/legiscan_hook.py:112-138 | A successful service answer returns its `bill` and caches it. The next fetch then comes from the cache, whatever the service would say, and no other file changes. |
| LegiScanHook.FetchUnreadableFallsBack | src/hooks/legiscan_hook.py:101-110 | An unreadable cache file is treated as absent. |
| LegiScanHook.FetchFailureIsNone | src/hooks/legiscan_hook.py:139-145 | A failed request, or an answer whose status is not OK, gives None and writes nothing. |
| LegiScanHook.TextsLines | src/hooks/legiscan_hook.py:177-184 | Absent or empty `texts` add no lines. |
| LegiScanHook.TextsLinesLastOnly | src/hooks/legiscan_hook.py:181 | Only the latest text version matters. |
| LegiScanHook.StrItems | src/hooks/legiscan_hook.py:191-198 | `', '.join` succeeds exactly on a list of strings, joining those strings. |
| LegiScanHook.StrItemsFrom | src/hooks/legiscan_hook.py:191-198 | The same, for the suffix from position `i`. |
| LegiScanHook.SponsorsFirstThree | src/hooks/legiscan_hook.py:190 | Sponsors after the third are ignored. |
| LegiScanHook.ExtractText | src/hooks/legiscan_hook.py:147-200 | The text starts with `Bill Number: …` when the number is truthy. A non-dict bill raises. |
| LegiScanHook.Render | src/hooks/legiscan_hook.py:157-200 | The lines are joined by newlines, with the number line first when there is one. |
| LegiScanHook.ExtractEmpty | src/hooks/legiscan_hook.py:147-200 | A bill dict none of whose values is truthy renders as the empty string. |
| LegiScanHook.ProcessSkips | src/hooks/legiscan_hook.py:54-62 | Without an API key or a truthy `item_id`, the data is returned unchanged and nothing is fetched. |
| LegiScanHook.ProcessDict | src/hooks/legiscan_hook.py:64-86 | For dict data, `legiscan_raw` holds the fetched bill, `legiscan_full_text` holds its text, and every other key is kept. |
| LegiScanHook.FetchBill | src/hooks/legiscan_hook.py:88-145 | The fetch computes `Fetch`, both the bill and the cache files. |
| LegiScanHook.ProcessData | src/hooks/legiscan_hook.py:43-86 | `process` computes `Process`. |
| LegiScanHook.Fetch | src/hooks/legiscan_hook.py:88-145 | The bill fetch. A readable cached bill is returned without calling the service (`FetchCacheHit`), and an unreadable cache file counts as absent (`FetchUnreadableFallsBack`). A successful answer returns its `bill` and caches it (`FetchCachesBill`). A failed request or a status other than OK gives None and writes nothing (`FetchFailureIsNone`). `LegiScanHook.FetchBill` computes it. |
| LegiScanHook.Process | src/hooks/legiscan_hook.py:43-86 | The hook's `process`. Without an API key or a truthy `item_id` the data comes back unchanged and nothing is fetched (`ProcessSkips`). Dict data gains `legiscan_raw` and `legiscan_full_text` and keeps every other key (`ProcessDict`). `LegiScanHook.ProcessData` computes it. |
| AiFilterPass.ReplyContent | src/ai_filter_pass.py:133-134 | Getting the reply content needs a dict with `choices`. Each missing step raises. |
| AiFilterPass.StripFences | src/ai_filter_pass.py:136-144 | The cleaned reply has no surrounding whitespace. |
| AiFilterPass.StripNoSpaceEnds | src/ai_filter_pass.py:137 | A text that neither starts nor ends with whitespace strips to itself. |
| AiFilterPass.StripIdempotent | src/ai_filter_pass.py:137-144 | Stripping twice is stripping once. |
| AiFilterPass.TaggedFenceIsFence | src/ai_filter_pass.py:138-141 | A `json`-tagged fence is also a plain fence. |
| AiFilterPass.UnfencedReply | src/ai_filter_pass.py:136-144 | A reply without fences is only stripped. |
| AiFilterPass.LeadingFenceRemoved | src/ai_filter_pass.py:138-141 | The leading fence of a fenced reply, tagged `json` or not, comes off whole and leaves the body and the closing fence. |
| AiFilterPass.FencedReply | src/ai_filter_pass.py:136-144 | A reply fenced with three backticks, with or without the `json` tag, gives back its stripped body. |
| AiFilterPass.NotJsonTagged | src/ai_filter_pass.py:138 | A fenced body that does not start with `json` is not mistaken for a tagged fence. |
| AiFilterPass.CallAi | src/ai_filter_pass.py:95-146 | A failed request raises its own error. Otherwise the content is unfenced and parsed, and non-str content raises AttributeError. |
| AiFilterPass.FilterOutcome | src/ai_filter_pass.py:163-171 | `filter_data` never raises. Any error gives `(False, "Error: …")`. A dict reply gives its `relevant` (default False) and `reason` (default `No reason provided`). |
| AiFilterPass.ValidateBatch | src/ai_filter_pass.py:203-212 | The reply is returned exactly when it is a dict with a `results` list. A missing `results` or a non-list raises its own ValueError. |
| AiFilterPass.AIFilterPass.constructor | src/ai_filter_pass.py:27-78 | A non-empty prompt argument wins over the prompt file's text, which wins over the built-in prompt. The other settings are stored as given. |
| AiFilterPass.AIFilterPass.Request | src/ai_filter_pass.py:110-130 | The request goes to `{base_url}/chat/completions` with the current `max_tokens` and the two prompts. |
| AiFilterPass.AIFilterPass.FilterData | src/ai_filter_pass.py:148-171 | Sends the filter prompt with the item (JSON for a dict, `str` otherwise) and returns `FilterOutcome` of the reply. |
| AiFilterPass.AIFilterPass.FilterBatch | src/ai_filter_pass.py:173-216 | The call is made with `max_tokens` 8000 and the validated reply is returned. The old limit is restored only when the call returns; when it raises, the limit stays at 8000. |
| AiAnalysisPass.FetchFromLegiScan | src/ai_analysis_pass.py:208-269 | Without a LegiScan key nothing is fetched. With one, the fetch is the LegiScan hook's cache-then-service fetch in `data/cache/legiscan_cache`. |
| AiAnalysisPass.NoEnrichment | src/ai_analysis_pass.py:341-365 | Without a bill id or a LegiScan key the prompt data is just the item's text, and no file is touched. |
| AiAnalysisPass.EnrichmentAppends | src/ai_analysis_pass.py:347-356 | When a bill is fetched, the prompt data is the item's text, the `Full Bill Details` separator, and exactly the bill's extracted text. |
| AiAnalysisPass.PromptData | src/ai_analysis_pass.py:341-365 | The prompt's data part. Without a bill id or a LegiScan key it is the item's text and no file is touched (`NoEnrichment`). With a fetched bill it is the item's text, the separator and the bill's extracted text (`EnrichmentAppends`). `AiAnalysisPass.AIAnalysisPass.GatherData` computes it. |
| AiAnalysisPass.ErrorResult | src/ai_analysis_pass.py:373-383 | A failed call gives a dict with `error` and no `is_relevant`. The message is `JSON parsing failed: …` for a parse error, and otherwise the error's text. |
| AiAnalysisPass.BindKeywords | src/ai_analysis_pass.py:32-42 | Binding keyword arguments succeeds exactly when every keyword is a constructor parameter. Otherwise the first keyword that is not raises TypeError naming it. |
| AiAnalysisPass.AIAnalysisPass.constructor | src/ai_analysis_pass.py:32-73 | A falsy LegiScan key falls back to `LEGISCAN_API_KEY`. Each prompt argument, when non-empty, beats its prompt file, which beats the built-in prompt. |
| AiAnalysisPass.AIAnalysisPass.Request | src/ai_analysis_pass.py:163-183 | The request carries the system prompt, the filled user prompt, the stored `max_tokens` and a 90-second timeout. |
| AiAnalysisPass.AIAnalysisPass.CallFailureIsErrorResult | src/ai_analysis_pass.py:370-383 | When the model call fails, `analyze_data` returns an error dict rather than raising, and the dict never claims relevance. |
| AiAnalysisPass.AIAnalysisPass.ExtractBillText | src/ai_analysis_pass.py:271-327 | The analysis pass renders a bill exactly as the LegiScan hook does. |
| AiAnalysisPass.AIAnalysisPass.MetadataText | src/ai_analysis_pass.py:287-298 | The title, description, status and status-date lines, each present when truthy. |
| AiAnalysisPass.AIAnalysisPass.GatherData | src/ai_analysis_pass.py:341-365 | Builds the prompt data as `PromptData` specifies, including the cache files written. |
| AiAnalysisPass.AIAnalysisPass.AnalyzeData | src/ai_analysis_pass.py:329-383 | `analyze_data` computes `Analyze`: the parsed reply, or an error dict. A failing prompt template raises. |
| AiAnalysisPass.AIAnalysisPass.Analyze | src/ai_analysis_pass.py:329-383 | `analyze_data`'s specification. A failed model call gives an error dict that never claims relevance, rather than raising (`CallFailureIsErrorResult`). `AiAnalysisPass.AIAnalysisPass.AnalyzeData` computes it. |
| LlmProvider.ArgOrEnv | src/llm_provider.py:83 | A constructor argument that is set wins; an empty or missing one falls back to the environment variable. |
| LlmProvider.StripSlashes | src/llm_provider.py:88 | Stripping a URL leaves a prefix of it that does not end in `/`, and only slashes are dropped. A URL that is not a string raises AttributeError. |
| LlmProvider.NewPortkey | src/llm_provider.py:67-91 | The Portkey provider is built exactly when there is an API key (argument or PORTKEY_API_KEY) and the base URL is a string. A missing key raises the ValueError. The stored URL has its trailing slashes stripped. |
| LlmProvider.NewAzure | src/llm_provider.py:151-182 | The key, the endpoint and the deployment are each checked in that order, and the first one missing raises its own ValueError. With all three the provider keeps them, with the endpoint's trailing slashes stripped. |
| LlmProvider.NewOllama | src/llm_provider.py:247-273 | The Ollama provider is built for any string base URL, with trailing slashes stripped. |
| LlmProvider.ProviderName | src/llm_provider.py:135-136 | Each provider's name is its kind, a slash, and its model or deployment. |
| LlmProvider.PayloadPrecedence | src/llm_provider.py:107-114 | In the Portkey and Azure payloads a per-call keyword beats a constructor keyword, which beats the standard field. |
| LlmProvider.AzurePayloadHasNoModel | src/llm_provider.py:200-209 | The Azure payload carries no `model` unless a keyword supplies one; the deployment goes in the URL. |
| LlmProvider.OllamaOptions | src/llm_provider.py:286-298 | The Ollama payload's `options` is `num_predict` set to max_tokens, overridden by the constructor's own options. |
| LlmProvider.ChatCompletion | src/llm_provider.py:93-133 | A timeout and a failed request become their own error messages. A reply's content is returned, and a reply without `choices[0].message.content` becomes the "Unexpected … response format" error. |
| LlmProvider.Payload | src/llm_provider.py:93-298 | The body `chat_completion` posts. In the Portkey and Azure payloads a per-call keyword beats a constructor keyword, which beats the standard field (`PayloadPrecedence`). Azure names no model unless a keyword does (`AzurePayloadHasNoModel`). Ollama's `options` holds `num_predict`, overridden by the constructor's options (`OllamaOptions`). `LlmProvider.ChatCompletion` posts it. |
| LlmProvider.MissingChoicesIsFormatError | src/llm_provider.py:127-133 | A reply without `choices` is reported as an unexpected response format naming that key. |
| LlmProvider.FromSection | src/llm_provider.py:349-384 | A provider is only built when the section's `provider` is a string. |
| LlmProvider.CreateFromConfig | src/llm_provider.py:327-384 | The factory succeeds only on a dict whose `llm` entry, default `{}`, is a dict, and then builds from that section. |
| LlmProvider.ProviderByType | src/llm_provider.py:349-384 | The lower-cased provider type decides the kind: portkey, azure and ollama each give that provider. Any other type raises "Unknown LLM provider type". |
| LlmProvider.ModelFallback | src/llm_provider.py:352 | Portkey and Ollama take the section's model if it is set, else the root `model`, else gpt-4o-mini. The provider name follows that model. |
| LlmProvider.AzureIgnoresModel | src/llm_provider.py:364-370 | An Azure provider does not depend on the root config and is built from the section's key, endpoint, deployment and API version. |
| LlmProvider.SectionConstructor | src/llm_provider.py:355-378 | Portkey and Ollama are built with the section's base URL or their own default. |
| LlmProvider.EmptyConfigIsDefaultPortkey | src/llm_provider.py:327-360 | An empty config with PORTKEY_API_KEY set gives Portkey with gpt-4o-mini at the default URL. |
| LlmProvider.ConfigOrEmpty | src/llm_provider.py:403 | A falsy config is replaced by `{}`, and a truthy one is kept. |
| LlmProvider.EnvFrontAsWritten | src/llm_provider.py:414-417 | The section built from the environment starts with provider, model and base_url. A set variable gives its own value. An unset base URL takes the config section's value or null. |
| LlmProvider.EnvSectionAsWritten | src/llm_provider.py:410-420 | As written, that section is the three entries with the config's `llm` keys spread over them. |
| LlmProvider.AsWrittenConfigKeyWins | src/llm_provider.py:418 | As written, a key present in the config section keeps the config's value over the environment's. |
| LlmProvider.AsWrittenFrontKept | src/llm_provider.py:414-418 | As written, an entry the config section lacks keeps the environment-derived value. |
| LlmProvider.AsWrittenNullBaseUrl | src/llm_provider.py:417 | As written, LLM_PROVIDER=ollama with no config fails: base_url is null and stripping it raises AttributeError. |
| LlmProvider.AsWrittenConfigBeatsEnv | src/llm_provider.py:418 | As written, LLM_PROVIDER=portkey is ignored when the config section says ollama. |
| LlmProvider.CreateFromEnvAsWritten | src/llm_provider.py:387-426 | `create_from_env` as written. LLM_PROVIDER=ollama with no config fails on a null base URL (`AsWrittenNullBaseUrl`). The config's provider beats LLM_PROVIDER (`AsWrittenConfigBeatsEnv`). With no variable set, the config goes to the factory unchanged (`NoEnvUsesConfig`). |
| LlmProvider.EnvEntriesLookup | src/llm_provider.py:406-408 | The environment entries are exactly the set LLM_PROVIDER, LLM_MODEL and LLM_BASE_URL values, under provider, model and base_url. |
| LlmProvider.EnvEntry | src/llm_provider.py:406-417 | One entry holds the variable's value under its key when set, and nothing otherwise. |
| LlmProvider.EnvSection | src/llm_provider.py:411-419 | In the corrected section every set variable's entry wins, and every other key is the config section's. |
| LlmProvider.NoEnvUsesConfig | src/llm_provider.py:403-426 | With none of the three variables set, both readings hand the config, or `{}`, to the factory unchanged. |
| LlmProvider.EnvSectionUsed | src/llm_provider.py:411-426 | With a variable set, the corrected factory builds from the merged section and keeps the rest of the config. |
| LlmProvider.EnvProviderWins | src/llm_provider.py:403-426 | With LLM_PROVIDER set, its lower-cased value decides the provider kind, or raises the unknown-type error, whatever the config says. |
| LlmProvider.CreateFromEnv | src/llm_provider.py:387-426 | `create_from_env` as intended. LLM_PROVIDER decides the provider kind (`EnvProviderWins`) and LLM_MODEL the model (`EnvModelWins`). A missing base URL keeps the provider's default (`DefaultBaseUrlKept`). With a variable set, the config with its `llm` section replaced by the environment's section goes to the factory (`EnvSectionUsed`). With no variable set, the config goes to the factory unchanged (`NoEnvUsesConfig`). |
| LlmProvider.EnvModelWins | src/llm_provider.py:403-426 | With LLM_MODEL set, a Portkey or Ollama provider uses that model. |
| LlmProvider.DefaultBaseUrlKept | src/llm_provider.py:355-360 | LLM_PROVIDER=portkey, with no base URL in the environment or the config, gives the default Portkey URL. |
| LlmProvider.PortkeyDefaultUrl | src/llm_provider.py:67-88 | Portkey built with its default URL keeps that URL. |
| LlmProvider.PortkeySectionWithoutUrl | src/llm_provider.py:414-417 | The corrected section has the environment's provider and no base_url entry, so the constructor's default applies. |
| LlmProvider.CreateLlmProvider | src/llm_provider.py:430-460 | A config with an `llm` key goes to the factory. Otherwise Portkey is built from the arguments. |
| DataSourcePlugins.ValidateFiles | src/data_source_plugins.py:78-83 | A files plugin config is accepted exactly when it has a `patterns` list. A missing key and a non-list each raise their own ValueError. |
| DataSourcePlugins.ValidateDatabase | src/data_source_plugins.py:168-179 | A database config is accepted exactly when it has `db_type` and `query`, the lower-cased type is postgresql, mysql or sqlite, and a non-sqlite type also has `connection`. Each failure raises its own message, in the source's order. |
| DataSourcePlugins.ValidateApi | src/data_source_plugins.py:305-307 | An API config is accepted exactly when it has a `url`. |
| DataSourcePlugins.ComponentLength | src/data_source_plugins.py:109 | The first component runs up to the first `/`, or to the end of a path with no `/`. |
| DataSourcePlugins.Components | src/data_source_plugins.py:109 | The components `Path` keeps are never empty, never `.` and hold no `/`. |
| DataSourcePlugins.Root | src/data_source_plugins.py:109 | The POSIX anchor is empty, `/` or `//`, and it is empty exactly when the path does not start with `/`. |
| DataSourcePlugins.PathStr | src/data_source_plugins.py:109 | `str(Path(p))` is never empty: a path with nothing left becomes `.`. |
| DataSourcePlugins.ComponentsAfterSlash | src/data_source_plugins.py:109 | A slash in front of a path adds no component. |
| DataSourcePlugins.ComponentLengthBefore | src/data_source_plugins.py:109 | The first component of `c/rest` is `c` when `c` holds no `/`. |
| DataSourcePlugins.ComponentsCons | src/data_source_plugins.py:109 | A kept component followed by `/` is the first component. |
| DataSourcePlugins.ComponentsAfterDot | src/data_source_plugins.py:109 | A leading `./` adds no component. |
| DataSourcePlugins.ComponentsSingle | src/data_source_plugins.py:109 | A single kept component is its own only component. |
| DataSourcePlugins.ComponentsOfJoin | src/data_source_plugins.py:109 | Joining kept components with `/` and splitting again gives them back. |
| DataSourcePlugins.JoinStart | src/data_source_plugins.py:109 | Joined kept components are empty exactly when there are none, and otherwise do not start with `/`. |
| DataSourcePlugins.RootBefore | src/data_source_plugins.py:109 | An anchor in front of a path that does not start with `/` is read back as that anchor. |
| DataSourcePlugins.ComponentsAfterTwoSlashes | src/data_source_plugins.py:109 | Two slashes in front of a path add no component. |
| DataSourcePlugins.ComponentsAfterRoot | src/data_source_plugins.py:109 | An anchor adds no component. |
| DataSourcePlugins.PathStrKeeps | src/data_source_plugins.py:109 | Normalising keeps the path's anchor and its kept components. |
| DataSourcePlugins.PathStrIdempotent | src/data_source_plugins.py:109 | Normalising a normalised path changes nothing. |
| DataSourcePlugins.PathStrDropsDot | src/data_source_plugins.py:109 | A leading `./` in front of a relative path is dropped. |
| DataSourcePlugins.PathStrCollapsesSlash | src/data_source_plugins.py:109 | A doubled slash after a component collapses to one. |
| DataSourcePlugins.BaseName | src/data_source_plugins.py:109 | A path's final component is a suffix of the path with no `/` in it. |
| DataSourcePlugins.LastDot | src/data_source_plugins.py:114 | This finds the last dot of a name, or reports that there is none. |
| DataSourcePlugins.Suffix | src/data_source_plugins.py:114 | A file's suffix is empty, or it is a dot and at least one more character ending the name, with no further dot, and shorter than the name. |
| DataSourcePlugins.FileType | src/data_source_plugins.py:139 | The file type is never empty and holds no dot; a file without a suffix is `txt`. |
| DataSourcePlugins.JsonArrayItems | src/data_source_plugins.py:120-127 | A JSON array file gives one item per element, tagged with the file, `json` and the element's index. |
| DataSourcePlugins.FileItems | src/data_source_plugins.py:107-145 | A path that is not a file gives nothing. An unreadable file is an error, which the caller logs and skips. A `.json` file (any case) gives its array elements or its one value, and a parse failure is an error. Any other file gives one item holding its text and type. Every item names its file by the normalised path `str(Path(path))`, and the suffix is read from it. |
| DataSourcePlugins.PatternsItemsStops | src/data_source_plugins.py:98-149 | Once a pattern raises, the later patterns change nothing: the error is the result. |
| DataSourcePlugins.PathsItemsAppend | src/data_source_plugins.py:107-145 | The items of two runs of paths are the items of each, in order. |
| DataSourcePlugins.FetchPaths | src/data_source_plugins.py:107-145 | The loop over matched files collects the items the specification gives for those paths. |
| DataSourcePlugins.FetchFiles | src/data_source_plugins.py:85-149 | The files plugin's fetch returns the items of every pattern's matches, in order. |
| DataSourcePlugins.JsonPath | src/data_source_plugins.py:355-375 | Walking a dotted path fails only with the "Cannot traverse path" ValueError. |
| DataSourcePlugins.JsonPathAppend | src/data_source_plugins.py:368-373 | Walking two runs of parts is walking the first, then the second from where it ended. |
| DataSourcePlugins.MissingKeyThenFails | src/data_source_plugins.py:370-373 | A missing key gives null, and a further part after it cannot be traversed. |
| DataSourcePlugins.WalkJsonPath | src/data_source_plugins.py:355-375 | The loop over the path's parts computes the specified extraction. |
| DataSourcePlugins.AsItems | src/data_source_plugins.py:344-349 | A list reply is returned as it is, and any other reply becomes a one-item list. |
| DataSourcePlugins.ApiData | src/data_source_plugins.py:309-353 | A successful API fetch always returns a list. |
| DataSourcePlugins.UnsupportedMethod | src/data_source_plugins.py:322-335 | A method other than GET or POST, after upper-casing, raises "Unsupported HTTP method". |
| DataSourcePlugins.FetchApi | src/data_source_plugins.py:309-353 | The API plugin's fetch computes the specified result. |
| DataSourcePlugins.DatabaseData | src/data_source_plugins.py:181-230 | A database fetch succeeds only for a dict config. |
| DataSourcePlugins.SqliteNeedsPath | src/data_source_plugins.py:207-211 | Without a database path in `connection` or at the top level, sqlite raises its ValueError. |
| DataSourcePlugins.FetchPluginData | src/data_source_plugins.py:181-199 | A plugin's fetch dispatches on its kind to the specified result. |
| DataSourcePlugins.FetchData | src/data_source_plugins.py:85-353 | A plugin's `fetch_data`, dispatched on its kind to the files, database or API fetch. An API fetch that succeeds returns a list (`ApiData`), and a database fetch succeeds only for a dict config (`DatabaseData`). `DataSourcePlugins.FetchPluginData` computes it. |
| DataSourcePlugins.Contribution | src/data_source_plugins.py:431-436 | A failing plugin contributes nothing, and a successful one contributes its items. |
| DataSourcePlugins.AllDataAppend | src/data_source_plugins.py:422-439 | The data of two runs of plugins is the data of each, in order. |
| DataSourcePlugins.AllData | src/data_source_plugins.py:422-439 | `fetch_all_data`'s specification. The data of two runs of plugins is each run's data, in order (`AllDataAppend`). A plugin whose fetch raises adds nothing, and the others' data is kept (`FailingPluginAddsNothing`). `DataSourcePlugins.PluginManager.FetchAllData` computes it. |
| DataSourcePlugins.FailingPluginAddsNothing | src/data_source_plugins.py:431-436 | A plugin whose fetch raises is skipped, and the others' data is kept in order. |
| DataSourcePlugins.InitStep | src/data_source_plugins.py:402-420 | One config adds at most one plugin at the end and keeps the plugins already there. |
| DataSourcePlugins.InitPluginsStops | src/data_source_plugins.py:400-420 | An error that escapes one config (a non-string type) ends initialisation, and later configs change nothing. |
| DataSourcePlugins.InitPlugins | src/data_source_plugins.py:400-420 | `_initialize_plugins`'s specification. An error that escapes one config ends it (`InitPluginsStops`). Every plugin kept passed its kind's validation, in config order, at most one per config (`InitPluginsValid`). Configs without a `type` are skipped (`UntypedConfigsSkipped`). `DataSourcePlugins.PluginManager.InitializePlugins` computes it. |
| DataSourcePlugins.InitPluginsValid | src/data_source_plugins.py:400-420 | Every plugin initialisation keeps passed its kind's validation, the earlier plugins stay first, and there is at most one plugin per config. |
| DataSourcePlugins.UntypedConfigsSkipped | src/data_source_plugins.py:403-407 | Configs without a `type` are all skipped. |
| DataSourcePlugins.PluginRegistry.constructor | src/data_source_plugins.py:384-387 | The registry starts with files, database and api. |
| DataSourcePlugins.PluginRegistry.RegisterPlugin | src/data_source_plugins.py:441-452 | A class that is not a plugin raises and leaves the registry as it was. Otherwise the class is registered under the lower-cased name, and nothing else changes. |
| DataSourcePlugins.PluginManager.constructor | src/data_source_plugins.py:389-398 | A new manager keeps the configs and has no plugins yet. |
| DataSourcePlugins.PluginManager.InitializePlugins | src/data_source_plugins.py:400-420 | The plugins become the specified initialisation of the configs, or the escaping error is returned. |
| DataSourcePlugins.PluginManager.FetchAllData | src/data_source_plugins.py:422-439 | The combined data is every plugin's contribution, in plugin order. |
| RunFilterPass.SearchBillFields | scripts/run_filter_pass.py:67-74 | A bill kept from a search result has the entry's number. Its description falls back to the title, and then to empty. |
| RunFilterPass.DescriptionThird | scripts/run_filter_pass.py:71-73 | In the kept record, the description is read from its own slot. |
| RunFilterPass.SearchBillsExactly | scripts/run_filter_pass.py:63-75 | The bills parsed from a `searchresult` are exactly the records of its non-summary dict entries that have a `bill_number`, and there are no more bills than entries. |
| RunFilterPass.ParseBills | scripts/run_filter_pass.py:42-77 | A list is taken as the bills themselves. Anything that is neither a list nor a dict with status OK gives no bills. |
| RunFilterPass.ParseBillsData | scripts/run_filter_pass.py:42-77 | The parsing loop computes the specified bills. |
| RunFilterPass.AllDisplayableEach | scripts/run_filter_pass.py:180-190 | The display loop gets through a batch exactly when it gets through every result. |
| RunFilterPass.BatchResultsDisplayable | scripts/run_filter_pass.py:168-197 | Every result a successful batch adds has passed the display loop. |
| RunFilterPass.PauseAfterAt | scripts/run_filter_pass.py:199-201 | Each pause follows a batch that succeeded and is not the last, in increasing order. |
| RunFilterPass.PauseAt | scripts/run_filter_pass.py:199-206 | Pause `i` comes after a successful batch that is not the last, and after pause `i - 1`. |
| RunFilterPass.PausesBetweenBatches | scripts/run_filter_pass.py:199-206 | Pauses come only between batches, after ones that succeeded, in order. |
| RunFilterPass.NoPauseAfterLastBatch | scripts/run_filter_pass.py:200 | The last batch is never followed by a pause. |
| RunFilterPass.AllResultsDisplayable | scripts/run_filter_pass.py:156-206 | Every gathered result got through its batch's display loop. |
| RunFilterPass.RunBatches | scripts/run_filter_pass.py:156-206 | The batch loop runs over `ceil(n / size)` slices. A batch that raises adds nothing. The gathered results and the pauses are those of the specification. |
| RunFilterPass.NextBatch | scripts/run_filter_pass.py:161-206 | One turn of the loop extends the results and the pauses from `k` batches to `k + 1`. |
| RunFilterPass.BatchStep | scripts/run_filter_pass.py:161-206 | One more batch appends its results, or nothing if it raised. A pause is added only after a successful batch that is not the last. |
| RunFilterPass.ProcessBatch | scripts/run_filter_pass.py:162-197 | One batch is the slice `[i*size, min(i*size + size, n))` sent to the filter. |
| RunFilterPass.ChunkIsSlice | scripts/run_filter_pass.py:162-164 | Batch `i` is exactly the slice between its start and end indices. |
| RunFilterPass.ResultItem | scripts/run_filter_pass.py:217-231 | Each organised result becomes a dict item. |
| RunFilterPass.PartitionCounts | scripts/run_filter_pass.py:213-236 | Every result lands in exactly one list, and the relevant list has one item per relevant result. |
| RunFilterPass.PartitionSucceeds | scripts/run_filter_pass.py:216-226 | The organising loop gets through any list of dict results with hashable identifiers. |
| RunFilterPass.OrganizeResults | scripts/run_filter_pass.py:213-236 | The organising loop computes the specified partition. |
| RunFilterPass.Partition | scripts/run_filter_pass.py:213-236 | The organising loop's specification. Every result lands in exactly one list (`PartitionCounts`). Dict results with hashable identifiers always get through (`PartitionSucceeds`), and the first result that raises ends it (`PartitionStops`). Results that got through the display loop get through it too, unless one that is not relevant has an unhashable identifier (`GatheredResultsOrganized`). The summary counts saved from its lists add up (`SummaryAddsUp`). `RunFilterPass.OrganizeResults` computes it. |
| RunFilterPass.PartitionStops | scripts/run_filter_pass.py:216-236 | The first result that raises ends the organising loop. |
| RunFilterPass.SummaryCounts | scripts/run_filter_pass.py:258-264 | The saved summary records the total, the relevant count and the not-relevant count. |
| RunFilterPass.SummaryAddsUp | scripts/run_filter_pass.py:242-264 | The saved counts add up: relevant plus not relevant is the total analysed, and the relevant count is the number of relevant results. |
| RunFilterPass.InputName | scripts/run_filter_pass.py:101-104 | The input name defaults to ct_bills_2025, and one trailing `.json` is removed. |
| RunFilterPass.GatheredResultsOrganized | scripts/run_filter_pass.py:180-236 | Results that got through the display loop always get through the organising loop, unless one that is not relevant has an unhashable identifier. |
| RunFilterPass.Run | scripts/run_filter_pass.py:100-289 | `main` from the input name on computes the specified outcome: stop without an API key, stop on a missing or empty file, else batch, organise and save. |
| RunFilterPass.FilterPass | scripts/run_filter_pass.py:100-289 | `main`'s outcome. It stops without an API key or with a missing or empty bills file. Otherwise it batches, organises and saves, and an exception the script does not catch ends it. `RunFilterPass.Run` computes it. |
| RunAnalysisPass.FormatBill | scripts/run_analysis_pass.py:68-86 | Formatting needs `bill_number`, `title` and `url`; a missing one is a KeyError. The text starts with the three lines. It ends with the filter reason line exactly when the bill has a `reason` key. |
| RunAnalysisPass.Tiers | scripts/run_analysis_pass.py:107-149 | There are six passes of the selection, and only the first omits the `not in selected` check. |
| RunAnalysisPass.TiersAnswer | scripts/run_analysis_pass.py:109-149 | On a bill with a string title and reason every pass answers, and the last pass accepts any bill. |
| RunAnalysisPass.SelectTestBills | scripts/run_analysis_pass.py:89-151 | The selection has at most `count` bills, none below zero, all taken from the input. |
| RunAnalysisPass.SelectionByPriority | scripts/run_analysis_pass.py:89-151 | On distinct testable bills the selection groups the bills by the first pass that takes them, in input order within each group, and cuts the result to `count`. It has `min(count, len(bills))` bills and no duplicates. |
| RunAnalysisPass.PediatricHospiceFirst | scripts/run_analysis_pass.py:109-112 | A bill whose title or reason mentions pediatric hospice is in the first group. |
| RunAnalysisPass.MissingReasonRaises | scripts/run_analysis_pass.py:110-112 | A first bill whose title does not mention pediatric hospice and that has no `reason` makes the selection raise KeyError, whatever the count. |
| RunAnalysisPass.RelevantBills | scripts/run_analysis_pass.py:178 | The filter results' `relevant_bills` list is used, or no bills when the key is missing. Filter results that are not a dict raise. |
| RunAnalysisPass.NoApiKeyReturns | scripts/run_analysis_pass.py:169-173 | Without PORTKEY_API_KEY the script returns before reading any file. |
| RunAnalysisPass.ProductionProcessesAll | scripts/run_analysis_pass.py:192-195 | Outside test mode every relevant bill from the filter results is processed. |
| RunAnalysisPass.Main | scripts/run_analysis_pass.py:154-366 | `main` in full: the result files written are exactly the lists of `Run`, an exception from `Run` is raised, a run that returns early ends normally, and after the files are written the summary may still raise. |
| RunAnalysisPass.EmptyRelevantFailsAfterWrite | scripts/run_analysis_pass.py:330-337 | Outside test mode, a filter file with an empty `relevant_bills` writes two empty result files and then raises ZeroDivisionError. |
| RunAnalysisPass.ZeroTestCountFailsAfterWrite | scripts/run_analysis_pass.py:330-337 | In test mode with a count of zero or less, the run writes two empty result files and then raises ZeroDivisionError. |
| RunAnalysisPass.NullCategoriesFailsAfterWrite | scripts/run_analysis_pass.py:349-353 | One relevant bill whose analysis has null categories writes its result files and then raises TypeError. |
| RunAnalysisPass.RunRoutes | scripts/run_analysis_pass.py:226-307 | When the run finishes, the relevant list holds only results flagged relevant and the other list only the rest. Its errors can be counted. |
| RunAnalysisPass.RunIsAnalysis | scripts/run_analysis_pass.py:155-323 | A finished run of the corrected script is the analysis loop over the bills chosen by the settings read from the environment. |
| RunAnalysisPass.Setup | scripts/run_analysis_pass.py:175-198 | Steps 2 to 4 and the preview. A missing file, a failing lookup or a failing preview stops it. Outside test mode it processes every relevant bill (`ProductionProcessesAll`). A None first title (`NullTitleStopsSetup`) or a dict under `relevant_bills` (`DictRelevantStopsSetup`) makes it fail. |
| RunAnalysisPass.RunAsWritten | scripts/run_analysis_pass.py:155-225 | The script as written. It never returns result lists, and once the set-up succeeds with a key it raises TypeError for `timeout` (`AsWrittenNeverAnalyzes`, `TimeoutRejected`). |
| RunAnalysisPass.Run | scripts/run_analysis_pass.py:155-323 | The corrected script. Without PORTKEY_API_KEY it returns before reading any file (`NoApiKeyReturns`). A finished run is the analysis loop over the chosen bills (`RunIsAnalysis`), and its lists are split by relevance (`RunRoutes`). |
| RunAnalysisPass.NullTitleStopsSetup | scripts/run_analysis_pass.py:197-198 | Outside test mode, a first relevant bill whose title is None makes the preview raise, so the set-up fails. |
| RunAnalysisPass.DictRelevantStopsSetup | scripts/run_analysis_pass.py:178-198 | Outside test mode, a dict under `relevant_bills`, even an empty one, makes the preview's slice raise. |
| RunAnalysisPass.TimeoutRejected | scripts/run_analysis_pass.py:213-220 | The script's constructor call raises TypeError for its `timeout` keyword. |
| RunAnalysisPass.AsWrittenNeverAnalyzes | scripts/run_analysis_pass.py:155-220 | As written, no run returns result lists. A run whose set-up succeeds with a key raises TypeError for `timeout`, and so does every run the corrected script finishes. |
| RunAnalysisPass.AnalysisRoutes | scripts/run_analysis_pass.py:226-307 | Each analysed bill is filed under relevant exactly when its analysis says so, and error entries go to the other list. |
| RunAnalysisPass.ResultKeepsBill | scripts/run_analysis_pass.py:256-259 | A filed result carries the bill as the filter pass wrote it. |
| AnalysisLoop.BillIdOf | scripts/run_analysis_pass.py:239-241 | The id lookup raises exactly when the number is unhashable, or when it finds a truthy entry that is not a dict. A missing number gives None, and a dict entry gives its `bill_id`. |
| AnalysisLoop.FirstNonStr | scripts/run_analysis_pass.py:277 | This finds the first item from `k` on that is not a string, or reports that all of them are strings. |
| AnalysisLoop.JoinError | scripts/run_analysis_pass.py:277-278 | `', '.join(v)` succeeds exactly on a string, a dict, or a list of strings. |
| AnalysisLoop.Heading | scripts/run_analysis_pass.py:232-235 | The log lines before the `try` succeed exactly on a dict with a number, a title and a url. |
| AnalysisLoop.PreviewLine | scripts/run_analysis_pass.py:198 | A preview line succeeds exactly on a dict with a number and a str or list title. A title of None raises TypeError. |
| AnalysisLoop.PreviewLines | scripts/run_analysis_pass.py:197-198 | The preview succeeds exactly when every line does. Otherwise it fails as the first failing line does, after lines that all succeed. |
| AnalysisLoop.Preview | scripts/run_analysis_pass.py:197-198 | On a list, the preview succeeds exactly when each of the first ten bills previews. A str previews only when empty. Anything else raises at the slice. |
| AnalysisLoop.NullTitleStopsPreview | scripts/run_analysis_pass.py:197-198 | A first bill whose title is None makes the preview raise TypeError. |
| AnalysisLoop.LoopAppend | scripts/run_analysis_pass.py:230-307 | One more bill either leaves an earlier failure as it is or takes one more step of the loop. |
| AnalysisLoop.AnalyzeOne | scripts/run_analysis_pass.py:237-307 | The `try` block for one bill computes the specified attempt: skipped, raised, or filed with its display outcome. |
| AnalysisLoop.AnalyzeBills | scripts/run_analysis_pass.py:226-307 | The analysis loop fills the two lists the specification gives. |
| AnalysisLoop.Loop | scripts/run_analysis_pass.py:226-307 | The loop's specification. The relevant list holds only relevant entries, and the other list none (`FiledByRelevance`). There is one entry per bill not skipped, plus one per display that raised (`LoopCounts`). Skipped bills add nothing (`SkippedAddsNothing`), and a heading that raises ends the loop (`LoopStops`). One more bill is one more step after the earlier bills (`LoopAppend`). `AnalysisLoop.AnalyzeBills` computes it. |
| AnalysisLoop.LoopNext | scripts/run_analysis_pass.py:230-307 | The loop over `i + 1` bills is one step after the loop over `i`. |
| AnalysisLoop.AnalyzeStep | scripts/run_analysis_pass.py:230-307 | One turn of the loop computes the specified step. |
| AnalysisLoop.FileAttempt | scripts/run_analysis_pass.py:261-307 | Filing appends to each list what the bill's attempt adds, and nothing else. |
| AnalysisLoop.LoopStops | scripts/run_analysis_pass.py:230-235 | A bill whose heading raises ends the loop, and later bills change nothing. |
| AnalysisLoop.ResultEntryAnalysis | scripts/run_analysis_pass.py:256-259 | A filed result carries the analysis unchanged. |
| AnalysisLoop.ErrorEntryAnalysis | scripts/run_analysis_pass.py:302-307 | An error entry is not relevant and carries an `error` key. |
| AnalysisLoop.FilingByRelevance | scripts/run_analysis_pass.py:261-307 | What one bill files goes to the relevant list only if its analysis is relevant. Nothing relevant goes to the other list. |
| AnalysisLoop.FiledRouting | scripts/run_analysis_pass.py:261-307 | A filed analysis and any error entry for its display are each routed by their own relevance. |
| AnalysisLoop.FiledByRelevance | scripts/run_analysis_pass.py:226-307 | After the loop, every entry of the relevant list is relevant and no entry of the other list is. |
| AnalysisLoop.SkippedAddsNothing | scripts/run_analysis_pass.py:243-247 | A bill without an id is skipped and adds to neither list. |
| AnalysisLoop.RaisedFilesError | scripts/run_analysis_pass.py:302-307 | A bill whose analysis raises adds exactly one error entry to the not-relevant list. |
| AnalysisLoop.LoopCounts | scripts/run_analysis_pass.py:226-307 | The two lists hold one entry per bill not skipped, plus one per display that raised after filing. |
| AnalysisLoop.StepCounts | scripts/run_analysis_pass.py:237-307 | One bill adds nothing if skipped and one entry otherwise, plus one more when its display raised. |
| AnalysisLoop.BothLists | scripts/run_analysis_pass.py:261-307 | A relevant bill whose display raises ends up in both lists: as a result and as an error entry. |
| AnalysisLoop.NullCategoriesFiledTwice | scripts/run_analysis_pass.py:262-277 | A relevant analysis with null `categories` is filed relevant, and its display's TypeError files it again as an error. |
| AnalysisLoop.TryFiles | scripts/run_analysis_pass.py:238-259 | A bill with an id, a prompt and an analysis is filed with that analysis and its display outcome. |
| AnalysisLoop.Try | scripts/run_analysis_pass.py:237-307 | The `try` block for one bill. A bill with an id, a prompt and an analysis is filed with its display outcome (`TryFiles`). A raising attempt files an error entry (`RaisedFilesError`). A relevant result whose display raises lands in both lists (`BothLists`). `AnalysisLoop.AnalyzeOne` computes it. |
| AnalysisLoop.SampleBillFields | scripts/run_analysis_pass.py:68-80 | The sample bill holds the given number, title and url. |
| AnalysisLoop.SampleBillHeading | scripts/run_analysis_pass.py:232-235 | The sample bill gets through the heading lines. |
| AnalysisLoop.SampleBillId | scripts/run_analysis_pass.py:239-241 | A lookup entry holding a `bill_id` gives that id. |
| AnalysisLoop.NullCategoriesDisplay | scripts/run_analysis_pass.py:277 | Displaying a relevant analysis with null `categories` raises TypeError. |
| AnalysisLoop.FiledOnce | scripts/run_analysis_pass.py:261-266 | With display errors only reported, every bill not skipped lands in exactly one list, by its relevance. |
| AnalysisLoop.FilingOnceShape | scripts/run_analysis_pass.py:261-266 | Filing one bill that way adds one entry, unless it is skipped, to the list its relevance names. |
| AnalysisLoop.Categories | scripts/run_analysis_pass.py:349-353 | Gathering categories succeeds only when every relevant entry is a dict with an `analysis` key. |
| AnalysisLoop.Tally | scripts/run_analysis_pass.py:355-358 | `Counter` succeeds exactly when every category is hashable, and otherwise raises TypeError naming an unhashable one. |
| AnalysisLoop.Summary | scripts/run_analysis_pass.py:330-360 | The summary after both files are written succeeds exactly when the error count can be taken, at least one bill was processed, the categories can be gathered and each is hashable. When the error count can be taken and no bill was processed, it raises ZeroDivisionError. |
| AnalysisLoop.NullCategoriesNotGathered | scripts/run_analysis_pass.py:349-353 | An error-free analysis whose `categories` is null raises `TypeError: 'NoneType' object is not iterable` at the `extend`. |
| AnalysisLoop.ErrorEntryCounted | scripts/run_analysis_pass.py:333 | An entry recording an error can always be counted. |
| AnalysisLoop.NullCategoriesStopSummary | scripts/run_analysis_pass.py:349-353 | A single relevant bill whose analysis has null categories completes the loop, and then the summary raises TypeError. |
| AnalysisLoop.ErrorCountAppend | scripts/run_analysis_pass.py:333 | The error count of two runs of entries is the sum of their counts. |
| AnalysisLoop.EntryShape | scripts/run_analysis_pass.py:302-307 | Every not-relevant entry one bill adds can be counted, and a raised attempt or a failed display adds at least one error. |
| AnalysisLoop.FiledEntryShape | scripts/run_analysis_pass.py:261-307 | A filed bill's not-relevant entries can be counted, and a failed display counts as an error. |
| AnalysisLoop.ErrorAppended | scripts/run_analysis_pass.py:333 | Appending an error entry raises the count by one. |
| AnalysisLoop.ErrorsCounted | scripts/run_analysis_pass.py:302-333 | The error count never fails, and it covers every exception the loop caught. |
| TestSelection.Settings | scripts/run_analysis_pass.py:164-166 | Test mode is on exactly when TEST_MODE, in any case, is `true`. A TEST_COUNT that is not an integer raises. |
| TestSelection.DefaultCount | scripts/run_analysis_pass.py:166 | Without TEST_COUNT the count is 5. |
| TestSelection.SliceTo | scripts/run_analysis_pass.py:114 | `xs[:n]` is a prefix of `xs` of length `min(n, len(xs))` for a count that is not negative. |
| TestSelection.VisitFits | scripts/run_analysis_pass.py:110-114 | Visiting one bill keeps the selection drawn from the input and within `count`. |
| TestSelection.PassFits | scripts/run_analysis_pass.py:117-121 | A whole pass keeps the selection drawn from the input and within `count`. |
| TestSelection.PassesFit | scripts/run_analysis_pass.py:107-151 | All the passes together keep the selection drawn from the input and within `count`. |
| TestSelection.SelectBounded | scripts/run_analysis_pass.py:89-151 | Whatever the passes, the selection has at most `count` bills, none below zero, all from the input. |
| TestSelection.Select | scripts/run_analysis_pass.py:89-151 | The selection over a list of passes. It has at most `count` bills, all from the input (`SelectBounded`). On distinct bills every test answers, it is the bills grouped by priority and cut to `count` (`SelectIsGrouping`). With a final pass that takes any bill it has `min(count, len(bills))` bills (`FullSelection`). `TestSelection.SelectTestBills` computes it. |
| TestSelection.PriorityFrom | scripts/run_analysis_pass.py:107-149 | A bill's priority from pass `t` on lies between `t` and the number of passes. |
| TestSelection.PriorityLeast | scripts/run_analysis_pass.py:107-149 | A bill's priority is the first pass whose test accepts it, and no earlier pass accepts it. |
| TestSelection.GroupMember | scripts/run_analysis_pass.py:107-149 | Group `t` holds exactly the input bills whose priority is `t`. |
| TestSelection.GroupedMember | scripts/run_analysis_pass.py:107-149 | The first `t` groups together hold exactly the bills with priority below `t`. |
| TestSelection.GroupGrows | scripts/run_analysis_pass.py:107-149 | The group of a prefix of the bills is a prefix of the whole group. |
| TestSelection.GroupedGrows | scripts/run_analysis_pass.py:107-149 | Fewer groups laid end to end form a prefix of more groups. |
| TestSelection.InPrefix | scripts/run_analysis_pass.py:107-149 | The selection part-way through pass `t` is a prefix of the whole grouping. |
| TestSelection.Take | scripts/run_analysis_pass.py:114 | The cut keeps `count` bills, or all of them, or none for a count below one. |
| TestSelection.VisitHits | scripts/run_analysis_pass.py:110-114 | In settled conditions, a pass appends exactly the bills of its own priority and returns once `count` is reached. |
| TestSelection.VisitState | scripts/run_analysis_pass.py:110-114 | Before the count is reached, visiting bill `i` of pass `t` extends the selection by the next bill of the grouping. |
| TestSelection.ReturnedIsTake | scripts/run_analysis_pass.py:113-114 | The early return `selected[:count]` is the first `count` bills of the grouping. |
| TestSelection.PassState | scripts/run_analysis_pass.py:109-114 | Pass `t` over the first `i` bills leaves the grouping so far, or has already returned its cut. |
| TestSelection.PassesState | scripts/run_analysis_pass.py:107-151 | After `t` passes the selection is the first `t` groups, or their cut once `count` is reached. |
| TestSelection.SelectIsGrouping | scripts/run_analysis_pass.py:89-151 | On distinct bills that every test answers, the selection is the bills grouped by priority, in input order within each group, cut to `count`. |
| TestSelection.BelowStep | scripts/run_analysis_pass.py:107-149 | Raising the bound by one adds exactly group `t`. |
| TestSelection.GroupedLength | scripts/run_analysis_pass.py:107-149 | The first `t` groups hold as many bills as have priority below `t`. |
| TestSelection.BelowNone | scripts/run_analysis_pass.py:107-149 | No bill has priority below zero. |
| TestSelection.BelowAll | scripts/run_analysis_pass.py:144-149 | When every bill has some priority, all of them are below the number of passes. |
| TestSelection.GroupDistinct | scripts/run_analysis_pass.py:107-149 | A group of distinct bills has no duplicates. |
| TestSelection.DistinctAppend | scripts/run_analysis_pass.py:107-149 | Two disjoint lists without duplicates join into one without duplicates. |
| TestSelection.GroupedDistinct | scripts/run_analysis_pass.py:107-149 | The grouping of distinct bills has no duplicates. |
| TestSelection.FullSelection | scripts/run_analysis_pass.py:89-151 | With a final pass that takes any bill, the selection has `min(count, len(bills))` bills and no duplicates. |
| TestSelection.SelectTestBills | scripts/run_analysis_pass.py:89-151 | The passes, run as loops, compute the specified selection. |
| TestSelection.RunPass | scripts/run_analysis_pass.py:117-121 | One pass, run as a loop, computes the specified scan. |
| TestSelection.PassStop | scripts/run_analysis_pass.py:119-121 | Once a pass has returned or raised, the later bills change nothing. |
| TestSelection.PassesStop | scripts/run_analysis_pass.py:107-151 | Once a pass has returned or raised, the later passes change nothing. |
| RunDirectAnalysis.FirstStateFrom | scripts/run_direct_analysis.py:46 | The search returns the leftmost position from `i` on where `legiscan.com/XX/` matches, or reports that there is none. |
| RunDirectAnalysis.ExtractState | scripts/run_direct_analysis.py:44-47 | A state is found exactly when the pattern matches somewhere. It is two lower-case letters. |
| RunDirectAnalysis.StateOfLegiScanUrl | scripts/run_direct_analysis.py:44-47 | `https://legiscan.com/XX/...` gives state `xx`. |
| RunDirectAnalysis.YearAtEnd | scripts/run_direct_analysis.py:52 | A year found at the end is four digits after a final `/`. |
| RunDirectAnalysis.YearBeforeNewline | scripts/run_direct_analysis.py:52 | `$` also matches before a final newline: a year found there is four digits after a `/`, ending just before the newline. |
| RunDirectAnalysis.TrailingYear | scripts/run_direct_analysis.py:52 | A trailing year is four digits closing the url, or closing it just before a final newline. |
| RunDirectAnalysis.SlashBefore | scripts/run_direct_analysis.py:52 | A slice that starts at a slash is that slash followed by the rest of the slice. |
| RunDirectAnalysis.ExtractYear | scripts/run_direct_analysis.py:50-53 | The year is always four digits, 2025 when the url has none. |
| RunDirectAnalysis.YearOfUrl | scripts/run_direct_analysis.py:50-53 | A url ending in `/` and four digits gives those digits. |
| RunDirectAnalysis.DefaultYear | scripts/run_direct_analysis.py:53 | A url whose last character is neither a digit nor a newline gives 2025. |
| RunDirectAnalysis.SourceBillsFileInjective | scripts/run_direct_analysis.py:56-58 | Different state and year pairs name different source files. |
| RunDirectAnalysis.SourceFor | scripts/run_direct_analysis.py:268-281 | The source file is read from the first bill's url state and year. A url without a state exits with status 1. |
| RunDirectAnalysis.ScoreLine | scripts/run_direct_analysis.py:157-160 | A score that is None adds nothing. Any other value must be a number and is shown to four places. |
| RunDirectAnalysis.TextLine | scripts/run_direct_analysis.py:161-168 | A text line is added exactly when its value is truthy. |
| RunDirectAnalysis.Metadata | scripts/run_direct_analysis.py:155-168 | The metadata block starts with its heading. It fails exactly when the score or the distance is set but not a number. |
| RunDirectAnalysis.ReasonLine | scripts/run_direct_analysis.py:150-151 | The reason line is added exactly when the reason is truthy. |
| RunDirectAnalysis.Details | scripts/run_direct_analysis.py:150-168 | Falsy `extra_metadata` adds only the reason line. Truthy metadata adds the reason line and then the metadata block. |
| RunDirectAnalysis.FormatBill | scripts/run_direct_analysis.py:135-170 | Formatting needs the number, title and url, and the text starts with their three lines. |
| RunDirectAnalysis.FormatErrors | scripts/run_direct_analysis.py:154-160 | Formatting a bill that has the three keys fails exactly when its truthy metadata is not a dict or has a score or distance that is not a number. |
| RunDirectAnalysis.Tiers | scripts/run_direct_analysis.py:184-217 | There are four passes: pediatric hospice, palliative, pain, and any bill. |
| RunDirectAnalysis.TiersAnswer | scripts/run_direct_analysis.py:184-217 | On a bill with a string title, and a string reason if it has one, every pass answers, and the last accepts it. |
| RunDirectAnalysis.SelectTestBills | scripts/run_direct_analysis.py:173-217 | The selection has at most `count` bills, all from the input. |
| RunDirectAnalysis.SelectionByPriority | scripts/run_direct_analysis.py:173-217 | On distinct testable bills the selection groups the bills by priority and cuts the result to `count`. It has `min(count, len(bills))` distinct bills. |
| RunDirectAnalysis.PediatricHospiceFirst | scripts/run_direct_analysis.py:186-193 | A bill whose title mentions pediatric hospice is in the first group. |
| RunDirectAnalysis.Record | scripts/run_direct_analysis.py:362-374 | A filed bill keeps its number, title, url and reason. It has `extra_metadata` exactly when the bill's value is truthy. |
| RunDirectAnalysis.NoApiKeyExits | scripts/run_direct_analysis.py:257-261 | Without PORTKEY_API_KEY the script exits with status 1. |
| RunDirectAnalysis.Main | scripts/run_direct_analysis.py:220-480 | `main` from the normalized bills on: the result files written are exactly the lists of `Run`, an exception from `Run` is raised, and after the files are written the summary may still raise. |
| RunDirectAnalysis.ZeroTestCountFailsAfterWrite | scripts/run_direct_analysis.py:453-460 | In test mode with a count of zero or less, the run writes two empty result files and then raises ZeroDivisionError. |
| RunDirectAnalysis.NullCategoriesFailsAfterWrite | scripts/run_direct_analysis.py:463-467 | One relevant bill whose analysis has null categories writes its result files and then raises TypeError. |
| RunDirectAnalysis.RunRoutes | scripts/run_direct_analysis.py:336-427 | In a completed run of the corrected script the lists are split by relevance, and the error count can be taken. |
| RunDirectAnalysis.NullTitleStopsSetup | scripts/run_direct_analysis.py:300-301 | Outside test mode, a first bill whose title is None makes the preview raise, so the set-up fails. |
| RunDirectAnalysis.TimeoutRejected | scripts/run_direct_analysis.py:317-325 | The script's constructor call raises TypeError for its `timeout` keyword, the first it passes that the constructor lacks. |
| RunDirectAnalysis.AsWrittenNeverAnalyzes | scripts/run_direct_analysis.py:253-325 | As written, every run fails. Once the set-up succeeds it raises TypeError for `timeout`, and so does every run the corrected script completes. |
| RunDirectAnalysis.Setup | scripts/run_direct_analysis.py:253-301 | Steps 1 to 5 and the preview. Without PORTKEY_API_KEY it exits with status 1. Otherwise it gives the lookup and the bills to process, and outside test mode a first bill whose title is None fails the preview (`NullTitleStopsSetup`). |
| RunDirectAnalysis.RunAsWritten | scripts/run_direct_analysis.py:253-325 | The script as written. Every run fails, and once the set-up succeeds it raises TypeError for `timeout` (`AsWrittenNeverAnalyzes`, `TimeoutRejected`). |
| RunDirectAnalysis.Run | scripts/run_direct_analysis.py:253-427 | The corrected script. Without PORTKEY_API_KEY it exits with status 1 (`NoApiKeyExits`). In a completed run the lists are split by relevance, and the errors can be counted (`RunRoutes`). |
| RunDirectAnalysis.PrefixWithoutPattern | scripts/run_direct_analysis.py:244 | A stem without `filter_results_` is kept as it is. |
| RunDirectAnalysis.PrefixReplacesLeading | scripts/run_direct_analysis.py:244 | A leading `filter_results_` becomes `analysis_`. |
| RunDirectAnalysis.OutputFilesDiffer | scripts/run_direct_analysis.py:245-246 | The relevant and not-relevant output files are always different. |
| AnalyzeBillStats.ScoredEntry | scripts/analyze_bill_stats.py:56-70 | An entry is scored only when its `bill` and `extra_metadata` are dicts and the score is not None. The scored record holds its id, number, title and score. |
| AnalyzeBillStats.ScoredEntries | scripts/analyze_bill_stats.py:53-70 | The scored bills are exactly the scorable entries, one per entry at most, none made up. |
| AnalyzeBillStats.CollectScores | scripts/analyze_bill_stats.py:53-70 | The extraction loop collects the specified scored bills. |
| AnalyzeBillStats.Highest | scripts/analyze_bill_stats.py:84 | `max` picks a bill whose score no other exceeds, the first such one. |
| AnalyzeBillStats.Lowest | scripts/analyze_bill_stats.py:85 | `min` picks a bill whose score no other undercuts, the first such one. |
| AnalyzeBillStats.StatsOf | scripts/analyze_bill_stats.py:18-105 | A missing, unparsable or non-list file gives None. An empty list gives zero counts. Otherwise `total_bills` is the list's length, and the file name is recorded. |
| AnalyzeBillStats.AnalyzeBillFile | scripts/analyze_bill_stats.py:18-105 | The script's function computes the specified statistics. |
| AnalyzeBillStats.ScoreBounds | scripts/analyze_bill_stats.py:72-105 | The scored count is at most the total. The highest and lowest exist exactly when something is scored, both are scored bills, and every score lies between them. |
| AnalyzeBillStats.NoScores | scripts/analyze_bill_stats.py:72-81 | Without any score the statistics have the total, zero scored, and no highest or lowest. |
| AnalyzeBillStats.NoneScored | scripts/analyze_bill_stats.py:53-70 | Entries that cannot be scored give an empty list. |
| AnalyzeBillStats.ScoredWithScore | scripts/analyze_bill_stats.py:57-67 | A bill with a numeric score and no other data is scored with null id, number and title. |
| FetchLegiScanBills.Repeat | scripts/fetch_legiscan_bills.py:125 | `c * n` is `n` copies of `c`. |
| FetchLegiScanBills.ExtractBillData | scripts/fetch_legiscan_bills.py:75-91 | An extracted bill has exactly the keys bill_id, bill_number, title, description and url, in that order. |
| FetchLegiScanBills.ExtractedField | scripts/fetch_legiscan_bills.py:85-91 | Each key of the extracted bill reads back its own slot. |
| FetchLegiScanBills.ExtractIdempotent | scripts/fetch_legiscan_bills.py:75-91 | Extracting an already extracted bill changes nothing. |
| FetchLegiScanBills.PageBills | scripts/fetch_legiscan_bills.py:165-171 | A page gives at most one bill per entry, each an extracted bill. |
| FetchLegiScanBills.PageBillsMembers | scripts/fetch_legiscan_bills.py:166-171 | A page's bills are exactly the extracted forms of its entries with all-digit keys and dict values. |
| FetchLegiScanBills.AppendPageBills | scripts/fetch_legiscan_bills.py:165-171 | The loop over one page appends that page's bills and counts them. |
| FetchLegiScanBills.IntOf | scripts/fetch_legiscan_bills.py:187-191 | `int()` keeps an integer. Null, a list or a dict raise. |
| FetchLegiScanBills.SplitsInTwo | scripts/fetch_legiscan_bills.py:185-186 | A text holding the separator splits into at least two parts. |
| FetchLegiScanBills.DigitsParse | scripts/fetch_legiscan_bills.py:187-188 | `int()` of a run of digits is its decimal value. |
| FetchLegiScanBills.SplitOf | scripts/fetch_legiscan_bills.py:186 | `"x of y"` with digits on both sides splits into `x` and `y`. |
| FetchLegiScanBills.NatTextDigits | scripts/fetch_legiscan_bills.py:184 | A number's decimal text is digits whose value is the number. |
| FetchLegiScanBills.ParsesOf | scripts/fetch_legiscan_bills.py:184-188 | `"x of y"` reads back as current page `x` of `y`. |
| FetchLegiScanBills.PageOfTotal | scripts/fetch_legiscan_bills.py:181-196 | A summary page `"x of y"` asks for another page exactly when `x < y`. |
| FetchLegiScanBills.MorePagesOf | scripts/fetch_legiscan_bills.py:184-196 | Whatever the page text's source, `"x of y"` continues exactly when `x < y`. |
| FetchLegiScanBills.DefaultPageStops | scripts/fetch_legiscan_bills.py:184-196 | Without a `page` entry the default `"{page} of 1"` stops the loop. |
| FetchLegiScanBills.PageTotalFallback | scripts/fetch_legiscan_bills.py:189-196 | A page text without " of " falls back to `page_total`, and the loop continues while the page is below it. |
| FetchLegiScanBills.PageStep | scripts/fetch_legiscan_bills.py:152-198 | A page that asks for more has bills. A page with bills came from an OK response, and its bills are those of its `searchresult`. |
| FetchLegiScanBills.CollectStep | scripts/fetch_legiscan_bills.py:151-198 | The pages collected from `page` on are one page's step, then the rest when it asks for more. |
| FetchLegiScanBills.FetchPage | scripts/fetch_legiscan_bills.py:152-198 | One turn of the paging loop computes the specified step. |
| FetchLegiScanBills.FetchAllBills | scripts/fetch_legiscan_bills.py:146-198 | The paging loop, from page 1 and at most 100 pages, computes the specified bills. |
| FetchLegiScanBills.FetchFrom | scripts/fetch_legiscan_bills.py:146-198 | The paging loop's specification. A failed search (`FailedSearchStops`) or an empty page (`EmptyPageStops`) ends it with the bills so far. It depends only on the pages not yet reached (`FetchLocal`), extends what was collected (`FetchAppends`), and every bill has the five extracted keys (`FetchedBillsExtracted`). `FetchLegiScanBills.FetchAllBills` computes it. |
| FetchLegiScanBills.FetchNext | scripts/fetch_legiscan_bills.py:151-198 | One turn continues the fetch exactly as the specification does from the next page. |
| FetchLegiScanBills.FailedSearchStops | scripts/fetch_legiscan_bills.py:154-159 | A failed call or a status other than OK ends the loop with the bills so far. |
| FetchLegiScanBills.EmptyPageStops | scripts/fetch_legiscan_bills.py:173-175 | A page without bills ends the loop with the bills so far. |
| FetchLegiScanBills.FetchLocal | scripts/fetch_legiscan_bills.py:151-198 | The fetch depends only on the responses of the pages it has not yet reached. |
| FetchLegiScanBills.CollectLocal | scripts/fetch_legiscan_bills.py:151-198 | The collected bills depend only on the steps from the current page on. |
| FetchLegiScanBills.CollectAppends | scripts/fetch_legiscan_bills.py:147-198 | Paging only appends: the bills gathered so far stay first. |
| FetchLegiScanBills.CollectExtracted | scripts/fetch_legiscan_bills.py:147-198 | When every page gives extracted bills, every collected bill is extracted. |
| FetchLegiScanBills.FetchAppends | scripts/fetch_legiscan_bills.py:147-198 | Fetching only appends to the bills gathered so far. |
| FetchLegiScanBills.FetchedBillsExtracted | scripts/fetch_legiscan_bills.py:146-198 | Every fetched bill has the five extracted keys. |
| FetchLegiScanBills.SampleEntry | scripts/fetch_legiscan_bills.py:120-125 | A sample entry needs the number, title and description, and starts with `Bill #idx`. |
| FetchLegiScanBills.EntryText | scripts/fetch_legiscan_bills.py:121-125 | An entry's text starts with its `Bill #idx` line. |
| FetchLegiScanBills.SamplesText | scripts/fetch_legiscan_bills.py:119-125 | The samples file can be written exactly when every bill has the three keys. |
| FetchLegiScanBills.BillsToWrite | scripts/fetch_legiscan_bills.py:117 | All bills are written when no count is given, else the first `num_samples`. |
| FetchLegiScanBills.CreateTestSamples | scripts/fetch_legiscan_bills.py:107-125 | The writing loop produces the specified text for the bills to write. |
| FetchLegiScanBills.SamplesStop | scripts/fetch_legiscan_bills.py:120-124 | The first bill missing a key ends the writing with that KeyError. |
| FetchLegiScanBills.ExtractedSamples | scripts/fetch_legiscan_bills.py:169-205 | Samples of fetched bills can always be written. |
| FetchLegiScanBills.ExtractedHasKeys | scripts/fetch_legiscan_bills.py:85-91 | An extracted bill has every key the samples read. |
| FetchLegiScanBills.RunWritesFetched | scripts/fetch_legiscan_bills.py:130-205 | With an API key and some bills fetched, the script saves exactly the fetched bills. |
| FetchLegiScanBills.NoKeyNoOutput | scripts/fetch_legiscan_bills.py:134-140 | Without LEGISCAN_API_KEY nothing is fetched or saved. |
| FetchLegiScanBills.Run | scripts/fetch_legiscan_bills.py:130-205 | `main`'s output. Without LEGISCAN_API_KEY nothing is fetched or saved (`NoKeyNoOutput`). With a key and some bills fetched, exactly the fetched bills are saved (`RunWritesFetched`). |
| SplitResultsFile.ChunkNameShape | scripts/split_results_file.py:69-70 | Every chunk file is named after the input stem, then `_chunk`, and ends in `.json`. |
| SplitResultsFile.Pad2Digits | scripts/split_results_file.py:70 | `{n:02d}` of a number below 100 is its two decimal digits. |
| SplitResultsFile.DigitCharInjective | scripts/split_results_file.py:70 | Different digits print differently. |
| SplitResultsFile.ChunkNamesDistinct | scripts/split_results_file.py:69-70 | Below 100 chunks, different chunks get different file names. |
| SplitResultsFile.ChunkDataFields | scripts/split_results_file.py:63-66 | A chunk file records its own length as `total_results` and holds its piece as `results`. |
| SplitResultsFile.Piece | scripts/split_results_file.py:58-60 | A piece of a list is a list, and a piece of a string is a string. |
| SplitResultsFile.PieceIsSlice | scripts/split_results_file.py:58-60 | Piece `i` is the slice from `i*size` to `min(i*size + size, n)`. |
| SplitResultsFile.ChunkList | scripts/split_results_file.py:49-74 | There are `ceil(n / size)` chunk files, and file `i + 1` holds piece `i`. |
| SplitResultsFile.ChunkFiles | scripts/split_results_file.py:37-74 | The files are numbered from 1 in order. |
| SplitResultsFile.ChunkFilesCover | scripts/split_results_file.py:42-74 | For a `results` list, the chunks are the consecutive pieces. Every piece but the last is full, and laid end to end they give back the whole list. |
| SplitResultsFile.MissingResultsExits | scripts/split_results_file.py:38-40 | Input without `results` exits with status 1. |
| SplitResultsFile.SplitResults | scripts/split_results_file.py:18-79 | A missing or unreadable input, or one without `results`, writes nothing. Otherwise exactly the chunk files are written next to the input, and their number is returned. |
| SplitResultsFile.FirstChunksWrittenInOrder | scripts/split_results_file.py:57-74 | After `k` turns of the loop the first `k` chunk files have been written. |
| SplitResultsFile.WriteChunk | scripts/split_results_file.py:58-74 | One turn writes chunk `i + 1` with piece `i` and changes nothing else. |
| SplitResultsFile.WriteChunks | scripts/split_results_file.py:57-74 | The loop writes every chunk file in order. |
| Chunking.NumChunks | scripts/split_results_file.py:49 | `ceil(n / size)` is zero exactly when there is nothing to split. |
| Chunking.NumChunksBounds | scripts/split_results_file.py:49 | The chunks hold all `n` items, and the last chunk is not empty. |
| Chunking.ChunkBounds | scripts/run_filter_pass.py:157-164 | Every chunk starts inside the list. A chunk before the last ends before the list does, and the last holds at most `size` items. |
| Chunking.Chunk | scripts/run_filter_pass.py:162-164 | A chunk is never empty and never above `size`. Every chunk but the last is full, and each is the slice at its place. |
| Chunking.Chunks | scripts/split_results_file.py:57-60 | There are `ceil(n / size)` chunks, each the slice at its place. |
| Chunking.ChunksPrefix | scripts/split_results_file.py:57-60 | The first `k` chunks together are the first `min(k*size, n)` items. |
| Chunking.ChunkEnds | scripts/split_results_file.py:58-59 | Chunk `i` runs from `i*size` to `min((i+1)*size, n)`. |
| Chunking.ChunksConcat | scripts/split_results_file.py:49-60 | Laid end to end the chunks give back the whole list. |
| Chunking.ConcatAppend | scripts/split_results_file.py:57-60 | Laying out two runs of chunks is laying out each. |

## Left out

- Logging and console output: log lines, progress prints and summary banners
  are not modelled, and neither are the percentages and precision figures they
  show. The exceptions are the lines that read a bill and can therefore raise:
  the preview of the first ten bills before the analysis loop
  (`AnalysisLoop.Preview`), the heading lines of each bill in the loop
  (`AnalysisLoop.Heading`), the display of a result, which also changes
  where the bill is filed, and the summary after the result files are
  written (`AnalysisLoop.Summary`). The summary divides by the number of bills
  processed and gathers the categories of the relevant results, so it can
  raise ZeroDivisionError or TypeError after both files exist.
- `time.sleep`: it is recorded as a list of pause points, and durations are not
  modelled.
- Concurrency: the pipeline runs one bill at a time. Nothing in the model
  interleaves.
- HTTP, the language model and the LegiScan API are oracles. A response is
  decoded only as far as `choices[0].message.content` or the JSON body. Retry
  back-off at the transport level is not modelled.
- `json.loads` is an abstract parameter. `json.dumps` is a stand-in rendering:
  indentation and escaping are not modelled, and neither is Python's `str()` of
  a float.
- The `:.4f` formatting of similarity scores is the parameter `fmt4`.
- Python's Unicode `lower`, `upper` and `isdigit`, and the regular
  expression class `\d`, are modelled on ASCII only. `isspace` (used by
  `strip`) covers Python's whole whitespace set.
- PyStrings.ParseInt: accepts ASCII digits with an optional sign and
  surrounding whitespace. It rejects digit groups joined by underscores
  (`1_000`), which `int()` accepts, and non-ASCII digits.
- BillIndex.BillsByNumber: keys compare as JSON values. `1`, `1.0` and `True`
  are one key in a Python dict, but three keys here.
- TestSelection.Visit: `bill not in selected` compares dicts with their keys
  in order. Python's dict equality ignores key order, so two bills with the
  same items in a different order are different here.
- Stored files and blobs always hold well-formed JSON: a store maps each path
  to a parsed document. The JSONDecodeError that `json.load` and `json.loads`
  raise on a corrupt file is not modelled (src/local_file_storage.py:62, 99,
  156, 163 and 180; src/azure_blob_storage.py:77). So the handlers for it at
  src/local_file_storage.py:241 and :272 and at src/azure_blob_storage.py:265
  and :293 are reached here only by FileNotFoundError and KeyError.
- LocalFileStorage.LoadRaw: succeeds exactly when the raw file exists, because
  a stored file is always well-formed; a corrupt file's JSONDecodeError is not
  modelled.
- StorageProvider.FilteredMissing: the filtered load fails only with
  FileNotFoundError. The JSONDecodeError of a corrupt candidate file is not
  modelled.
- StorageProvider.LoadAnalysis: a present analysis file always parses. The
  JSONDecodeError of a corrupt one is not modelled.
- AzureBlobStorage.Download: a present blob always parses. The
  JSONDecodeError of a corrupt one is not modelled.
- DatabaseStorage.FirstWithNumber: `fetchone()` on a query without `ORDER BY`
  is modelled as the first matching row in table order. The database may
  return any matching row.
- DatabaseStorage.DatabaseStorage.GetBillByNumber: its `fetchone()`
  (src/database_storage.py:566-574) reads the first matching row in table
  order, as FirstWithNumber does.
- Dates: the `datetime.now()` timestamps and the `strptime` parsing of
  `last_action_date` in the database backend are not modelled, and the rows
  leave those columns out. Run identifiers are parameters.
- The database backend: SQL text, connection pooling and transactions are not
  modelled. A failed write is the parameter `dbFails`, which rolls the write
  back. Read-query failures, SQL type coercion and collation are not modelled;
  `ORDER BY` is code-point order.
- The `pipeline_runs` upserts conflict on `run_id` alone
  (src/database_storage.py:285 and :431), so a later save for the same run
  updates its counts and status and keeps the `stage` first written. The
  summary read filters on `stage = 'filter'` (src/database_storage.py:330-336).
- Custom hooks use the default `get_cache_key`. Overrides in subclasses are
  not modelled.
- The registry holds only the `legiscan` hook, so the generic
  `hook_class(**params)` branch of src/hook_registry.py cannot be reached. The
  model fixes the registry to that one entry.
- LegiScanHook.Create: `cacheDir` is a str. A `Path('')` passed by a direct
  caller is truthy and kept by the source; the model, given an empty str,
  falls back to the default as the source does for a str.
- DataSourcePlugins.PathStr: models `str(Path(p))` for POSIX paths only.
  Windows drive letters and backslashes are not modelled.
- LegiScanHook.Process: it returns the enriched bill as a new value. The source
  changes the caller's dict in place, so aliasing is not captured.
- LegiScanHook.ProcessData: the same as Process, for the data dict.
- The analysis scripts construct `AIAnalysisPass` with `timeout=` (and
  `api_delay=`), which its constructor does not accept, so as written they
  raise TypeError before the loop (see Findings). The corrected runs take the
  analysis as an abstract function, `AnalysisLoop.Analyzer`, and not the
  modelled `AiAnalysisPass`.
- RunAnalysisPass.RunIsAnalysis: states what a finished run of the corrected
  script computes. The script as written never finishes a run with a key set:
  it raises at the preview or at the constructor call
  (RunAnalysisPass.AsWrittenNeverAnalyzes).
- RunAnalysisPass.Run: models the script with the constructor call corrected,
  up to the written result files. The run as written is
  RunAnalysisPass.RunAsWritten. The summary after the writes is in
  RunAnalysisPass.Main, which can raise ZeroDivisionError or TypeError there.
- RunDirectAnalysis.Run: models the script with the constructor call
  corrected, up to the written result files. The run as written is
  RunDirectAnalysis.RunAsWritten. The summary after the writes is in
  RunDirectAnalysis.Main, which can raise ZeroDivisionError or TypeError
  there. It starts
  from the normalized bills of a readable filter file. The command-line
  argument check and the filter file's existence check (both exit with status
  1) are not modelled. Neither is the JSONDecodeError of a malformed
  configuration file, which `load_config` does not catch.
- AnalyzeBillStats: the average score, `print_statistics`, the statistics file
  and the exit code of `main` are not modelled.
- AnalysisLoop.Tally: the counts of the `Counter` tally and their order are
  not modelled, only the TypeError an unhashable category raises.
- RunDirectAnalysis: the `fetch_bills_if_needed` subprocess call is not
  modelled.
- Directory creation (`mkdir(parents=True)`) is not modelled, because a map
  of paths has no directories.
- The Ollama constructor's connectivity check only logs, so it is not modelled.
- federal_register_importer.py and pipeline.py are not part of this model,
  and neither are the test-harness scripts.
- SplitResultsFile.SplitResults: requires a positive chunk size. The source
  does not check it. A size of 0 raises ZeroDivisionError. With a negative
  size the floor division gives no chunks for two or more bills. For zero or
  one bill it gives one or two chunk files with an empty `results` list.
- SplitResultsFile.ChunkFiles: slicing a dict raises
  `TypeError("unhashable type: 'slice'")`, as Python 3.11 and earlier do.
  From Python 3.12 slices are hashable and the lookup raises KeyError
  instead. `AnalysisLoop.SliceError` makes the same choice for the preview.
- RunFilterPass.RunBatches: requires a positive batch size. The source reads
  it from the configuration without checking it, and raises ZeroDivisionError
  on 0.
- RunFilterPass.Run: takes the batch size as a positive parameter, in place of
  reading `filter_config.batch_size` from the configuration file.

## Findings

| source | as written | input that shows it | evidently intended | confidence | as-written member | corrected member |
|---|---|---|---|---|---|---|
| src/local_file_storage.py:226-236 | `bill_exists_in_raw` reads a dict of records by iterating its keys, and takes `list(data.values())[0]` without checking for emptiness | `{"HB1": {"bill_number": "HB1"}}` gives False although the lookup finds HB1; `{}` raises IndexError | the check agrees with the lookup by bill number, as in the blob backend | not executed | LocalFileStorage.BillExistsDisagreesWithLookup, LocalFileStorage.BillExistsRaisesOnEmptyDict | StorageProvider.BillExistsAgrees |
| src/llm_provider.py:417 | with an environment override, `base_url` falls back to `None`, which is then passed to the provider constructor | `LLM_PROVIDER=ollama` with no configuration: `None.rstrip` raises AttributeError | a missing base URL keeps the provider's default | not executed | LlmProvider.AsWrittenNullBaseUrl | LlmProvider.PortkeySectionWithoutUrl, LlmProvider.DefaultBaseUrlKept |
| src/llm_provider.py:418 | `**config.get('llm', {})` is spread after the environment values, so the configuration overrides them | `LLM_PROVIDER=portkey` with configuration provider `ollama` gives Ollama | environment variables override the configuration, as the comment at line 412 says | not executed | LlmProvider.AsWrittenConfigBeatsEnv | LlmProvider.EnvProviderWins, LlmProvider.EnvModelWins |
| scripts/run_analysis_pass.py:213-220 | the analyzer is constructed with `timeout=` (and, in scripts/run_direct_analysis.py:317-325, also `api_delay=`); `AIAnalysisPass.__init__` takes neither and has no `**kwargs` | any run with PORTKEY_API_KEY set whose set-up succeeds raises `TypeError: ... unexpected keyword argument 'timeout'` before the loop, and no result file is written | the analyzer is built with the keywords its constructor takes | not executed | RunAnalysisPass.RunAsWritten, RunAnalysisPass.AsWrittenNeverAnalyzes, RunDirectAnalysis.RunAsWritten, RunDirectAnalysis.AsWrittenNeverAnalyzes | RunAnalysisPass.Run, RunAnalysisPass.RunIsAnalysis, RunDirectAnalysis.Run, RunDirectAnalysis.RunRoutes |
| scripts/run_analysis_pass.py:262-277 | a relevant result is filed, and then displayed inside the same `try`; when the display raises, an error entry is filed too | a relevant analysis whose `categories` is null: `', '.join(None)` raises TypeError | each bill lands in exactly one list | not executed | AnalysisLoop.NullCategoriesFiledTwice, AnalysisLoop.BothLists | AnalysisLoop.FiledOnce |

=== FILE: ai_analysis_pass.dfy ===
/** The second AI pass: builds the prompt for one bill (its metadata, and
    when a LegiScan key and a bill id are given, the bill's details fetched
    through the LegiScan cache), asks the language model, and turns failures
    into error results. */
module AiAnalysisPass {
  import opened Wrappers
  import opened PyStrings
  import opened PyJson
  import opened CacheFiles
  import LegiScanHook
  import opened AiFilterPass

  /** The LegiScan cache directory under the project root. */
  const LegiScanCacheDir: string := "data/cache/legiscan_cache"

  /** `analysis_prompt.format(data=...)`: the filled prompt, or the error a
      malformed template raises. */
  type Template = (string, string) -> Result<string>

  const DefaultAnalysisPrompt: string :=
    "Analyze the following data and provide structured output.\n\nData:\n{data}\n\nRespond with a JSON object containing your analysis."

  const DefaultSystemPrompt: string :=
    "You are an expert data analyst. Analyze the provided data and extract structured insights.\n\n" +
    "Respond with ONLY valid JSON in the following format:\n{\n  \"summary\": \"Brief summary of the data\",\n" +
    "  \"categories\": [\"category1\", \"category2\"],\n  \"tags\": [\"tag1\", \"tag2\", \"tag3\"],\n" +
    "  \"key_points\": [\"point 1\", \"point 2\"]\n}\n\nDo not include any text before or after the JSON."

  /** `_fetch_bill_from_legiscan`: None without a key; otherwise the
      LegiScan hook's cache-then-service fetch, in the project's LegiScan
      cache directory. */
  function FetchFromLegiScan(key: Json, billId: Json, disk: Disk, api: LegiScanHook.LegiScanApi): (r: (Result<Json>, Disk))
    ensures !Truthy(key) ==> r == (Ok(Null), disk)
    ensures Truthy(key) ==> r == LegiScanHook.Fetch(LegiScanCacheDir, key, billId, disk, api)
  {
    if !Truthy(key) then (Ok(Null), disk)
    else LegiScanHook.Fetch(LegiScanCacheDir, key, billId, disk, api)
  }

  /** The data part of the prompt: the item's text, followed by the
      fetched bill's details when a bill id and a key are given and the
      fetch found something. */
  function PromptData(key: Json, item: Json, billId: Json, disk: Disk, api: LegiScanHook.LegiScanApi): (Result<string>, Disk) {
    var base := ItemText(item);
    if Truthy(billId) && Truthy(key) then
      var (fetched, disk') := FetchFromLegiScan(key, billId, disk, api);
      if fetched.Err? then (Err(fetched.exc), disk')
      else if !Truthy(fetched.value) then (Ok(base), disk')
      else
        match LegiScanHook.ExtractText(fetched.value)
        case Err(e) => (Err(e), disk')
        case Ok(text) => (Ok(base + LegiScanHook.Separator + text), disk')
    else (Ok(base), disk)
  }

  /** Without a bill id or a key the prompt data is the item's text, and
      nothing is read or written. */
  lemma NoEnrichment(key: Json, item: Json, billId: Json, disk: Disk, api: LegiScanHook.LegiScanApi)
    requires !Truthy(billId) || !Truthy(key)
    ensures PromptData(key, item, billId, disk, api) == (Ok(ItemText(item)), disk)
  {
  }

  /** With both, a fetched bill's details follow the item's text. */
  lemma EnrichmentAppends(key: Json, item: Json, billId: Json, disk: Disk, api: LegiScanHook.LegiScanApi)
    requires Truthy(billId) && Truthy(key)
    requires var f := LegiScanHook.Fetch(LegiScanCacheDir, key, billId, disk, api).0;
      f.Ok? && Truthy(f.value) && LegiScanHook.ExtractText(f.value).Ok?
    ensures var d := PromptData(key, item, billId, disk, api).0;
      d.Ok? && StartsWith(d.value, ItemText(item) + LegiScanHook.Separator) &&
      d.value[|ItemText(item) + LegiScanHook.Separator|..] ==
        LegiScanHook.ExtractText(LegiScanHook.Fetch(LegiScanCacheDir, key, billId, disk, api).0.value).value
  {
    var text := LegiScanHook.ExtractText(LegiScanHook.Fetch(LegiScanCacheDir, key, billId, disk, api).0.value).value;
    StartsWithAppend(ItemText(item) + LegiScanHook.Separator, text);
  }

  /** The result for a failed call: the parse error's message for a reply
      that is not JSON, `str(e)` for any other exception. */
  function ErrorResult(e: Exc): (r: Json)
    ensures r.Obj? && HasKey(r.fields, "error") && !HasKey(r.fields, "is_relevant")
    ensures e.JsonDecodeError? ==> r == Obj([("error", Str("JSON parsing failed: " + e.msg))])
    ensures !e.JsonDecodeError? ==> r == Obj([("error", Str(e.Message()))])
  {
    if e.JsonDecodeError? then Obj([("error", Str("JSON parsing failed: " + e.msg))])
    else Obj([("error", Str(e.Message()))])
  }

  /** The keyword parameters of `AIAnalysisPass.__init__`; it takes no
      `**kwargs`. */
  const InitParameters: seq<string> := ["api_key", "base_url", "analysis_prompt", "system_prompt",
                                        "model", "temperature", "max_tokens", "legiscan_api_key"]

  /** The error a call with a keyword the constructor lacks raises. */
  function UnexpectedKeyword(keyword: string): Exc {
    TypeError("AIAnalysisPass.__init__() got an unexpected keyword argument '" + keyword + "'")
  }

  /** Binding a call's keyword arguments: the first keyword, in call order,
      that is not a parameter raises TypeError naming it. */
  function BindKeywords(keywords: seq<string>): (r: Result<()>)
    ensures r.Ok? <==> forall i :: 0 <= i < |keywords| ==> keywords[i] in InitParameters
    ensures r.Err? ==>
      exists i :: (0 <= i < |keywords| && keywords[i] !in InitParameters &&
                   r == Err(UnexpectedKeyword(keywords[i])) && (forall j :: 0 <= j < i ==> keywords[j] in InitParameters))
    decreases |keywords|
  {
    if |keywords| == 0 then Ok(())
    else if keywords[0] !in InitParameters then Err(UnexpectedKeyword(keywords[0]))
    else
      var r := BindKeywords(keywords[1..]);
      assert forall i :: 1 <= i < |keywords| ==> keywords[i] == keywords[1..][i - 1];
      if r.Err? then
        ghost var i :| 0 <= i < |keywords[1..]| && keywords[1..][i] !in InitParameters &&
          r == Err(UnexpectedKeyword(keywords[1..][i])) && (forall j :: 0 <= j < i ==> keywords[1..][j] in InitParameters);
        assert keywords[i + 1] == keywords[1..][i];
        assert forall j :: 0 <= j < i + 1 ==> keywords[j] in InitParameters by {
          forall j | 0 <= j < i + 1 ensures keywords[j] in InitParameters {
            if j > 0 { assert keywords[j] == keywords[1..][j - 1]; }
          }
        }
        r
      else r
  }

  /** The analysis pass's settings; none changes after construction. */
  class AIAnalysisPass {
    const apiKey: string
    const baseUrl: string
    const model: string
    const temperature: real
    const maxTokens: int
    const legiscanApiKey: Json
    const analysisPrompt: string
    const systemPrompt: string

    /** The constructor: the LegiScan key falls back to `LEGISCAN_API_KEY`;
        each prompt comes from its argument when non-empty, then from its
        prompt file (None when missing or unreadable), then the built-in
        text. */
    constructor (apiKey: string, baseUrl: string, analysisPrompt: Option<string>, systemPrompt: Option<string>,
                 model: string, temperature: real, maxTokens: int, legiscanApiKey: Json, env: Env,
                 analysisPromptFile: Option<string>, systemPromptFile: Option<string>)
      ensures this.apiKey == apiKey && this.baseUrl == baseUrl && this.model == model
      ensures this.temperature == temperature && this.maxTokens == maxTokens
      ensures this.legiscanApiKey ==
        if Truthy(legiscanApiKey) then legiscanApiKey else EnvValue(env, "LEGISCAN_API_KEY")
      ensures this.analysisPrompt ==
        if analysisPrompt.Some? && analysisPrompt.value != "" then analysisPrompt.value
        else analysisPromptFile.GetOr(DefaultAnalysisPrompt)
      ensures this.systemPrompt ==
        if systemPrompt.Some? && systemPrompt.value != "" then systemPrompt.value
        else systemPromptFile.GetOr(DefaultSystemPrompt)
    {
      this.apiKey := apiKey;
      this.baseUrl := baseUrl;
      this.model := model;
      this.temperature := temperature;
      this.maxTokens := maxTokens;
      this.legiscanApiKey :=
        if Truthy(legiscanApiKey) then legiscanApiKey else EnvValue(env, "LEGISCAN_API_KEY");
      this.analysisPrompt :=
        if analysisPrompt.Some? && analysisPrompt.value != "" then analysisPrompt.value
        else analysisPromptFile.GetOr(DefaultAnalysisPrompt);
      this.systemPrompt :=
        if systemPrompt.Some? && systemPrompt.value != "" then systemPrompt.value
        else systemPromptFile.GetOr(DefaultSystemPrompt);
    }

    /** The request `_call_ai` sends: a 90-second timeout. */
    function Request(userPrompt: string): (r: ChatRequest)
      ensures r.systemPrompt == systemPrompt && r.userPrompt == userPrompt && r.timeout == 90
      ensures r.maxTokens == maxTokens && r.url == baseUrl + "/chat/completions"
    {
      ChatRequest(baseUrl + "/chat/completions", apiKey, model, systemPrompt, userPrompt, temperature, maxTokens, 90)
    }

    /** `analyze_data`: the reply, or an error result when the call fails.
        Errors while fetching or rendering the bill, or while filling the
        template, are raised. */
    function Analyze(item: Json, billId: Json, disk: Disk, api: LegiScanHook.LegiScanApi,
                     service: ChatService, loads: JsonLoads, format: Template): (Result<Json>, Disk)
    {
      var (data, disk') := PromptData(legiscanApiKey, item, billId, disk, api);
      if data.Err? then (Err(data.exc), disk')
      else
        match format(analysisPrompt, data.value)
        case Err(e) => (Err(e), disk')
        case Ok(prompt) =>
          match CallAi(service, loads, Request(prompt))
          case Ok(v) => (Ok(v), disk')
          case Err(e) => (Ok(ErrorResult(e)), disk')
    }

    /** A failed call never raises out of `analyze_data`, and its result
        has no `is_relevant`, so routing treats it as not relevant. */
    lemma CallFailureIsErrorResult(item: Json, billId: Json, disk: Disk, api: LegiScanHook.LegiScanApi,
                                   service: ChatService, loads: JsonLoads, format: Template)
      requires PromptData(legiscanApiKey, item, billId, disk, api).0.Ok?
      requires format(analysisPrompt, PromptData(legiscanApiKey, item, billId, disk, api).0.value).Ok?
      requires CallAi(service, loads, Request(format(analysisPrompt, PromptData(legiscanApiKey, item, billId, disk, api).0.value).value)).Err?
      ensures var r := Analyze(item, billId, disk, api, service, loads, format).0;
        r.Ok? && r.value.Obj? && HasKey(r.value.fields, "error") && !HasKey(r.value.fields, "is_relevant")
    {
    }

    /** `_extract_bill_text`, appending line by line; the same text as the
        LegiScan hook's. */
    method ExtractBillText(bill: Json) returns (r: Result<string>)
      ensures r == LegiScanHook.ExtractText(bill)
    {
      if !bill.Obj? {
        return Err(AttributeError("'" + TypeName(bill) + "' object has no attribute 'get'"));
      }
      var fs := bill.fields;
      var number := GetOr(fs, "bill_number", Null);
      var rest := MetadataText(fs);
      var textLines := LegiScanHook.TextsLines(GetOr(fs, "texts", Null));
      if textLines.Err? {
        return Err(textLines.exc);
      }
      rest := rest + textLines.value;
      var sponsorLines := LegiScanHook.SponsorsLines(GetOr(fs, "sponsors", Null));
      if sponsorLines.Err? {
        return Err(sponsorLines.exc);
      }
      rest := rest + sponsorLines.value;
      var subjectLines := LegiScanHook.SubjectsLines(GetOr(fs, "subjects", Null));
      if subjectLines.Err? {
        return Err(subjectLines.exc);
      }
      rest := rest + subjectLines.value;
      assert rest == LegiScanHook.MetadataLines(fs) + textLines.value + sponsorLines.value + subjectLines.value;
      r := Ok(LegiScanHook.Render(number, rest));
    }

    /** The title, description, status and status date lines, each only
        when the field is truthy. */
    method MetadataText(fs: Fields) returns (rest: seq<string>)
      ensures rest == LegiScanHook.MetadataLines(fs)
    {
      rest := [];
      var title := GetOr(fs, "title", Null);
      if Truthy(title) {
        rest := rest + ["Title: " + Text(title)];
      }
      assert rest == LegiScanHook.FieldLine("Title: ", title);
      var description := GetOr(fs, "description", Null);
      if Truthy(description) {
        rest := rest + ["Description: " + Text(description)];
      }
      assert rest == LegiScanHook.FieldLine("Title: ", title) + LegiScanHook.FieldLine("Description: ", description);
      var status := GetOr(fs, "status", Null);
      if Truthy(status) {
        rest := rest + ["Status: " + Text(status)];
      }
      var statusDate := GetOr(fs, "status_date", Null);
      if Truthy(statusDate) {
        rest := rest + ["Status Date: " + Text(statusDate)];
      }
    }

    /** The data part of the prompt, fetching the bill through the LegiScan
        hook and its cache. */
    method GatherData(item: Json, billId: Json, fs: FileSystem, api: LegiScanHook.LegiScanApi) returns (r: Result<string>)
      modifies fs
      ensures (r, fs.files) == PromptData(legiscanApiKey, item, billId, old(fs.files), api)
    {
      var dataText := ItemText(item);
      if Truthy(billId) && Truthy(legiscanApiKey) {
        var hook := LegiScanHook.LegiScanHook(legiscanApiKey, LegiScanCacheDir);
        var bill := LegiScanHook.FetchBill(hook, billId, fs, api);
        if bill.Err? {
          return Err(bill.exc);
        }
        if Truthy(bill.value) {
          var text := ExtractBillText(bill.value);
          if text.Err? {
            return Err(text.exc);
          }
          dataText := dataText + LegiScanHook.Separator + text.value;
        }
      }
      r := Ok(dataText);
    }

    /** `analyze_data` on the file system holding the LegiScan cache. */
    method AnalyzeData(item: Json, billId: Json, fs: FileSystem, api: LegiScanHook.LegiScanApi,
                       service: ChatService, loads: JsonLoads, format: Template) returns (r: Result<Json>)
      modifies fs
      ensures (r, fs.files) == Analyze(item, billId, old(fs.files), api, service, loads, format)
    {
      var data := GatherData(item, billId, fs, api);
      if data.Err? {
        return Err(data.exc);
      }
      var prompt := format(analysisPrompt, data.value);
      if prompt.Err? {
        return Err(prompt.exc);
      }
      var reply := CallAi(service, loads, Request(prompt.value));
      if reply.Err? {
        return Ok(ErrorResult(reply.exc));
      }
      r := reply;
    }
  }
}

=== FILE: ai_filter_pass.dfy ===
/** The first AI pass: asks the language model whether a data item (or a
    whole file of bills) is relevant, and reads its JSON reply. The chat
    service and JSON parsing are parameters. */
module AiFilterPass {
  import opened Wrappers
  import opened PyStrings
  import opened PyJson

  /** What `_call_ai` posts to `{base_url}/chat/completions`. */
  datatype ChatRequest = ChatRequest(
    url: string, apiKey: string, model: string,
    systemPrompt: string, userPrompt: string,
    temperature: real, maxTokens: int, timeout: int)

  /** The chat service: the decoded JSON body of the reply; RequestError
      when the request or the HTTP status fails, JsonDecodeError when the
      body is not JSON (the decoding error of `requests` is both). */
  type ChatService = ChatRequest -> Result<Json>

  /** `json.loads`: the parsed value, or JsonDecodeError. */
  type JsonLoads = string -> Result<Json>

  const DefaultFilterPrompt: string :=
    "You are a data relevance filter. Analyze the provided data and determine if it is relevant.\n\n" +
    "Respond with ONLY a JSON object in this exact format:\n{\n  \"relevant\": true/false,\n  \"reason\": \"brief explanation\"\n}"

  /** `result['choices'][0]['message']['content']` */
  function ReplyContent(body: Json): (r: Result<Json>)
    ensures r.Ok? ==> body.Obj? && HasKey(body.fields, "choices")
  {
    var choices :- Index(body, "choices");
    var first :- At(choices, 0);
    var message :- Index(first, "message");
    Index(message, "content")
  }

  /** The reply text with a leading three-backtick fence (with or without a
      `json` tag) and a trailing fence each removed at most once, and the
      surrounding whitespace stripped. */
  function StripFences(content: string): (r: string)
    ensures Strip(r) == r
  {
    var c := Strip(content);
    var c1 := if StartsWith(c, "```json") then c[7..] else c;
    var c2 := if StartsWith(c1, "```") then c1[3..] else c1;
    var c3 := if EndsWith(c2, "```") then c2[..|c2| - 3] else c2;
    StripIdempotent(c3);
    Strip(c3)
  }

  /** A string whose ends are not whitespace is its own strip. */
  lemma StripNoSpaceEnds(s: string)
    requires |s| > 0 && !IsSpace(s[0]) && !IsSpace(s[|s| - 1])
    ensures Strip(s) == s
  {
    assert LStrip(s) == s;
  }

  lemma StripIdempotent(s: string)
    ensures Strip(Strip(s)) == Strip(s)
  {
    var l := LStrip(s);
    var y := RStrip(l);
    if |y| > 0 {
      assert y[0] == l[0];
      StripNoSpaceEnds(y);
    }
  }

  lemma TaggedFenceIsFence(s: string)
    ensures StartsWith(s, "```json") ==> StartsWith(s, "```")
  {
    if StartsWith(s, "```json") {
      assert s[..3] == s[..7][..3];
    }
  }

  /** A reply that is not fenced is only stripped. */
  lemma UnfencedReply(content: string)
    requires !StartsWith(Strip(content), "```") && !EndsWith(Strip(content), "```")
    ensures StripFences(content) == Strip(content)
  {
    TaggedFenceIsFence(Strip(content));
    StripIdempotent(content);
  }

  /** The leading fence of a fenced reply, tagged `json` or not, comes off
      whole and leaves the body and the closing fence. */
  lemma LeadingFenceRemoved(tag: string, body: string)
    requires tag == "json" || (tag == "" && !StartsWith(body, "json"))
    requires |body| > 0 && body[0] != '`'
    ensures var s := "```" + tag + body + "```";
      var c1 := if StartsWith(s, "```json") then s[7..] else s;
      (if StartsWith(c1, "```") then c1[3..] else c1) == body + "```"
  {
    var s := "```" + tag + body + "```";
    var c1 := if StartsWith(s, "```json") then s[7..] else s;
    if tag == "json" {
      assert s[..7] == "```json";
      assert c1 == body + "```";
      assert c1[0] == body[0];
    } else {
      assert s == "```" + body + "```";
      NotJsonTagged(body);
      assert c1 == s;
      assert c1[..3] == "```";
    }
  }

  /** A reply wrapped in a fence, tagged `json` or not, gives back the
      stripped body. */
  lemma FencedReply(tag: string, body: string)
    requires tag == "json" || (tag == "" && !StartsWith(body, "json"))
    requires |body| > 0 && body[0] != '`'
    ensures StripFences("```" + tag + body + "```") == Strip(body)
  {
    var s := "```" + tag + body + "```";
    assert s[0] == '`' && s[|s| - 1] == '`';
    StripNoSpaceEnds(s);
    LeadingFenceRemoved(tag, body);
    var c2 := body + "```";
    assert c2[|c2| - 3..] == "```";
    assert c2[..|c2| - 3] == body;
  }

  /** A fence without the tag is not read as a tagged one. */
  lemma NotJsonTagged(body: string)
    requires |body| > 0 && body[0] != '`' && !StartsWith(body, "json")
    ensures !StartsWith("```" + body + "```", "```json")
  {
    var s := "```" + body + "```";
    if |body| >= 4 {
      assert s[3..7] == body[..4];
    } else {
      assert s[3 + |body|] == '`';
    }
  }

  /** `_call_ai` after the request: the reply's content, unfenced and
      parsed. Content that is not a str has no `strip`. */
  function CallAi(service: ChatService, loads: JsonLoads, request: ChatRequest): (r: Result<Json>)
    ensures service(request).Err? ==> r == Err(service(request).exc)
  {
    var body :- service(request);
    var content :- ReplyContent(body);
    if !content.Str? then Err(AttributeError("'" + TypeName(content) + "' object has no attribute 'strip'"))
    else loads(StripFences(content.s))
  }

  /** The text sent for an item: a dict as JSON, anything else as `str`. */
  function ItemText(item: Json): string {
    if item.Obj? then Dumps(item) else PyStr(item)
  }

  /** `filter_data` after the call: the reply's `relevant` (default False)
      and `reason` (default `No reason provided`), or `(False, "Error:
      ...")` when the call raised or the reply is not a dict. */
  function FilterOutcome(reply: Result<Json>): (r: (Json, Json))
    ensures reply.Err? ==> r == (Bool(false), Str("Error: " + reply.exc.Message()))
    ensures reply.Ok? && reply.value.Obj? ==>
      r == (GetOr(reply.value.fields, "relevant", Bool(false)), GetOr(reply.value.fields, "reason", Str("No reason provided")))
    ensures reply.Ok? && !reply.value.Obj? ==> r.0 == Bool(false) && r.1.Str? && StartsWith(r.1.s, "Error: ")
  {
    match reply
    case Err(e) => (Bool(false), Str("Error: " + e.Message()))
    case Ok(v) =>
      if v.Obj? then (GetOr(v.fields, "relevant", Bool(false)), GetOr(v.fields, "reason", Str("No reason provided")))
      else (Bool(false), Str("Error: '" + TypeName(v) + "' object has no attribute 'get'"))
  }

  /** `filter_batch`'s check of the reply: a dict with a `results` list is
      returned as it is; a missing `results` or one that is not a list
      raises ValueError. */
  function ValidateBatch(reply: Json): (r: Result<Json>)
    ensures r.Ok? <==> reply.Obj? && GetOr(reply.fields, "results", Null).Arr? && HasKey(reply.fields, "results")
    ensures r.Ok? ==> r.value == reply
    ensures reply.Obj? && !HasKey(reply.fields, "results") ==>
      r == Err(ValueError("Invalid response structure: missing 'results' array"))
    ensures reply.Obj? && HasKey(reply.fields, "results") && !GetOr(reply.fields, "results", Null).Arr? ==>
      r == Err(ValueError("Invalid response structure: 'results' must be an array"))
  {
    var has :- Contains(reply, "results");
    if !has then Err(ValueError("Invalid response structure: missing 'results' array"))
    else
      var results :- Index(reply, "results");
      if !results.Arr? then Err(ValueError("Invalid response structure: 'results' must be an array"))
      else Ok(reply)
  }

  /** The filter pass's settings; `maxTokens` is the one field that
      changes after construction. */
  class AIFilterPass {
    const apiKey: string
    const baseUrl: string
    const model: string
    const temperature: real
    var maxTokens: int
    const timeout: int
    const filterPrompt: string

    /** The constructor: a non-empty prompt argument wins, then the prompt
        file's text (`promptFile`, None when it is missing or unreadable),
        then the built-in prompt. */
    constructor (apiKey: string, baseUrl: string, filterPrompt: Option<string>, model: string,
                 temperature: real, maxTokens: int, timeout: int, promptFile: Option<string>)
      ensures this.apiKey == apiKey && this.baseUrl == baseUrl && this.model == model
      ensures this.temperature == temperature && this.maxTokens == maxTokens && this.timeout == timeout
      ensures this.filterPrompt ==
        if filterPrompt.Some? && filterPrompt.value != "" then filterPrompt.value
        else promptFile.GetOr(DefaultFilterPrompt)
    {
      this.apiKey := apiKey;
      this.baseUrl := baseUrl;
      this.model := model;
      this.temperature := temperature;
      this.maxTokens := maxTokens;
      this.timeout := timeout;
      this.filterPrompt :=
        if filterPrompt.Some? && filterPrompt.value != "" then filterPrompt.value
        else promptFile.GetOr(DefaultFilterPrompt);
    }

    /** The request `_call_ai` sends with the current settings. */
    function Request(systemPrompt: string, userPrompt: string): (r: ChatRequest)
      reads this
      ensures r.maxTokens == maxTokens && r.url == baseUrl + "/chat/completions"
      ensures r.systemPrompt == systemPrompt && r.userPrompt == userPrompt
    {
      ChatRequest(baseUrl + "/chat/completions", apiKey, model, systemPrompt, userPrompt, temperature, maxTokens, timeout)
    }

    /** `filter_data`: never raises; see `FilterOutcome`. */
    method FilterData(item: Json, service: ChatService, loads: JsonLoads) returns (relevant: Json, reason: Json)
      ensures (relevant, reason) == FilterOutcome(CallAi(service, loads, Request(filterPrompt, ItemText(item))))
    {
      var dataText := ItemText(item);
      var reply := CallAi(service, loads, Request(filterPrompt, dataText));
      if reply.Err? {
        return Bool(false), Str("Error: " + reply.exc.Message());
      }
      var result := reply.value;
      if !result.Obj? {
        return Bool(false), Str("Error: '" + TypeName(result) + "' object has no attribute 'get'");
      }
      relevant := GetOr(result.fields, "relevant", Bool(false));
      reason := GetOr(result.fields, "reason", Str("No reason provided"));
    }

    /** `filter_batch`: the whole file in one call made with `max_tokens`
        8000. The original limit is restored once the call returns; when
        the call raises, the limit stays at 8000. */
    method FilterBatch(fileContent: string, service: ChatService, loads: JsonLoads) returns (r: Result<Json>)
      modifies this
      ensures var request := ChatRequest(baseUrl + "/chat/completions", apiKey, model, filterPrompt, fileContent,
                                         temperature, 8000, timeout);
        var reply := CallAi(service, loads, request);
        (reply.Err? ==> r == reply && maxTokens == 8000) &&
        (reply.Ok? ==> r == ValidateBatch(reply.value) && maxTokens == old(maxTokens))
    {
      var originalMaxTokens := maxTokens;
      maxTokens := 8000;
      var reply := CallAi(service, loads, Request(filterPrompt, fileContent));
      if reply.Err? {
        return reply;
      }
      maxTokens := originalMaxTokens;
      r := ValidateBatch(reply.value);
    }
  }
}

=== FILE: analysis_loop.dfy ===
/** The per-bill loop shared by the two analysis scripts: the bill's id is
    looked up by its number, a bill without one is skipped, the others are
    formatted and analyzed and filed by `is_relevant`, and any exception the
    loop's `try` catches files an error entry instead. The analysis is a
    parameter that may raise. */
module AnalysisLoop {
  import opened Wrappers
  import opened PyStrings
  import opened PyJson
  import opened BillIndex

  /** `analyzer.analyze_data(bill_data, bill_id=bill_id)` */
  type Analyzer = (string, Json) -> Result<Json>

  /** What differs between the two scripts: the prompt text for a bill, the
      `bill` entry of a filed result, and the `bill` entry of an error
      entry. */
  datatype Script = Script(format: Json -> Result<string>, record: Json -> Json, errorBill: Json -> Json)

  /** `bill_lookup.get(bill_number)`, then
      `source_bill.get('bill_id') if source_bill else None`. */
  function BillIdOf(lookup: map<Json, Json>, number: Json): (r: Result<Json>)
    ensures r.Err? <==> !Hashable(number) || (number in lookup && Truthy(lookup[number]) && !lookup[number].Obj?)
    ensures Hashable(number) && number !in lookup ==> r == Ok(Null)
    ensures Hashable(number) && number in lookup && lookup[number].Obj? ==>
      r == Ok(GetOr(lookup[number].fields, "bill_id", Null))
  {
    if !Hashable(number) then Err(TypeError("unhashable type: '" + TypeName(number) + "'"))
    else
      var source := if number in lookup then lookup[number] else Null;
      if Truthy(source) then Get(source, "bill_id", Null) else Ok(Null)
  }

  /** The position of the first item from `k` on that is not a str. */
  function FirstNonStr(items: seq<Json>, k: nat): (r: Option<nat>)
    requires k <= |items|
    ensures r.Some? ==> k <= r.value < |items| && !items[r.value].Str?
    ensures r.None? <==> forall i :: k <= i < |items| ==> items[i].Str?
    ensures r.Some? ==> forall i :: k <= i < r.value ==> items[i].Str?
    decreases |items| - k
  {
    if k == |items| then None
    else if !items[k].Str? then Some(k)
    else FirstNonStr(items, k + 1)
  }

  /** The error `', '.join(v)` raises: `v` must be iterable, and every item
      a str. */
  function JoinError(v: Json): (r: Option<Exc>)
    ensures r.None? <==> v.Str? || v.Obj? || (v.Arr? && forall i :: 0 <= i < |v.items| ==> v.items[i].Str?)
  {
    match Iter(v)
    case Err(_) => Some(TypeError("can only join an iterable"))
    case Ok(items) =>
      match FirstNonStr(items, 0)
      case None => None
      case Some(i) => Some(TypeError("sequence item " + NatText(i) + ": expected str instance, " + TypeName(items[i]) + " found"))
  }

  /** The `is_relevant` flag of an analysis, `False` when absent. */
  predicate IsRelevant(analysis: Fields) {
    Truthy(GetOr(analysis, "is_relevant", Bool(false)))
  }

  /** The display after filing: for a relevant analysis its `categories`
      and `tags` are joined; truthy `key_provisions` are iterated;
      `exclusion_check` needs `get` and `special_flags` needs `values`. The
      first error raised, if any. */
  function Display(analysis: Fields): Option<Exc> {
    var relevant := IsRelevant(analysis);
    var categories := if relevant then JoinError(GetOr(analysis, "categories", Arr([]))) else None;
    var tags := if relevant then JoinError(GetOr(analysis, "tags", Arr([]))) else None;
    var provisions := GetOr(analysis, "key_provisions", Null);
    var exclusion := GetOr(analysis, "exclusion_check", Obj([]));
    var flags := GetOr(analysis, "special_flags", Obj([]));
    if categories.Some? then categories
    else if tags.Some? then tags
    else if Truthy(provisions) && Iter(provisions).Err? then Some(Iter(provisions).exc)
    else if !exclusion.Obj? then Some(AttributeError("'" + TypeName(exclusion) + "' object has no attribute 'get'"))
    else if !flags.Obj? then Some(AttributeError("'" + TypeName(flags) + "' object has no attribute 'values'"))
    else None
  }

  /** The number, title and url lines both scripts start a bill's prompt
      text with. */
  function Header(number: Json, title: Json, url: Json): string {
    "**Bill Number**: " + PyStr(number) + "\n**Title**: " + PyStr(title) + "\n**URL**: " + PyStr(url)
  }

  /** How the `try` block ends for one bill. */
  datatype Attempt =
    | Skipped
    | Raised(exc: Exc)
    /** filed by its analysis, then displayed (`displayError` when that raised) */
    | Filed(analysis: Fields, displayError: Option<Exc>)

  /** The `try` block for one bill. */
  function Try(script: Script, lookup: map<Json, Json>, analyze: Analyzer, bill: Json): Attempt
    requires bill.Obj?
  {
    match BillIdOf(lookup, GetOr(bill.fields, "bill_number", Null))
    case Err(e) => Raised(e)
    case Ok(billId) =>
      if !Truthy(billId) then Skipped
      else
        match script.format(bill)
        case Err(e) => Raised(e)
        case Ok(text) =>
          match analyze(text, billId)
          case Err(e) => Raised(e)
          case Ok(analysis) =>
            if !analysis.Obj? then Raised(AttributeError("'" + TypeName(analysis) + "' object has no attribute 'get'"))
            else Filed(analysis.fields, Display(analysis.fields))
  }

  /** `{'bill': ..., 'analysis': analysis}` */
  function ResultEntry(script: Script, bill: Json, analysis: Fields): Json {
    Obj([("bill", script.record(bill)), ("analysis", Obj(analysis))])
  }

  /** `{'bill': ..., 'analysis': {'error': str(e), 'is_relevant': False}}` */
  function ErrorEntry(script: Script, bill: Json, e: Exc): Json {
    Obj([("bill", script.errorBill(bill)), ("analysis", Obj([("error", Str(e.Message())), ("is_relevant", Bool(false))]))])
  }

  /** What one bill adds to the relevant and the not-relevant lists. A
      display that raises after the result was filed files an error entry
      as well. */
  function Filing(script: Script, bill: Json, attempt: Attempt): (seq<Json>, seq<Json>) {
    match attempt
    case Skipped => ([], [])
    case Raised(e) => ([], [ErrorEntry(script, bill, e)])
    case Filed(analysis, displayError) =>
      var result := ResultEntry(script, bill, analysis);
      var after := if displayError.Some? then [ErrorEntry(script, bill, displayError.value)] else [];
      if IsRelevant(analysis) then ([result], after) else ([], [result] + after)
  }

  /** The `try` block as a function of the bill; a bill that is not a dict
      never reaches it, because the log lines before it raise. */
  function Attempts(script: Script, lookup: map<Json, Json>, analyze: Analyzer): Json -> Attempt {
    (bill: Json) => if bill.Obj? then Try(script, lookup, analyze, bill) else Skipped
  }

  /** The log lines before the `try` read the bill's number, title and url. */
  function Heading(bill: Json): (r: Result<()>)
    ensures r.Ok? <==> bill.Obj? && HasKey(bill.fields, "bill_number") && HasKey(bill.fields, "title") && HasKey(bill.fields, "url")
  {
    var _ :- Index(bill, "bill_number");
    var _ :- Index(bill, "title");
    var _ :- Index(bill, "url");
    Ok(())
  }

  /** The values `value[:n]` works on. */
  predicate Sliceable(v: Json) {
    v.Str? || v.Arr?
  }

  /** What `value[:n]` raises on any other value: a dict looks the slice up
      as a key (the messages are Python 3.11's; from Python 3.12 a dict
      raises KeyError with the slice as its key). */
  function SliceError(v: Json): Exc {
    if v.Null? then TypeError("'NoneType' object is not subscriptable")
    else if v.Obj? then TypeError("unhashable type: 'slice'")
    else TypeError("'" + TypeName(v) + "' object is not subscriptable")
  }

  /** One line of the preview before the loop reads the bill's number and
      `bill['title'][:80]`. */
  function PreviewLine(bill: Json): (r: Result<()>)
    ensures r.Ok? <==> bill.Obj? && HasKey(bill.fields, "bill_number") && Lookup(bill.fields, "title").Some? &&
                       Sliceable(Lookup(bill.fields, "title").value)
    ensures bill.Obj? && HasKey(bill.fields, "bill_number") && Lookup(bill.fields, "title") == Some(Null) ==>
      r == Err(TypeError("'NoneType' object is not subscriptable"))
  {
    var _ :- Index(bill, "bill_number");
    var title :- Index(bill, "title");
    if Sliceable(title) then Ok(()) else Err(SliceError(title))
  }

  /** The preview lines of `bills`, in order: the first line that raises
      stops the script. */
  function PreviewLines(bills: seq<Json>): (r: Result<()>)
    ensures r.Ok? <==> forall i :: 0 <= i < |bills| ==> PreviewLine(bills[i]).Ok?
    ensures r.Err? ==>
      exists i :: (0 <= i < |bills| && r == PreviewLine(bills[i]) &&
                   (forall j :: 0 <= j < i ==> PreviewLine(bills[j]).Ok?))
    decreases |bills|
  {
    if |bills| == 0 then Ok(())
    else if PreviewLine(bills[0]).Err? then PreviewLine(bills[0])
    else
      var r := PreviewLines(bills[1..]);
      assert forall i :: 1 <= i < |bills| ==> bills[i] == bills[1..][i - 1];
      if r.Err? then
        ghost var i :| 0 <= i < |bills[1..]| && r == PreviewLine(bills[1..][i]) &&
          (forall j :: 0 <= j < i ==> PreviewLine(bills[1..][j]).Ok?);
        assert bills[i + 1] == bills[1..][i];
        assert forall j :: 0 <= j < i + 1 ==> PreviewLine(bills[j]).Ok? by {
          forall j | 0 <= j < i + 1 ensures PreviewLine(bills[j]).Ok? {
            if j > 0 { assert bills[j] == bills[1..][j - 1]; }
          }
        }
        r
      else r
  }

  /** A first bill whose title is None stops the preview. */
  lemma NullTitleStopsPreview(bill: Json, rest: seq<Json>)
    requires bill.Obj? && HasKey(bill.fields, "bill_number") && Lookup(bill.fields, "title") == Some(Null)
    ensures Preview(Arr([bill] + rest)) == Err(TypeError("'NoneType' object is not subscriptable"))
  {
    var bills := [bill] + rest;
    var shown := bills[..if |bills| < 10 then |bills| else 10];
    assert shown[0] == bill;
    assert PreviewLines(shown) == PreviewLine(bill);
  }

  /** The preview of `bills_to_process[:10]`: a list or a str is sliced and
      its first ten items previewed, anything else raises at the slice. */
  function Preview(toProcess: Json): (r: Result<()>)
    ensures r.Ok? ==> Sliceable(toProcess)
    ensures toProcess.Arr? ==>
      (r.Ok? <==> forall i :: 0 <= i < |toProcess.items| && i < 10 ==> PreviewLine(toProcess.items[i]).Ok?)
    ensures toProcess.Str? ==> (r.Ok? <==> toProcess.s == "")
    ensures !Sliceable(toProcess) ==> r == Err(SliceError(toProcess))
  {
    match toProcess
    case Arr(items) =>
      var shown := items[..if |items| < 10 then |items| else 10];
      assert forall i :: 0 <= i < |shown| ==> shown[i] == items[i];
      PreviewLines(shown)
    case Str(s) =>
      var chars := Chars(s);
      var shown := chars[..if |chars| < 10 then |chars| else 10];
      if s != "" then
        assert shown[0] == Str([s[0]]);
        assert PreviewLine(shown[0]).Err?;
        PreviewLines(shown)
      else PreviewLines(shown)
    case _ => Err(SliceError(toProcess))
  }

  /** One bill of the loop: its heading is logged, then its `try` block
      files what it adds. */
  function Step(script: Script, attempts: Json -> Attempt, lists: (seq<Json>, seq<Json>), bill: Json): Result<(seq<Json>, seq<Json>)> {
    match Heading(bill)
    case Err(e) => Err(e)
    case Ok(_) =>
      var added := Filing(script, bill, attempts(bill));
      Ok((lists.0 + added.0, lists.1 + added.1))
  }

  /** The loop over `bills_to_process`: the two lists it fills. */
  function Loop(script: Script, attempts: Json -> Attempt, bills: seq<Json>): Result<(seq<Json>, seq<Json>)>
    decreases |bills|
  {
    if |bills| == 0 then Ok(([], []))
    else
      match Loop(script, attempts, bills[..|bills| - 1])
      case Err(e) => Err(e)
      case Ok(lists) => Step(script, attempts, lists, bills[|bills| - 1])
  }

  lemma LoopAppend(script: Script, attempts: Json -> Attempt, bills: seq<Json>, bill: Json)
    ensures var before := Loop(script, attempts, bills);
      Loop(script, attempts, bills + [bill]) ==
        if before.Err? then before else Step(script, attempts, before.value, bill)
  {
    var all := bills + [bill];
    assert all[..|all| - 1] == bills;
    assert all[|all| - 1] == bill;
  }

  /** The `try` block, step by step. */
  method AnalyzeOne(script: Script, lookup: map<Json, Json>, analyze: Analyzer, bill: Json) returns (attempt: Attempt)
    requires bill.Obj?
    ensures attempt == Attempts(script, lookup, analyze)(bill)
  {
    var billId := BillIdOf(lookup, GetOr(bill.fields, "bill_number", Null));
    if billId.Err? {
      return Raised(billId.exc);
    }
    if !Truthy(billId.value) {
      return Skipped;
    }
    var billData := script.format(bill);
    if billData.Err? {
      return Raised(billData.exc);
    }
    var analysis := analyze(billData.value, billId.value);
    if analysis.Err? {
      return Raised(analysis.exc);
    }
    if !analysis.value.Obj? {
      return Raised(AttributeError("'" + TypeName(analysis.value) + "' object has no attribute 'get'"));
    }
    attempt := Filed(analysis.value.fields, Display(analysis.value.fields));
  }

  /** The analysis loop, appending to the two lists. */
  method AnalyzeBills(script: Script, lookup: map<Json, Json>, analyze: Analyzer, bills: seq<Json>)
    returns (r: Result<(seq<Json>, seq<Json>)>)
    ensures r == Loop(script, Attempts(script, lookup, analyze), bills)
  {
    var relevantResults: seq<Json> := [];
    var notRelevantResults: seq<Json> := [];
    var i := 0;
    while i < |bills|
      invariant 0 <= i <= |bills|
      invariant Loop(script, Attempts(script, lookup, analyze), bills[..i]) == Ok((relevantResults, notRelevantResults))
    {
      var bill := bills[i];
      LoopNext(script, Attempts(script, lookup, analyze), bills, i, (relevantResults, notRelevantResults));
      var step := AnalyzeStep(script, lookup, analyze, (relevantResults, notRelevantResults), bill);
      if step.Err? {
        LoopStops(script, Attempts(script, lookup, analyze), bills, i + 1);
        return Err(step.exc);
      }
      relevantResults, notRelevantResults := step.value.0, step.value.1;
      i := i + 1;
    }
    assert bills[..i] == bills;
    r := Ok((relevantResults, notRelevantResults));
  }

  lemma LoopNext(script: Script, attempts: Json -> Attempt, bills: seq<Json>, i: nat, lists: (seq<Json>, seq<Json>))
    requires i < |bills| && Loop(script, attempts, bills[..i]) == Ok(lists)
    ensures Loop(script, attempts, bills[..i + 1]) == Step(script, attempts, lists, bills[i])
  {
    assert bills[..i + 1] == bills[..i] + [bills[i]];
    LoopAppend(script, attempts, bills[..i], bills[i]);
  }

  /** One bill of the loop: its heading, its `try` block, its filing. */
  method AnalyzeStep(script: Script, lookup: map<Json, Json>, analyze: Analyzer, lists: (seq<Json>, seq<Json>), bill: Json)
    returns (r: Result<(seq<Json>, seq<Json>)>)
    ensures r == Step(script, Attempts(script, lookup, analyze), lists, bill)
  {
    var heading := Heading(bill);
    if heading.Err? {
      return Err(heading.exc);
    }
    var attempt := AnalyzeOne(script, lookup, analyze, bill);
    var relevantResults, notRelevantResults := FileAttempt(script, bill, attempt, lists.0, lists.1);
    r := Ok((relevantResults, notRelevantResults));
  }

  /** Files what the `try` block of one bill gave. */
  method FileAttempt(script: Script, bill: Json, attempt: Attempt, relevant0: seq<Json>, notRelevant0: seq<Json>)
    returns (relevantResults: seq<Json>, notRelevantResults: seq<Json>)
    ensures var added := Filing(script, bill, attempt);
      relevantResults == relevant0 + added.0 && notRelevantResults == notRelevant0 + added.1
  {
    relevantResults, notRelevantResults := relevant0, notRelevant0;
    match attempt {
      case Skipped =>
      case Raised(e) =>
        notRelevantResults := notRelevantResults + [ErrorEntry(script, bill, e)];
      case Filed(analysis, displayError) =>
        var result := ResultEntry(script, bill, analysis);
        if IsRelevant(analysis) {
          relevantResults := relevantResults + [result];
        } else {
          notRelevantResults := notRelevantResults + [result];
        }
        if displayError.Some? {
          notRelevantResults := notRelevantResults + [ErrorEntry(script, bill, displayError.value)];
        }
    }
  }

  lemma {:induction false} LoopStops(script: Script, attempts: Json -> Attempt, bills: seq<Json>, n: nat)
    requires n <= |bills| && Loop(script, attempts, bills[..n]).Err?
    ensures Loop(script, attempts, bills) == Loop(script, attempts, bills[..n])
    decreases |bills|
  {
    if n < |bills| {
      assert bills[..|bills| - 1][..n] == bills[..n];
      LoopStops(script, attempts, bills[..|bills| - 1], n);
    } else {
      assert bills[..n] == bills;
    }
  }

  /** The analysis part of a filed entry. */
  function AnalysisOf(entry: Json): Json {
    if entry.Obj? then GetOr(entry.fields, "analysis", Null) else Null
  }

  /** An entry whose analysis says it is relevant. */
  predicate Flagged(entry: Json) {
    AnalysisOf(entry).Obj? && IsRelevant(AnalysisOf(entry).fields)
  }

  /** An entry the error count can read: a dict whose `analysis` is a
      dict. */
  predicate Counted(entry: Json) {
    entry.Obj? && AnalysisOf(entry).Obj?
  }

  /** An entry whose analysis carries an `error` key. */
  predicate HasError(entry: Json) {
    AnalysisOf(entry).Obj? && HasKey(AnalysisOf(entry).fields, "error")
  }

  lemma ResultEntryAnalysis(script: Script, bill: Json, analysis: Fields)
    ensures AnalysisOf(ResultEntry(script, bill, analysis)) == Obj(analysis)
  {
    var fs := ResultEntry(script, bill, analysis).fields;
    LookupCons(fs[0], fs[1..], "analysis");
    LookupCons(fs[1], [], "analysis");
  }

  /** An error entry is not relevant and carries its error. */
  lemma ErrorEntryAnalysis(script: Script, bill: Json, e: Exc)
    ensures !Flagged(ErrorEntry(script, bill, e)) && HasError(ErrorEntry(script, bill, e))
  {
    var fs := ErrorEntry(script, bill, e).fields;
    LookupCons(fs[0], fs[1..], "analysis");
    LookupCons(fs[1], [], "analysis");
    var a := fs[1].1.fields;
    LookupCons(a[0], a[1..], "is_relevant");
    LookupCons(a[1], [], "is_relevant");
    LookupCons(a[0], a[1..], "error");
  }

  /** What one bill files: relevant results go to the relevant list and
      nothing else does. */
  lemma FilingByRelevance(script: Script, bill: Json, attempt: Attempt)
    ensures var added := Filing(script, bill, attempt);
      (forall x :: x in added.0 ==> Flagged(x)) && (forall x :: x in added.1 ==> !Flagged(x))
  {
    match attempt {
      case Skipped =>
      case Raised(e) =>
        ErrorEntryAnalysis(script, bill, e);
      case Filed(analysis, displayError) =>
        FiledRouting(script, bill, analysis, displayError);
    }
  }

  lemma FiledRouting(script: Script, bill: Json, analysis: Fields, displayError: Option<Exc>)
    ensures var added := Filing(script, bill, Filed(analysis, displayError));
      (forall x :: x in added.0 ==> Flagged(x)) && (forall x :: x in added.1 ==> !Flagged(x))
  {
    ResultEntryAnalysis(script, bill, analysis);
    var result := ResultEntry(script, bill, analysis);
    var after: seq<Json> := [];
    if displayError.Some? {
      ErrorEntryAnalysis(script, bill, displayError.value);
      after := [ErrorEntry(script, bill, displayError.value)];
    }
    assert forall x :: x in after ==> !Flagged(x);
    if IsRelevant(analysis) {
      assert Filing(script, bill, Filed(analysis, displayError)) == ([result], after);
    } else {
      assert Filing(script, bill, Filed(analysis, displayError)) == ([], [result] + after);
    }
  }

  /** Every entry of the relevant list says it is relevant, and no entry of
      the other list does: error entries carry `is_relevant: False`. */
  lemma {:induction false} FiledByRelevance(script: Script, attempts: Json -> Attempt, bills: seq<Json>)
    requires Loop(script, attempts, bills).Ok?
    ensures var lists := Loop(script, attempts, bills).value;
      (forall x :: x in lists.0 ==> Flagged(x)) && (forall x :: x in lists.1 ==> !Flagged(x))
    decreases |bills|
  {
    if |bills| > 0 {
      var bill := bills[|bills| - 1];
      FiledByRelevance(script, attempts, bills[..|bills| - 1]);
      FilingByRelevance(script, bill, attempts(bill));
    }
  }

  /** A bill whose number finds no id is skipped: it adds to neither list. */
  lemma SkippedAddsNothing(script: Script, lookup: map<Json, Json>, analyze: Analyzer, bills: seq<Json>, bill: Json)
    requires Heading(bill).Ok?
    requires var id := BillIdOf(lookup, GetOr(bill.fields, "bill_number", Null)); id.Ok? && !Truthy(id.value)
    ensures Loop(script, Attempts(script, lookup, analyze), bills + [bill]) == Loop(script, Attempts(script, lookup, analyze), bills)
  {
    assert Attempts(script, lookup, analyze)(bill) == Skipped;
    LoopAppend(script, Attempts(script, lookup, analyze), bills, bill);
    match Loop(script, Attempts(script, lookup, analyze), bills) {
      case Err(_) =>
      case Ok(lists) =>
        assert lists.0 + [] == lists.0 && lists.1 + [] == lists.1;
    }
  }

  /** An exception in the `try` files one error entry, with the exception's
      message, in the not-relevant list. */
  lemma RaisedFilesError(script: Script, lookup: map<Json, Json>, analyze: Analyzer, bills: seq<Json>, bill: Json)
    requires Heading(bill).Ok? && Try(script, lookup, analyze, bill).Raised?
    requires Loop(script, Attempts(script, lookup, analyze), bills).Ok?
    ensures var before := Loop(script, Attempts(script, lookup, analyze), bills).value;
      var e := Try(script, lookup, analyze, bill).exc;
      Loop(script, Attempts(script, lookup, analyze), bills + [bill]) == Ok((before.0, before.1 + [ErrorEntry(script, bill, e)]))
  {
    assert Attempts(script, lookup, analyze)(bill) == Try(script, lookup, analyze, bill);
    LoopAppend(script, Attempts(script, lookup, analyze), bills, bill);
    assert Loop(script, Attempts(script, lookup, analyze), bills).value.0 + [] == Loop(script, Attempts(script, lookup, analyze), bills).value.0;
  }

  /** How many bills were not skipped, and how many displays raised. */
  function Kept(script: Script, attempts: Json -> Attempt, bills: seq<Json>): nat
    decreases |bills|
  {
    if |bills| == 0 then 0
    else
      var bill := bills[|bills| - 1];
      Kept(script, attempts, bills[..|bills| - 1]) +
      if !attempts(bill).Skipped? then 1 else 0
  }

  function DisplayFailures(script: Script, attempts: Json -> Attempt, bills: seq<Json>): nat
    decreases |bills|
  {
    if |bills| == 0 then 0
    else
      var bill := bills[|bills| - 1];
      var attempt := attempts(bill);
      DisplayFailures(script, attempts, bills[..|bills| - 1]) +
      if attempt.Filed? && attempt.displayError.Some? then 1 else 0
  }

  /** The two lists hold one entry per bill not skipped, plus one error
      entry per display that raised after its result was filed. */
  lemma {:induction false} LoopCounts(script: Script, attempts: Json -> Attempt, bills: seq<Json>)
    requires Loop(script, attempts, bills).Ok?
    ensures var lists := Loop(script, attempts, bills).value;
      |lists.0| + |lists.1| == Kept(script, attempts, bills) + DisplayFailures(script, attempts, bills)
    decreases |bills|
  {
    if |bills| > 0 {
      var front := bills[..|bills| - 1];
      LoopCounts(script, attempts, front);
      StepCounts(script, attempts, Loop(script, attempts, front).value, bills[|bills| - 1]);
    }
  }

  lemma StepCounts(script: Script, attempts: Json -> Attempt, lists: (seq<Json>, seq<Json>), bill: Json)
    requires Step(script, attempts, lists, bill).Ok?
    ensures var after := Step(script, attempts, lists, bill).value; var a := attempts(bill);
      |after.0| + |after.1| == |lists.0| + |lists.1| +
        (if a.Skipped? then 0 else 1) + (if a.Filed? && a.displayError.Some? then 1 else 0)
  {
  }

  /** A bill whose result was filed relevant and whose display then raised
      ends up in both lists. */
  lemma BothLists(script: Script, lookup: map<Json, Json>, analyze: Analyzer, bill: Json)
    requires Heading(bill).Ok?
    requires var a := Try(script, lookup, analyze, bill); a.Filed? && IsRelevant(a.analysis) && a.displayError.Some?
    ensures var a := Try(script, lookup, analyze, bill);
      Loop(script, Attempts(script, lookup, analyze), [bill]) ==
        Ok(([ResultEntry(script, bill, a.analysis)], [ErrorEntry(script, bill, a.displayError.value)]))
  {
    var a := Try(script, lookup, analyze, bill);
    assert Attempts(script, lookup, analyze)(bill) == a;
    LoopAppend(script, Attempts(script, lookup, analyze), [], bill);
    assert [] + [bill] == [bill];
    var added := ([ResultEntry(script, bill, a.analysis)], [ErrorEntry(script, bill, a.displayError.value)]);
    assert Filing(script, bill, a) == added;
    assert Loop(script, Attempts(script, lookup, analyze), []) == Ok(([], []));
    assert Step(script, Attempts(script, lookup, analyze), ([], []), bill) == Ok(([] + added.0, [] + added.1));
    assert [] + added.0 == added.0 && [] + added.1 == added.1;
  }

  /** A concrete case: a relevant analysis whose `categories` is null
      cannot be joined for display, so the bill is filed relevant and also
      gets an error entry. */
  lemma NullCategoriesFiledTwice(script: Script)
    requires script.format(Obj([("bill_number", Str("HB 1")), ("title", Str("T")), ("url", Str("U"))])).Ok?
    ensures var bill := Obj([("bill_number", Str("HB 1")), ("title", Str("T")), ("url", Str("U"))]);
      var lookup := map[Str("HB 1") := Obj([("bill_id", Int(7))])];
      var analysis := [("is_relevant", Bool(true)), ("categories", Null)];
      var lists := Loop(script, Attempts(script, lookup, (text, id) => Ok(Obj(analysis))), [bill]);
      lists == Ok(([ResultEntry(script, bill, analysis)], [ErrorEntry(script, bill, TypeError("can only join an iterable"))]))
  {
    var bill := Obj([("bill_number", Str("HB 1")), ("title", Str("T")), ("url", Str("U"))]);
    var lookup := map[Str("HB 1") := Obj([("bill_id", Int(7))])];
    var analysis := [("is_relevant", Bool(true)), ("categories", Null)];
    var analyze: Analyzer := (text, id) => Ok(Obj(analysis));
    assert bill == SampleBill("HB 1", "T", "U");
    SampleBillHeading("HB 1", "T", "U");
    SampleBillId("HB 1", 7);
    NullCategoriesDisplay();
    TryFiles(script, lookup, analyze, bill, Int(7), analysis);
    BothLists(script, lookup, analyze, bill);
  }

  /** A bill whose id is found and whose analysis is a dict is filed with
      that analysis. */
  lemma TryFiles(script: Script, lookup: map<Json, Json>, analyze: Analyzer, bill: Json, id: Json, analysis: Fields)
    requires bill.Obj? && BillIdOf(lookup, GetOr(bill.fields, "bill_number", Null)) == Ok(id) && Truthy(id)
    requires script.format(bill).Ok? && analyze(script.format(bill).value, id) == Ok(Obj(analysis))
    ensures Try(script, lookup, analyze, bill) == Filed(analysis, Display(analysis))
  {
  }

  /** A bill with a number, a title and a url, as in the sample below. */
  function SampleBill(number: string, title: string, url: string): Json {
    Obj([("bill_number", Str(number)), ("title", Str(title)), ("url", Str(url))])
  }

  lemma SampleBillFields(number: string, title: string, url: string)
    ensures var fs := SampleBill(number, title, url).fields;
      Lookup(fs, "bill_number") == Some(Str(number)) && Lookup(fs, "title") == Some(Str(title)) &&
      Lookup(fs, "url") == Some(Str(url))
  {
    var fs := SampleBill(number, title, url).fields;
    LookupCons(fs[0], fs[1..], "bill_number");
    LookupCons(fs[0], fs[1..], "title");
    LookupCons(fs[1], fs[2..], "title");
    LookupCons(fs[0], fs[1..], "url");
    LookupCons(fs[1], fs[2..], "url");
    LookupCons(fs[2], [], "url");
  }

  lemma SampleBillHeading(number: string, title: string, url: string)
    ensures Heading(SampleBill(number, title, url)).Ok?
    ensures GetOr(SampleBill(number, title, url).fields, "bill_number", Null) == Str(number)
  {
    SampleBillFields(number, title, url);
  }

  lemma SampleBillId(number: string, id: int)
    ensures BillIdOf(map[Str(number) := Obj([("bill_id", Int(id))])], Str(number)) == Ok(Int(id))
  {
    LookupCons(("bill_id", Int(id)), [], "bill_id");
  }

  lemma NullCategoriesDisplay()
    ensures Display([("is_relevant", Bool(true)), ("categories", Null)]) == Some(TypeError("can only join an iterable"))
  {
    var analysis := [("is_relevant", Bool(true)), ("categories", Null)];
    LookupCons(analysis[0], analysis[1..], "is_relevant");
    LookupCons(analysis[0], analysis[1..], "categories");
    LookupCons(analysis[1], [], "categories");
    assert IsRelevant(analysis);
    assert GetOr(analysis, "categories", Arr([])) == Null;
    assert JoinError(Null) == Some(TypeError("can only join an iterable"));
  }

  /** What one bill adds when a display error is only reported: the bill
      stays where its analysis filed it. */
  function FilingOnce(script: Script, bill: Json, attempt: Attempt): (seq<Json>, seq<Json>) {
    match attempt
    case Skipped => ([], [])
    case Raised(e) => ([], [ErrorEntry(script, bill, e)])
    case Filed(analysis, _) =>
      var result := ResultEntry(script, bill, analysis);
      if IsRelevant(analysis) then ([result], []) else ([], [result])
  }

  /** The loop with display errors only reported. */
  function LoopOnce(script: Script, attempts: Json -> Attempt, bills: seq<Json>): Result<(seq<Json>, seq<Json>)>
    decreases |bills|
  {
    if |bills| == 0 then Ok(([], []))
    else
      match LoopOnce(script, attempts, bills[..|bills| - 1])
      case Err(e) => Err(e)
      case Ok(lists) =>
        var bill := bills[|bills| - 1];
        match Heading(bill)
        case Err(e) => Err(e)
        case Ok(_) =>
          var added := FilingOnce(script, bill, attempts(bill));
          Ok((lists.0 + added.0, lists.1 + added.1))
  }

  /** With display errors only reported, every bill not skipped lands in
      exactly one list, by its relevance. */
  lemma {:induction false} FiledOnce(script: Script, attempts: Json -> Attempt, bills: seq<Json>)
    requires LoopOnce(script, attempts, bills).Ok?
    ensures var lists := LoopOnce(script, attempts, bills).value;
      |lists.0| + |lists.1| == Kept(script, attempts, bills) &&
      (forall x :: x in lists.0 ==> Flagged(x)) && (forall x :: x in lists.1 ==> !Flagged(x))
    decreases |bills|
  {
    if |bills| > 0 {
      var bill := bills[|bills| - 1];
      FiledOnce(script, attempts, bills[..|bills| - 1]);
      FilingOnceShape(script, bill, attempts(bill));
    }
  }

  lemma FilingOnceShape(script: Script, bill: Json, attempt: Attempt)
    ensures var added := FilingOnce(script, bill, attempt);
      |added.0| + |added.1| == (if attempt.Skipped? then 0 else 1) &&
      (forall x :: x in added.0 ==> Flagged(x)) && (forall x :: x in added.1 ==> !Flagged(x))
  {
    match attempt {
      case Skipped =>
      case Raised(e) =>
        ErrorEntryAnalysis(script, bill, e);
      case Filed(analysis, _) =>
        ResultEntryAnalysis(script, bill, analysis);
    }
  }

  /** `sum(1 for r in not_relevant_results if 'error' in r['analysis'])` */
  function ErrorCount(entries: seq<Json>): Result<nat>
    decreases |entries|
  {
    if |entries| == 0 then Ok(0)
    else
      var before :- ErrorCount(entries[..|entries| - 1]);
      var analysis :- Index(entries[|entries| - 1], "analysis");
      var hit :- Contains(analysis, "error");
      Ok(before + if hit then 1 else 0)
  }

  lemma {:induction false} ErrorCountAppend(a: seq<Json>, b: seq<Json>)
    requires forall x :: x in b ==> Counted(x)
    ensures ErrorCount(a).Ok? ==> ErrorCount(a + b).Ok?
    ensures ErrorCount(a).Ok? ==> ErrorCount(a + b).value == ErrorCount(a).value + Count(b)
    decreases |b|
  {
    if |b| > 0 {
      var front := b[..|b| - 1];
      assert forall x :: x in front ==> x in b;
      ErrorCountAppend(a, front);
      assert (a + b)[..|a + b| - 1] == a + front;
      assert b[|b| - 1] in b;
    } else {
      assert a + b == a;
    }
  }

  /** How many entries carry an error. */
  function Count(entries: seq<Json>): nat
    decreases |entries|
  {
    if |entries| == 0 then 0
    else Count(entries[..|entries| - 1]) + if HasError(entries[|entries| - 1]) then 1 else 0
  }

  /** How many bills raised inside the `try`, counting displays. */
  function Failures(script: Script, attempts: Json -> Attempt, bills: seq<Json>): nat
    decreases |bills|
  {
    if |bills| == 0 then 0
    else
      var bill := bills[|bills| - 1];
      var attempt := attempts(bill);
      Failures(script, attempts, bills[..|bills| - 1]) +
      if attempt.Raised? || (attempt.Filed? && attempt.displayError.Some?) then 1 else 0
  }

  lemma EntryShape(script: Script, bill: Json, attempt: Attempt)
    ensures forall x :: x in Filing(script, bill, attempt).1 ==> Counted(x)
    ensures Count(Filing(script, bill, attempt).1) >= if attempt.Raised? || (attempt.Filed? && attempt.displayError.Some?) then 1 else 0
  {
    var added := Filing(script, bill, attempt).1;
    match attempt {
      case Skipped =>
      case Raised(e) =>
        ErrorEntryAnalysis(script, bill, e);
        assert added[..0] == [];
      case Filed(analysis, displayError) =>
        FiledEntryShape(script, bill, analysis, displayError);
    }
  }

  lemma FiledEntryShape(script: Script, bill: Json, analysis: Fields, displayError: Option<Exc>)
    ensures var added := Filing(script, bill, Filed(analysis, displayError)).1;
      (forall x :: x in added ==> Counted(x)) &&
      Count(added) >= if displayError.Some? then 1 else 0
  {
    ResultEntryAnalysis(script, bill, analysis);
    var result := ResultEntry(script, bill, analysis);
    assert Counted(result);
    var front: seq<Json> := if IsRelevant(analysis) then [] else [result];
    assert forall x :: x in front ==> Counted(x);
    if displayError.Some? {
      var err := ErrorEntry(script, bill, displayError.value);
      ErrorEntryAnalysis(script, bill, displayError.value);
      assert Filing(script, bill, Filed(analysis, displayError)).1 == front + [err];
      ErrorAppended(front, err);
    } else {
      assert Filing(script, bill, Filed(analysis, displayError)).1 == front;
    }
  }

  /** An error entry after counted entries: all are counted, and the
      count goes up by one. */
  lemma ErrorAppended(front: seq<Json>, err: Json)
    requires forall x :: x in front ==> Counted(x)
    requires Counted(err) && HasError(err)
    ensures forall x :: x in front + [err] ==> Counted(x)
    ensures Count(front + [err]) == Count(front) + 1
  {
    assert (front + [err])[..|front|] == front;
  }

  /** The error count covers every exception the loop caught: each one
      filed an error entry. */
  lemma {:induction false} ErrorsCounted(script: Script, attempts: Json -> Attempt, bills: seq<Json>)
    requires Loop(script, attempts, bills).Ok?
    ensures var lists := Loop(script, attempts, bills).value;
      ErrorCount(lists.1).Ok? && ErrorCount(lists.1).value >= Failures(script, attempts, bills)
    decreases |bills|
  {
    if |bills| > 0 {
      var front := bills[..|bills| - 1];
      var bill := bills[|bills| - 1];
      ErrorsCounted(script, attempts, front);
      var attempt := attempts(bill);
      EntryShape(script, bill, attempt);
      ErrorCountAppend(Loop(script, attempts, front).value.1, Filing(script, bill, attempt).1);
    }
  }

  // ---------------------------------------------------------------------
  // The summary, after both result files are written

  /** `all_categories`: each relevant entry whose analysis has no `error`
      extends it with that analysis's `categories` (default `[]`), which
      must be iterable. */
  function Categories(relevant: seq<Json>): (r: Result<seq<Json>>)
    ensures r.Ok? ==> forall x :: x in relevant ==> x.Obj? && HasKey(x.fields, "analysis")
    decreases |relevant|
  {
    if |relevant| == 0 then Ok([])
    else
      var before :- Categories(relevant[..|relevant| - 1]);
      var last := relevant[|relevant| - 1];
      var analysis :- Index(last, "analysis");
      var hasError :- Contains(analysis, "error");
      if hasError then
        assert relevant == relevant[..|relevant| - 1] + [last];
        Ok(before)
      else if !analysis.Obj? then Err(AttributeError("'" + TypeName(analysis) + "' object has no attribute 'get'"))
      else
        var items :- Iter(GetOr(analysis.fields, "categories", Arr([])));
        assert relevant == relevant[..|relevant| - 1] + [last];
        Ok(before + items)
  }

  /** `Counter(items)`: counting raises at the first unhashable item. */
  function Tally(items: seq<Json>): (r: Result<()>)
    ensures r.Ok? <==> forall i :: 0 <= i < |items| ==> Hashable(items[i])
    ensures r.Err? ==> exists i :: 0 <= i < |items| && r == Err(TypeError("unhashable type: '" + TypeName(items[i]) + "'"))
    decreases |items|
  {
    if |items| == 0 then Ok(())
    else if !Hashable(items[0]) then Err(TypeError("unhashable type: '" + TypeName(items[0]) + "'"))
    else
      var r := Tally(items[1..]);
      assert forall i :: 1 <= i < |items| ==> items[i] == items[1..][i - 1];
      r
  }

  /** `{total_relevant/total_analyzed*100:.1f}`: true division by zero. */
  const DivisionByZero: Exc := ZeroDivisionError("division by zero")

  /** The summary both scripts log once the result files are written: the
      error count, the two percentages of the `processed` bills, and the
      category distribution. It completes exactly when the count can be
      taken, some bill was processed, the categories can be gathered and
      every one of them can be counted; an empty run raises at the first
      percentage. */
  function Summary(processed: nat, relevant: seq<Json>, notRelevant: seq<Json>): (r: Result<()>)
    ensures r.Ok? <==>
      ErrorCount(notRelevant).Ok? && processed > 0 && Categories(relevant).Ok? &&
      forall i :: 0 <= i < |Categories(relevant).value| ==> Hashable(Categories(relevant).value[i])
    ensures ErrorCount(notRelevant).Ok? && processed == 0 ==> r == Err(DivisionByZero)
  {
    var _ :- ErrorCount(notRelevant);
    if processed == 0 then Err(DivisionByZero)
    else
      var categories :- Categories(relevant);
      if |categories| == 0 then Ok(()) else Tally(categories)
  }

  /** A result entry whose analysis has no `error` and null `categories`
      cannot be gathered. */
  lemma NullCategoriesNotGathered(script: Script, bill: Json, analysis: Fields)
    requires !HasKey(analysis, "error") && GetOr(analysis, "categories", Arr([])) == Null
    ensures Categories([ResultEntry(script, bill, analysis)]) == Err(TypeError("'NoneType' object is not iterable"))
  {
    var result := ResultEntry(script, bill, analysis);
    ResultEntryAnalysis(script, bill, analysis);
    assert Index(result, "analysis") == Ok(Obj(analysis));
    assert Contains(Obj(analysis), "error") == Ok(false);
    assert [result][..0] == [];
    assert [result][..1] == [result];
  }

  /** A single error entry can be counted. */
  lemma ErrorEntryCounted(script: Script, bill: Json, e: Exc)
    ensures ErrorCount([ErrorEntry(script, bill, e)]).Ok?
  {
    ErrorEntryAnalysis(script, bill, e);
    assert [ErrorEntry(script, bill, e)][..0] == [];
  }

  /** After the writes, a relevant analysis whose `categories` is null
      stops the summary: `extend(None)` raises TypeError. The display has
      already filed the bill in both lists. */
  lemma NullCategoriesStopSummary(script: Script, lookup: map<Json, Json>, analyze: Analyzer, bill: Json)
    requires Heading(bill).Ok?
    requires var a := Try(script, lookup, analyze, bill);
      a.Filed? && IsRelevant(a.analysis) && !HasKey(a.analysis, "error") &&
      GetOr(a.analysis, "categories", Arr([])) == Null
    ensures var lists := Loop(script, Attempts(script, lookup, analyze), [bill]);
      lists.Ok? && Summary(1, lists.value.0, lists.value.1) == Err(TypeError("'NoneType' object is not iterable"))
  {
    var a := Try(script, lookup, analyze, bill);
    assert JoinError(Null).Some?;
    assert Display(a.analysis).Some?;
    BothLists(script, lookup, analyze, bill);
    NullCategoriesNotGathered(script, bill, a.analysis);
    ErrorEntryCounted(script, bill, a.displayError.value);
  }
}

=== FILE: analyze_bill_stats.dfy ===
/** The statistics script: over a file of analysis results, counts the
    entries, picks out the ones whose bill carries a similarity score, and
    reports the highest and the lowest scored bill. */
module AnalyzeBillStats {
  import opened Wrappers
  import opened PyJson

  /** An entry of `bills_with_scores`. */
  datatype Scored = Scored(billId: Json, billNumber: Json, title: Json, score: Json)

  /** The statistics of a file; `highest` and `lowest` are None when no
      entry has a score. */
  datatype Stats = Stats(totalBills: nat, totalWithScores: nat, highest: Option<Scored>, lowest: Option<Scored>, file: string)

  /** The `try` block for one entry: `entry.get('bill', {})`, its
      `extra_metadata` (default `{}`), and its `similarity_score`. An entry
      along whose path a value is not a dict raises AttributeError, which
      skips it, and so does a score that is None. */
  function ScoredEntry(entry: Json): (r: Option<Scored>)
    ensures r.Some? ==>
      entry.Obj? && GetOr(entry.fields, "bill", Obj([])).Obj? &&
      var info := GetOr(entry.fields, "bill", Obj([])).fields;
      GetOr(info, "extra_metadata", Obj([])).Obj? &&
      var extra := GetOr(info, "extra_metadata", Obj([])).fields;
      r.value == Scored(GetOr(extra, "bill_id", Null), GetOr(info, "bill_number", Null), GetOr(info, "title", Null),
                        GetOr(extra, "similarity_score", Null)) &&
      r.value.score != Null
  {
    if !entry.Obj? then None
    else
      var info := GetOr(entry.fields, "bill", Obj([]));
      if !info.Obj? then None
      else
        var extra := GetOr(info.fields, "extra_metadata", Obj([]));
        if !extra.Obj? then None
        else
          var score := GetOr(extra.fields, "similarity_score", Null);
          if score == Null then None
          else Some(Scored(GetOr(extra.fields, "bill_id", Null), GetOr(info.fields, "bill_number", Null),
                           GetOr(info.fields, "title", Null), score))
  }

  /** `bills_with_scores`: the scored entries, in file order. */
  function ScoredEntries(data: seq<Json>): (r: seq<Scored>)
    ensures |r| <= |data|
    ensures forall x :: x in r ==> exists e :: e in data && ScoredEntry(e) == Some(x)
    ensures forall e :: e in data && ScoredEntry(e).Some? ==> ScoredEntry(e).value in r
    decreases |data|
  {
    if |data| == 0 then []
    else
      var front := data[..|data| - 1];
      var last := data[|data| - 1];
      assert forall e :: e in front ==> e in data;
      assert forall e :: e in data ==> e in front || e == last;
      ScoredEntries(front) + match ScoredEntry(last) case Some(x) => [x] case None => []
  }

  /** The loop that builds `bills_with_scores`. */
  method CollectScores(data: seq<Json>) returns (billsWithScores: seq<Scored>)
    ensures billsWithScores == ScoredEntries(data)
  {
    billsWithScores := [];
    var i := 0;
    while i < |data|
      invariant 0 <= i <= |data|
      invariant billsWithScores == ScoredEntries(data[..i])
    {
      assert data[..i + 1][..i] == data[..i];
      var entry := ScoredEntry(data[i]);
      if entry.Some? {
        billsWithScores := billsWithScores + [entry.value];
      }
      i := i + 1;
    }
    assert data[..i] == data;
  }

  /** Every score is a number (a bool counts as one), so that scores compare
      and add up. */
  predicate AllNumbers(xs: seq<Scored>) {
    forall i :: 0 <= i < |xs| ==> IsNumber(xs[i].score)
  }

  function Score(x: Scored): real
    requires IsNumber(x.score)
  {
    NumValue(x.score)
  }

  /** The position of `max(xs, key=score)`: the first greatest score. */
  function Highest(xs: seq<Scored>): (r: nat)
    requires |xs| > 0 && AllNumbers(xs)
    ensures r < |xs|
    ensures forall j :: 0 <= j < |xs| ==> Score(xs[j]) <= Score(xs[r])
    ensures forall j :: 0 <= j < r ==> Score(xs[j]) < Score(xs[r])
    decreases |xs|
  {
    if |xs| == 1 then 0
    else
      var front := xs[..|xs| - 1];
      var k := Highest(front);
      assert forall j :: 0 <= j < |front| ==> front[j] == xs[j];
      if Score(xs[|xs| - 1]) > Score(xs[k]) then |xs| - 1 else k
  }

  /** The position of `min(xs, key=score)`: the first least score. */
  function Lowest(xs: seq<Scored>): (r: nat)
    requires |xs| > 0 && AllNumbers(xs)
    ensures r < |xs|
    ensures forall j :: 0 <= j < |xs| ==> Score(xs[r]) <= Score(xs[j])
    ensures forall j :: 0 <= j < r ==> Score(xs[r]) < Score(xs[j])
    decreases |xs|
  {
    if |xs| == 1 then 0
    else
      var front := xs[..|xs| - 1];
      var k := Lowest(front);
      assert forall j :: 0 <= j < |front| ==> front[j] == xs[j];
      if Score(xs[|xs| - 1]) < Score(xs[k]) then |xs| - 1 else k
  }

  /** `analyze_bill_file(file_path)` on the parsed file (None when it is
      missing or is not JSON): None unless the file holds a list; the
      counts; the first highest and first lowest scored entries. A score
      that is not a number makes the comparisons or the average raise
      TypeError. */
  function StatsOf(parsed: Option<Json>, file: string): (r: Result<Option<Stats>>)
    ensures parsed.None? || !parsed.value.Arr? ==> r == Ok(None)
    ensures parsed == Some(Arr([])) ==> r == Ok(Some(Stats(0, 0, None, None, file)))
    ensures r.Ok? && r.value.Some? ==>
      parsed.Some? && parsed.value.Arr? && r.value.value.totalBills == |parsed.value.items| && r.value.value.file == file
  {
    match parsed
    case None => Ok(None)
    case Some(data) =>
      if !data.Arr? then Ok(None)
      else if |data.items| == 0 then Ok(Some(Stats(0, 0, None, None, file)))
      else
        var scored := ScoredEntries(data.items);
        if |scored| == 0 then Ok(Some(Stats(|data.items|, 0, None, None, file)))
        else if !AllNumbers(scored) then Err(TypeError("unsupported operand type(s) for +"))
        else Ok(Some(Stats(|data.items|, |scored|, Some(scored[Highest(scored)]), Some(scored[Lowest(scored)]), file)))
  }

  /** `analyze_bill_file`, with its loop. */
  method AnalyzeBillFile(parsed: Option<Json>, file: string) returns (r: Result<Option<Stats>>)
    ensures r == StatsOf(parsed, file)
  {
    if parsed.None? || !parsed.value.Arr? {
      return Ok(None);
    }
    var data := parsed.value.items;
    if |data| == 0 {
      return Ok(Some(Stats(0, 0, None, None, file)));
    }
    var billsWithScores := CollectScores(data);
    if |billsWithScores| == 0 {
      return Ok(Some(Stats(|data|, 0, None, None, file)));
    }
    if !AllNumbers(billsWithScores) {
      return Err(TypeError("unsupported operand type(s) for +"));
    }
    var highest := billsWithScores[Highest(billsWithScores)];
    var lowest := billsWithScores[Lowest(billsWithScores)];
    r := Ok(Some(Stats(|data|, |billsWithScores|, Some(highest), Some(lowest), file)));
  }

  /** The statistics of a list: `total_with_scores` counts the scored
      entries and is at most `total_bills`; there is a highest and a lowest
      entry exactly when some entry is scored, each is one of the scored
      entries, the highest scores at least every scored entry and the
      lowest at most every one. */
  lemma ScoreBounds(data: seq<Json>, file: string)
    requires StatsOf(Some(Arr(data)), file).Ok?
    ensures var s := StatsOf(Some(Arr(data)), file).value.value;
      var scored := ScoredEntries(data);
      s.totalWithScores == |scored| && s.totalWithScores <= s.totalBills &&
      (s.highest.Some? <==> |scored| > 0) && (s.lowest.Some? <==> |scored| > 0) &&
      (s.highest.Some? ==>
        AllNumbers(scored) && s.highest.value in scored && s.lowest.value in scored &&
        forall x :: x in scored ==> Score(s.lowest.value) <= Score(x) <= Score(s.highest.value))
  {
    var scored := ScoredEntries(data);
    if |data| > 0 && |scored| > 0 {
      var hi := Highest(scored);
      var lo := Lowest(scored);
      forall x | x in scored
        ensures Score(scored[lo]) <= Score(x) <= Score(scored[hi])
      {
        var j :| 0 <= j < |scored| && scored[j] == x;
      }
    }
  }

  /** A list none of whose entries carries a score gives the length of the
      list and no score. */
  lemma NoScores(data: seq<Json>, file: string)
    requires forall e :: e in data ==> ScoredEntry(e).None?
    ensures StatsOf(Some(Arr(data)), file) == Ok(Some(Stats(|data|, 0, None, None, file)))
  {
    NoneScored(data);
  }

  lemma {:induction false} NoneScored(data: seq<Json>)
    requires forall e :: e in data ==> ScoredEntry(e).None?
    ensures ScoredEntries(data) == []
    decreases |data|
  {
    if |data| > 0 {
      var front := data[..|data| - 1];
      assert forall e :: e in front ==> e in data;
      NoneScored(front);
      assert data[|data| - 1] in data;
    }
  }

  /** An entry with a numeric score is counted, whatever else it lacks. */
  lemma ScoredWithScore(score: Json)
    requires IsNumber(score)
    ensures ScoredEntry(Obj([("bill", Obj([("extra_metadata", Obj([("similarity_score", score)]))]))])) ==
      Some(Scored(Null, Null, Null, score))
  {
    var extra := [("similarity_score", score)];
    var info := [("extra_metadata", Obj(extra))];
    var entry := [("bill", Obj(info))];
    LookupCons(entry[0], [], "bill");
    LookupCons(info[0], [], "extra_metadata");
    LookupCons(info[0], [], "bill_number");
    LookupCons(info[0], [], "title");
    LookupCons(extra[0], [], "similarity_score");
    LookupCons(extra[0], [], "bill_id");
  }
}

=== FILE: azure_blob_storage.dfy ===
/** The blob backend: one container whose blob names follow the layout of the
    storage contract. The container's contents are the map `blobs`, from blob
    name to the JSON document stored in it. */
module AzureBlobStorage {
  import opened Wrappers
  import opened PyStrings
  import opened PyJson
  import opened Sorting
  import opened StorageProvider

  datatype AzureSettings = AzureSettings(connectionString: string, container: Json)

  /** The constructor's checks: the connection string is read from the
      environment variable the config names (default
      `AZURE_STORAGE_CONNECTION_STRING`) and must be non-empty; the container
      name defaults to `legiscan-data`. */
  function Settings(config: Json, env: Env): (r: Result<AzureSettings>)
    ensures !config.Obj? ==> r.Err?
    ensures r.Ok? ==> r.value.connectionString != ""
    ensures config.Obj? && !HasKey(config.fields, "connection_string_env") ==>
      (r.Ok? <==> GetEnv(env, "AZURE_STORAGE_CONNECTION_STRING").GetOr("") != "")
    ensures r.Ok? && !HasKey(config.fields, "container_name") ==> r.value.container == Str("legiscan-data")
  {
    var name :- Get(config, "connection_string_env", Str("AZURE_STORAGE_CONNECTION_STRING"));
    var value :- GetEnvAt(env, name);
    if value.None? || value.value == "" then
      Err(ValueError("Azure Storage connection string not found in environment variable: " + Text(name)))
    else
      Ok(AzureSettings(value.value, GetOr(config.fields, "container_name", Str("legiscan-data"))))
  }

  /** `_download_json`: the blob, or FileNotFoundError naming it. */
  function Download(blobs: Files, path: string): (r: Result<Json>)
    ensures r.Ok? <==> path in blobs
    ensures r.Ok? ==> r.value == blobs[path]
    ensures r.Err? ==> r.exc == FileNotFound("Blob not found: " + path)
  {
    if path in blobs then Ok(blobs[path]) else Err(FileNotFound("Blob not found: " + path))
  }

  /** `blob_name[len(prefix):-5]` with Python's slice clamping. */
  function SliceName(prefix: string, name: string): string {
    if |prefix| <= |name| - 5 then name[|prefix|..|name| - 5] else ""
  }

  /** The blobs a listing keeps: under the prefix, ending in `.json`. */
  function ListedBlobs(blobs: Files, prefix: string): set<string> {
    set k | k in blobs && StartsWith(k, prefix) && EndsWith(k, ".json")
  }

  /** A listed blob is the prefix, its listed name and `.json`, provided the
      prefix holds no `.`, so that prefix and extension cannot overlap. */
  lemma ListedBlobShape(prefix: string, k: string)
    requires '.' !in prefix
    requires StartsWith(k, prefix) && EndsWith(k, ".json")
    ensures k == prefix + SliceName(prefix, k) + ".json"
  {
    assert k[|k| - 5] == '.';
    assert k == k[..|prefix|] + k[|prefix|..|k| - 5] + k[|k| - 5..];
  }

  class AzureBlobStorage {
    const container: Json
    var blobs: Files

    constructor (settings: AzureSettings, existing: Files)
      ensures container == settings.container && blobs == existing
    {
      container := settings.container;
      blobs := existing;
    }

    /** `_upload_json`: always overwrites. */
    method UploadJson(path: string, data: Json)
      modifies this
      ensures blobs == old(blobs)[path := data]
    {
      blobs := blobs[path := data];
    }

    method DownloadJson(path: string) returns (r: Result<Json>)
      ensures r == Download(blobs, path)
    {
      if path !in blobs {
        return Err(FileNotFound("Blob not found: " + path));
      }
      r := Ok(blobs[path]);
    }

    method SaveRawData(filename: string, data: Json)
      modifies this
      ensures blobs == old(blobs)[RawPath(filename) := data]
    {
      UploadJson(RawPath(filename), data);
    }

    method LoadRawData(filename: string) returns (r: Result<Json>)
      ensures r == Download(blobs, RawPath(filename))
    {
      r := DownloadJson(RawPath(filename));
    }

    method SaveFilteredResults(runId: string, data: Json)
      modifies this
      ensures blobs == old(blobs)[FilteredPath(runId) := data]
    {
      UploadJson(FilteredPath(runId), data);
    }

    method LoadFilteredResults(runId: string) returns (r: Result<Json>)
      ensures r == LoadFiltered(blobs, runId)
    {
      var possible := Candidates(runId);
      var i := 0;
      while i < |possible|
        invariant 0 <= i <= |possible|
        invariant forall j :: 0 <= j < i ==> CandidatePath(possible[j]) !in blobs
      {
        var path := CandidatePath(possible[i]);
        if path in blobs {
          FirstExistingAt(blobs, possible, i);
          r := DownloadJson(path);
          return;
        }
        i := i + 1;
      }
      r := Err(FileNotFound("Filter results not found for run_id: " + runId));
    }

    method SaveAnalysisResults(runId: string, relevant: Json, notRelevant: Json)
      modifies this
      ensures blobs == old(blobs)[RelevantPath(runId) := relevant][NotRelevantPath(runId) := notRelevant]
    {
      UploadJson(RelevantPath(runId), relevant);
      UploadJson(NotRelevantPath(runId), notRelevant);
    }

    method LoadAnalysisResults(runId: string) returns (r: Result<(Json, Json)>)
      ensures r == LoadAnalysis(blobs, runId)
    {
      var relevant := Arr([]);
      if RelevantPath(runId) in blobs {
        var d := DownloadJson(RelevantPath(runId));
        relevant := d.value;
      }
      var notRelevant := Arr([]);
      if NotRelevantPath(runId) in blobs {
        var d := DownloadJson(NotRelevantPath(runId));
        notRelevant := d.value;
      }
      if !Truthy(relevant) && !Truthy(notRelevant) {
        return Err(FileNotFound("Analysis results not found for run_id: " + runId));
      }
      r := Ok((relevant, notRelevant));
    }

    method GetBillFromCache(billId: Json) returns (r: Json)
      ensures r == CacheGet(blobs, billId)
    {
      var path := CachePath(billId);
      if path !in blobs { return Null; }
      var d := DownloadJson(path);
      r := d.value;
    }

    method SaveBillToCache(billId: Json, data: Json)
      modifies this
      ensures blobs == old(blobs)[CachePath(billId) := data]
    {
      UploadJson(CachePath(billId), data);
    }

    /** The names under `prefix`, without prefix and extension, sorted: one
        distinct name per listed blob. */
    method ListNames(prefix: string) returns (r: seq<string>)
      requires '.' !in prefix
      ensures StrictlySorted(r)
      ensures forall x :: x in r <==> exists k :: k in ListedBlobs(blobs, prefix) && SliceName(prefix, k) == x
      ensures |r| == |ListedBlobs(blobs, prefix)|
    {
      var listed := ListedBlobs(blobs, prefix);
      var names: set<string> := {};
      var rest := listed;
      while rest != {}
        invariant rest <= listed
        invariant |names| + |rest| == |listed|
        invariant forall x :: x in names <==> exists k :: k in listed && k !in rest && SliceName(prefix, k) == x
        decreases |rest|
      {
        var k :| k in rest;
        if SliceName(prefix, k) in names {
          var k' :| k' in listed && k' !in rest && SliceName(prefix, k') == SliceName(prefix, k);
          ListedBlobShape(prefix, k);
          ListedBlobShape(prefix, k');
          assert false;
        }
        names := names + {SliceName(prefix, k)};
        rest := rest - {k};
      }
      r := SortedNames(names);
    }

    method ListRawFiles() returns (r: seq<string>)
      ensures StrictlySorted(r)
      ensures forall x :: x in r <==> exists k :: k in ListedBlobs(blobs, RawPrefix) && SliceName(RawPrefix, k) == x
      ensures |r| == |ListedBlobs(blobs, RawPrefix)|
    {
      r := ListNames(RawPrefix);
    }

    method ListFilteredResults() returns (r: seq<string>)
      ensures StrictlySorted(r)
      ensures forall x :: x in r <==> exists k :: k in ListedBlobs(blobs, FilteredPrefix) && SliceName(FilteredPrefix, k) == x
      ensures |r| == |ListedBlobs(blobs, FilteredPrefix)|
    {
      r := ListNames(FilteredPrefix);
    }

    /** The bill list of a raw blob, or None (`Null`) when the lookup is caught. */
    method LocateBills(filename: string) returns (r: Result<Option<seq<Json>>>)
      ensures r == LocatedBills(Download(blobs, RawPath(filename)))
    {
      var loaded := LoadRawData(filename);
      if loaded.Err? {
        // the download raises only FileNotFoundError, which is caught
        return Ok(None);
      }
      var list := BillList(loaded.value);
      if list.Err? {
        return if Caught(list.exc) then Ok(None) else Err(list.exc);
      }
      if list.value.None? {
        return Ok(None);
      }
      var iter := Iter(list.value.value);
      if iter.Err? {
        return if Caught(iter.exc) then Ok(None) else Err(iter.exc);
      }
      r := Ok(Some(iter.value));
    }

    method BillExistsInRaw(billNumber: string, filename: string) returns (r: Result<bool>)
      ensures r == BillExists(Download(blobs, RawPath(filename)), billNumber)
    {
      var located := LocateBills(filename);
      if located.Err? { return Err(located.exc); }
      if located.value.None? { return Ok(false); }
      var bills := located.value.value;
      var i := 0;
      while i < |bills|
        invariant 0 <= i <= |bills|
        invariant forall j :: 0 <= j < i ==> !Matches(bills[j], billNumber)
      {
        if Matches(bills[i], billNumber) {
          return Ok(true);
        }
        i := i + 1;
      }
      r := Ok(false);
    }

    method GetBillByNumber(billNumber: string, filename: string) returns (r: Result<Json>)
      ensures r == BillByNumber(Download(blobs, RawPath(filename)), billNumber)
    {
      var located := LocateBills(filename);
      if located.Err? { return Err(located.exc); }
      if located.value.None? { return Ok(Null); }
      var bills := located.value.value;
      var i := 0;
      while i < |bills|
        invariant 0 <= i <= |bills|
        invariant forall j :: 0 <= j < i ==> !Matches(bills[j], billNumber)
      {
        if Matches(bills[i], billNumber) {
          FindBillAt(bills, billNumber, i);
          return Ok(bills[i]);
        }
        i := i + 1;
      }
      r := Ok(Null);
    }
  }
}

=== FILE: bill_index.dfy ===
/** The scripts' index of bills by number, `{bill['bill_number']: bill for
    bill in bills}`. */
module BillIndex {
  import opened Wrappers
  import opened PyJson

  /** A value a dict can be keyed by: lists and dicts are unhashable. */
  predicate Hashable(j: Json) {
    !(j.Arr? || j.Obj?)
  }

  function NumberOf(bill: Json): Json
    requires bill.Obj?
  {
    GetOr(bill.fields, "bill_number", Null)
  }

  /** `{bill['bill_number']: bill for bill in bills}`: each bill must be a
      dict with a hashable `bill_number`; a later bill replaces an earlier
      one with the same number. */
  function BillsByNumber(bills: seq<Json>): (r: Result<map<Json, Json>>)
    ensures r.Ok? ==> forall b :: b in bills ==> b.Obj? && HasKey(b.fields, "bill_number") && Hashable(NumberOf(b))
    ensures r.Ok? ==> forall n :: n in r.value ==> r.value[n].Obj? && NumberOf(r.value[n]) == n
    decreases |bills|
  {
    if |bills| == 0 then Ok(map[])
    else
      var index :- BillsByNumber(bills[..|bills| - 1]);
      var last := bills[|bills| - 1];
      var number :- Index(last, "bill_number");
      if !Hashable(number) then Err(TypeError("unhashable type: '" + TypeName(number) + "'"))
      else
        assert bills == bills[..|bills| - 1] + [last];
        Ok(index[number := last])
  }

  /** Every bill's number is a key of the index. */
  lemma {:induction false} NumberIndexed(bills: seq<Json>, i: nat)
    requires BillsByNumber(bills).Ok? && i < |bills|
    ensures bills[i] in bills && NumberOf(bills[i]) in BillsByNumber(bills).value
    decreases |bills|
  {
    var front := bills[..|bills| - 1];
    IndexStep(bills);
    if i < |front| {
      assert front[i] == bills[i];
      NumberIndexed(front, i);
    }
  }

  /** Every key of the index is some bill's number. */
  lemma {:induction false} IndexedNumber(bills: seq<Json>, n: Json)
    requires BillsByNumber(bills).Ok? && n in BillsByNumber(bills).value
    ensures exists i :: 0 <= i < |bills| && bills[i] in bills && NumberOf(bills[i]) == n
    decreases |bills|
  {
    var front := bills[..|bills| - 1];
    var last := bills[|bills| - 1];
    IndexStep(bills);
    if n != NumberOf(last) {
      IndexedNumber(front, n);
      var i :| 0 <= i < |front| && front[i] in front && NumberOf(front[i]) == n;
      assert bills[i] == front[i];
    }
  }

  /** A bill no later bill shares its number with is the one filed under it. */
  lemma {:induction false} LastBillFiled(bills: seq<Json>, i: nat)
    requires BillsByNumber(bills).Ok? && i < |bills| && bills[i] in bills
    requires forall j :: i < j < |bills| ==> bills[j] in bills && NumberOf(bills[j]) != NumberOf(bills[i])
    ensures NumberOf(bills[i]) in BillsByNumber(bills).value
    ensures BillsByNumber(bills).value[NumberOf(bills[i])] == bills[i]
    decreases |bills|
  {
    var front := bills[..|bills| - 1];
    var last := bills[|bills| - 1];
    IndexStep(bills);
    if i < |front| {
      assert front[i] == bills[i];
      assert last in bills && NumberOf(last) != NumberOf(bills[i]);
      forall j | i < j < |front|
        ensures front[j] in front && NumberOf(front[j]) != NumberOf(front[i])
      {
        assert front[j] == bills[j];
      }
      LastBillFiled(front, i);
    }
  }

  /** The index of a list is the index of all but its last bill, with the
      last bill filed under its number. */
  lemma IndexStep(bills: seq<Json>)
    requires BillsByNumber(bills).Ok? && |bills| > 0
    ensures var front := bills[..|bills| - 1];
      var last := bills[|bills| - 1];
      BillsByNumber(front).Ok? && last.Obj? &&
      BillsByNumber(bills).value == BillsByNumber(front).value[NumberOf(last) := last]
  {
    assert bills[|bills| - 1] in bills;
  }

  /** Each number is mapped to the last bill that has it. */
  lemma LastBillWins(bills: seq<Json>)
    requires BillsByNumber(bills).Ok?
    ensures forall b :: b in bills ==> b.Obj?
    ensures var index := BillsByNumber(bills).value;
      forall i :: 0 <= i < |bills| && (forall j :: i < j < |bills| ==> bills[j] in bills && NumberOf(bills[j]) != NumberOf(bills[i])) ==>
        bills[i] in bills && NumberOf(bills[i]) in index && index[NumberOf(bills[i])] == bills[i]
  {
    var index := BillsByNumber(bills).value;
    forall i | 0 <= i < |bills| && (forall j :: i < j < |bills| ==> bills[j] in bills && NumberOf(bills[j]) != NumberOf(bills[i]))
      ensures bills[i] in bills && NumberOf(bills[i]) in index && index[NumberOf(bills[i])] == bills[i]
    {
      LastBillFiled(bills, i);
    }
  }

  /** The keys of the index are exactly the bills' numbers. */
  lemma IndexKeys(bills: seq<Json>)
    requires BillsByNumber(bills).Ok?
    ensures forall n :: n in BillsByNumber(bills).value <==>
      exists i :: 0 <= i < |bills| && bills[i] in bills && NumberOf(bills[i]) == n
  {
    var index := BillsByNumber(bills).value;
    forall n
      ensures n in index <==> exists i :: 0 <= i < |bills| && bills[i] in bills && NumberOf(bills[i]) == n
    {
      if n in index {
        IndexedNumber(bills, n);
      }
      if exists i :: 0 <= i < |bills| && bills[i] in bills && NumberOf(bills[i]) == n {
        var i :| 0 <= i < |bills| && bills[i] in bills && NumberOf(bills[i]) == n;
        NumberIndexed(bills, i);
      }
    }
  }
}

=== FILE: chunking.dfy ===
/** Cutting a list into consecutive pieces of a fixed size, the arithmetic
    shared by the filter pass's batches and the results-file splitter:
    `(n + size - 1) // size` pieces, piece `i` being
    `xs[i*size : min(i*size + size, n)]`. */
module Chunking {

  /** `(n + size - 1) // size`: the least number of pieces of `size` items
      that hold `n` items. */
  function NumChunks(n: nat, size: nat): (r: nat)
    requires size > 0
    ensures n == 0 <==> r == 0
  {
    (n + size - 1) / size
  }

  /** The pieces hold all `n` items, and the last one is not empty. */
  lemma NumChunksBounds(n: nat, size: nat)
    requires size > 0
    ensures NumChunks(n, size) * size >= n
    ensures NumChunks(n, size) > 0 ==> (NumChunks(n, size) - 1) * size < n
  {
    var q := (n + size - 1) / size;
    var rem := (n + size - 1) % size;
    assert n + size - 1 == q * size + rem && 0 <= rem < size;
    assert (q - 1) * size == q * size - size;
  }

  lemma MulMonotone(a: nat, b: nat, size: nat)
    requires a <= b
    ensures a * size <= b * size
  {
  }

  /** Piece `i` starts inside the list; a piece before the last ends
      before the list does, and the last one holds at most `size` items. */
  lemma ChunkBounds(n: nat, size: nat, i: nat)
    requires size > 0 && i < NumChunks(n, size)
    ensures i * size < n
    ensures i < NumChunks(n, size) - 1 ==> i * size + size < n
    ensures n - i * size <= size || i < NumChunks(n, size) - 1
  {
    var total := NumChunks(n, size);
    NumChunksBounds(n, size);
    MulMonotone(i, total - 1, size);
    if i < total - 1 {
      MulMonotone(i + 1, total - 1, size);
      assert (i + 1) * size == i * size + size;
    } else {
      assert total * size == (total - 1) * size + size;
    }
  }

  function Min(a: int, b: int): int {
    if a < b then a else b
  }

  /** Piece `i`; every piece but the last is full, and none is empty. */
  function Chunk<T>(xs: seq<T>, size: nat, i: nat): (r: seq<T>)
    requires size > 0 && i < NumChunks(|xs|, size)
    ensures 0 < |r| <= size
    ensures i < NumChunks(|xs|, size) - 1 ==> |r| == size
    ensures i * size + |r| <= |xs|
    ensures r == xs[i * size..i * size + |r|]
    ensures i * size + |r| == Min(i * size + size, |xs|)
  {
    ChunkBounds(|xs|, size, i);
    xs[i * size..Min(i * size + size, |xs|)]
  }

  /** All the pieces, in order. */
  function Chunks<T>(xs: seq<T>, size: nat): (r: seq<seq<T>>)
    requires size > 0
    ensures |r| == NumChunks(|xs|, size)
    ensures forall i :: 0 <= i < |r| ==> r[i] == Chunk(xs, size, i)
  {
    seq(NumChunks(|xs|, size), i requires 0 <= i < NumChunks(|xs|, size) => Chunk(xs, size, i))
  }

  /** The pieces laid end to end. */
  function Concat<T>(parts: seq<seq<T>>): seq<T>
    decreases |parts|
  {
    if |parts| == 0 then [] else Concat(parts[..|parts| - 1]) + parts[|parts| - 1]
  }

  /** The first `k` pieces hold the first `min(k*size, n)` items. */
  lemma {:induction false} ChunksPrefix<T>(xs: seq<T>, size: nat, k: nat)
    requires size > 0 && k <= NumChunks(|xs|, size)
    ensures Concat(Chunks(xs, size)[..k]) == xs[..Min(k * size, |xs|)]
  {
    var parts := Chunks(xs, size);
    if k == 0 {
      assert parts[..0] == [];
    } else {
      ChunksPrefix(xs, size, k - 1);
      var start := (k - 1) * size;
      var stop := Min(k * size, |xs|);
      ChunkEnds(xs, size, k - 1);
      calc {
        Concat(parts[..k]);
        { assert parts[..k][..k - 1] == parts[..k - 1]; }
        Concat(parts[..k - 1]) + parts[k - 1];
        xs[..start] + xs[start..stop];
        { JoinSlices(xs, start, stop); }
        xs[..stop];
      }
    }
  }

  /** Piece `i` runs from `i*size` to `min((i+1)*size, n)`. */
  lemma ChunkEnds<T>(xs: seq<T>, size: nat, i: nat)
    requires size > 0 && i < NumChunks(|xs|, size)
    ensures i * size <= Min((i + 1) * size, |xs|) <= |xs|
    ensures Min(i * size, |xs|) == i * size
    ensures Chunk(xs, size, i) == xs[i * size..Min((i + 1) * size, |xs|)]
  {
    ChunkBounds(|xs|, size, i);
    assert (i + 1) * size == i * size + size;
  }

  lemma JoinSlices<T>(xs: seq<T>, a: nat, b: nat)
    requires a <= b <= |xs|
    ensures xs[..a] + xs[a..b] == xs[..b]
  {
  }

  /** The pieces concatenate back to the whole list. */
  lemma ChunksConcat<T>(xs: seq<T>, size: nat)
    requires size > 0
    ensures Concat(Chunks(xs, size)) == xs
  {
    var parts := Chunks(xs, size);
    NumChunksBounds(|xs|, size);
    ChunksPrefix(xs, size, |parts|);
    assert parts[..|parts|] == parts;
    assert xs[..Min(|parts| * size, |xs|)] == xs;
  }

  /** Laying out two groups of pieces is laying out each. */
  lemma {:induction false} ConcatAppend<T>(a: seq<seq<T>>, b: seq<seq<T>>)
    ensures Concat(a + b) == Concat(a) + Concat(b)
    decreases |b|
  {
    if |b| == 0 {
      assert a + b == a;
    } else {
      var front := b[..|b| - 1];
      var last := b[|b| - 1];
      assert (a + b)[..|a + b| - 1] == a + front;
      assert (a + b)[|a + b| - 1] == last;
      ConcatAppend(a, front);
      calc {
        Concat(a + b);
        Concat(a + front) + last;
        Concat(a) + Concat(front) + last;
        Concat(a) + (Concat(front) + last);
        Concat(a) + Concat(b);
      }
    }
  }
}

=== FILE: data_source_plugins.dfy ===
/** Data source plugins: files matched by glob patterns, database queries
    and REST APIs, each validating its configuration when it is built, and
    the plugin manager that builds the configured plugins and gathers
    their data. The file system listing, the database drivers and the
    HTTP client are parameters. */
module DataSourcePlugins {
  import opened Wrappers
  import opened PyStrings
  import opened PyJson

  /** An entry of the file system as `fetch_data` sees it: not a regular
      file, a file whose text could not be read, or a file's text. */
  datatype FsEntry = NotAFile | Unreadable | Text(content: string)

  /** The outside world the plugins read from. `glob` lists the paths a
      pattern matches (raising for a pattern that is not a str); `loads`
      parses JSON text; `query` runs a query for a database type with its
      connection settings (the SQLite path for `sqlite`) and parameters,
      giving the rows as dicts; `http` performs a request (method, URL,
      headers, params, JSON body) and gives the decoded reply. */
  datatype Sources = Sources(
    glob: (Json, Json) -> Result<seq<string>>,
    files: map<string, FsEntry>,
    loads: string -> Result<Json>,
    query: (string, Json, Json, Json) -> Result<seq<Json>>,
    http: (string, Json, Json, Json, Json) -> Result<Json>)

  /** A plugin class: one of the three built-in ones, or a registered
      class given by its name, its `validate_config` and its `fetch_data`. */
  datatype PluginClass =
    | FilesPlugin
    | DatabasePlugin
    | ApiPlugin
    | CustomPlugin(name: string, validate: Json -> Result<()>, fetch: Json -> Result<Json>)

  /** A built plugin: its class and its configuration. */
  datatype Plugin = Plugin(cls: PluginClass, config: Json)

  /** `FilesPlugin.validate_config` */
  function ValidateFiles(config: Json): (r: Result<()>)
    ensures config.Obj? ==> (r.Ok? <==> HasKey(config.fields, "patterns") && GetOr(config.fields, "patterns", Null).Arr?)
    ensures config.Obj? && !HasKey(config.fields, "patterns") ==>
      r == Err(ValueError("FilesPlugin requires 'patterns' in config"))
    ensures config.Obj? && HasKey(config.fields, "patterns") && !GetOr(config.fields, "patterns", Null).Arr? ==>
      r == Err(ValueError("FilesPlugin 'patterns' must be a list"))
  {
    var has :- Contains(config, "patterns");
    if !has then Err(ValueError("FilesPlugin requires 'patterns' in config"))
    else
      var patterns :- Index(config, "patterns");
      if !patterns.Arr? then Err(ValueError("FilesPlugin 'patterns' must be a list")) else Ok(())
  }

  const DbTypes: seq<string> := ["postgresql", "mysql", "sqlite"]

  /** `DatabasePlugin.validate_config`: `db_type` then `query` must be
      present; the type, lower-cased, must be one of the three; the two
      server databases need `connection`. */
  function ValidateDatabase(config: Json): (r: Result<()>)
    ensures config.Obj? ==>
      var fs := config.fields;
      var t := GetOr(fs, "db_type", Null);
      (r.Ok? <==> HasKey(fs, "db_type") && HasKey(fs, "query") && t.Str? && Lower(t.s) in DbTypes &&
                  (Lower(t.s) != "sqlite" ==> HasKey(fs, "connection")))
    ensures config.Obj? && !HasKey(config.fields, "db_type") ==>
      r == Err(ValueError("DatabasePlugin requires 'db_type' in config"))
    ensures config.Obj? && HasKey(config.fields, "db_type") && !HasKey(config.fields, "query") ==>
      r == Err(ValueError("DatabasePlugin requires 'query' in config"))
    ensures config.Obj? && HasKey(config.fields, "db_type") && HasKey(config.fields, "query") &&
            GetOr(config.fields, "db_type", Null).Str? && Lower(GetOr(config.fields, "db_type", Null).s) !in DbTypes ==>
      r == Err(ValueError("Unsupported db_type: " + Lower(GetOr(config.fields, "db_type", Null).s)))
  {
    var hasType :- Contains(config, "db_type");
    if !hasType then Err(ValueError("DatabasePlugin requires 'db_type' in config"))
    else
      var hasQuery := Contains(config, "query").value;
      if !hasQuery then Err(ValueError("DatabasePlugin requires 'query' in config"))
      else
        var typeJ :- Index(config, "db_type");
        var dbType :- LowerOf(typeJ);
        if dbType !in DbTypes then Err(ValueError("Unsupported db_type: " + dbType))
        else
          var hasConnection := Contains(config, "connection").value;
          if dbType in ["postgresql", "mysql"] && !hasConnection then
            Err(ValueError("DatabasePlugin requires 'connection' config for " + dbType))
          else Ok(())
  }

  /** `APIPlugin.validate_config` */
  function ValidateApi(config: Json): (r: Result<()>)
    ensures config.Obj? ==> (r.Ok? <==> HasKey(config.fields, "url"))
    ensures config.Obj? && r.Err? ==> r.exc == ValueError("APIPlugin requires 'url' in config")
  {
    var has :- Contains(config, "url");
    if !has then Err(ValueError("APIPlugin requires 'url' in config")) else Ok(())
  }

  /** The check a plugin's constructor runs on its configuration. */
  function Validate(cls: PluginClass, config: Json): Result<()> {
    match cls
    case FilesPlugin => ValidateFiles(config)
    case DatabasePlugin => ValidateDatabase(config)
    case ApiPlugin => ValidateApi(config)
    case CustomPlugin(_, validate, _) => validate(config)
  }

  /** The length of the first component of `p`, up to its first `/`. */
  function ComponentLength(p: string): (n: nat)
    ensures n <= |p| && '/' !in p[..n]
    ensures n < |p| ==> p[n] == '/'
    ensures '/' !in p ==> n == |p|
  {
    if |p| == 0 || p[0] == '/' then 0
    else
      assert '/' !in p ==> '/' !in p[1..] by {
        if '/' in p[1..] {
          var i :| 0 <= i < |p[1..]| && p[1..][i] == '/';
          assert p[i + 1] == '/';
        }
      }
      var n := 1 + ComponentLength(p[1..]);
      assert p[..n] == [p[0]] + p[1..][..n - 1];
      n
  }

  /** A path component `Path` keeps: not empty, not `.`, and without a `/`. */
  predicate KeptComponent(c: string) {
    c != "" && c != "." && '/' !in c
  }

  /** The components `Path` keeps from `p`, in order: empty components
      (from repeated or trailing slashes) and `.` are dropped; `..` is kept. */
  function Components(p: string): (r: seq<string>)
    ensures forall i :: 0 <= i < |r| ==> KeptComponent(r[i])
    decreases |p|
  {
    if |p| == 0 then []
    else
      var n := ComponentLength(p);
      var rest := if n < |p| then p[n + 1..] else "";
      (if p[..n] == "" || p[..n] == "." then [] else [p[..n]]) + Components(rest)
  }

  /** The anchor `Path` keeps on POSIX: exactly two leading slashes stay
      two, one or three and more become one, none gives none. */
  function Root(p: string): (r: string)
    ensures r == "" || r == "/" || r == "//"
    ensures r != "" <==> StartsWith(p, "/")
  {
    if |p| >= 1 && p[0] == '/' then
      if |p| >= 2 && p[1] == '/' && (|p| == 2 || p[2] != '/') then "//" else "/"
    else ""
  }

  /** `str(Path(p))` on POSIX: the anchor followed by the kept components
      joined with `/`, or `.` when nothing is left. */
  function PathStr(p: string): (r: string)
    ensures r != ""
  {
    var s := Root(p) + Join("/", Components(p));
    if s == "" then "." else s
  }

  /** A slash in front of a path adds only an empty component. */
  lemma ComponentsAfterSlash(p: string)
    ensures Components("/" + p) == Components(p)
  {
    var q := "/" + p;
    assert ComponentLength(q) == 0;
    assert q[1..] == p;
  }

  /** The first component of `c + "/" + rest` is `c` when `c` holds no
      `/`. */
  lemma {:induction false} ComponentLengthBefore(c: string, rest: string)
    requires '/' !in c
    ensures ComponentLength(c + "/" + rest) == |c|
    decreases |c|
  {
    if |c| > 0 {
      assert c[0] in c;
      assert '/' !in c[1..] by {
        forall i | 0 <= i < |c[1..]| ensures c[1..][i] != '/' {
          assert c[1..][i] == c[i + 1];
        }
      }
      ComponentLengthBefore(c[1..], rest);
      assert (c + "/" + rest)[1..] == c[1..] + "/" + rest;
    }
  }

  /** A kept component followed by `/` is the first component. */
  lemma ComponentsCons(c: string, rest: string)
    requires KeptComponent(c)
    ensures Components(c + "/" + rest) == [c] + Components(rest)
  {
    var q := c + "/" + rest;
    ComponentLengthBefore(c, rest);
    assert q[..|c|] == c;
    assert q[|c| + 1..] == rest;
  }

  /** A leading `./` adds only a dropped component. */
  lemma ComponentsAfterDot(rest: string)
    ensures Components("./" + rest) == Components(rest)
  {
    var q := "./" + rest;
    assert q == "." + "/" + rest;
    ComponentLengthBefore(".", rest);
    assert q[..1] == ".";
    assert q[2..] == rest;
  }

  /** A single kept component is its own only component. */
  lemma ComponentsSingle(c: string)
    requires KeptComponent(c)
    ensures Components(c) == [c]
  {
    assert c[..|c|] == c;
  }

  /** Joining kept components with `/` and splitting again gives them
      back. */
  lemma {:induction false} ComponentsOfJoin(cs: seq<string>)
    requires forall i :: 0 <= i < |cs| ==> KeptComponent(cs[i])
    ensures Components(Join("/", cs)) == cs
    ensures |cs| > 0 ==> |Join("/", cs)| > 0 && Join("/", cs)[0] == cs[0][0]
    decreases |cs|
  {
    if |cs| == 1 {
      ComponentsSingle(cs[0]);
    } else if |cs| > 1 {
      ComponentsOfJoin(cs[1..]);
      ComponentsCons(cs[0], Join("/", cs[1..]));
      assert [cs[0]] + cs[1..] == cs;
    }
  }

  /** Joined kept components start with the first one's first character,
      which is not `/`. */
  lemma JoinStart(cs: seq<string>)
    requires forall i :: 0 <= i < |cs| ==> KeptComponent(cs[i])
    ensures |cs| == 0 ==> Join("/", cs) == ""
    ensures |cs| > 0 ==> |Join("/", cs)| > 0 && Join("/", cs)[0] != '/'
  {
    if |cs| > 0 {
      assert cs[0][0] in cs[0];
      if |cs| > 1 {
        assert Join("/", cs) == cs[0] + "/" + Join("/", cs[1..]);
      }
    }
  }

  /** An anchor in front of a path that does not start with `/` is read
      back as the anchor. */
  lemma RootBefore(root: string, j: string)
    requires root == "" || root == "/" || root == "//"
    requires |j| == 0 || j[0] != '/'
    ensures Root(root + j) == root
  {
    var q := root + j;
    if |j| > 0 {
      assert q[|root|] == j[0];
    }
    if root == "" {
      assert q == j;
    } else if root == "/" {
      assert q[0] == '/';
    } else {
      assert q[0] == '/' && q[1] == '/';
    }
  }

  /** Two slashes in front of a path add no component. */
  lemma ComponentsAfterTwoSlashes(j: string)
    ensures Components("//" + j) == Components(j)
  {
    var k := "/" + j;
    assert "//" + j == "/" + k;
    ComponentsAfterSlash(k);
    ComponentsAfterSlash(j);
  }

  /** An anchor adds no component. */
  lemma ComponentsAfterRoot(root: string, j: string)
    requires root == "" || root == "/" || root == "//"
    ensures Components(root + j) == Components(j)
  {
    if root == "/" {
      ComponentsAfterSlash(j);
    } else if root == "//" {
      ComponentsAfterTwoSlashes(j);
    } else {
      assert root + j == j;
    }
  }

  /** Normalising keeps the anchor and the kept components. */
  lemma PathStrKeeps(p: string)
    ensures Root(PathStr(p)) == Root(p)
    ensures Components(PathStr(p)) == Components(p)
  {
    var cs := Components(p);
    ComponentsOfJoin(cs);
    if Root(p) + Join("/", cs) == "" {
      assert PathStr(p) == ".";
      assert ComponentLength(".") == 1;
      assert "."[..1] == ".";
    } else {
      assert PathStr(p) == Root(p) + Join("/", cs);
      JoinStart(cs);
      RootBefore(Root(p), Join("/", cs));
      ComponentsAfterRoot(Root(p), Join("/", cs));
    }
  }

  /** Normalising a normalised path changes nothing. */
  lemma PathStrIdempotent(p: string)
    ensures PathStr(PathStr(p)) == PathStr(p)
  {
    PathStrKeeps(p);
    ComponentsOfJoin(Components(p));
  }

  /** `Path` drops a leading `./` in front of a relative path. */
  lemma PathStrDropsDot(rest: string)
    requires !StartsWith(rest, "/")
    ensures PathStr("./" + rest) == PathStr(rest)
  {
    ComponentsAfterDot(rest);
  }

  /** `Path` collapses a doubled slash after a component. */
  lemma PathStrCollapsesSlash(c: string, rest: string)
    requires KeptComponent(c)
    ensures PathStr(c + "//" + rest) == PathStr(c + "/" + rest)
  {
    assert c + "//" + rest == c + "/" + ("/" + rest);
    ComponentsCons(c, "/" + rest);
    ComponentsAfterSlash(rest);
    ComponentsCons(c, rest);
    assert c[0] in c;
  }

  /** The last component of a path. */
  function BaseName(path: string): (r: string)
    ensures '/' !in r && EndsWith(path, r)
    decreases |path|
  {
    if |path| == 0 || path[|path| - 1] == '/' then ""
    else
      var front := BaseName(path[..|path| - 1]);
      assert path[..|path| - 1][|path[..|path| - 1]| - |front|..] == front;
      assert path[|path| - |front| - 1..] == front + [path[|path| - 1]];
      front + [path[|path| - 1]]
  }

  /** The position of the last `.` in `s`, if any. */
  function LastDot(s: string): (r: Option<nat>)
    ensures r.Some? ==> r.value < |s| && s[r.value] == '.' && '.' !in s[r.value + 1..]
    ensures r.None? ==> '.' !in s
  {
    if |s| == 0 then None
    else if s[|s| - 1] == '.' then Some(|s| - 1)
    else
      var r := LastDot(s[..|s| - 1]);
      assert s == s[..|s| - 1] + [s[|s| - 1]];
      if r.Some? then
        assert s[r.value + 1..] == s[..|s| - 1][r.value + 1..] + [s[|s| - 1]];
        r
      else r
  }

  /** `Path(name).suffix`: from the last dot, unless that dot starts or
      ends the name. */
  function Suffix(name: string): (r: string)
    ensures r == "" || (|r| >= 2 && r[0] == '.' && '.' !in r[1..] && EndsWith(name, r) && |r| < |name|)
  {
    match LastDot(name)
    case None => ""
    case Some(i) =>
      if 0 < i < |name| - 1 then
        assert name[|name| - |name[i..]|..] == name[i..];
        name[i..]
      else ""
  }

  /** The `file_type` of a file that is not JSON: the lower-cased suffix
      without its dot, or `txt` for a file without one. */
  function FileType(path: string): (r: string)
    ensures r != "" && '.' !in r
  {
    var s := Lower(Suffix(BaseName(path)));
    if s == "" then "txt"
    else
      assert forall i :: 1 <= i < |s| ==> s[i] == LowerChar(Suffix(BaseName(path))[i]);
      s[1..]
  }

  /** The items of a JSON file holding a list: one per element, with its
      position. */
  function JsonArrayItems(path: string, elements: seq<Json>): (r: seq<Json>)
    ensures |r| == |elements|
    ensures forall i :: 0 <= i < |r| ==>
      r[i] == Obj([("source_file", Str(path)), ("file_type", Str("json")), ("array_index", Int(i)), ("content", elements[i])])
  {
    seq(|elements|, i requires 0 <= i < |elements| =>
      Obj([("source_file", Str(path)), ("file_type", Str("json")), ("array_index", Int(i)), ("content", elements[i])]))
  }

  /** The items one matched path gives: none for a path that is not a
      file; for a `.json` file (suffix compared lower-cased) one item per
      element of a list or one item for any other value; one item holding
      the text for any other file. Every item names its file by the
      normalised path `str(Path(path))`. An error reading or parsing the
      file is returned here and skipped by the caller. */
  function FileItems(path: string, entry: FsEntry, loads: string -> Result<Json>): (r: Result<seq<Json>>)
    ensures entry.NotAFile? ==> r == Ok([])
    ensures entry.Unreadable? ==> r.Err?
    ensures entry.Text? && Lower(Suffix(BaseName(PathStr(path)))) != ".json" ==>
      r == Ok([Obj([("source_file", Str(PathStr(path))), ("file_type", Str(FileType(PathStr(path)))), ("content", Str(entry.content))])])
    ensures entry.Text? && Lower(Suffix(BaseName(PathStr(path)))) == ".json" && loads(entry.content).Err? ==>
      r == Err(loads(entry.content).exc)
    ensures entry.Text? && Lower(Suffix(BaseName(PathStr(path)))) == ".json" && loads(entry.content).Ok? ==>
      var v := loads(entry.content).value;
      r == Ok(if v.Arr? then JsonArrayItems(PathStr(path), v.items)
              else [Obj([("source_file", Str(PathStr(path))), ("file_type", Str("json")), ("content", v)])])
  {
    var name := PathStr(path);
    match entry
    case NotAFile => Ok([])
    case Unreadable => Err(Failure("cannot read " + path))
    case Text(content) =>
      if Lower(Suffix(BaseName(name))) == ".json" then
        var v :- loads(content);
        if v.Arr? then Ok(JsonArrayItems(name, v.items))
        else Ok([Obj([("source_file", Str(name)), ("file_type", Str("json")), ("content", v)])])
      else
        Ok([Obj([("source_file", Str(name)), ("file_type", Str(FileType(name))), ("content", Str(content))])])
  }

  /** The entry at a path; a path the listing gives that holds nothing is
      not a file. */
  function EntryAt(files: map<string, FsEntry>, path: string): FsEntry {
    if path in files then files[path] else NotAFile
  }

  /** The items of the matched paths of one pattern, in order; a file
      that fails is skipped. */
  function PathsItems(paths: seq<string>, src: Sources): seq<Json>
    decreases |paths|
  {
    if |paths| == 0 then []
    else
      PathsItems(paths[..|paths| - 1], src) + PathItems(paths[|paths| - 1], src)
  }

  /** The items of one path; a file that fails to read adds none. */
  function PathItems(path: string, src: Sources): seq<Json> {
    match FileItems(path, EntryAt(src.files, path), src.loads)
    case Ok(items) => items
    case Err(_) => []
  }

  /** The items of the patterns, in order; a pattern the listing rejects
      ends `fetch_data` with that error. */
  function PatternsItems(patterns: seq<Json>, recursive: Json, src: Sources): Result<seq<Json>>
    decreases |patterns|
  {
    if |patterns| == 0 then Ok([])
    else
      var before :- PatternsItems(patterns[..|patterns| - 1], recursive, src);
      var paths :- src.glob(patterns[|patterns| - 1], recursive);
      Ok(before + PathsItems(paths, src))
  }

  /** A rejected pattern ends the listing: the patterns after it do not
      matter. */
  lemma {:induction false} PatternsItemsStops(patterns: seq<Json>, recursive: Json, src: Sources, n: nat)
    requires n <= |patterns| && PatternsItems(patterns[..n], recursive, src).Err?
    ensures PatternsItems(patterns, recursive, src) == PatternsItems(patterns[..n], recursive, src)
    decreases |patterns|
  {
    if |patterns| > n {
      assert patterns[..|patterns| - 1][..n] == patterns[..n];
      PatternsItemsStops(patterns[..|patterns| - 1], recursive, src, n);
    } else {
      assert patterns[..n] == patterns;
    }
  }

  lemma AppendAssoc<T>(a: seq<T>, b: seq<T>, c: seq<T>)
    ensures (a + b) + c == a + (b + c)
  {
  }

  /** Listing one more path adds that path's items at the end. */
  lemma PathsItemsSnoc(paths: seq<string>, path: string, src: Sources)
    ensures PathsItems(paths + [path], src) == PathsItems(paths, src) + PathItems(path, src)
  {
    assert (paths + [path])[..|paths|] == paths;
  }

  /** Listing two groups of paths is listing each and concatenating. */
  lemma {:induction false} PathsItemsAppend(first: seq<string>, second: seq<string>, src: Sources)
    ensures PathsItems(first + second, src) == PathsItems(first, src) + PathsItems(second, src)
    decreases |second|
  {
    if |second| == 0 {
      assert first + second == first;
    } else {
      var front := second[..|second| - 1];
      var last := second[|second| - 1];
      assert second == front + [last];
      assert first + second == (first + front) + [last];
      PathsItemsSnoc(first + front, last, src);
      PathsItemsSnoc(front, last, src);
      PathsItemsAppend(first, front, src);
      AppendAssoc(PathsItems(first, src), PathsItems(front, src), PathItems(last, src));
    }
  }

  /** `FilesPlugin.fetch_data`: the items of every pattern in `patterns`,
      matched with `recursive` (default True). */
  function FilesData(config: Json, src: Sources): Result<Json> {
    var patterns :- Index(config, "patterns");
    var _ :- Len(patterns);
    var list := Iter(patterns).value;
    var items :- PatternsItems(list, GetOr(config.fields, "recursive", Bool(true)), src);
    Ok(Arr(items))
  }

  /** The inner loop of `FilesPlugin.fetch_data`: the items of the paths
      one pattern matched. */
  method FetchPaths(paths: seq<string>, src: Sources) returns (items: seq<Json>)
    ensures items == PathsItems(paths, src)
  {
    items := [];
    var j := 0;
    while j < |paths|
      invariant 0 <= j <= |paths|
      invariant items == PathsItems(paths[..j], src)
    {
      assert paths[..j + 1][..j] == paths[..j];
      var fileItems := FileItems(paths[j], EntryAt(src.files, paths[j]), src.loads);
      if fileItems.Ok? {
        items := items + fileItems.value;
      }
      j := j + 1;
    }
    assert paths[..j] == paths;
  }

  /** The loops of `FilesPlugin.fetch_data`. */
  method FetchFiles(config: Json, src: Sources) returns (r: Result<Json>)
    ensures r == FilesData(config, src)
  {
    var patterns := Index(config, "patterns");
    if patterns.Err? {
      return Err(patterns.exc);
    }
    var size := Len(patterns.value);
    if size.Err? {
      return Err(size.exc);
    }
    var list := Iter(patterns.value).value;
    var recursive := GetOr(config.fields, "recursive", Bool(true));
    var items: seq<Json> := [];
    var i := 0;
    while i < |list|
      invariant 0 <= i <= |list|
      invariant PatternsItems(list[..i], recursive, src) == Ok(items)
    {
      assert list[..i + 1][..i] == list[..i];
      var matched := src.glob(list[i], recursive);
      if matched.Err? {
        assert PatternsItems(list[..i + 1], recursive, src) == Err(matched.exc);
        PatternsItemsStops(list, recursive, src, i + 1);
        return Err(matched.exc);
      }
      ghost var before := items;
      var pathItems := FetchPaths(matched.value, src);
      items := items + pathItems;
      assert PatternsItems(list[..i + 1], recursive, src) == Ok(before + PathsItems(matched.value, src));
      i := i + 1;
    }
    assert list[..i] == list;
    r := Ok(Arr(items));
  }

  /** The dot-separated path walked key by key; each step needs a dict
      and reads the key with `get`, so a missing key gives None. */
  function JsonPath(data: Json, parts: seq<string>, path: string): (r: Result<Json>)
    ensures r.Err? ==> r.exc == ValueError("Cannot traverse path '" + path + "' in data")
    decreases |parts|
  {
    if |parts| == 0 then Ok(data)
    else
      var current :- JsonPath(data, parts[..|parts| - 1], path);
      if current.Obj? then Ok(GetOr(current.fields, parts[|parts| - 1], Null))
      else Err(ValueError("Cannot traverse path '" + path + "' in data"))
  }

  /** Walking two paths one after the other is walking their
      concatenation. */
  lemma {:induction false} JsonPathAppend(data: Json, first: seq<string>, second: seq<string>, path: string)
    ensures JsonPath(data, first + second, path) ==
      match JsonPath(data, first, path)
      case Ok(mid) => JsonPath(mid, second, path)
      case Err(e) => Err(e)
    decreases |second|
  {
    if |second| == 0 {
      assert first + second == first;
    } else {
      var n := |second|;
      assert (first + second)[..|first + second| - 1] == first + second[..n - 1];
      assert (first + second)[|first + second| - 1] == second[n - 1];
      JsonPathAppend(data, first, second[..n - 1], path);
    }
  }

  /** A key missing from a dict gives None, and a further key then fails. */
  lemma MissingKeyThenFails(fields: Fields, key: string, next: string, path: string)
    requires !HasKey(fields, key)
    ensures JsonPath(Obj(fields), [key], path) == Ok(Null)
    ensures JsonPath(Obj(fields), [key, next], path) == Err(ValueError("Cannot traverse path '" + path + "' in data"))
  {
    assert [key, next][..1] == [key];
    assert [key][..0] == [];
  }

  /** `_extract_json_path`: the path must be a str; its parts are walked
      from the data. */
  function ExtractJsonPath(data: Json, path: Json): Result<Json> {
    if !path.Str? then Err(AttributeError("'" + TypeName(path) + "' object has no attribute 'split'"))
    else JsonPath(data, Split(path.s, "."), path.s)
  }

  /** The loop of `_extract_json_path`, rebinding `current` part by part. */
  method WalkJsonPath(data: Json, path: Json) returns (r: Result<Json>)
    ensures r == ExtractJsonPath(data, path)
  {
    if !path.Str? {
      return Err(AttributeError("'" + TypeName(path) + "' object has no attribute 'split'"));
    }
    var parts := Split(path.s, ".");
    var current := data;
    var i := 0;
    while i < |parts|
      invariant 0 <= i <= |parts|
      invariant JsonPath(data, parts[..i], path.s) == Ok(current)
    {
      assert parts[..i + 1][..i] == parts[..i];
      if !current.Obj? {
        JsonPathAppend(data, parts[..i + 1], parts[i + 1..], path.s);
        assert parts[..i + 1] + parts[i + 1..] == parts;
        return Err(ValueError("Cannot traverse path '" + path.s + "' in data"));
      }
      current := GetOr(current.fields, parts[i], Null);
      i := i + 1;
    }
    assert parts[..i] == parts;
    r := Ok(current);
  }

  /** A list reply is the items; any other reply is one item. */
  function AsItems(data: Json): (r: Json)
    ensures r.Arr?
    ensures data.Arr? ==> r == data
    ensures !data.Arr? ==> r.items == [data]
  {
    if data.Arr? then data else Arr([data])
  }

  /** `APIPlugin.fetch_data`: a GET or a POST (the method upper-cased,
      default GET), the `json_path` walked when truthy, the result made a
      list. */
  function ApiData(config: Json, src: Sources): (r: Result<Json>)
    ensures r.Ok? ==> r.value.Arr?
  {
    var url :- Index(config, "url");
    var methodJ := GetOr(config.fields, "method", Str("GET"));
    var verb :- UpperOf(methodJ);
    var headers := GetOr(config.fields, "headers", Obj([]));
    var params := GetOr(config.fields, "params", Obj([]));
    var body := GetOr(config.fields, "json", Null);
    var data :- if verb == "GET" then src.http("GET", url, headers, params, Null)
                else if verb == "POST" then src.http("POST", url, headers, params, body)
                else Err(ValueError("Unsupported HTTP method: " + verb));
    var jsonPath := GetOr(config.fields, "json_path", Null);
    var selected :- if Truthy(jsonPath) then ExtractJsonPath(data, jsonPath) else Ok(data);
    Ok(AsItems(selected))
  }

  /** A method other than GET and POST is refused before any request. */
  lemma UnsupportedMethod(config: Fields, src: Sources)
    requires HasKey(config, "url") && GetOr(config, "method", Str("GET")).Str?
    requires var m := Upper(GetOr(config, "method", Str("GET")).s); m != "GET" && m != "POST"
    ensures ApiData(Obj(config), src) ==
      Err(ValueError("Unsupported HTTP method: " + Upper(GetOr(config, "method", Str("GET")).s)))
  {
  }

  /** `APIPlugin.fetch_data` with the path walk done by its loop. */
  method FetchApi(config: Json, src: Sources) returns (r: Result<Json>)
    ensures r == ApiData(config, src)
  {
    var url := Index(config, "url");
    if url.Err? {
      return Err(url.exc);
    }
    var verb := UpperOf(GetOr(config.fields, "method", Str("GET")));
    if verb.Err? {
      return Err(verb.exc);
    }
    var headers := GetOr(config.fields, "headers", Obj([]));
    var params := GetOr(config.fields, "params", Obj([]));
    var data: Result<Json>;
    if verb.value == "GET" {
      data := src.http("GET", url.value, headers, params, Null);
    } else if verb.value == "POST" {
      data := src.http("POST", url.value, headers, params, GetOr(config.fields, "json", Null));
    } else {
      return Err(ValueError("Unsupported HTTP method: " + verb.value));
    }
    if data.Err? {
      return Err(data.exc);
    }
    var selected := data;
    var jsonPath := GetOr(config.fields, "json_path", Null);
    if Truthy(jsonPath) {
      selected := WalkJsonPath(data.value, jsonPath);
      if selected.Err? {
        return Err(selected.exc);
      }
    }
    r := Ok(AsItems(selected.value));
  }

  /** `DatabasePlugin.fetch_data`: SQLite reads its path from
      `connection.database`, else the config's `database`, and needs one;
      the server databases pass `connection` on. A type none of the
      branches takes returns None, which the caller cannot extend with. */
  function DatabaseData(config: Json, src: Sources): (r: Result<Json>)
    ensures r.Ok? ==> config.Obj?
  {
    var typeJ :- Index(config, "db_type");
    var dbType :- LowerOf(typeJ);
    var query :- Index(config, "query");
    var params := GetOr(config.fields, "params", Arr([]));
    if dbType == "sqlite" then
      var connection :- Get(config, "connection", Obj([]));
      var dbPath :- Get(connection, "database", GetOr(config.fields, "database", Null));
      if !Truthy(dbPath) then Err(ValueError("SQLite requires 'database' path in connection config"))
      else
        var rows :- src.query("sqlite", dbPath, query, params);
        Ok(Arr(rows))
    else if dbType == "postgresql" || dbType == "mysql" then
      var connection :- Index(config, "connection");
      var rows :- src.query(dbType, connection, query, params);
      Ok(Arr(rows))
    else Ok(Null)
  }

  /** A validated SQLite config without a database path is refused before
      any query. */
  lemma SqliteNeedsPath(config: Fields, src: Sources)
    requires ValidateDatabase(Obj(config)).Ok? && Lower(GetOr(config, "db_type", Null).s) == "sqlite"
    requires var c := GetOr(config, "connection", Obj([]));
      c.Obj? && !Truthy(GetOr(c.fields, "database", GetOr(config, "database", Null)))
    ensures DatabaseData(Obj(config), src) == Err(ValueError("SQLite requires 'database' path in connection config"))
  {
  }

  /** `plugin.fetch_data()` */
  function FetchData(plugin: Plugin, src: Sources): Result<Json> {
    match plugin.cls
    case FilesPlugin => FilesData(plugin.config, src)
    case DatabasePlugin => DatabaseData(plugin.config, src)
    case ApiPlugin => ApiData(plugin.config, src)
    case CustomPlugin(_, _, fetch) => fetch(plugin.config)
  }

  /** `plugin.fetch_data()`, with the loops of the built-in plugins. */
  method FetchPluginData(plugin: Plugin, src: Sources) returns (r: Result<Json>)
    ensures r == FetchData(plugin, src)
  {
    match plugin.cls {
      case FilesPlugin => r := FetchFiles(plugin.config, src);
      case DatabasePlugin => r := DatabaseData(plugin.config, src);
      case ApiPlugin => r := FetchApi(plugin.config, src);
      case CustomPlugin(_, _, fetch) => r := fetch(plugin.config);
    }
  }

  /** What `all_data.extend(...)` adds for one plugin's fetch: nothing
      when it raised or gave something that cannot be iterated. */
  function Contribution(fetched: Result<Json>): (r: seq<Json>)
    ensures fetched.Err? ==> r == []
    ensures fetched.Ok? && fetched.value.Arr? ==> r == fetched.value.items
  {
    match fetched
    case Err(_) => []
    case Ok(data) =>
      match Iter(data)
      case Ok(items) => items
      case Err(_) => []
  }

  /** `fetch_all_data` over a list of plugins, each fetched with `fetch`:
      each one's items, in plugin order. */
  function AllData(plugins: seq<Plugin>, fetch: Plugin -> Result<Json>): seq<Json>
    decreases |plugins|
  {
    if |plugins| == 0 then []
    else AllData(plugins[..|plugins| - 1], fetch) + Contribution(fetch(plugins[|plugins| - 1]))
  }

  /** The data of two groups of plugins is concatenated in order. */
  lemma {:induction false} AllDataAppend(first: seq<Plugin>, second: seq<Plugin>, fetch: Plugin -> Result<Json>)
    ensures AllData(first + second, fetch) == AllData(first, fetch) + AllData(second, fetch)
    decreases |second|
  {
    if |second| == 0 {
      assert first + second == first;
    } else {
      var front := second[..|second| - 1];
      var c := Contribution(fetch(second[|second| - 1]));
      assert (first + second)[..|first + second| - 1] == first + front;
      assert (first + second)[|first + second| - 1] == second[|second| - 1];
      assert AllData(first + second, fetch) == AllData(first + front, fetch) + c;
      assert AllData(second, fetch) == AllData(front, fetch) + c;
      AllDataAppend(first, front, fetch);
      assert AllData(first, fetch) + AllData(front, fetch) + c == AllData(first, fetch) + (AllData(front, fetch) + c);
    }
  }

  /** A plugin whose fetch raises adds nothing; the others still count. */
  lemma FailingPluginAddsNothing(first: seq<Plugin>, plugin: Plugin, rest: seq<Plugin>, fetch: Plugin -> Result<Json>)
    requires fetch(plugin).Err?
    ensures AllData(first + [plugin] + rest, fetch) == AllData(first, fetch) + AllData(rest, fetch)
  {
    var front := first + [plugin];
    AllDataAppend(front, rest, fetch);
    AllDataAppend(first, [plugin], fetch);
    assert [plugin][..0] == [];
    var single := AllData([plugin], fetch);
    assert single == AllData([], fetch) + Contribution(fetch(plugin));
    assert single == [];
    assert AllData(front, fetch) == AllData(first, fetch);
  }

  /** The registered plugin types of a fresh registry. */
  function DefaultTypes(): map<string, PluginClass> {
    map["files" := FilesPlugin, "database" := DatabasePlugin, "api" := ApiPlugin]
  }

  /** One configuration's turn in `_initialize_plugins`: skipped without a
      truthy `type` or with a type the registry lacks (looked up
      lower-cased), or when the class's constructor rejects its `config`
      (default `{}`); otherwise the plugin is appended. A config that is
      not a dict, or a type that is not a str, raises. */
  function InitStep(plugins: seq<Plugin>, pluginConfig: Json, types: map<string, PluginClass>): (r: Result<seq<Plugin>>)
    ensures r.Ok? ==> plugins <= r.value && |r.value| <= |plugins| + 1
  {
    var pluginType :- Get(pluginConfig, "type", Null);
    if !Truthy(pluginType) then Ok(plugins)
    else
      var key :- LowerOf(pluginType);
      if key !in types then Ok(plugins)
      else
        var config := GetOr(pluginConfig.fields, "config", Obj([]));
        if Validate(types[key], config).Err? then Ok(plugins)
        else Ok(plugins + [Plugin(types[key], config)])
  }

  /** `_initialize_plugins` over a list of configurations. */
  function InitPlugins(plugins: seq<Plugin>, configs: seq<Json>, types: map<string, PluginClass>): Result<seq<Plugin>>
    decreases |configs|
  {
    if |configs| == 0 then Ok(plugins)
    else
      var before :- InitPlugins(plugins, configs[..|configs| - 1], types);
      InitStep(before, configs[|configs| - 1], types)
  }

  lemma {:induction false} InitPluginsStops(plugins: seq<Plugin>, configs: seq<Json>, types: map<string, PluginClass>, n: nat)
    requires n <= |configs| && InitPlugins(plugins, configs[..n], types).Err?
    ensures InitPlugins(plugins, configs, types) == InitPlugins(plugins, configs[..n], types)
    decreases |configs|
  {
    if |configs| > n {
      assert configs[..|configs| - 1][..n] == configs[..n];
      InitPluginsStops(plugins, configs[..|configs| - 1], types, n);
    } else {
      assert configs[..n] == configs;
    }
  }

  /** Every plugin in the list passed its class's check. */
  predicate AllValid(plugins: seq<Plugin>) {
    forall i :: 0 <= i < |plugins| ==> Validate(plugins[i].cls, plugins[i].config).Ok?
  }

  /** Initialization only appends plugins whose configuration passed
      validation, at most one per configuration, keeping the ones before. */
  lemma {:induction false} InitPluginsValid(plugins: seq<Plugin>, configs: seq<Json>, types: map<string, PluginClass>)
    requires AllValid(plugins)
    ensures var r := InitPlugins(plugins, configs, types);
      r.Ok? ==> AllValid(r.value) && plugins <= r.value && |r.value| <= |plugins| + |configs|
    decreases |configs|
  {
    if |configs| > 0 {
      InitPluginsValid(plugins, configs[..|configs| - 1], types);
    }
  }

  /** Configurations without a truthy type add nothing. */
  lemma {:induction false} UntypedConfigsSkipped(plugins: seq<Plugin>, configs: seq<Json>, types: map<string, PluginClass>)
    requires forall i :: 0 <= i < |configs| ==> configs[i].Obj? && !Truthy(GetOr(configs[i].fields, "type", Null))
    ensures InitPlugins(plugins, configs, types) == Ok(plugins)
    decreases |configs|
  {
    if |configs| > 0 {
      UntypedConfigsSkipped(plugins, configs[..|configs| - 1], types);
    }
  }

  /** The class-level table of plugin types, shared by every manager. */
  class PluginRegistry {
    var types: map<string, PluginClass>

    constructor ()
      ensures types == DefaultTypes()
    {
      types := DefaultTypes();
    }

    /** `register_plugin`: a class that is not a plugin class is refused;
        otherwise it is stored under the lower-cased name, replacing any
        class of that name. */
    method RegisterPlugin(name: string, cls: Option<PluginClass>) returns (err: Option<Exc>)
      modifies this
      ensures cls.None? ==> err == Some(ValueError("Plugin class must extend DataSourcePlugin")) && types == old(types)
      ensures cls.Some? ==> err.None? && types == old(types)[Lower(name) := cls.value]
    {
      if cls.None? {
        return Some(ValueError("Plugin class must extend DataSourcePlugin"));
      }
      types := types[Lower(name) := cls.value];
      err := None;
    }
  }

  /** `PluginManager`: the plugin configurations and the plugins built
      from them. */
  class PluginManager {
    const pluginsConfig: Json
    var plugins: seq<Plugin>

    /** The field assignments of `__init__`; `InitializePlugins` is the
        call that ends it. */
    constructor (pluginsConfig: Json)
      ensures this.pluginsConfig == pluginsConfig && plugins == []
    {
      this.pluginsConfig := pluginsConfig;
      plugins := [];
    }

    /** `_initialize_plugins`: builds the configured plugins in order; an
        exception it does not catch ends the construction. */
    method InitializePlugins(registry: PluginRegistry) returns (err: Option<Exc>)
      modifies this
      ensures var configs := Iter(pluginsConfig);
        (configs.Err? ==> err == Some(configs.exc)) &&
        (configs.Ok? ==>
          var r := InitPlugins(old(plugins), configs.value, registry.types);
          (r.Ok? ==> err.None? && plugins == r.value) && (r.Err? ==> err == Some(r.exc)))
    {
      var configs := Iter(pluginsConfig);
      if configs.Err? {
        return Some(configs.exc);
      }
      var list := configs.value;
      var i := 0;
      while i < |list|
        invariant 0 <= i <= |list|
        invariant InitPlugins(old(plugins), list[..i], registry.types) == Ok(plugins)
      {
        assert list[..i + 1][..i] == list[..i];
        var pluginConfig := list[i];
        var pluginType := Get(pluginConfig, "type", Null);
        if pluginType.Err? {
          InitPluginsStops(old(plugins), list, registry.types, i + 1);
          return Some(pluginType.exc);
        }
        if Truthy(pluginType.value) {
          var key := LowerOf(pluginType.value);
          if key.Err? {
            InitPluginsStops(old(plugins), list, registry.types, i + 1);
            return Some(key.exc);
          }
          if key.value in registry.types {
            var cls := registry.types[key.value];
            var config := GetOr(pluginConfig.fields, "config", Obj([]));
            if Validate(cls, config).Ok? {
              plugins := plugins + [Plugin(cls, config)];
            }
          }
        }
        i := i + 1;
      }
      assert list[..i] == list;
      err := None;
    }

    /** `fetch_all_data`: every plugin's items in plugin order; a plugin
        that raises is skipped. */
    method FetchAllData(src: Sources) returns (r: seq<Json>)
      ensures r == AllData(plugins, p => FetchData(p, src))
    {
      r := [];
      var i := 0;
      while i < |plugins|
        invariant 0 <= i <= |plugins|
        invariant r == AllData(plugins[..i], p => FetchData(p, src))
      {
        assert plugins[..i + 1][..i] == plugins[..i];
        var data := FetchPluginData(plugins[i], src);
        if data.Ok? {
          var items := Iter(data.value);
          if items.Ok? {
            r := r + items.value;
          }
        }
        i := i + 1;
      }
      assert plugins[..i] == plugins;
    }
  }
}

=== FILE: database_storage.dfy ===
/** The PostgreSQL backend. The database is the value `Tables`: the `bills`
    table as its rows in insertion order (`bill_id` is the primary key), and
    `filter_results`, `analysis_results`, `legiscan_cache` and
    `pipeline_runs` as maps from the key their upserts conflict on to the
    row. A write runs as one transaction: the parameter `dbFails` says
    whether the database raises during it; the transaction is then rolled
    back and the error propagates. */
module DatabaseStorage {
  import opened Wrappers
  import opened PyStrings
  import opened PyJson
  import opened Sorting
  import opened StorageProvider
  import LocalFileStorage

  datatype DbSettings = DbSettings(connectionString: string, fileFallback: bool)

  /** The constructor's checks: the connection string comes from the
      environment variable the config names (default
      `DATABASE_CONNECTION_STRING`) and must be non-empty; dual writing to
      files is on when `enable_file_fallback` is truthy (default off). */
  function Settings(config: Json, env: Env): (r: Result<DbSettings>)
    ensures !config.Obj? ==> r.Err?
    ensures r.Ok? ==> r.value.connectionString != ""
    ensures config.Obj? && !HasKey(config.fields, "connection_string_env") ==>
      (r.Ok? <==> GetEnv(env, "DATABASE_CONNECTION_STRING").GetOr("") != "")
    ensures r.Ok? && !HasKey(config.fields, "enable_file_fallback") ==> !r.value.fileFallback
  {
    var name :- Get(config, "connection_string_env", Str("DATABASE_CONNECTION_STRING"));
    var value :- GetEnvAt(env, name);
    if value.None? || value.value == "" then
      Err(ValueError("Database connection string not found in environment variable: " + Text(name)))
    else
      Ok(DbSettings(value.value, Truthy(GetOr(config.fields, "enable_file_fallback", Bool(false)))))
  }

  /** The `bills` columns the backend reads back (the others are only written). */
  datatype BillRow = BillRow(billId: Json, billNumber: Json, state: Json, year: Json,
                             title: Json, url: Json, rawData: Fields)

  datatype FilterRow = FilterRow(isRelevant: bool, reason: Json)

  /** An `analysis_results` row; the list and dict columns hold `json.dumps`
      of a value and are read back with `json.loads`, which gives the value. */
  datatype AnalysisRow = AnalysisRow(isRelevant: bool, reasoning: Json, summary: Json,
                                     billStatus: Json, legislationType: Json, categories: Json,
                                     tags: Json, keyProvisions: Json, impact: Json,
                                     exclusionCheck: Json, specialFlags: Json)

  datatype RunRow = RunRow(stage: string, status: string, processed: Json, relevant: Json)

  /** (bill_id, run_id), the conflict key of the two results tables */
  type Key = (Json, string)

  datatype Tables = Tables(bills: seq<BillRow>,
                           filterResults: map<Key, FilterRow>,
                           analysisResults: map<Key, AnalysisRow>,
                           legiscanCache: map<Json, Json>,
                           pipelineRuns: map<string, RunRow>)

  const DbFailure := DatabaseError("database error")

  // ---------------------------------------------------------------- bills

  /** bill_id is the primary key. */
  predicate UniqueIds(rows: seq<BillRow>) {
    forall i, j :: 0 <= i < j < |rows| ==> rows[i].billId != rows[j].billId
  }

  /** The row with that bill_id. */
  function FindRow(rows: seq<BillRow>, id: Json): (r: Option<BillRow>)
    ensures r.Some? ==> r.value in rows && r.value.billId == id
    ensures r.None? <==> forall i :: 0 <= i < |rows| ==> rows[i].billId != id
  {
    if |rows| == 0 then None
    else if rows[0].billId == id then Some(rows[0])
    else
      assert forall i :: 1 <= i < |rows| ==> rows[i] == rows[1..][i - 1];
      FindRow(rows[1..], id)
  }

  /** `INSERT ... ON CONFLICT (bill_id) DO UPDATE`: the row with that id is
      replaced where it stands, or the row is added last. */
  function UpsertBill(rows: seq<BillRow>, row: BillRow): (r: seq<BillRow>)
    ensures forall x :: x in r ==> x == row || x in rows
  {
    if |rows| == 0 then [row]
    else if rows[0].billId == row.billId then [row] + rows[1..]
    else
      assert forall x :: x in rows[1..] ==> x in rows;
      [rows[0]] + UpsertBill(rows[1..], row)
  }

  /** After an upsert, its id reads the new row and every other id reads
      what it read before. */
  lemma {:induction false} UpsertFind(rows: seq<BillRow>, row: BillRow, id: Json)
    ensures FindRow(UpsertBill(rows, row), id) == if id == row.billId then Some(row) else FindRow(rows, id)
  {
    if |rows| > 0 && rows[0].billId != row.billId {
      UpsertFind(rows[1..], row, id);
      assert UpsertBill(rows, row)[1..] == UpsertBill(rows[1..], row);
    } else if |rows| > 0 {
      assert UpsertBill(rows, row)[1..] == rows[1..];
    }
  }

  /** With a unique bill_id, the key determines the row: looking up any
      row's bill_id finds that very row and no other. */
  lemma {:induction false} KeyFindsRow(rows: seq<BillRow>)
    requires UniqueIds(rows)
    ensures forall i :: 0 <= i < |rows| ==> FindRow(rows, rows[i].billId) == Some(rows[i])
  {
    if |rows| > 0 {
      var tail := rows[1..];
      assert UniqueIds(tail) by {
        forall i, j | 0 <= i < j < |tail| ensures tail[i].billId != tail[j].billId {
          assert tail[i] == rows[i + 1] && tail[j] == rows[j + 1];
        }
      }
      KeyFindsRow(tail);
      forall i | 1 <= i < |rows| ensures FindRow(rows, rows[i].billId) == Some(rows[i]) {
        assert rows[0].billId != rows[i].billId;
        assert rows[i] == tail[i - 1];
      }
    }
  }

  /** An upsert keeps the primary key unique. */
  lemma {:induction false} UpsertUnique(rows: seq<BillRow>, row: BillRow)
    requires UniqueIds(rows)
    ensures UniqueIds(UpsertBill(rows, row))
  {
    if |rows| > 0 && rows[0].billId != row.billId {
      UpsertUnique(rows[1..], row);
      var rest := UpsertBill(rows[1..], row);
      assert forall x :: x in rest ==> x.billId != rows[0].billId by {
        forall x | x in rest ensures x.billId != rows[0].billId {
          if x != row {
            var k :| 0 <= k < |rows[1..]| && rows[1..][k] == x;
            assert rows[k + 1] == x;
          }
        }
      }
      var r := UpsertBill(rows, row);
      forall i, j | 0 <= i < j < |r| ensures r[i].billId != r[j].billId {
        if i == 0 { assert r[j] == rest[j - 1] && r[j] in rest; }
        else { assert r[i] == rest[i - 1] && r[j] == rest[j - 1]; }
      }
    } else if |rows| > 0 {
      var r := UpsertBill(rows, row);
      forall i, j | 0 <= i < j < |r| ensures r[i].billId != r[j].billId {
        if i == 0 { assert r[j] == rows[j]; assert rows[0].billId != rows[j].billId; }
        else { assert r[i] == rows[i] && r[j] == rows[j]; }
      }
    }
  }

  /** The loop saves a bill only when it is a dict with a truthy bill_id. */
  predicate Saved(bill: Json) {
    bill.Obj? && Truthy(GetOr(bill.fields, "bill_id", Null))
  }

  function RowOf(bill: Json): BillRow
    requires bill.Obj?
  {
    var fs := bill.fields;
    BillRow(GetOr(fs, "bill_id", Null), GetOr(fs, "bill_number", Null), GetOr(fs, "state", Null),
            GetOr(fs, "year", Null), GetOr(fs, "title", Null), GetOr(fs, "url", Null), fs)
  }

  /** The bills table after the save loop's upserts over `items`, in order. */
  function SaveBills(rows: seq<BillRow>, items: seq<Json>): seq<BillRow>
    decreases |items|
  {
    if |items| == 0 then rows
    else
      var prev := SaveBills(rows, items[..|items| - 1]);
      var bill := items[|items| - 1];
      if Saved(bill) then UpsertBill(prev, RowOf(bill)) else prev
  }

  /** `save_raw_data`'s loop over the bills, upserting each one kept. */
  method UpsertBills(rows0: seq<BillRow>, bills: seq<Json>) returns (rows: seq<BillRow>)
    ensures rows == SaveBills(rows0, bills)
  {
    rows := rows0;
    var i := 0;
    while i < |bills|
      invariant 0 <= i <= |bills|
      invariant rows == SaveBills(rows0, bills[..i])
    {
      var bill := bills[i];
      if Saved(bill) {
        rows := UpsertBill(rows, RowOf(bill));
      }
      assert bills[..i + 1][..i] == bills[..i];
      i := i + 1;
    }
    assert bills[..i] == bills;
  }

  lemma {:induction false} SaveBillsUnique(rows: seq<BillRow>, items: seq<Json>)
    requires UniqueIds(rows)
    ensures UniqueIds(SaveBills(rows, items))
    decreases |items|
  {
    if |items| > 0 {
      SaveBillsUnique(rows, items[..|items| - 1]);
      if Saved(items[|items| - 1]) {
        UpsertUnique(SaveBills(rows, items[..|items| - 1]), RowOf(items[|items| - 1]));
      }
    }
  }

  /** The last bill of `items` that is saved under `id`. */
  function LastSaved(items: seq<Json>, id: Json): (r: Option<Json>)
    ensures r.Some? ==> r.value in items && Saved(r.value) && RowOf(r.value).billId == id
    ensures r.None? ==> forall i :: 0 <= i < |items| && Saved(items[i]) ==> RowOf(items[i]).billId != id
    decreases |items|
  {
    if |items| == 0 then None
    else
      var bill := items[|items| - 1];
      if Saved(bill) && RowOf(bill).billId == id then Some(bill)
      else
        var r := LastSaved(items[..|items| - 1], id);
        assert forall i :: 0 <= i < |items| - 1 ==> items[i] == items[..|items| - 1][i];
        r
  }

  /** After the save loop a bill_id holds the row built from the last bill
      saved under it (a later duplicate wins); an id no saved bill carries
      keeps its old row, or stays absent. */
  lemma {:induction false} SaveBillsLookup(rows: seq<BillRow>, items: seq<Json>, id: Json)
    ensures FindRow(SaveBills(rows, items), id) ==
      if LastSaved(items, id).Some? then Some(RowOf(LastSaved(items, id).value)) else FindRow(rows, id)
    decreases |items|
  {
    if |items| > 0 {
      SaveBillsLookup(rows, items[..|items| - 1], id);
      var bill := items[|items| - 1];
      if Saved(bill) {
        UpsertFind(SaveBills(rows, items[..|items| - 1]), RowOf(bill), id);
      }
    }
  }

  /** Where `save_raw_data` finds the bills: `summary.masterlist`, then
      `bills`, then the document itself when it is a list; otherwise none. */
  function ExtractBills(data: Json): (r: Result<Json>)
    ensures data.Arr? ==> r == Ok(data)
    ensures !data.Arr? && !data.Obj? ==> r == Ok(Arr([]))
    ensures data.Obj? && !HasKey(data.fields, "summary") && !HasKey(data.fields, "bills") ==> r == Ok(Arr([]))
    ensures r.Err? ==> data.Obj? && HasKey(data.fields, "summary")
  {
    if data.Obj? && HasKey(data.fields, "summary") then
      var inSummary :- Contains(Lookup(data.fields, "summary").value, "masterlist");
      if inSummary then Index(Lookup(data.fields, "summary").value, "masterlist")
      else if HasKey(data.fields, "bills") then Ok(Lookup(data.fields, "bills").value)
      else Ok(Arr([]))
    else if data.Obj? && HasKey(data.fields, "bills") then Ok(Lookup(data.fields, "bills").value)
    else if data.Arr? then Ok(data)
    else Ok(Arr([]))
  }

  /** The `save_raw_data` transaction: the tables it commits, or the
      exception it raises (after which nothing is committed). */
  function SaveRawTxn(db: Tables, data: Json, dbFails: bool): (r: Result<Tables>)
    ensures r.Ok? ==> r.value == db.(bills := r.value.bills)
    ensures r.Ok? ==> !dbFails
  {
    var extracted :- ExtractBills(data);
    if dbFails then Err(DbFailure)
    else
      var items :- Iter(extracted);
      Ok(db.(bills := SaveBills(db.bills, items)))
  }

  /** A raw document in the `summary.masterlist` layout: every dict with a
      truthy bill_id ends up stored under it, as the last such bill. */
  lemma RawSaveStoresBills(db: Tables, data: Json, bills: seq<Json>, id: Json)
    requires data == Obj([("summary", Obj([("masterlist", Arr(bills))]))])
    ensures SaveRawTxn(db, data, false).Ok?
    ensures FindRow(SaveRawTxn(db, data, false).value.bills, id) ==
      if LastSaved(bills, id).Some? then Some(RowOf(LastSaved(bills, id).value)) else FindRow(db.bills, id)
  {
    assert Lookup(data.fields, "summary") == Some(Obj([("masterlist", Arr(bills))]));
    assert HasKey(Obj([("masterlist", Arr(bills))]).fields, "masterlist");
    SaveBillsLookup(db.bills, bills, id);
  }

  // ---------------------------------------------------------------- load_raw_data

  function NameParts(filename: string): (r: seq<string>)
    ensures |r| >= 1
  {
    Split(DropSuffix(filename, ".json"), "_")
  }

  /** The state filter of a file name such as `ct_bills_2025`: its first
      `_`-separated part, upper-cased; empty means no filter. */
  function StateFilter(filename: string): string {
    Upper(NameParts(filename)[0])
  }

  /** The year filter: the last part when it is all digits; 0 means no filter. */
  function YearFilter(filename: string): nat {
    var last := NameParts(filename)[|NameParts(filename)| - 1];
    if IsDigits(last) then DigitsValue(last) else 0
  }

  predicate RowMatches(row: BillRow, state: string, year: nat) {
    (state == "" || row.state == Str(state)) && (year == 0 || row.year == Int(year))
  }

  /** The rows the `WHERE` clause keeps, in table order. */
  function Matching(rows: seq<BillRow>, state: string, year: nat): (r: seq<BillRow>)
    ensures forall x :: x in r <==> x in rows && RowMatches(x, state, year)
    ensures |r| <= |rows|
  {
    if |rows| == 0 then []
    else
      var rest := Matching(rows[1..], state, year);
      assert forall x :: x in rows <==> x == rows[0] || x in rows[1..];
      if RowMatches(rows[0], state, year) then [rows[0]] + rest else rest
  }

  function RowNumber(row: BillRow): Json {
    row.billNumber
  }

  /** `ORDER BY bill_number`: non-NULL numbers in text order, NULLs last. */
  predicate OrderedByNumber<T>(s: seq<T>, number: T -> Json) {
    (forall i, j :: 0 <= i < j < |s| && number(s[i]).Null? ==> number(s[j]).Null?) &&
    (forall i, j :: 0 <= i < j < |s| && !number(s[j]).Null? ==> AtMost(PyStr(number(s[i])), PyStr(number(s[j]))))
  }

  lemma NullsLast<T>(sorted: seq<T>, nulls: seq<T>, number: T -> Json, key: T -> string)
    requires forall x :: key(x) == PyStr(number(x))
    requires SortedBy(sorted, key)
    requires forall x :: x in sorted ==> !number(x).Null?
    requires forall x :: x in nulls ==> number(x).Null?
    ensures OrderedByNumber(sorted + nulls, number)
  {
    var r := sorted + nulls;
    forall i, j | 0 <= i < j < |r| && number(r[i]).Null? ensures number(r[j]).Null? {
      if i >= |sorted| { assert r[j] in nulls; }
    }
    forall i, j | 0 <= i < j < |r| && !number(r[j]).Null?
      ensures AtMost(PyStr(number(r[i])), PyStr(number(r[j])))
    {
      if j < |sorted| { assert AtMost(key(sorted[i]), key(sorted[j])); }
    }
  }

  method OrderByNumber<T>(s: seq<T>, number: T -> Json) returns (r: seq<T>)
    ensures OrderedByNumber(r, number)
    ensures multiset(r) == multiset(s)
  {
    var present: seq<T> := [];
    var nulls: seq<T> := [];
    var i := 0;
    while i < |s|
      invariant 0 <= i <= |s|
      invariant multiset(present) + multiset(nulls) == multiset(s[..i])
      invariant forall x :: x in present ==> !number(x).Null?
      invariant forall x :: x in nulls ==> number(x).Null?
    {
      if number(s[i]).Null? { nulls := nulls + [s[i]]; } else { present := present + [s[i]]; }
      assert s[..i + 1] == s[..i] + [s[i]];
      i := i + 1;
    }
    assert s[..i] == s;
    var key := x => PyStr(number(x));
    var sorted := SortBy(present, key);
    assert forall x :: x in sorted ==> x in multiset(present);
    NullsLast(sorted, nulls, number, key);
    r := sorted + nulls;
  }

  /** The raw-data documents of the rows, as `json.loads(raw_data)` gives them. */
  function RawDatas(rows: seq<BillRow>): (r: seq<Json>)
    ensures |r| == |rows| && forall i :: 0 <= i < |rows| ==> r[i] == Obj(rows[i].rawData)
  {
    seq(|rows|, i requires 0 <= i < |rows| => Obj(rows[i].rawData))
  }

  /** The document `load_raw_data` rebuilds from the selected rows. */
  function RawDoc(rows: seq<BillRow>): Json {
    Obj([("summary", Obj([("masterlist", Arr(RawDatas(rows))), ("total", Int(|rows|))]))])
  }

  /** The rebuilt document is in the layout `save_raw_data` reads first, so
      saving it again stores the same bills. */
  lemma RawDocExtracts(rows: seq<BillRow>)
    ensures ExtractBills(RawDoc(rows)) == Ok(Arr(RawDatas(rows)))
  {
    var summary := Obj([("masterlist", Arr(RawDatas(rows))), ("total", Int(|rows|))]);
    assert Lookup(RawDoc(rows).fields, "summary") == Some(summary);
    assert Lookup(summary.fields, "masterlist") == Some(Arr(RawDatas(rows)));
  }

  // ---------------------------------------------------------------- results tables

  /** The row `SELECT ... FROM bills WHERE bill_number = %s` fetches first. */
  function FirstWithNumber(rows: seq<BillRow>, number: Json): (r: Option<BillRow>)
    ensures r.None? <==> forall i :: 0 <= i < |rows| ==> rows[i].billNumber != number
    ensures r.Some? ==> exists i :: (0 <= i < |rows| && rows[i] == r.value && r.value.billNumber == number &&
      forall j :: 0 <= j < i ==> rows[j].billNumber != number)
  {
    if |rows| == 0 then None
    else if rows[0].billNumber == number then Some(rows[0])
    else
      var r := FirstWithNumber(rows[1..], number);
      assert forall i :: 1 <= i < |rows| ==> rows[i] == rows[1..][i - 1];
      if r.Some? then
        ghost var i :| 0 <= i < |rows[1..]| && rows[1..][i] == r.value && r.value.billNumber == number &&
          forall j :: 0 <= j < i ==> rows[1..][j].billNumber != number;
        assert rows[i + 1] == r.value;
        assert forall j :: 0 <= j < i + 1 ==> rows[j].billNumber != number by {
          forall j | 0 <= j < i + 1 ensures rows[j].billNumber != number {
            if j > 0 { assert rows[j] == rows[1..][j - 1]; }
          }
        }
        r
      else r
  }

  lemma FirstWithNumberAt(rows: seq<BillRow>, number: Json, i: nat)
    requires i < |rows| && rows[i].billNumber == number
    requires forall j :: 0 <= j < i ==> rows[j].billNumber != number
    ensures FirstWithNumber(rows, number) == Some(rows[i])
  {
    var r := FirstWithNumber(rows, number);
    var k :| 0 <= k < |rows| && rows[k] == r.value && rows[k].billNumber == number &&
      forall j :: 0 <= j < k ==> rows[j].billNumber != number;
  }

  /** A results row is written for a bill when it is a dict with a truthy
      bill_number that some row of `bills` carries; the row goes to the
      bill_id of the first such row. */
  predicate Resolves(rows: seq<BillRow>, bill: Json, id: Json) {
    bill.Obj? && Truthy(GetOr(bill.fields, "bill_number", Null)) &&
    FirstWithNumber(rows, GetOr(bill.fields, "bill_number", Null)).Some? &&
    FirstWithNumber(rows, GetOr(bill.fields, "bill_number", Null)).value.billId == id
  }

  /** The results-table loop shared by both saves: for each item, its bill's
      `bill_number` (an AttributeError for a non-dict aborts the
      transaction), skipped when falsy or unknown, else an upsert of
      `make(item)` under (bill_id, run_id). */
  function SaveResults<T, V>(rows: seq<BillRow>, table: map<Key, V>, runId: string, items: seq<T>,
                             bill: T -> Json, make: T -> V): Result<map<Key, V>>
    decreases |items|
  {
    if |items| == 0 then Ok(table)
    else
      var prev :- SaveResults(rows, table, runId, items[..|items| - 1], bill, make);
      var item := items[|items| - 1];
      var number :- Get(bill(item), "bill_number", Null);
      if !Truthy(number) then Ok(prev)
      else match FirstWithNumber(rows, number)
        case None => Ok(prev)
        case Some(row) => Ok(prev[(row.billId, runId) := make(item)])
  }

  /** Rows of other runs are untouched. */
  ghost predicate SameOutside<V>(a: map<Key, V>, b: map<Key, V>, runId: string) {
    forall k: Key :: k.1 != runId ==> (k in a <==> k in b) && (k in a ==> a[k] == b[k])
  }

  /** The loop aborts exactly when some item is not a dict. */
  lemma {:induction false} SaveResultsFails<T, V>(rows: seq<BillRow>, table: map<Key, V>, runId: string,
                                                  items: seq<T>, bill: T -> Json, make: T -> V)
    ensures SaveResults(rows, table, runId, items, bill, make).Err? <==>
      exists i :: 0 <= i < |items| && !bill(items[i]).Obj?
    decreases |items|
  {
    if |items| > 0 {
      var front := items[..|items| - 1];
      SaveResultsFails(rows, table, runId, front, bill, make);
      assert forall i :: 0 <= i < |front| ==> front[i] == items[i];
    }
  }

  /** The loop itself: each item's bill number is looked up and its row
      upserted into a working copy of the table. */
  method SaveResultsLoop<T, V>(rows: seq<BillRow>, table: map<Key, V>, runId: string, items: seq<T>,
                               bill: T -> Json, make: T -> V) returns (r: Result<map<Key, V>>)
    ensures r == SaveResults(rows, table, runId, items, bill, make)
  {
    var t := table;
    var i := 0;
    while i < |items|
      invariant 0 <= i <= |items|
      invariant SaveResults(rows, table, runId, items[..i], bill, make) == Ok(t)
    {
      assert items[..i + 1][..i] == items[..i];
      var number := Get(bill(items[i]), "bill_number", Null);
      if number.Err? {
        SaveResultsPrefixFails(rows, table, runId, items, bill, make, i + 1);
        return Err(number.exc);
      }
      if Truthy(number.value) {
        var row := FirstWithNumber(rows, number.value);
        if row.Some? {
          t := t[(row.value.billId, runId) := make(items[i])];
        }
      }
      i := i + 1;
    }
    assert items[..i] == items;
    r := Ok(t);
  }

  /** The bill id an item's bill resolves to, if any. */
  function TargetOf(rows: seq<BillRow>, bill: Json): (r: Option<Json>)
    ensures forall id :: Resolves(rows, bill, id) <==> r == Some(id)
  {
    if bill.Obj? && Truthy(GetOr(bill.fields, "bill_number", Null)) &&
       FirstWithNumber(rows, GetOr(bill.fields, "bill_number", Null)).Some?
    then Some(FirstWithNumber(rows, GetOr(bill.fields, "bill_number", Null)).value.billId)
    else None
  }

  /** The loop's last item upserts its bill's row, or changes nothing. */
  lemma SaveResultsLast<T, V>(rows: seq<BillRow>, table: map<Key, V>, runId: string,
                              items: seq<T>, bill: T -> Json, make: T -> V)
    requires |items| > 0 && SaveResults(rows, table, runId, items, bill, make).Ok?
    ensures var n := |items| - 1;
      SaveResults(rows, table, runId, items[..n], bill, make).Ok? &&
      var prev := SaveResults(rows, table, runId, items[..n], bill, make).value;
      SaveResults(rows, table, runId, items, bill, make).value ==
        match TargetOf(rows, bill(items[n]))
        case None => prev
        case Some(id) => prev[(id, runId) := make(items[n])]
  {
  }

  /** Rows of other runs are untouched by the loop. */
  lemma {:induction false} SaveResultsOutside<T, V>(rows: seq<BillRow>, table: map<Key, V>, runId: string,
                                                    items: seq<T>, bill: T -> Json, make: T -> V)
    requires SaveResults(rows, table, runId, items, bill, make).Ok?
    ensures SameOutside(SaveResults(rows, table, runId, items, bill, make).value, table, runId)
    decreases |items|
  {
    if |items| > 0 {
      SaveResultsLast(rows, table, runId, items, bill, make);
      SaveResultsOutside(rows, table, runId, items[..|items| - 1], bill, make);
    }
  }

  /** Every item whose bill resolves has a row for this run, made from an
      item resolving to the same bill. */
  lemma {:induction false} SaveResultsCovers<T, V>(rows: seq<BillRow>, table: map<Key, V>, runId: string,
                                                   items: seq<T>, bill: T -> Json, make: T -> V)
    requires SaveResults(rows, table, runId, items, bill, make).Ok?
    ensures var t := SaveResults(rows, table, runId, items, bill, make).value;
      forall i, id :: 0 <= i < |items| && Resolves(rows, bill(items[i]), id) ==>
        (id, runId) in t &&
        exists j :: 0 <= j < |items| && Resolves(rows, bill(items[j]), id) && t[(id, runId)] == make(items[j])
    decreases |items|
  {
    if |items| > 0 {
      var n := |items| - 1;
      var front := items[..n];
      SaveResultsLast(rows, table, runId, items, bill, make);
      SaveResultsCovers(rows, table, runId, front, bill, make);
      assert forall i :: 0 <= i < n ==> front[i] == items[i];
      var t := SaveResults(rows, table, runId, items, bill, make).value;
      forall i, id | 0 <= i < |items| && Resolves(rows, bill(items[i]), id)
        ensures (id, runId) in t
        ensures exists j :: 0 <= j < |items| && Resolves(rows, bill(items[j]), id) && t[(id, runId)] == make(items[j])
      {
        if TargetOf(rows, bill(items[n])) != Some(id) {
          assert i < n && front[i] == items[i];
          var j :| 0 <= j < n && Resolves(rows, bill(front[j]), id) &&
            SaveResults(rows, table, runId, front, bill, make).value[(id, runId)] == make(front[j]);
          assert items[j] == front[j];
        } else {
          assert Resolves(rows, bill(items[n]), id);
        }
      }
    }
  }

  /** Every row the loop changed belongs to this run and to a bill some item
      resolves to. */
  lemma {:induction false} SaveResultsOnly<T, V>(rows: seq<BillRow>, table: map<Key, V>, runId: string,
                                                 items: seq<T>, bill: T -> Json, make: T -> V)
    requires SaveResults(rows, table, runId, items, bill, make).Ok?
    ensures var t := SaveResults(rows, table, runId, items, bill, make).value;
      forall k :: k in t && !(k in table && t[k] == table[k]) ==>
        k.1 == runId && exists j :: 0 <= j < |items| && Resolves(rows, bill(items[j]), k.0)
    decreases |items|
  {
    if |items| > 0 {
      var n := |items| - 1;
      var front := items[..n];
      SaveResultsLast(rows, table, runId, items, bill, make);
      SaveResultsOnly(rows, table, runId, front, bill, make);
      assert forall i :: 0 <= i < n ==> front[i] == items[i];
      if TargetOf(rows, bill(items[n])).Some? {
        assert Resolves(rows, bill(items[n]), TargetOf(rows, bill(items[n])).value);
      }
    }
  }

  /** What a completed loop leaves: every item that resolves to a bill has a
      row for this run, made from an item resolving to that bill; every row
      that changed belongs to this run and to such a bill; other runs are
      untouched. */
  lemma SaveResultsEffect<T, V>(rows: seq<BillRow>, table: map<Key, V>, runId: string,
                                items: seq<T>, bill: T -> Json, make: T -> V)
    requires SaveResults(rows, table, runId, items, bill, make).Ok?
    ensures var t := SaveResults(rows, table, runId, items, bill, make).value;
      SameOutside(t, table, runId) &&
      (forall i, id :: 0 <= i < |items| && Resolves(rows, bill(items[i]), id) ==>
        (id, runId) in t &&
        exists j :: 0 <= j < |items| && Resolves(rows, bill(items[j]), id) && t[(id, runId)] == make(items[j])) &&
      (forall k :: k in t && !(k in table && t[k] == table[k]) ==>
        k.1 == runId && exists j :: 0 <= j < |items| && Resolves(rows, bill(items[j]), k.0))
  {
    SaveResultsOutside(rows, table, runId, items, bill, make);
    SaveResultsCovers(rows, table, runId, items, bill, make);
    SaveResultsOnly(rows, table, runId, items, bill, make);
  }

  // ---------------------------------------------------------------- pipeline_runs

  /** `INSERT INTO pipeline_runs ... ON CONFLICT (run_id) DO UPDATE`: the
      counts and status are replaced, a run already recorded keeps its stage. */
  function RecordRun(runs: map<string, RunRow>, runId: string, stage: string,
                     processed: Json, relevant: Json): map<string, RunRow>
  {
    runs[runId := RunRow(KeptStage(runs, runId, stage), "completed", processed, relevant)]
  }

  /** The stage column after the upsert: the stage already recorded, if any. */
  function KeptStage(runs: map<string, RunRow>, runId: string, stage: string): string {
    if runId in runs then runs[runId].stage else stage
  }

  /** The upsert records the run as completed with the given counts, keeps
      the stage of a run already recorded, and leaves every other run as it
      was. */
  lemma RecordRunEffect(runs: map<string, RunRow>, runId: string, stage: string, processed: Json, relevant: Json)
    ensures var r := RecordRun(runs, runId, stage, processed, relevant);
      runId in r && r[runId].status == "completed" &&
      r[runId].processed == processed && r[runId].relevant == relevant &&
      r[runId].stage == (if runId in runs then runs[runId].stage else stage) &&
      forall id :: id != runId ==> (id in r <==> id in runs) && (id in runs ==> r[id] == runs[id])
  {
  }

  // ---------------------------------------------------------------- save_filtered_results

  function FilterItem(item: Json): Json {
    item
  }

  function FilterRowOf(item: Json): FilterRow {
    FilterRow(true, if item.Obj? then GetOr(item.fields, "reason", Str("")) else Str(""))
  }

  /** The `save_filtered_results` transaction. The relevant bills and the
      counts are read from `data` before the connection is taken. */
  function SaveFilterTxn(db: Tables, runId: string, data: Json, dbFails: bool): (r: Result<Tables>)
  {
    var relevant :- Get(data, "relevant_bills", Arr([]));
    var summary := GetOr(data.fields, "summary", Obj([]));
    var total :- Get(summary, "total_analyzed", Int(0));
    var count := GetOr(summary.fields, "relevant_count", Int(0));
    if dbFails then Err(DbFailure)
    else
      var items :- Iter(relevant);
      var table :- SaveResults(db.bills, db.filterResults, runId, items, FilterItem, FilterRowOf);
      Ok(db.(filterResults := table, pipelineRuns := RecordRun(db.pipelineRuns, runId, "filter", total, count)))
  }

  /** A committed filter save records every relevant bill that names a known
      bill as relevant for this run, touches no other run's rows, and
      records the run with the summary's counts. */
  lemma FilterSaveEffect(db: Tables, runId: string, data: Json, id: Json, i: nat)
    requires SaveFilterTxn(db, runId, data, false).Ok?
    requires data.Obj? && Lookup(data.fields, "relevant_bills").Some?
    requires Lookup(data.fields, "relevant_bills").value.Arr?
    requires i < |Lookup(data.fields, "relevant_bills").value.items|
    requires Resolves(db.bills, Lookup(data.fields, "relevant_bills").value.items[i], id)
    ensures var t := SaveFilterTxn(db, runId, data, false).value;
      (id, runId) in t.filterResults && t.filterResults[(id, runId)].isRelevant &&
      SameOutside(t.filterResults, db.filterResults, runId) &&
      t.bills == db.bills && t.analysisResults == db.analysisResults &&
      t.pipelineRuns[runId].processed == GetOr(GetOr(data.fields, "summary", Obj([])).fields, "total_analyzed", Int(0))
  {
    var items := Lookup(data.fields, "relevant_bills").value.items;
    SaveResultsEffect(db.bills, db.filterResults, runId, items, FilterItem, FilterRowOf);
    assert Resolves(db.bills, FilterItem(items[i]), id);
    var summary := GetOr(data.fields, "summary", Obj([]));
    RecordRunEffect(db.pipelineRuns, runId, "filter", GetOr(summary.fields, "total_analyzed", Int(0)),
                    GetOr(summary.fields, "relevant_count", Int(0)));
  }

  /** The filter save aborts on a relevant bill that is not a dict. */
  lemma FilterSaveRejectsNonDict(db: Tables, runId: string, bills: seq<Json>, i: nat)
    requires i < |bills| && !bills[i].Obj?
    ensures SaveFilterTxn(db, runId, Obj([("relevant_bills", Arr(bills))]), false).Err?
  {
    SaveResultsFails(db.bills, db.filterResults, runId, bills, FilterItem, FilterRowOf);
    assert !FilterItem(bills[i]).Obj?;
  }

  // ---------------------------------------------------------------- save_analysis_results

  function Tag(items: seq<Json>, relevant: bool): (r: seq<(Json, bool)>)
    ensures |r| == |items| && forall i :: 0 <= i < |items| ==> r[i] == (items[i], relevant)
  {
    seq(|items|, i requires 0 <= i < |items| => (items[i], relevant))
  }

  /** The relevant bills tagged true, then the others tagged false. */
  function Tagged(relevant: seq<Json>, notRelevant: seq<Json>): seq<(Json, bool)> {
    Tag(relevant, true) + Tag(notRelevant, false)
  }

  function TaggedBill(item: (Json, bool)): Json {
    item.0
  }

  /** The row written for an analysed bill, with the code's defaults. */
  function AnalysisRowOf(item: (Json, bool)): AnalysisRow {
    var fs := if item.0.Obj? then item.0.fields else [];
    AnalysisRow(item.1, GetOr(fs, "relevance_reasoning", Str("")), GetOr(fs, "summary", Str("")),
                GetOr(fs, "bill_status", Str("")), GetOr(fs, "legislation_type", Str("")),
                GetOr(fs, "categories", Arr([])), GetOr(fs, "tags", Arr([])),
                GetOr(fs, "key_provisions", Arr([])), GetOr(fs, "palliative_care_impact", Str("")),
                GetOr(fs, "exclusion_check", Obj([])), GetOr(fs, "special_flags", Obj([])))
  }

  /** The `save_analysis_results` transaction: relevant bills first, then
      the others; the run records both list lengths and the relevant one. */
  function SaveAnalysisTxn(db: Tables, runId: string, relevant: Json, notRelevant: Json,
                           dbFails: bool): (r: Result<Tables>)
  {
    if dbFails then Err(DbFailure)
    else
      var rel :- Iter(relevant);
      var other :- Iter(notRelevant);
      // len() of an iterable value is the number of items it iterates
      AnalysisCommit(db, runId, rel, other)
  }

  /** The inserts of the analysis transaction and the run record. */
  function AnalysisCommit(db: Tables, runId: string, rel: seq<Json>, other: seq<Json>): Result<Tables> {
    var table :- SaveResults(db.bills, db.analysisResults, runId, Tagged(rel, other), TaggedBill, AnalysisRowOf);
    Ok(db.(analysisResults := table,
           pipelineRuns := RecordRun(db.pipelineRuns, runId, "analysis", Int(|rel| + |other|), Int(|rel|))))
  }

  /** The statements of the analysis transaction. */
  method AnalysisTxn(db: Tables, runId: string, relevant: Json, notRelevant: Json, dbFails: bool)
    returns (r: Result<Tables>)
    ensures r == SaveAnalysisTxn(db, runId, relevant, notRelevant, dbFails)
  {
    if dbFails { return Err(DbFailure); }
    var rel := Iter(relevant);
    if rel.Err? { return Err(rel.exc); }
    var other := Iter(notRelevant);
    if other.Err? { return Err(other.exc); }
    r := AnalysisInserts(db, runId, rel.value, other.value);
  }

  /** The insert loop over both lists, then the run record. */
  method AnalysisInserts(db: Tables, runId: string, rel: seq<Json>, other: seq<Json>) returns (r: Result<Tables>)
    ensures r == AnalysisCommit(db, runId, rel, other)
  {
    var table := SaveResultsLoop(db.bills, db.analysisResults, runId, Tagged(rel, other), TaggedBill, AnalysisRowOf);
    if table.Err? { return Err(table.exc); }
    var runs := RecordRun(db.pipelineRuns, runId, "analysis", Int(|rel| + |other|), Int(|rel|));
    return Ok(db.(analysisResults := table.value, pipelineRuns := runs));
  }

  /** A committed analysis save: a relevant bill that names a known bill has
      a row for this run, and the run counts both lists. */
  lemma AnalysisSaveEffect(db: Tables, runId: string, relevant: seq<Json>, notRelevant: seq<Json>,
                           id: Json, i: nat)
    requires SaveAnalysisTxn(db, runId, Arr(relevant), Arr(notRelevant), false).Ok?
    requires i < |relevant| && Resolves(db.bills, relevant[i], id)
    ensures var t := SaveAnalysisTxn(db, runId, Arr(relevant), Arr(notRelevant), false).value;
      (id, runId) in t.analysisResults &&
      SameOutside(t.analysisResults, db.analysisResults, runId) &&
      t.bills == db.bills && t.filterResults == db.filterResults &&
      t.pipelineRuns[runId].processed == Int(|relevant| + |notRelevant|) &&
      t.pipelineRuns[runId].relevant == Int(|relevant|)
  {
    assert Iter(Arr(relevant)) == Ok(relevant) && Iter(Arr(notRelevant)) == Ok(notRelevant);
    assert SaveAnalysisTxn(db, runId, Arr(relevant), Arr(notRelevant), false) ==
      AnalysisCommit(db, runId, relevant, notRelevant);
    AnalysisCommitEffect(db, runId, relevant, notRelevant, id, i);
  }

  /** The inserts and the run record of a committed analysis save. */
  lemma AnalysisCommitEffect(db: Tables, runId: string, relevant: seq<Json>, notRelevant: seq<Json>,
                             id: Json, i: nat)
    requires AnalysisCommit(db, runId, relevant, notRelevant).Ok?
    requires i < |relevant| && Resolves(db.bills, relevant[i], id)
    ensures var t := AnalysisCommit(db, runId, relevant, notRelevant).value;
      (id, runId) in t.analysisResults &&
      SameOutside(t.analysisResults, db.analysisResults, runId) &&
      t.bills == db.bills && t.filterResults == db.filterResults &&
      t.pipelineRuns[runId].processed == Int(|relevant| + |notRelevant|) &&
      t.pipelineRuns[runId].relevant == Int(|relevant|)
  {
    var items := Tagged(relevant, notRelevant);
    SaveResultsOutside(db.bills, db.analysisResults, runId, items, TaggedBill, AnalysisRowOf);
    SaveResultsCovers(db.bills, db.analysisResults, runId, items, TaggedBill, AnalysisRowOf);
    assert items[i] == (relevant[i], true);
    assert Resolves(db.bills, TaggedBill(items[i]), id);
    RecordRunEffect(db.pipelineRuns, runId, "analysis", Int(|relevant| + |notRelevant|), Int(|relevant|));
  }

  // ---------------------------------------------------------------- loads of results

  datatype FilterJoined = FilterJoined(bill: BillRow, result: FilterRow)

  datatype AnalysisJoined = AnalysisJoined(bill: BillRow, result: AnalysisRow)

  function FilterNumber(j: FilterJoined): Json {
    j.bill.billNumber
  }

  function AnalysisNumber(j: AnalysisJoined): Json {
    j.bill.billNumber
  }

  /** The keys of `... JOIN bills b ON f.bill_id = b.bill_id WHERE f.run_id =
      %s AND f.is_relevant = TRUE`. */
  function FilterKeys(db: Tables, runId: string): set<Key> {
    set k | k in db.filterResults && k.1 == runId && db.filterResults[k].isRelevant &&
            FindRow(db.bills, k.0).Some?
  }

  function JoinFilter(db: Tables, k: Key): FilterJoined
    requires k in db.filterResults && FindRow(db.bills, k.0).Some?
  {
    FilterJoined(FindRow(db.bills, k.0).value, db.filterResults[k])
  }

  /** The joined rows the filter query returns, in no particular order. */
  function FilterJoin(db: Tables, runId: string): set<FilterJoined> {
    set k | k in FilterKeys(db, runId) :: JoinFilter(db, k)
  }

  function AnalysisKeys(db: Tables, runId: string): set<Key> {
    set k | k in db.analysisResults && k.1 == runId && FindRow(db.bills, k.0).Some?
  }

  function JoinAnalysis(db: Tables, k: Key): AnalysisJoined
    requires k in db.analysisResults && FindRow(db.bills, k.0).Some?
  {
    AnalysisJoined(FindRow(db.bills, k.0).value, db.analysisResults[k])
  }

  function AnalysisJoin(db: Tables, runId: string): set<AnalysisJoined> {
    set k | k in AnalysisKeys(db, runId) :: JoinAnalysis(db, k)
  }

  /** `js` holds the joined filter rows of the run, each once. */
  ghost predicate ListsFilterJoin(js: seq<FilterJoined>, db: Tables, runId: string) {
    (forall x :: x in js <==> x in FilterJoin(db, runId)) && |js| == |FilterKeys(db, runId)|
  }

  /** `js` holds the joined analysis rows of the run, each once. */
  ghost predicate ListsAnalysisJoin(js: seq<AnalysisJoined>, db: Tables, runId: string) {
    (forall x :: x in js <==> x in AnalysisJoin(db, runId)) && |js| == |AnalysisKeys(db, runId)|
  }

  /** The elements of a finite set, each once, in some order. */
  method Enumerate<K>(s: set<K>) returns (r: seq<K>)
    ensures |r| == |s| && forall k :: k in r <==> k in s
  {
    r := [];
    var rest := s;
    while rest != {}
      invariant rest <= s
      invariant |r| + |rest| == |s|
      invariant forall k :: k in r <==> k in s && k !in rest
      decreases |rest|
    {
      var k :| k in rest;
      r := r + [k];
      rest := rest - {k};
    }
  }

  function JoinFilters(db: Tables, ks: seq<Key>): (r: seq<FilterJoined>)
    requires forall k :: k in ks ==> k in db.filterResults && FindRow(db.bills, k.0).Some?
    ensures |r| == |ks| && forall i :: 0 <= i < |ks| ==> r[i] == JoinFilter(db, ks[i])
  {
    seq(|ks|, i requires 0 <= i < |ks| => JoinFilter(db, ks[i]))
  }

  function JoinAnalyses(db: Tables, ks: seq<Key>): (r: seq<AnalysisJoined>)
    requires forall k :: k in ks ==> k in db.analysisResults && FindRow(db.bills, k.0).Some?
    ensures |r| == |ks| && forall i :: 0 <= i < |ks| ==> r[i] == JoinAnalysis(db, ks[i])
  {
    seq(|ks|, i requires 0 <= i < |ks| => JoinAnalysis(db, ks[i]))
  }

  /** Joining each key of the run once lists the joined rows once each
      (distinct keys give distinct rows: each carries its bill's id). */
  lemma JoinFilterList(db: Tables, runId: string, ks: seq<Key>)
    requires |ks| == |FilterKeys(db, runId)| && forall k :: k in ks <==> k in FilterKeys(db, runId)
    ensures forall k :: k in ks ==> k in db.filterResults && FindRow(db.bills, k.0).Some?
    ensures ListsFilterJoin(JoinFilters(db, ks), db, runId)
  {
    var js := JoinFilters(db, ks);
    forall x | x in FilterJoin(db, runId) ensures x in js {
      var k :| k in FilterKeys(db, runId) && x == JoinFilter(db, k);
      var i :| 0 <= i < |ks| && ks[i] == k;
      assert js[i] == x;
    }
  }

  lemma JoinAnalysisList(db: Tables, runId: string, ks: seq<Key>)
    requires |ks| == |AnalysisKeys(db, runId)| && forall k :: k in ks <==> k in AnalysisKeys(db, runId)
    ensures forall k :: k in ks ==> k in db.analysisResults && FindRow(db.bills, k.0).Some?
    ensures ListsAnalysisJoin(JoinAnalyses(db, ks), db, runId)
  {
    var js := JoinAnalyses(db, ks);
    forall x | x in AnalysisJoin(db, runId) ensures x in js {
      var k :| k in AnalysisKeys(db, runId) && x == JoinAnalysis(db, k);
      var i :| 0 <= i < |ks| && ks[i] == k;
      assert js[i] == x;
    }
  }

  /** Reordering keeps the listing. */
  lemma ReorderFilterJoin(js: seq<FilterJoined>, ordered: seq<FilterJoined>, db: Tables, runId: string)
    requires ListsFilterJoin(js, db, runId) && multiset(ordered) == multiset(js)
    ensures ListsFilterJoin(ordered, db, runId)
  {
    assert |ordered| == |multiset(ordered)| == |multiset(js)| == |js|;
    assert forall x :: x in ordered <==> x in multiset(js);
  }

  lemma ReorderAnalysisJoin(js: seq<AnalysisJoined>, ordered: seq<AnalysisJoined>, db: Tables, runId: string)
    requires ListsAnalysisJoin(js, db, runId) && multiset(ordered) == multiset(js)
    ensures ListsAnalysisJoin(ordered, db, runId)
  {
    assert |ordered| == |multiset(ordered)| == |multiset(js)| == |js|;
    assert forall x :: x in ordered <==> x in multiset(js);
  }

  /** `x - n` for the `bills_processed` value and an int. */
  function Subtract(x: Json, n: int): (r: Result<Json>)
    ensures r.Ok? <==> IsNumber(x)
    ensures r.Ok? ==> IsNumber(r.value) && NumValue(r.value) == NumValue(x) - n as real
  {
    match x
    case Bool(b) => Ok(Int((if b then 1 else 0) - n))
    case Int(i) => Ok(Int(i - n))
    case Float(v) => Ok(Float(v - n as real))
    case _ => Err(TypeError("unsupported operand type(s) for -: '" + TypeName(x) + "' and 'int'"))
  }

  function FilterRecord(j: FilterJoined): Json {
    Obj([("bill_number", j.bill.billNumber), ("title", j.bill.title), ("url", j.bill.url),
         ("reason", j.result.reason)])
  }

  function FilterRecords(js: seq<FilterJoined>): (r: seq<Json>)
    ensures |r| == |js| && forall i :: 0 <= i < |js| ==> r[i] == FilterRecord(js[i])
  {
    seq(|js|, i requires 0 <= i < |js| => FilterRecord(js[i]))
  }

  /** The summary row `WHERE run_id = %s AND stage = 'filter'`. */
  function FilterRun(runs: map<string, RunRow>, runId: string): Option<RunRow> {
    if runId in runs && runs[runId].stage == "filter" then Some(runs[runId]) else None
  }

  /** The document `load_filtered_results` builds from the ordered rows. */
  function FilterDoc(runId: string, js: seq<FilterJoined>, run: Option<RunRow>): Result<Json> {
    var processed := if run.Some? then run.value.processed else Int(0);
    var notRelevant :- Subtract(processed, |js|);
    Ok(Obj([("summary", Obj([("total_analyzed", processed),
                             ("relevant_count", if run.Some? then run.value.relevant else Int(|js|)),
                             ("not_relevant_count", notRelevant),
                             ("source_file", Str(runId))])),
            ("relevant_bills", Arr(FilterRecords(js)))]))
  }

  /** The counts of a loaded filter document: without a filter run the
      relevant count is the number of rows and the others count negative;
      with one, relevant and not-relevant rows add up to the processed
      count; a non-numeric processed count raises TypeError. */
  lemma FilterDocCounts(runId: string, js: seq<FilterJoined>, run: Option<RunRow>)
    ensures FilterDoc(runId, js, run).Err? <==> run.Some? && !IsNumber(run.value.processed)
    ensures run.None? ==>
      FilterDoc(runId, js, run) == Ok(Obj([("summary", Obj([("total_analyzed", Int(0)), ("relevant_count", Int(|js|)),
                               ("not_relevant_count", Int(-|js|)), ("source_file", Str(runId))])),
              ("relevant_bills", Arr(FilterRecords(js)))]))
    ensures run.Some? && FilterDoc(runId, js, run).Ok? ==>
      var s := FilterDoc(runId, js, run).value.fields[0].1;
      IsNumber(s.fields[2].1) && NumValue(s.fields[2].1) + |js| as real == NumValue(run.value.processed)
  {
  }

  function AnalysisRecord(j: AnalysisJoined): Json {
    var a := j.result;
    Obj([("bill_number", j.bill.billNumber), ("title", j.bill.title), ("url", j.bill.url),
         ("relevance_reasoning", a.reasoning), ("summary", a.summary), ("bill_status", a.billStatus),
         ("legislation_type", a.legislationType), ("categories", a.categories), ("tags", a.tags),
         ("key_provisions", a.keyProvisions), ("palliative_care_impact", a.impact),
         ("exclusion_check", a.exclusionCheck), ("special_flags", a.specialFlags)])
  }

  /** The records of the rows whose `is_relevant` equals `relevant`, in order. */
  function Partition(js: seq<AnalysisJoined>, relevant: bool): (r: seq<Json>)
    ensures |r| <= |js|
    ensures forall k :: 0 <= k < |r| ==> DrawnFrom(r[k], js, relevant)
    ensures forall i :: 0 <= i < |js| && js[i].result.isRelevant == relevant ==> AnalysisRecord(js[i]) in r
  {
    if |js| == 0 then []
    else
      var front := Partition(js[..|js| - 1], relevant);
      DrawnFromPrefix(js, |js| - 1, relevant);
      assert forall i :: 0 <= i < |js| - 1 ==> js[..|js| - 1][i] == js[i];
      var last := AnalysisRecord(js[|js| - 1]);
      assert js[|js| - 1].result.isRelevant == relevant ==> DrawnFrom(last, js, relevant);
      if js[|js| - 1].result.isRelevant == relevant then front + [last] else front
  }

  /** `x` is the record of a row of `js` whose relevance is `relevant`. */
  predicate DrawnFrom(x: Json, js: seq<AnalysisJoined>, relevant: bool) {
    exists i :: 0 <= i < |js| && js[i].result.isRelevant == relevant && x == AnalysisRecord(js[i])
  }

  /** A record drawn from a prefix of the rows is drawn from the rows. */
  lemma DrawnFromPrefix(js: seq<AnalysisJoined>, n: nat, relevant: bool)
    requires n <= |js|
    ensures forall x :: DrawnFrom(x, js[..n], relevant) ==> DrawnFrom(x, js, relevant)
  {
    forall x | DrawnFrom(x, js[..n], relevant) ensures DrawnFrom(x, js, relevant) {
      var i :| 0 <= i < n && js[..n][i].result.isRelevant == relevant && x == AnalysisRecord(js[..n][i]);
      assert js[..n][i] == js[i];
    }
  }

  /** The rows are taken in order: partitioning two runs of rows one
      after the other gives the two partitions one after the other. */
  lemma {:induction false} PartitionAppend(first: seq<AnalysisJoined>, second: seq<AnalysisJoined>, relevant: bool)
    ensures Partition(first + second, relevant) == Partition(first, relevant) + Partition(second, relevant)
    decreases |second|
  {
    if |second| > 0 {
      var front := second[..|second| - 1];
      assert (first + second)[..|first + second| - 1] == first + front;
      assert (first + second)[|first + second| - 1] == second[|second| - 1];
      PartitionAppend(first, front, relevant);
    } else {
      assert first + second == first;
    }
  }

  /** Every row lands in exactly one of the two lists. */
  lemma {:induction false} SplitPartitions(js: seq<AnalysisJoined>)
    ensures |Partition(js, true)| + |Partition(js, false)| == |js|
  {
    if |js| > 0 { SplitPartitions(js[..|js| - 1]); }
  }

  // ---------------------------------------------------------------- listings

  /** `LOWER(state) || '_bills_' || year::text`: NULL when either is NULL. */
  function Identifier(row: BillRow): Option<string> {
    if row.state.Null? || row.year.Null? then None
    else Some(Lower(Text(row.state)) + "_bills_" + Text(row.year))
  }

  /** The run ids of `filter_results`, relevant rows or not. */
  function FilterRunIds(table: map<Key, FilterRow>): set<string> {
    set k | k in table :: k.1
  }

  /** `get_bill_by_number`: the raw document of the first row with that
      number, or None (`Null`). */
  function DbBillByNumber(rows: seq<BillRow>, billNumber: string): (r: Json)
    ensures r != Null ==> exists i :: 0 <= i < |rows| && rows[i].billNumber == Str(billNumber) && r == Obj(rows[i].rawData)
  {
    match FirstWithNumber(rows, Str(billNumber))
    case Some(row) => Obj(row.rawData)
    case None => Null
  }

  /** Both lookups agree: a bill exists exactly when fetching it gives a
      document, and that document is a dict. */
  lemma DbBillExistsAgrees(rows: seq<BillRow>, billNumber: string)
    ensures (exists i :: 0 <= i < |rows| && rows[i].billNumber == Str(billNumber)) <==>
      DbBillByNumber(rows, billNumber) != Null
    ensures DbBillByNumber(rows, billNumber) != Null ==> DbBillByNumber(rows, billNumber).Obj?
  {
  }

  function Strs(names: seq<string>): (r: seq<Json>)
    ensures |r| == |names| && forall i :: 0 <= i < |names| ==> r[i] == Str(names[i])
    ensures forall x :: Str(x) in r <==> x in names
    ensures forall x :: x in r ==> x.Str?
  {
    seq(|names|, i requires 0 <= i < |names| => Str(names[i]))
  }

  // ---------------------------------------------------------------- the provider

  class DatabaseStorage {
    var db: Tables
    /** the local files dual writes go to; present exactly when
        `enable_file_fallback` is truthy */
    const fileStorage: LocalFileStorage.LocalFileStorage?

    ghost predicate Valid()
      reads this
    {
      UniqueIds(db.bills)
    }

    /** In a valid store a bill_id reads back exactly the row stored under
        it. */
    lemma ValidKeyFindsRow()
      requires Valid()
      ensures forall i :: 0 <= i < |db.bills| ==> FindRow(db.bills, db.bills[i].billId) == Some(db.bills[i])
    {
      KeyFindsRow(db.bills);
    }

    constructor (settings: DbSettings, existing: Tables, files: Files)
      requires UniqueIds(existing.bills)
      ensures Valid() && db == existing
      ensures (fileStorage != null) == settings.fileFallback
      ensures fileStorage != null ==>
        fresh(fileStorage) && fileStorage.dataDirectory == "data" && fileStorage.files == files
    {
      db := existing;
      if settings.fileFallback {
        fileStorage := new LocalFileStorage.LocalFileStorage("data", files);
      } else {
        fileStorage := null;
      }
    }

    method SaveRawData(filename: string, data: Json, dbFails: bool) returns (r: Result<()>)
      requires Valid()
      modifies this, fileStorage
      ensures Valid()
      ensures var t := SaveRawTxn(old(db), data, dbFails);
        (t.Ok? ==> r == Ok(()) && db == t.value) && (t.Err? ==> r == Err(t.exc) && db == old(db))
      ensures fileStorage != null ==>
        fileStorage.files == if r.Ok? then old(fileStorage.files)[RawPath(DropSuffix(filename, ".json")) := data]
        else old(fileStorage.files)
    {
      var extracted := ExtractBills(data);
      if extracted.Err? { return Err(extracted.exc); }
      if dbFails { return Err(DbFailure); }
      var items := Iter(extracted.value);
      if items.Err? { return Err(items.exc); }
      var bills := items.value;
      var rows := UpsertBills(db.bills, bills);
      SaveBillsUnique(db.bills, bills);
      db := db.(bills := rows);
      if fileStorage != null {
        fileStorage.SaveRawData(DropSuffix(filename, ".json"), data);
      }
      r := Ok(());
    }

    method LoadRawData(filename: string) returns (r: Result<Json>)
      ensures var m := Matching(db.bills, StateFilter(filename), YearFilter(filename));
        (r.Err? <==> |m| == 0) &&
        (r.Err? ==> r.exc == FileNotFound("No bills found for: " + DropSuffix(filename, ".json"))) &&
        (r.Ok? ==> exists rows :: OrderedByNumber(rows, RowNumber) && multiset(rows) == multiset(m) &&
                                  r.value == RawDoc(rows))
    {
      var m := Matching(db.bills, StateFilter(filename), YearFilter(filename));
      var rows := OrderByNumber(m, RowNumber);
      if |rows| == 0 {
        assert |m| == |multiset(m)| == |multiset(rows)|;
        return Err(FileNotFound("No bills found for: " + DropSuffix(filename, ".json")));
      }
      assert |m| == |multiset(m)| == |multiset(rows)|;
      r := Ok(RawDoc(rows));
    }

    method SaveFilteredResults(runId: string, data: Json, dbFails: bool) returns (r: Result<()>)
      requires Valid()
      modifies this, fileStorage
      ensures Valid()
      ensures var t := SaveFilterTxn(old(db), runId, data, dbFails);
        (t.Ok? ==> r == Ok(()) && db == t.value) && (t.Err? ==> r == Err(t.exc) && db == old(db))
      ensures fileStorage != null ==>
        fileStorage.files == if r.Ok? then old(fileStorage.files)[FilteredPath(runId) := data] else old(fileStorage.files)
    {
      var relevant := Get(data, "relevant_bills", Arr([]));
      if relevant.Err? { return Err(relevant.exc); }
      var summary := GetOr(data.fields, "summary", Obj([]));
      var total := Get(summary, "total_analyzed", Int(0));
      if total.Err? { return Err(total.exc); }
      var count := GetOr(summary.fields, "relevant_count", Int(0));
      if dbFails { return Err(DbFailure); }
      var iter := Iter(relevant.value);
      if iter.Err? { return Err(iter.exc); }
      var table := SaveResultsLoop(db.bills, db.filterResults, runId, iter.value, FilterItem, FilterRowOf);
      if table.Err? { return Err(table.exc); }
      db := db.(filterResults := table.value,
                pipelineRuns := RecordRun(db.pipelineRuns, runId, "filter", total.value, count));
      if fileStorage != null {
        fileStorage.SaveFilteredResults(runId, data);
      }
      r := Ok(());
    }

    method SaveAnalysisResults(runId: string, relevant: Json, notRelevant: Json, dbFails: bool)
      returns (r: Result<()>)
      requires Valid()
      modifies this, fileStorage
      ensures Valid()
      ensures var t := SaveAnalysisTxn(old(db), runId, relevant, notRelevant, dbFails);
        (t.Ok? ==> r == Ok(()) && db == t.value) && (t.Err? ==> r == Err(t.exc) && db == old(db))
      ensures fileStorage != null ==>
        fileStorage.files == if r.Ok? then old(fileStorage.files)[RelevantPath(runId) := relevant]
                                                                 [NotRelevantPath(runId) := notRelevant]
                             else old(fileStorage.files)
    {
      var t := AnalysisTxn(db, runId, relevant, notRelevant, dbFails);
      if t.Err? { return Err(t.exc); }
      db := t.value;
      if fileStorage != null {
        fileStorage.SaveAnalysisResults(runId, relevant, notRelevant);
      }
      r := Ok(());
    }

    method LoadFilteredResults(runId: string) returns (r: Result<Json>)
      ensures FilterKeys(db, runId) == {} ==>
        r == Err(FileNotFound("Filter results not found for run_id: " + runId))
      ensures FilterKeys(db, runId) != {} ==>
        exists js :: ListsFilterJoin(js, db, runId) && OrderedByNumber(js, FilterNumber) &&
          r == FilterDoc(runId, js, FilterRun(db.pipelineRuns, runId))
    {
      var ks := Enumerate(FilterKeys(db, runId));
      if |ks| == 0 {
        return Err(FileNotFound("Filter results not found for run_id: " + runId));
      }
      JoinFilterList(db, runId, ks);
      var rows := JoinFilters(db, ks);
      var ordered := OrderByNumber(rows, FilterNumber);
      ReorderFilterJoin(rows, ordered, db, runId);
      r := FilterDoc(runId, ordered, FilterRun(db.pipelineRuns, runId));
    }

    method LoadAnalysisResults(runId: string) returns (r: Result<(Json, Json)>)
      ensures AnalysisKeys(db, runId) == {} ==>
        r == Err(FileNotFound("Analysis results not found for run_id: " + runId))
      ensures AnalysisKeys(db, runId) != {} ==>
        exists js :: ListsAnalysisJoin(js, db, runId) && OrderedByNumber(js, AnalysisNumber) &&
          r == Ok((Arr(Partition(js, true)), Arr(Partition(js, false))))
    {
      var ks := Enumerate(AnalysisKeys(db, runId));
      if |ks| == 0 {
        return Err(FileNotFound("Analysis results not found for run_id: " + runId));
      }
      JoinAnalysisList(db, runId, ks);
      var rows := JoinAnalyses(db, ks);
      var ordered := OrderByNumber(rows, AnalysisNumber);
      ReorderAnalysisJoin(rows, ordered, db, runId);
      var relevant: seq<Json> := [];
      var others: seq<Json> := [];
      for i := 0 to |ordered|
        invariant relevant == Partition(ordered[..i], true)
        invariant others == Partition(ordered[..i], false)
      {
        assert ordered[..i + 1][..i] == ordered[..i];
        if ordered[i].result.isRelevant {
          relevant := relevant + [AnalysisRecord(ordered[i])];
        } else {
          others := others + [AnalysisRecord(ordered[i])];
        }
      }
      assert ordered[..|ordered|] == ordered;
      r := Ok((Arr(relevant), Arr(others)));
    }

    method GetBillFromCache(billId: Json) returns (r: Json)
      ensures r == if billId in db.legiscanCache then db.legiscanCache[billId] else Null
    {
      if billId !in db.legiscanCache { return Null; }
      r := db.legiscanCache[billId];
    }

    method SaveBillToCache(billId: Json, data: Json, dbFails: bool) returns (r: Result<()>)
      requires Valid()
      modifies this, fileStorage
      ensures Valid()
      ensures r.Ok? <==> !dbFails
      ensures db == if dbFails then old(db) else old(db).(legiscanCache := old(db.legiscanCache)[billId := data])
      ensures fileStorage != null ==>
        fileStorage.files == if r.Ok? then old(fileStorage.files)[CachePath(billId) := data] else old(fileStorage.files)
    {
      if dbFails { return Err(DbFailure); }
      db := db.(legiscanCache := db.legiscanCache[billId := data]);
      if fileStorage != null {
        fileStorage.SaveBillToCache(billId, data);
      }
      r := Ok(());
    }

    /** The distinct identifiers, sorted, with NULL last when some row has no
        state or no year. */
    method ListRawFiles() returns (r: seq<Json>)
      ensures forall x :: x in r ==> x.Str? || x.Null?
      ensures forall i :: 0 <= i < |r| - 1 ==> r[i].Str?
      ensures forall i, j :: 0 <= i < j < |r| && r[j].Str? ==> r[i].Str? && Below(r[i].s, r[j].s)
      ensures forall x :: Str(x) in r <==> exists i :: 0 <= i < |db.bills| && Identifier(db.bills[i]) == Some(x)
      ensures Null in r <==> exists i :: 0 <= i < |db.bills| && Identifier(db.bills[i]).None?
    {
      var names: set<string> := {};
      var hasNull := false;
      for i := 0 to |db.bills|
        invariant forall x :: x in names <==> exists j :: 0 <= j < i && Identifier(db.bills[j]) == Some(x)
        invariant hasNull <==> exists j :: 0 <= j < i && Identifier(db.bills[j]).None?
      {
        var id := Identifier(db.bills[i]);
        if id.Some? { names := names + {id.value}; } else { hasNull := true; }
      }
      var sorted := SortedNames(names);
      var strs := Strs(sorted);
      r := strs + if hasNull then [Null] else [];
      assert forall x :: Str(x) in r <==> x in sorted;
    }

    method ListFilteredResults() returns (r: seq<string>)
      ensures StrictlySorted(r)
      ensures forall x :: x in r <==> exists k :: k in db.filterResults && k.1 == x
    {
      r := SortedNames(FilterRunIds(db.filterResults));
    }

    /** `SELECT 1 FROM bills WHERE bill_number = %s LIMIT 1`; the file name
        plays no part. */
    method BillExistsInRaw(billNumber: string, filename: string) returns (r: bool)
      ensures r <==> exists i :: 0 <= i < |db.bills| && db.bills[i].billNumber == Str(billNumber)
    {
      for i := 0 to |db.bills|
        invariant forall j :: 0 <= j < i ==> db.bills[j].billNumber != Str(billNumber)
      {
        if db.bills[i].billNumber == Str(billNumber) {
          return true;
        }
      }
      r := false;
    }

    method GetBillByNumber(billNumber: string, filename: string) returns (r: Json)
      ensures r == DbBillByNumber(db.bills, billNumber)
    {
      for i := 0 to |db.bills|
        invariant forall j :: 0 <= j < i ==> db.bills[j].billNumber != Str(billNumber)
      {
        if db.bills[i].billNumber == Str(billNumber) {
          FirstWithNumberAt(db.bills, Str(billNumber), i);
          return Obj(db.bills[i].rawData);
        }
      }
      r := Null;
    }
  }

  /** An error on a prefix of the items is the error of the whole loop. */
  lemma {:induction false} SaveResultsPrefixFails<T, V>(rows: seq<BillRow>, table: map<Key, V>, runId: string,
                                                        items: seq<T>, bill: T -> Json, make: T -> V, n: nat)
    requires n <= |items|
    requires SaveResults(rows, table, runId, items[..n], bill, make).Err?
    ensures SaveResults(rows, table, runId, items, bill, make) ==
      SaveResults(rows, table, runId, items[..n], bill, make)
    decreases |items| - n
  {
    if n < |items| {
      assert items[..n + 1][..n] == items[..n];
      SaveResultsPrefixFails(rows, table, runId, items, bill, make, n + 1);
    } else {
      assert items[..n] == items;
    }
  }
}

=== FILE: fetch_legiscan_bills.dfy ===
/** The LegiScan fetch script: pages through `getSearch` results, keeps the
    bill entries of each page, decides from the page summary whether another
    page follows, and writes the bills out with a text sample of each. The
    search service is a function from a page number to its response (None
    when the request fails). */
module FetchLegiScanBills {
  import opened Wrappers
  import opened PyStrings
  import opened PyJson
  import TestSelection

  /** `max_pages`, the safety limit on the number of pages. */
  const MaxPages: nat := 100

  /** The keys of a fetched bill, in order. */
  const BillKeys: seq<string> := ["bill_id", "bill_number", "title", "description", "url"]

  /** `"=" * 80` */
  const Rule: string := Repeat('=', 80)

  /** `c * n` for a one-character string. */
  function Repeat(c: char, n: nat): (r: string)
    ensures |r| == n && forall i :: 0 <= i < n ==> r[i] == c
  {
    if n == 0 then "" else Repeat(c, n - 1) + [c]
  }

  /** `make_api_call`: a failed request yields the empty dict. */
  function Response(search: nat -> Option<Json>, page: nat): Json {
    match search(page)
    case Some(j) => j
    case None => Obj([])
  }

  /** `extract_bill_data`: `bill_id` defaults to None, the other four fields
      to the empty string. */
  function ExtractBillData(summary: Fields): (r: Json)
    ensures r.Obj? && Keys(r.fields) == BillKeys
  {
    Obj([("bill_id", GetOr(summary, "bill_id", Null)),
         ("bill_number", GetOr(summary, "bill_number", Str(""))),
         ("title", GetOr(summary, "title", Str(""))),
         ("description", GetOr(summary, "description", Str(""))),
         ("url", GetOr(summary, "url", Str("")))])
  }

  /** A fetched bill: a dict with exactly the five bill keys. */
  predicate Extracted(bill: Json) {
    bill.Obj? && Keys(bill.fields) == BillKeys
  }

  predicate AllExtracted(bills: seq<Json>) {
    forall b :: b in bills ==> Extracted(b)
  }

  /** The i-th bill key looks up the i-th field of an extracted bill. */
  lemma ExtractedField(summary: Fields, i: nat)
    requires i < |BillKeys|
    ensures var fs := ExtractBillData(summary).fields;
      Lookup(fs, BillKeys[i]) == Some(fs[i].1)
  {
    var fs := ExtractBillData(summary).fields;
    assert forall j :: 0 <= j < |fs| ==> fs[j].0 == BillKeys[j];
    FirstAt(fs, i);
  }

  /** The first entry with a key is what the key looks up. */
  lemma {:induction false} FirstAt(fs: Fields, i: nat)
    requires i < |fs| && forall j :: 0 <= j < i ==> fs[j].0 != fs[i].0
    ensures Lookup(fs, fs[i].0) == Some(fs[i].1)
  {
    if i > 0 {
      FirstAt(fs[1..], i - 1);
    }
  }

  /** Extracting an extracted bill again gives the same bill. */
  lemma ExtractIdempotent(summary: Fields)
    ensures ExtractBillData(ExtractBillData(summary).fields) == ExtractBillData(summary)
  {
    ExtractedField(summary, 0);
    ExtractedField(summary, 1);
    ExtractedField(summary, 2);
    ExtractedField(summary, 3);
    ExtractedField(summary, 4);
  }

  /** A `searchresult` item that is a bill: a digit key and a dict value. */
  predicate IsBillEntry(item: (string, Json)) {
    IsDigits(item.0) && item.1.Obj?
  }

  /** The bills of one page, in the order of `searchresult.items()`. */
  function PageBills(items: Fields): (r: seq<Json>)
    ensures |r| <= |items| && AllExtracted(r)
    decreases |items|
  {
    if |items| == 0 then []
    else
      var front := items[..|items| - 1];
      var last := items[|items| - 1];
      PageBills(front) + if IsBillEntry(last) then [ExtractBillData(last.1.fields)] else []
  }

  /** A page's bills are exactly the extracted dict values under digit keys. */
  lemma {:induction false} PageBillsMembers(items: Fields)
    ensures forall b :: b in PageBills(items) <==>
      exists i :: 0 <= i < |items| && IsBillEntry(items[i]) && b == ExtractBillData(items[i].1.fields)
    decreases |items|
  {
    if |items| > 0 {
      var front := items[..|items| - 1];
      PageBillsMembers(front);
      assert forall i :: 0 <= i < |front| ==> front[i] == items[i];
    }
  }

  /** The `for key, value in searchresult.items()` loop: appends the page's
      bills to `all_bills` and counts them. */
  method AppendPageBills(items: Fields, allBills: seq<Json>) returns (bills: seq<Json>, billsFound: nat)
    ensures bills == allBills + PageBills(items)
    ensures billsFound == |PageBills(items)|
  {
    bills := allBills;
    billsFound := 0;
    var i := 0;
    while i < |items|
      invariant 0 <= i <= |items|
      invariant bills == allBills + PageBills(items[..i])
      invariant billsFound == |PageBills(items[..i])|
    {
      assert items[..i + 1][..i] == items[..i];
      var (key, value) := items[i];
      if IsDigits(key) && value.Obj? {
        bills := bills + [ExtractBillData(value.fields)];
        billsFound := billsFound + 1;
      }
      i := i + 1;
    }
    assert items[..i] == items;
  }

  /** `int(x)` for a JSON value: a float truncates toward zero, a string is
      parsed, a bool is 0 or 1; anything else raises TypeError. */
  function IntOf(j: Json): (r: Result<int>)
    ensures j.Int? ==> r == Ok(j.i)
    ensures j.Null? || j.Arr? || j.Obj? ==> r.Err?
  {
    match j
    case Int(i) => Ok(i)
    case Bool(b) => Ok(if b then 1 else 0)
    case Float(x) => Ok(if x >= 0.0 then x.Floor else -((-x).Floor))
    case Str(s) => ParseInt(s)
    case _ => Err(TypeError("int() argument must be a string, a bytes-like object or a real number, not '" + TypeName(j) + "'"))
  }

  /** `sub in s` means `sub` occurs at some position of `s`. */
  lemma {:induction false} SubstringOccurs(s: string, sub: string)
    requires HasSubstring(s, sub)
    ensures exists k: nat :: OccursAt(s, sub, k)
    decreases |s|
  {
    if StartsWith(s, sub) {
      assert OccursAt(s, sub, 0);
    } else {
      SubstringOccurs(s[1..], sub);
      var k: nat :| OccursAt(s[1..], sub, k);
      assert s[1..][k..k + |sub|] == s[k + 1..k + 1 + |sub|];
      assert OccursAt(s, sub, k + 1);
    }
  }

  /** Splitting on a separator that occurs gives at least two parts. */
  lemma SplitsInTwo(s: string, sep: string)
    requires |sep| > 0 && HasSubstring(s, sep)
    ensures |Split(s, sep)| >= 2
  {
    SubstringOccurs(s, sep);
    var k: nat :| OccursAt(s, sep, k);
    assert Find(s, sep).Some?;
  }

  /** Whether another page follows, from the page summary: a `page` field
      "X of Y" (by default "<page> of 1") gives X < Y; a `page` field without
      " of " compares `page` with `page_total` (default 1). An unparsable
      number raises. */
  function MorePages(summary: Fields, page: nat): (r: Result<bool>)
  {
    var text := PageText(summary, page);
    if HasSubstring(text, " of ") then
      var pages :- CurrentOfTotal(text);
      Ok(pages.0 < pages.1)
    else
      var total :- IntOf(GetOr(summary, "page_total", Int(1)));
      Ok(page < total)
  }

  /** `str(summary_info.get('page', f'{page} of 1'))` */
  function PageText(summary: Fields, page: nat): string {
    PyStr(GetOr(summary, "page", Str(NatText(page) + " of " + "1")))
  }

  /** `int(parts[0])` and `int(parts[1])` for the parts of "X of Y". */
  function CurrentOfTotal(text: string): Result<(int, int)>
    requires HasSubstring(text, " of ")
  {
    SplitsInTwo(text, " of ");
    var parts := Split(text, " of ");
    var current :- ParseInt(parts[0]);
    var total :- ParseInt(parts[1]);
    Ok((current, total))
  }

  /** A non-empty run of digits parses as its value. */
  lemma DigitsParse(x: string)
    requires IsDigits(x)
    ensures ParseInt(x) == Ok(DigitsValue(x) as int)
  {
    assert !IsSpace(x[0]) && IsDigitChar(x[|x| - 1]);
    assert LStrip(x) == x;
    assert RStrip(x) == x;
  }

  /** "X of Y" with X and Y digit runs splits into X and Y. */
  lemma SplitOf(x: string, y: string)
    requires IsDigits(x) && IsDigits(y)
    ensures Split(x + " of " + y, " of ") == [x, y]
  {
    var s := x + " of " + y;
    assert OccursAt(s, " of ", |x|) by {
      assert s[|x|..|x| + 4] == " of ";
    }
    forall k: nat | k < |x|
      ensures !OccursAt(s, " of ", k)
    {
      assert s[k] == x[k] && IsDigitChar(x[k]);
    }
    var f := Find(s, " of ");
    assert f == Some(|x|);
    assert s[..|x|] == x && s[|x| + 4..] == y;
    assert Find(y, " of ").None?;
    assert Split(y, " of ") == [y];
  }

  /** `str(n)` is a digit run whose value is n. */
  lemma {:induction false} NatTextDigits(n: nat)
    ensures IsDigits(NatText(n)) && DigitsValue(NatText(n)) == n
    decreases n
  {
    var s := NatText(n);
    if n >= 10 {
      NatTextDigits(n / 10);
      assert s[..|s| - 1] == NatText(n / 10);
    }
  }

  /** "X of Y" for two numbers: it holds " of ", and its two parts parse
      as X and Y. */
  lemma ParsesOf(x: nat, y: nat)
    ensures HasSubstring(NatText(x) + " of " + NatText(y), " of ")
    ensures CurrentOfTotal(NatText(x) + " of " + NatText(y)) == Ok((x, y))
  {
    NatTextDigits(x);
    NatTextDigits(y);
    SplitOf(NatText(x), NatText(y));
    DigitsParse(NatText(x));
    DigitsParse(NatText(y));
    SubstringAt(NatText(x) + " of " + NatText(y), " of ", |NatText(x)|);
  }

  /** A separator found at position k is a substring. */
  lemma {:induction false} SubstringAt(s: string, sub: string, k: nat)
    requires OccursAt(s, sub, k)
    ensures HasSubstring(s, sub)
    decreases k
  {
    if k > 0 {
      assert s[1..][k - 1..k - 1 + |sub|] == s[k..k + |sub|];
      SubstringAt(s[1..], sub, k - 1);
    } else {
      assert StartsWith(s, sub);
    }
  }

  /** A summary page "X of Y" asks for another page exactly when X < Y. */
  lemma PageOfTotal(summary: Fields, page: nat, x: nat, y: nat)
    requires Lookup(summary, "page") == Some(Str(NatText(x) + " of " + NatText(y)))
    ensures MorePages(summary, page) == Ok(x < y)
  {
    MorePagesOf(summary, page, x, y);
  }

  lemma MorePagesOf(summary: Fields, page: nat, x: nat, y: nat)
    requires PageText(summary, page) == NatText(x) + " of " + NatText(y)
    ensures MorePages(summary, page) == Ok(x < y)
  {
    ParsesOf(x, y);
  }

  /** A summary without a `page` field ends the fetch: the default
      "<page> of 1" is never before its last page. */
  lemma DefaultPageStops(summary: Fields, page: nat)
    requires !HasKey(summary, "page") && page >= 1
    ensures MorePages(summary, page) == Ok(false)
  {
    assert NatText(1) == "1";
    MorePagesOf(summary, page, page, 1);
  }

  /** A `page` field without " of " falls back to `page_total`. */
  lemma PageTotalFallback(summary: Fields, page: nat, text: string, total: int)
    requires Lookup(summary, "page") == Some(Str(text)) && !HasSubstring(text, " of ")
    requires Lookup(summary, "page_total") == Some(Int(total))
    ensures MorePages(summary, page) == Ok(page < total)
  {
  }

  /** The AttributeError of `j.name` on a value that is not a dict. */
  function NoAttribute(j: Json, name: string): Exc {
    AttributeError("'" + TypeName(j) + "' object has no attribute '" + name + "'")
  }

  /** The outcome of one page: its bills, and whether to fetch the next. */
  datatype Page = Page(bills: seq<Json>, more: bool)

  /** One pass of the `while page <= max_pages` loop on a response. A status
      other than "OK" stops (after reading `alert`); so does a page without
      bills; a summary that is not a dict lets the loop go on. */
  function PageStep(result: Json, page: nat): (r: Result<Page>)
    ensures r.Ok? && r.value.more ==> r.value.bills != []
    ensures r.Ok? && r.value.bills != [] ==>
      result.Obj? && GetOr(result.fields, "status", Null) == Str("OK") &&
      GetOr(result.fields, "searchresult", Obj([])).Obj? &&
      r.value.bills == PageBills(GetOr(result.fields, "searchresult", Obj([])).fields)
  {
    if !result.Obj? then Err(NoAttribute(result, "get"))
    else if GetOr(result.fields, "status", Null) != Str("OK") then
      var alert := GetOr(result.fields, "alert", Obj([]));
      if !alert.Obj? then Err(NoAttribute(alert, "get"))
      else Ok(Page([], false))
    else
      var searchresult := GetOr(result.fields, "searchresult", Obj([]));
      if !searchresult.Obj? then Err(NoAttribute(searchresult, "items"))
      else
        var found := PageBills(searchresult.fields);
        if |found| == 0 then Ok(Page([], false))
        else
          var summary := GetOr(searchresult.fields, "summary", Obj([]));
          if !summary.Obj? then Ok(Page(found, true))
          else
            var more :- MorePages(summary.fields, page);
            Ok(Page(found, more))
  }

  /** Each page's outcome under a search service. */
  function Steps(search: nat -> Option<Json>): nat -> Result<Page> {
    (page: nat) => PageStep(Response(search, page), page)
  }

  /** The pagination loop from `page` on, over the pages' outcomes, with
      `acc` already collected: it stops at the first page that raises, that
      has no further page, or after page 100. */
  function Collect(steps: nat -> Result<Page>, page: nat, acc: seq<Json>): Result<seq<Json>>
    decreases MaxPages + 1 - page
  {
    if page > MaxPages then Ok(acc)
    else
      var step :- steps(page);
      if step.more then Collect(steps, page + 1, acc + step.bills) else Ok(acc + step.bills)
  }

  /** One pass of the loop: the page's outcome, then the rest. */
  lemma CollectStep(steps: nat -> Result<Page>, page: nat, acc: seq<Json>)
    requires page <= MaxPages
    ensures var next := Advance(steps(page), acc);
      Collect(steps, page, acc) ==
        if next.Err? then Err(next.exc)
        else if next.value.1 then Collect(steps, page + 1, next.value.0) else Ok(next.value.0)
  {
  }

  /** `all_bills` after a page, and whether the loop goes on. */
  function Advance(step: Result<Page>, acc: seq<Json>): Result<(seq<Json>, bool)> {
    match step
    case Err(e) => Err(e)
    case Ok(page) => Ok((acc + page.bills, page.more))
  }

  /** The fetch from `page` on, with `acc` already collected. */
  function FetchFrom(search: nat -> Option<Json>, page: nat, acc: seq<Json>): Result<seq<Json>> {
    Collect(Steps(search), page, acc)
  }

  /** The body of the pagination loop on one response. */
  method FetchPage(result: Json, page: nat, allBills: seq<Json>) returns (r: Result<(seq<Json>, bool)>)
    ensures r == Advance(PageStep(result, page), allBills)
  {
    if !result.Obj? {
      return Err(NoAttribute(result, "get"));
    }
    if GetOr(result.fields, "status", Null) != Str("OK") {
      var alert := GetOr(result.fields, "alert", Obj([]));
      if !alert.Obj? {
        return Err(NoAttribute(alert, "get"));
      }
      assert allBills + [] == allBills;
      return Ok((allBills, false));
    }
    var searchresult := GetOr(result.fields, "searchresult", Obj([]));
    if !searchresult.Obj? {
      return Err(NoAttribute(searchresult, "items"));
    }
    var bills, billsFound := AppendPageBills(searchresult.fields, allBills);
    if billsFound == 0 {
      assert allBills + [] == allBills;
      return Ok((allBills, false));
    }
    var summary := GetOr(searchresult.fields, "summary", Obj([]));
    if !summary.Obj? {
      return Ok((bills, true));
    }
    var more := MorePages(summary.fields, page);
    if more.Err? {
      return Err(more.exc);
    }
    return Ok((bills, more.value));
  }

  /** The pagination loop of `main`. */
  method FetchAllBills(search: nat -> Option<Json>) returns (r: Result<seq<Json>>)
    ensures r == FetchFrom(search, 1, [])
  {
    var allBills := [];
    var page := 1;
    while page <= MaxPages
      invariant 1 <= page <= MaxPages + 1
      invariant FetchFrom(search, page, allBills) == FetchFrom(search, 1, [])
      decreases MaxPages + 1 - page
    {
      var next := FetchNext(search, page, allBills);
      if next.Err? {
        return Err(next.exc);
      }
      allBills := next.value.0;
      if !next.value.1 {
        return Ok(allBills);
      }
      page := page + 1;
    }
    return Ok(allBills);
  }

  /** One pass of the pagination loop: request the page, then go on. */
  method FetchNext(search: nat -> Option<Json>, page: nat, allBills: seq<Json>) returns (next: Result<(seq<Json>, bool)>)
    requires page <= MaxPages
    ensures FetchFrom(search, page, allBills) ==
      if next.Err? then Err(next.exc)
      else if next.value.1 then FetchFrom(search, page + 1, next.value.0) else Ok(next.value.0)
  {
    var result := Response(search, page);
    next := FetchPage(result, page, allBills);
    assert Steps(search)(page) == PageStep(result, page);
    CollectStep(Steps(search), page, allBills);
  }

  /** A response whose status is not "OK" (a failed request included) ends
      the fetch with the bills collected so far. */
  lemma FailedSearchStops(search: nat -> Option<Json>, page: nat, acc: seq<Json>)
    requires 1 <= page <= MaxPages
    requires search(page).Some? ==>
      search(page).value.Obj? && GetOr(search(page).value.fields, "status", Null) != Str("OK") &&
      GetOr(search(page).value.fields, "alert", Obj([])).Obj?
    ensures FetchFrom(search, page, acc) == Ok(acc)
  {
    assert Steps(search)(page) == Ok(Page([], false));
    assert acc + [] == acc;
  }

  /** A page without bills ends the fetch with the bills collected so far. */
  lemma EmptyPageStops(search: nat -> Option<Json>, page: nat, acc: seq<Json>)
    requires 1 <= page <= MaxPages
    requires PageStep(Response(search, page), page).Ok?
    requires PageStep(Response(search, page), page).value.bills == []
    ensures FetchFrom(search, page, acc) == Ok(acc)
  {
    assert Steps(search)(page).value.bills == [];
    assert acc + [] == acc;
  }

  /** Only the responses to pages `page` .. 100 matter: the fetch never asks
      for page 101. */
  lemma FetchLocal(s1: nat -> Option<Json>, s2: nat -> Option<Json>, page: nat, acc: seq<Json>)
    requires forall p :: page <= p <= MaxPages ==> s1(p) == s2(p)
    ensures FetchFrom(s1, page, acc) == FetchFrom(s2, page, acc)
  {
    forall p | page <= p <= MaxPages
      ensures Steps(s1)(p) == Steps(s2)(p)
    {
      assert Response(s1, p) == Response(s2, p);
    }
    CollectLocal(Steps(s1), Steps(s2), page, acc);
  }

  lemma {:induction false} CollectLocal(st1: nat -> Result<Page>, st2: nat -> Result<Page>, page: nat, acc: seq<Json>)
    requires forall p :: page <= p <= MaxPages ==> st1(p) == st2(p)
    ensures Collect(st1, page, acc) == Collect(st2, page, acc)
    decreases MaxPages + 1 - page
  {
    if page <= MaxPages && st1(page).Ok? && st1(page).value.more {
      CollectLocal(st1, st2, page + 1, acc + st1(page).value.bills);
    }
  }

  /** The loop only appends: the bills collected so far stay in front. */
  lemma {:induction false} CollectAppends(steps: nat -> Result<Page>, page: nat, acc: seq<Json>)
    requires Collect(steps, page, acc).Ok?
    ensures var bills := Collect(steps, page, acc).value;
      |acc| <= |bills| && bills[..|acc|] == acc
    decreases MaxPages + 1 - page
  {
    if page <= MaxPages {
      var step := steps(page).value;
      var next := acc + step.bills;
      assert next[..|acc|] == acc;
      if step.more {
        CollectAppends(steps, page + 1, next);
        var bills := Collect(steps, page, acc).value;
        assert bills[..|acc|] == bills[..|next|][..|acc|];
      }
    }
  }

  /** The loop adds only bills of the pages it visits. */
  lemma {:induction false} CollectExtracted(steps: nat -> Result<Page>, page: nat, acc: seq<Json>)
    requires AllExtracted(acc) && Collect(steps, page, acc).Ok?
    requires forall p :: steps(p).Ok? ==> AllExtracted(steps(p).value.bills)
    ensures AllExtracted(Collect(steps, page, acc).value)
    decreases MaxPages + 1 - page
  {
    if page <= MaxPages {
      var step := steps(page).value;
      var next := acc + step.bills;
      assert AllExtracted(next) by {
        assert forall b :: b in next ==> b in acc || b in step.bills;
      }
      if step.more {
        CollectExtracted(steps, page + 1, next);
      }
    }
  }

  /** The fetch only appends to what it has already collected. */
  lemma FetchAppends(search: nat -> Option<Json>, page: nat, acc: seq<Json>)
    requires FetchFrom(search, page, acc).Ok?
    ensures var bills := FetchFrom(search, page, acc).value;
      |acc| <= |bills| && bills[..|acc|] == acc
  {
    CollectAppends(Steps(search), page, acc);
  }

  /** Every fetched bill has exactly the five bill keys. */
  lemma FetchedBillsExtracted(search: nat -> Option<Json>)
    requires FetchFrom(search, 1, []).Ok?
    ensures AllExtracted(FetchFrom(search, 1, []).value)
  {
    forall p | Steps(search)(p).Ok?
      ensures AllExtracted(Steps(search)(p).value.bills)
    {
    }
    CollectExtracted(Steps(search), 1, []);
  }

  /** A bill the samples file can show: a dict with a number, a title and a
      description. */
  predicate HasSampleKeys(bill: Json) {
    bill.Obj? && HasKey(bill.fields, "bill_number") && HasKey(bill.fields, "title") && HasKey(bill.fields, "description")
  }

  /** One entry of the samples file, numbered from 1. */
  function SampleEntry(idx: nat, bill: Json): (r: Result<string>)
    ensures r.Ok? <==> HasSampleKeys(bill)
    ensures r.Ok? ==> StartsWith(r.value, "Bill #" + NatText(idx) + "\n")
  {
    var number :- Index(bill, "bill_number");
    var title :- Index(bill, "title");
    var description :- Index(bill, "description");
    Ok(EntryText(idx, PyStr(number), PyStr(title), PyStr(description)))
  }

  /** The text written for one bill. */
  function EntryText(idx: nat, number: string, title: string, description: string): (r: string)
    ensures StartsWith(r, "Bill #" + NatText(idx) + "\n")
  {
    var head := "Bill #" + NatText(idx) + "\n";
    var body := "Number: " + number + "\n" + "Title: " + title + "\n" + "Description: " + description + "\n" +
      "\n" + Rule + "\n\n";
    StartsWithAppend(head, body);
    head + body
  }

  /** The text of the samples file for `bills`, numbering them from 1. */
  function SamplesText(bills: seq<Json>): (r: Result<string>)
    ensures r.Ok? <==> forall b :: b in bills ==> HasSampleKeys(b)
    decreases |bills|
  {
    if |bills| == 0 then Ok("")
    else
      var front := bills[..|bills| - 1];
      assert forall b :: b in front ==> b in bills;
      assert forall b :: b in bills ==> b in front || b == bills[|bills| - 1];
      var text :- SamplesText(front);
      var entry :- SampleEntry(|bills|, bills[|bills| - 1]);
      Ok(text + entry)
  }

  /** `bills_to_write`: all bills when `num_samples` is None, else the
      slice `bills[:num_samples]`. */
  function BillsToWrite(bills: seq<Json>, numSamples: Option<int>): (r: seq<Json>)
    ensures numSamples.None? ==> r == bills
    ensures numSamples.Some? && 0 <= numSamples.value ==>
      r == bills[..if numSamples.value < |bills| then numSamples.value else |bills|]
  {
    if numSamples.None? then bills else TestSelection.SliceTo(bills, numSamples.value)
  }

  /** `create_test_samples`: the write loop over the numbered bills. */
  method CreateTestSamples(bills: seq<Json>, numSamples: Option<int>) returns (r: Result<string>)
    ensures r == SamplesText(BillsToWrite(bills, numSamples))
  {
    var billsToWrite := BillsToWrite(bills, numSamples);
    var text := "";
    var idx := 0;
    while idx < |billsToWrite|
      invariant 0 <= idx <= |billsToWrite|
      invariant SamplesText(billsToWrite[..idx]) == Ok(text)
    {
      var front := billsToWrite[..idx + 1];
      assert front[..|front| - 1] == billsToWrite[..idx];
      var entry := SampleEntry(idx + 1, billsToWrite[idx]);
      if entry.Err? {
        assert SamplesText(front) == Err(entry.exc);
        SamplesStop(billsToWrite, idx + 1, entry.exc);
        return Err(entry.exc);
      }
      text := text + entry.value;
      idx := idx + 1;
    }
    assert billsToWrite[..idx] == billsToWrite;
    return Ok(text);
  }

  /** An entry that fails fails the whole text, whatever follows it. */
  lemma {:induction false} SamplesStop(bills: seq<Json>, n: nat, e: Exc)
    requires n <= |bills| && SamplesText(bills[..n]) == Err(e)
    ensures SamplesText(bills) == Err(e)
    decreases |bills| - n
  {
    if n < |bills| {
      var next := bills[..n + 1];
      assert next[..|next| - 1] == bills[..n];
      SamplesStop(bills, n + 1, e);
    } else {
      assert bills[..n] == bills;
    }
  }

  /** Every fetched bill makes a sample entry: the samples never fail on
      bills the fetch produced. */
  lemma ExtractedSamples(bills: seq<Json>)
    requires AllExtracted(bills)
    ensures SamplesText(bills).Ok?
  {
    forall b | b in bills
      ensures HasSampleKeys(b)
    {
      ExtractedHasKeys(b);
    }
  }

  lemma ExtractedHasKeys(bill: Json)
    requires Extracted(bill)
    ensures HasSampleKeys(bill)
  {
    var ks := Keys(bill.fields);
    assert ks[1] == "bill_number" && ks[2] == "title" && ks[3] == "description";
    assert bill.fields[1].0 == ks[1] && bill.fields[2].0 == ks[2] && bill.fields[3].0 == ks[3];
  }

  /** The files `main` writes: the bills and their samples. */
  datatype Output = Output(bills: seq<Json>, samples: string)

  /** `main`: without an API key nothing is fetched; the bills and their
      samples are written only when some bill was fetched. */
  function Run(env: Env, search: nat -> Option<Json>): (r: Result<Option<Output>>)
  {
    if GetEnv(env, "LEGISCAN_API_KEY").GetOr("") == "" then Ok(None)
    else
      var bills :- FetchFrom(search, 1, []);
      if |bills| == 0 then Ok(None)
      else
        var samples :- SamplesText(BillsToWrite(bills, None));
        Ok(Some(Output(bills, samples)))
  }

  /** Once the key is set, the run writes exactly the fetched bills, and
      writing the samples never fails. */
  lemma RunWritesFetched(env: Env, search: nat -> Option<Json>)
    requires GetEnv(env, "LEGISCAN_API_KEY").GetOr("") != ""
    requires FetchFrom(search, 1, []).Ok? && FetchFrom(search, 1, []) != Ok([])
    ensures Run(env, search).Ok? && Run(env, search).value.Some?
    ensures Run(env, search).value.value.bills == FetchFrom(search, 1, []).value
  {
    FetchedBillsExtracted(search);
    ExtractedSamples(FetchFrom(search, 1, []).value);
  }

  /** Without an API key the script returns before any request. */
  lemma NoKeyNoOutput(env: Env, search: nat -> Option<Json>)
    requires GetEnv(env, "LEGISCAN_API_KEY").None?
    ensures Run(env, search) == Ok(None)
  {
  }
}

=== FILE: file_cache.dfy ===
/** The JSON cache files the hooks and the analysis pass keep on disk. A file
    that exists either parses (`json.load` succeeds) or does not, as an
    empty or truncated file would. */
module CacheFiles {
  import opened Wrappers
  import opened PyJson

  datatype Stored = Parsed(value: Json) | Unreadable

  /** The files on disk, by path. */
  type Disk = map<string, Stored>

  /** `Path(dir) / name` */
  function PathIn(dir: string, name: string): string {
    dir + "/" + name
  }

  /** Reading a cache file: its value when it exists and parses. */
  function ReadJson(disk: Disk, path: string): (r: Option<Json>)
    ensures r.Some? <==> path in disk && disk[path].Parsed?
    ensures r.Some? ==> disk[path] == Parsed(r.value)
  {
    if path in disk && disk[path].Parsed? then Some(disk[path].value) else None
  }

  /** The file system the caches live in. */
  class FileSystem {
    var files: Disk

    constructor (files: Disk)
      ensures this.files == files
    {
      this.files := files;
    }

    method Read(path: string) returns (r: Option<Json>)
      ensures r == ReadJson(files, path)
    {
      if path in files && files[path].Parsed? {
        return Some(files[path].value);
      }
      r := None;
    }

    /** Writing replaces the whole file. */
    method Write(path: string, content: Stored)
      modifies this
      ensures files == old(files)[path := content]
    {
      files := files[path := content];
    }
  }
}

=== FILE: format_normalizer.dfy ===
/** The two shapes a filter-results document comes in, and their
    normalisation to one canonical bill record:
    - the AI-filtered shape, whose bills are under `relevant_bills`;
    - the vector-similarity shape, whose bills are under `results` and carry
      `number`, `similarity_score` and `distance`. */
module FormatNormalizer {
  import opened Wrappers
  import opened PyStrings
  import opened PyJson

  datatype Shape = Original | Alan

  /** The string `detect_format` returns. */
  function ShapeName(shape: Shape): string {
    if shape == Original then "original" else "alan"
  }

  /** The key a shape keeps its bills under. */
  function BillsKey(shape: Shape): string {
    if shape == Original then "relevant_bills" else "results"
  }

  /** `list(data.keys())`; only a dict has `keys`. */
  function KeysOf(j: Json): (r: Result<seq<string>>)
    ensures r.Ok? <==> j.Obj?
    ensures j.Obj? ==> r.value == Keys(j.fields)
  {
    if j.Obj? then Ok(Keys(j.fields))
    else Err(AttributeError("'" + TypeName(j) + "' object has no attribute 'keys'"))
  }

  function UnknownFormat(keys: seq<string>): Exc {
    ValueError("Unknown filter format. Expected 'relevant_bills' or 'results' field in JSON. "
      + "Found keys: " + ReprStrings(keys))
  }

  /** `detect_format`: `relevant_bills` is tested first, then `results`;
      a document with neither raises ValueError listing its keys. */
  function DetectFormat(data: Json): (r: Result<Shape>)
    ensures r == Ok(Original) <==> Contains(data, "relevant_bills") == Ok(true)
    ensures r == Ok(Alan) <==>
      Contains(data, "relevant_bills") == Ok(false) && Contains(data, "results") == Ok(true)
    ensures data.Obj? && !HasKey(data.fields, "relevant_bills") && !HasKey(data.fields, "results") ==>
      r == Err(UnknownFormat(Keys(data.fields)))
  {
    var original :- Contains(data, "relevant_bills");
    if original then Ok(Original)
    else
      var alan := Contains(data, "results").value;
      if alan then Ok(Alan)
      else
        var keys :- KeysOf(data);
        Err(UnknownFormat(keys))
  }

  /** A dict holding both keys is the original shape. */
  lemma BothKeysIsOriginal(fs: Fields)
    requires HasKey(fs, "relevant_bills") && HasKey(fs, "results")
    ensures DetectFormat(Obj(fs)) == Ok(Original)
  {
  }

  /** `f"{x:.4f}"`: numbers (bool included) go through the score formatter
      `fmt4`; a str has no `f` format code, and other types reject any format
      spec. */
  function Format4(x: Json, fmt4: real -> string): (r: Result<string>)
    ensures r.Ok? <==> IsNumber(x)
    ensures r.Ok? ==> r.value == fmt4(NumValue(x))
  {
    if IsNumber(x) then Ok(fmt4(NumValue(x)))
    else if x.Str? then Err(ValueError("Unknown format code 'f' for object of type 'str'"))
    else Err(TypeError("unsupported format string passed to " + TypeName(x) + ".__format__"))
  }

  /** The canonical record both shapes are mapped to. */
  function Canonical(number: Json, title: Json, url: Json, reason: Json, extra: Fields): Json {
    Obj([("bill_number", number), ("title", title), ("url", url), ("reason", reason),
         ("extra_metadata", Obj(extra))])
  }

  const CanonicalKeys: seq<string> := ["bill_number", "title", "url", "reason", "extra_metadata"]

  /** A canonical record has exactly the five canonical keys, in order, and
      each reads back the value it was built from. */
  lemma CanonicalKeysInOrder(number: Json, title: Json, url: Json, reason: Json, extra: Fields)
    ensures Keys(Canonical(number, title, url, reason, extra).fields) == CanonicalKeys
  {
  }

  lemma CanonicalLookup(number: Json, title: Json, url: Json, reason: Json, extra: Fields)
    ensures var fs := Canonical(number, title, url, reason, extra).fields;
      Lookup(fs, "bill_number") == Some(number) && Lookup(fs, "title") == Some(title) &&
      Lookup(fs, "url") == Some(url) && Lookup(fs, "reason") == Some(reason) &&
      Lookup(fs, "extra_metadata") == Some(Obj(extra))
  {
    var e: Fields := [("extra_metadata", Obj(extra))];
    var d := [("reason", reason)] + e;
    var c := [("url", url)] + d;
    var b := [("title", title)] + c;
    var a := [("bill_number", number)] + b;
    assert a == Canonical(number, title, url, reason, extra).fields;
    LookupCons(("bill_number", number), b, "title");
    LookupCons(("bill_number", number), b, "url");
    LookupCons(("bill_number", number), b, "reason");
    LookupCons(("bill_number", number), b, "extra_metadata");
    LookupCons(("title", title), c, "url");
    LookupCons(("title", title), c, "reason");
    LookupCons(("title", title), c, "extra_metadata");
    LookupCons(("url", url), d, "reason");
    LookupCons(("url", url), d, "extra_metadata");
    LookupCons(("reason", reason), e, "extra_metadata");
  }

  /** One bill of the original shape: its four fields copied (None when
      absent) and empty metadata; a bill that is not a dict raises. */
  function OriginalRecord(bill: Json): Result<Json> {
    if bill.Obj? then
      var fs := bill.fields;
      Ok(Canonical(GetOr(fs, "bill_number", Null), GetOr(fs, "title", Null), GetOr(fs, "url", Null),
                   GetOr(fs, "reason", Null), []))
    else Err(AttributeError("'" + TypeName(bill) + "' object has no attribute 'get'"))
  }

  const AlanMetadataKeys: seq<string> :=
    ["bill_id", "status_date", "last_action", "year", "session", "similarity_score", "distance"]

  /** The metadata of a vector-similarity bill. */
  function AlanMetadata(fs: Fields, score: Json, distance: Json): Fields {
    [("bill_id", GetOr(fs, "bill_id", Null)), ("status_date", GetOr(fs, "status_date", Null)),
     ("last_action", GetOr(fs, "last_action", Null)), ("year", GetOr(fs, "year", Null)),
     ("session", GetOr(fs, "session", Null)), ("similarity_score", score), ("distance", distance)]
  }

  /** The metadata holds exactly the seven listed keys, and the score and
      the distance read back as given. */
  lemma AlanMetadataFields(fs: Fields, score: Json, distance: Json)
    ensures Keys(AlanMetadata(fs, score, distance)) == AlanMetadataKeys
    ensures Lookup(AlanMetadata(fs, score, distance), "similarity_score") == Some(score)
    ensures Lookup(AlanMetadata(fs, score, distance), "distance") == Some(distance)
  {
    var extra := AlanMetadata(fs, score, distance);
    assert Keys(extra) == AlanMetadataKeys;
    assert UniqueKeys(extra);
    LookupAt(extra, 5);
    LookupAt(extra, 6);
  }

  function AlanReason(score: string, distance: string): string {
    "Vector similarity match (score: " + score + ", distance: " + distance + ")"
  }

  /** One bill of the vector-similarity shape: `number` becomes
      `bill_number`, the reason is generated from the score and the distance
      (each 0 when absent), and seven fields move into the metadata. */
  function AlanRecord(bill: Json, fmt4: real -> string): Result<Json> {
    var score :- Get(bill, "similarity_score", Int(0));
    var distance :- Get(bill, "distance", Int(0));
    var s :- Format4(score, fmt4);
    var d :- Format4(distance, fmt4);
    var fs := bill.fields;
    Ok(Canonical(GetOr(fs, "number", Null), GetOr(fs, "title", Null), GetOr(fs, "url", Null),
                 Str(AlanReason(s, d)), AlanMetadata(fs, score, distance)))
  }

  /** The per-bill normalisation of a shape. */
  function RecordOf(shape: Shape, fmt4: real -> string): Json -> Result<Json> {
    if shape == Original then OriginalRecord else b => AlanRecord(b, fmt4)
  }

  /** The original shape copies `bill_number`, `title`, `url` and `reason`
      and leaves the metadata empty. */
  lemma OriginalRecordFields(bill: Json)
    requires bill.Obj?
    ensures OriginalRecord(bill).Ok?
    ensures var r := OriginalRecord(bill).value;
      r.Obj? && Keys(r.fields) == CanonicalKeys &&
      Lookup(r.fields, "bill_number") == Some(GetOr(bill.fields, "bill_number", Null)) &&
      Lookup(r.fields, "title") == Some(GetOr(bill.fields, "title", Null)) &&
      Lookup(r.fields, "url") == Some(GetOr(bill.fields, "url", Null)) &&
      Lookup(r.fields, "reason") == Some(GetOr(bill.fields, "reason", Null)) &&
      Lookup(r.fields, "extra_metadata") == Some(Obj([]))
  {
    var fs := bill.fields;
    var number, title, url, reason := GetOr(fs, "bill_number", Null), GetOr(fs, "title", Null),
      GetOr(fs, "url", Null), GetOr(fs, "reason", Null);
    CanonicalKeysInOrder(number, title, url, reason, []);
    CanonicalLookup(number, title, url, reason, []);
  }

  /** The vector-similarity shape: `bill_number` is the bill's `number`, the
      metadata holds exactly the seven listed keys with score and distance
      defaulting to 0, and the reason shows both formatted values. */
  lemma AlanRecordFields(bill: Json, fmt4: real -> string)
    requires bill.Obj?
    requires IsNumber(GetOr(bill.fields, "similarity_score", Int(0)))
    requires IsNumber(GetOr(bill.fields, "distance", Int(0)))
    ensures AlanRecord(bill, fmt4).Ok?
    ensures var r := AlanRecord(bill, fmt4).value;
      var score := GetOr(bill.fields, "similarity_score", Int(0));
      var distance := GetOr(bill.fields, "distance", Int(0));
      r.Obj? && Keys(r.fields) == CanonicalKeys &&
      Lookup(r.fields, "bill_number") == Some(GetOr(bill.fields, "number", Null)) &&
      Lookup(r.fields, "reason") == Some(Str(AlanReason(fmt4(NumValue(score)), fmt4(NumValue(distance))))) &&
      exists extra: Fields ::
        Lookup(r.fields, "extra_metadata") == Some(Obj(extra)) && Keys(extra) == AlanMetadataKeys &&
        Lookup(extra, "similarity_score") == Some(score) && Lookup(extra, "distance") == Some(distance)
  {
    var fs := bill.fields;
    var score := GetOr(fs, "similarity_score", Int(0));
    var distance := GetOr(fs, "distance", Int(0));
    var extra := AlanMetadata(fs, score, distance);
    var reason := Str(AlanReason(fmt4(NumValue(score)), fmt4(NumValue(distance))));
    var number, title, url := GetOr(fs, "number", Null), GetOr(fs, "title", Null), GetOr(fs, "url", Null);
    assert AlanRecord(bill, fmt4) == Ok(Canonical(number, title, url, reason, extra));
    CanonicalKeysInOrder(number, title, url, reason, extra);
    CanonicalLookup(number, title, url, reason, extra);
    AlanMetadataFields(fs, score, distance);
  }

  /** A bill whose score cannot be formatted makes the vector-similarity
      normalisation raise. */
  lemma AlanBadScore(bill: Json, fmt4: real -> string)
    requires bill.Obj? && !IsNumber(GetOr(bill.fields, "similarity_score", Int(0)))
    ensures AlanRecord(bill, fmt4).Err?
  {
  }

  /** The records the loop over `bills` appends, in order. */
  function Records(shape: Shape, bills: seq<Json>, fmt4: real -> string): (r: Result<seq<Json>>)
  {
    MapAll(RecordOf(shape, fmt4), bills)
  }

  /** The bill list of a detected document: `data.get(key, [])`, whose
      `len` is taken before the loop (a value without a length raises). */
  function BillsOf(data: Json, shape: Shape): (r: Result<seq<Json>>)
    ensures r.Ok? ==> data.Obj? && Iter(GetOr(data.fields, BillsKey(shape), Arr([]))) == Ok(r.value)
  {
    var bills :- Get(data, BillsKey(shape), Arr([]));
    var _ :- Len(bills);
    Iter(bills)
  }

  /** `normalize_filter_results`: detect the shape, then map every bill of
      that shape to its canonical record. */
  function Normalized(data: Json, fmt4: real -> string): (r: Result<seq<Json>>)
    ensures r.Ok? ==>
      DetectFormat(data).Ok? && BillsOf(data, DetectFormat(data).value).Ok? &&
      r == Records(DetectFormat(data).value, BillsOf(data, DetectFormat(data).value).value, fmt4)
  {
    var shape :- DetectFormat(data);
    var bills :- BillsOf(data, shape);
    Records(shape, bills, fmt4)
  }

  /** A canonical record with empty metadata is its own original-shape
      normalisation. */
  lemma OriginalRecordFixed(bill: Json)
    requires bill.Obj?
    ensures OriginalRecord(OriginalRecord(bill).value) == OriginalRecord(bill)
  {
    OriginalRecordFields(bill);
  }

  /** The original-shape records of a list normalise to themselves. */
  lemma OriginalRecordsFixed(bills: seq<Json>, fmt4: real -> string)
    requires Records(Original, bills, fmt4).Ok?
    ensures Records(Original, Records(Original, bills, fmt4).value, fmt4) == Records(Original, bills, fmt4)
  {
    forall bill | OriginalRecord(bill).Ok?
      ensures OriginalRecord(OriginalRecord(bill).value) == OriginalRecord(bill)
    {
      OriginalRecordFixed(bill);
    }
    MapAllFixed(OriginalRecord, bills);
  }

  /** Normalising is idempotent on the original shape: the canonical records,
      put back under `relevant_bills`, normalise to themselves. */
  lemma OriginalIdempotent(data: Json, fmt4: real -> string)
    requires DetectFormat(data) == Ok(Original) && Normalized(data, fmt4).Ok?
    ensures Normalized(Obj([("relevant_bills", Arr(Normalized(data, fmt4).value))]), fmt4)
      == Normalized(data, fmt4)
  {
    var out := Normalized(data, fmt4).value;
    var bills := BillsOf(data, Original).value;
    var doc := Obj([("relevant_bills", Arr(out))]);
    assert DetectFormat(doc) == Ok(Original);
    assert BillsOf(doc, Original) == Ok(out);
    OriginalRecordsFixed(bills, fmt4);
  }

  /** `_normalize_original_format` / `_normalize_alan_format`: the loop
      appending one canonical record per bill. */
  method NormalizeBills(shape: Shape, bills: seq<Json>, fmt4: real -> string) returns (r: Result<seq<Json>>)
    ensures r == Records(shape, bills, fmt4)
  {
    var f := RecordOf(shape, fmt4);
    var normalized: seq<Json> := [];
    var i := 0;
    while i < |bills|
      invariant 0 <= i <= |bills|
      invariant MapAll(f, bills[..i]) == Ok(normalized)
    {
      MapAllNext(f, bills, i);
      var record := f(bills[i]);
      if record.Err? {
        MapAllStops(f, bills, i + 1);
        return Err(record.exc);
      }
      normalized := normalized + [record.value];
      i := i + 1;
    }
    assert bills[..i] == bills;
    r := Ok(normalized);
  }

  /** `normalize_filter_results`, dispatching to the shape's loop. */
  method NormalizeFilterResults(data: Json, fmt4: real -> string) returns (r: Result<seq<Json>>)
    ensures r == Normalized(data, fmt4)
  {
    var shape := DetectFormat(data);
    if shape.Err? {
      return Err(shape.exc);
    }
    var bills := BillsOf(data, shape.value);
    if bills.Err? {
      return Err(bills.exc);
    }
    r := NormalizeBills(shape.value, bills.value, fmt4);
  }

  /** `get_format_info`: the detected shape, the bill count, whether a
      summary or similarity scores are present, and the first bill's keys. */
  function FormatInfo(data: Json): (r: Result<Json>)
  {
    var shape :- DetectFormat(data);
    var bills :- Get(data, BillsKey(shape), Arr([]));
    var hasSummary :- if shape == Original then Contains(data, "summary") else Ok(false);
    var fields :- if Truthy(bills) then (var first :- At(bills, 0); KeysOf(first)) else Ok([]);
    var count :- Len(bills);
    Ok(Obj([("format", Str(ShapeName(shape))), ("bill_count", Int(count)), ("has_summary", Bool(hasSummary)),
            ("has_similarity_scores", Bool(shape == Alan)),
            ("fields", Arr(seq(|fields|, i requires 0 <= i < |fields| => Str(fields[i]))))]))
  }

  /** For a document whose bill list is a list of dicts (or empty):
      `bill_count` is its length, `fields` the first bill's keys or `[]`,
      `has_summary` is the presence of `summary` in the original shape and
      false in the other, and `has_similarity_scores` holds exactly for the
      vector-similarity shape. */
  lemma FormatInfoFields(data: Json, bills: seq<Json>)
    requires data.Obj? && DetectFormat(data).Ok?
    requires GetOr(data.fields, BillsKey(DetectFormat(data).value), Arr([])) == Arr(bills)
    requires |bills| > 0 ==> bills[0].Obj?
    ensures FormatInfo(data).Ok?
    ensures var shape := DetectFormat(data).value;
      FormatInfo(data).value == Obj([
        ("format", Str(ShapeName(shape))), ("bill_count", Int(|bills|)),
        ("has_summary", Bool(shape == Original && HasKey(data.fields, "summary"))),
        ("has_similarity_scores", Bool(shape == Alan)),
        ("fields", Arr(if |bills| > 0 then KeyStrs(bills[0].fields) else []))])
  {
    var shape := DetectFormat(data).value;
    var fields := if |bills| > 0 then Keys(bills[0].fields) else [];
    assert seq(|fields|, i requires 0 <= i < |fields| => Str(fields[i]))
      == (if |bills| > 0 then KeyStrs(bills[0].fields) else []);
  }
}

=== FILE: hook_registry.dfy ===
/** Building hooks from the configuration's `hooks` section and registering
    them with a hook manager. */
module HookRegistry {
  import opened Wrappers
  import opened PyJson
  import LegiScanHook
  import opened HookSystem

  /** The registered hook type names; `legiscan` is the only one. */
  const HookTypes: set<string> := {"legiscan"}

  /** The points hooks are read for, in the order they are registered. */
  const Timings: seq<string> := [PreFilter, PostFilter, PreAnalysis, PostAnalysis]

  /** `Path(cache_dir)` for a truthy `cache_dir`: only a str names a path. */
  function CacheDirParam(v: Json): (r: Result<Option<string>>)
    ensures !Truthy(v) ==> r == Ok(None)
    ensures Truthy(v) ==> (r.Ok? <==> v.Str?)
    ensures r.Ok? && r.value.Some? ==> v == Str(r.value.value) && r.value.value != ""
  {
    if !Truthy(v) then Ok(None)
    else if v.Str? then Ok(Some(v.s))
    else Err(TypeError("expected str, bytes or os.PathLike object, not " + TypeName(v)))
  }

  /** `create_hook_from_config`: no hook for a missing or falsy `type` or an
      unregistered one; a LegiScan hook whose key comes from `params` or
      else the environment and whose directory comes from `params`. */
  function CreateHookFromConfig(hookConfig: Json, env: Env): (r: Result<Option<Hook>>)
    ensures r.Ok? ==> hookConfig.Obj?
    ensures r.Ok? && r.value.Some? ==> GetOr(hookConfig.fields, "type", Null) == Str("legiscan")
    ensures hookConfig.Obj? && !Truthy(GetOr(hookConfig.fields, "type", Null)) ==> r == Ok(None)
    ensures (hookConfig.Obj? && GetOr(hookConfig.fields, "type", Null).Str? &&
             GetOr(hookConfig.fields, "type", Null).s !in HookTypes) ==> r == Ok(None)
  {
    var hookType :- Get(hookConfig, "type", Null);
    if !Truthy(hookType) then Ok(None)
    else if hookType.Arr? || hookType.Obj? then
      Err(TypeError("unhashable type: '" + TypeName(hookType) + "'"))
    else if hookType != Str("legiscan") then Ok(None)
    else
      var params := GetOr(hookConfig.fields, "params", Obj([]));
      var apiKey :- Get(params, "api_key", Null);
      var cacheDir :- CacheDirParam(GetOr(params.fields, "cache_dir", Null));
      Ok(Some(LegiScan(LegiScanHook.Create(apiKey, cacheDir, env))))
  }

  /** The LegiScan hook built from a config takes the key and directory
      given in `params`, and falls back to the environment's key and the
      default directory. */
  lemma LegiScanFromConfig(params: Fields, env: Env)
    requires var d := GetOr(params, "cache_dir", Null); !Truthy(d) || d.Str?
    ensures var r := CreateHookFromConfig(Obj([("type", Str("legiscan")), ("params", Obj(params))]), env);
      var key := GetOr(params, "api_key", Null);
      var dir := GetOr(params, "cache_dir", Null);
      r.Ok? && r.value.Some? && r.value.value.LegiScan? &&
      r.value.value.legiscan.apiKey == (if Truthy(key) then key else EnvValue(env, "LEGISCAN_API_KEY")) &&
      r.value.value.legiscan.cacheDir == (if Truthy(dir) then dir.s else LegiScanHook.DefaultCacheDir)
  {
    var fs := [("type", Str("legiscan")), ("params", Obj(params))];
    assert Lookup(fs, "type") == Some(Str("legiscan"));
    assert Lookup(fs, "params") == Some(Obj(params));
  }

  /** Registering the hooks built from one point's configs, in order; the
      first error stops the registration, keeping what was registered. */
  function RegisterConfigs(hooks: map<string, seq<Hook>>, timing: string, configs: seq<Json>, env: Env)
    : (map<string, seq<Hook>>, Option<Exc>)
    decreases |configs|
  {
    if |configs| == 0 then (hooks, None)
    else
      var (h, err) := RegisterConfigs(hooks, timing, configs[..|configs| - 1], env);
      if err.Some? then (h, err) else RegisterOne(h, timing, configs[|configs| - 1], env)
  }

  /** One config of a point: its hook, if it builds one, is appended. */
  function RegisterOne(hooks: map<string, seq<Hook>>, timing: string, config: Json, env: Env)
    : (map<string, seq<Hook>>, Option<Exc>)
  {
    match CreateHookFromConfig(config, env)
    case Err(e) => (hooks, Some(e))
    case Ok(None) => (hooks, None)
    case Ok(Some(hook)) => (hooks[timing := HooksAt(hooks, timing) + [hook]], None)
  }

  /** Registering at one point leaves the other points alone, and only
      appends to the point's own list. */
  lemma {:induction false} RegisterConfigsFrame(hooks: map<string, seq<Hook>>, timing: string, configs: seq<Json>,
                                                env: Env, other: string)
    ensures var h := RegisterConfigs(hooks, timing, configs, env).0;
      (other != timing ==> (other in h <==> other in hooks) && HooksAt(h, other) == HooksAt(hooks, other)) &&
      HooksAt(hooks, timing) <= HooksAt(h, timing)
    decreases |configs|
  {
    if |configs| > 0 {
      RegisterConfigsFrame(hooks, timing, configs[..|configs| - 1], env, other);
    }
  }

  /** An error ends the registration of a point's configs: the configs
      after it are not read. */
  lemma {:induction false} RegisterConfigsStops(hooks: map<string, seq<Hook>>, timing: string, configs: seq<Json>,
                                                n: nat, env: Env)
    requires n <= |configs| && RegisterConfigs(hooks, timing, configs[..n], env).1.Some?
    ensures RegisterConfigs(hooks, timing, configs, env) == RegisterConfigs(hooks, timing, configs[..n], env)
    decreases |configs|
  {
    if |configs| > n {
      assert configs[..|configs| - 1][..n] == configs[..n];
      RegisterConfigsStops(hooks, timing, configs[..|configs| - 1], n, env);
    } else {
      assert configs[..n] == configs;
    }
  }

  /** Registering the configured hooks point by point. */
  function RegisterTimings(hooks: map<string, seq<Hook>>, hooksConfig: Fields, timings: seq<string>, env: Env)
    : (map<string, seq<Hook>>, Option<Exc>)
    decreases |timings|
  {
    if |timings| == 0 then (hooks, None)
    else
      var (h, err) := RegisterTimings(hooks, hooksConfig, timings[..|timings| - 1], env);
      if err.Some? then (h, err) else RegisterTiming(h, hooksConfig, timings[|timings| - 1], env)
  }

  /** One point: the configs listed under it, registered in order. */
  function RegisterTiming(hooks: map<string, seq<Hook>>, hooksConfig: Fields, timing: string, env: Env)
    : (map<string, seq<Hook>>, Option<Exc>)
  {
    match Iter(GetOr(hooksConfig, timing, Arr([])))
    case Err(e) => (hooks, Some(e))
    case Ok(configs) => RegisterConfigs(hooks, timing, configs, env)
  }

  /** An error ends the registration: the points after it are not read. */
  lemma {:induction false} RegisterTimingsStops(hooks: map<string, seq<Hook>>, hooksConfig: Fields, timings: seq<string>,
                                                n: nat, env: Env)
    requires n <= |timings| && RegisterTimings(hooks, hooksConfig, timings[..n], env).1.Some?
    ensures RegisterTimings(hooks, hooksConfig, timings, env) == RegisterTimings(hooks, hooksConfig, timings[..n], env)
    decreases |timings|
  {
    if |timings| > n {
      assert timings[..|timings| - 1][..n] == timings[..n];
      RegisterTimingsStops(hooks, hooksConfig, timings[..|timings| - 1], n, env);
    } else {
      assert timings[..n] == timings;
    }
  }

  /** `register_hooks_from_config`: nothing is registered unless
      `hooks.enabled` is truthy; then the hooks of each point, in the order
      pre_filter, post_filter, pre_analysis, post_analysis. */
  function RegisterFromConfig(hooks: map<string, seq<Hook>>, config: Json, env: Env): (map<string, seq<Hook>>, Option<Exc>) {
    match Get(config, "hooks", Obj([]))
    case Err(e) => (hooks, Some(e))
    case Ok(hooksConfig) =>
      match Get(hooksConfig, "enabled", Bool(false))
      case Err(e) => (hooks, Some(e))
      case Ok(enabled) =>
        if !Truthy(enabled) then (hooks, None)
        else RegisterTimings(hooks, hooksConfig.fields, Timings, env)
  }

  /** Disabled hooks register nothing. */
  lemma DisabledRegistersNothing(hooks: map<string, seq<Hook>>, config: Fields, env: Env)
    requires var hc := GetOr(config, "hooks", Obj([])); hc.Obj? && !Truthy(GetOr(hc.fields, "enabled", Bool(false)))
    ensures RegisterFromConfig(hooks, Obj(config), env) == (hooks, None)
  {
  }

  /** A config whose hooks all have unregistered types registers nothing. */
  lemma {:induction false} UnknownTypesRegisterNothing(hooks: map<string, seq<Hook>>, timing: string, configs: seq<Json>, env: Env)
    requires forall i :: 0 <= i < |configs| ==>
      configs[i].Obj? && GetOr(configs[i].fields, "type", Null).Str? &&
      GetOr(configs[i].fields, "type", Null).s !in HookTypes
    ensures RegisterConfigs(hooks, timing, configs, env) == (hooks, None)
    decreases |configs|
  {
    if |configs| > 0 {
      UnknownTypesRegisterNothing(hooks, timing, configs[..|configs| - 1], env);
      var c := configs[|configs| - 1];
      assert CreateHookFromConfig(c, env) == Ok(None);
    }
  }

  /** The inner loop of `register_hooks_from_config`: the hooks built from
      one point's configs, registered in order until one raises. */
  method RegisterConfigsOn(manager: HookManager, timing: string, configs: seq<Json>, env: Env) returns (err: Option<Exc>)
    modifies manager
    ensures (manager.hooks, err) == RegisterConfigs(old(manager.hooks), timing, configs, env)
  {
    var i := 0;
    while i < |configs|
      invariant 0 <= i <= |configs|
      invariant (manager.hooks, None) == RegisterConfigs(old(manager.hooks), timing, configs[..i], env)
    {
      RegisterConfigsNext(old(manager.hooks), timing, configs, i, env);
      var e := RegisterNext(manager, timing, configs[i], env);
      if e.Some? {
        RegisterConfigsStops(old(manager.hooks), timing, configs, i + 1, env);
        return e;
      }
      i := i + 1;
    }
    assert configs[..i] == configs;
    err := None;
  }

  /** After configs that all registered cleanly, the next config goes on
      from the hooks they left. */
  lemma RegisterConfigsNext(hooks: map<string, seq<Hook>>, timing: string, configs: seq<Json>, i: nat, env: Env)
    requires i < |configs| && RegisterConfigs(hooks, timing, configs[..i], env).1.None?
    ensures RegisterConfigs(hooks, timing, configs[..i + 1], env) ==
      RegisterOne(RegisterConfigs(hooks, timing, configs[..i], env).0, timing, configs[i], env)
  {
    assert configs[..i + 1][..i] == configs[..i];
  }

  /** The body of the inner loop: build one hook and register it. */
  method RegisterNext(manager: HookManager, timing: string, config: Json, env: Env) returns (err: Option<Exc>)
    modifies manager
    ensures (manager.hooks, err) == RegisterOne(old(manager.hooks), timing, config, env)
  {
    var hook := CreateHookFromConfig(config, env);
    if hook.Err? {
      return Some(hook.exc);
    }
    if hook.value.Some? {
      manager.RegisterHook(hook.value.value, timing);
    }
    err := None;
  }

  /** `register_hooks_from_config` on a manager: returns the exception
      that stopped it, if any, with the hooks registered before it kept. */
  method RegisterHooksFromConfig(manager: HookManager, config: Json, env: Env) returns (err: Option<Exc>)
    modifies manager
    ensures (manager.hooks, err) == RegisterFromConfig(old(manager.hooks), config, env)
  {
    var hooksConfig := Get(config, "hooks", Obj([]));
    if hooksConfig.Err? {
      return Some(hooksConfig.exc);
    }
    var enabled := Get(hooksConfig.value, "enabled", Bool(false));
    if enabled.Err? {
      return Some(enabled.exc);
    }
    if !Truthy(enabled.value) {
      return None;
    }
    err := RegisterTimingsOn(manager, hooksConfig.value.fields, Timings, env);
  }

  /** The outer loop of `register_hooks_from_config`, over the points. */
  method RegisterTimingsOn(manager: HookManager, fields: Fields, timings: seq<string>, env: Env) returns (err: Option<Exc>)
    modifies manager
    ensures (manager.hooks, err) == RegisterTimings(old(manager.hooks), fields, timings, env)
  {
    var t := 0;
    while t < |timings|
      invariant 0 <= t <= |timings|
      invariant (manager.hooks, None) == RegisterTimings(old(manager.hooks), fields, timings[..t], env)
    {
      RegisterTimingsNext(old(manager.hooks), fields, timings, t, env);
      var e := RegisterTimingOn(manager, fields, timings[t], env);
      if e.Some? {
        RegisterTimingsStops(old(manager.hooks), fields, timings, t + 1, env);
        return e;
      }
      t := t + 1;
    }
    assert timings[..t] == timings;
    err := None;
  }

  /** After points that all registered cleanly, the next point goes on
      from the hooks they left. */
  lemma RegisterTimingsNext(hooks: map<string, seq<Hook>>, hooksConfig: Fields, timings: seq<string>, t: nat, env: Env)
    requires t < |timings| && RegisterTimings(hooks, hooksConfig, timings[..t], env).1.None?
    ensures RegisterTimings(hooks, hooksConfig, timings[..t + 1], env) ==
      RegisterTiming(RegisterTimings(hooks, hooksConfig, timings[..t], env).0, hooksConfig, timings[t], env)
  {
    assert timings[..t + 1][..t] == timings[..t];
  }

  /** The hooks of one point. */
  method RegisterTimingOn(manager: HookManager, fields: Fields, timing: string, env: Env) returns (err: Option<Exc>)
    modifies manager
    ensures (manager.hooks, err) == RegisterTiming(old(manager.hooks), fields, timing, env)
  {
    var configs := Iter(GetOr(fields, timing, Arr([])));
    if configs.Err? {
      return Some(configs.exc);
    }
    err := RegisterConfigsOn(manager, timing, configs.value, env);
  }
}

=== FILE: hook_system.dfy ===
/** The hook system: hooks registered per pipeline point run in registration
    order over the data, each result cached on disk under the hook's cache
    key, and a failing hook leaves the data as it was. */
module HookSystem {
  import opened Wrappers
  import opened PyJson
  import opened CacheFiles
  import LegiScanHook

  /** The pipeline points hooks run at. */
  const PreFilter: string := "pre_filter"
  const PostFilter: string := "post_filter"
  const PreAnalysis: string := "pre_analysis"
  const PostAnalysis: string := "post_analysis"

  /** A hook: the LegiScan hook, or another hook class given by its name
      and its `process` (which may raise), using the default cache key. */
  datatype Hook =
    | LegiScan(legiscan: LegiScanHook.LegiScanHook)
    | Custom(className: string, process: (Json, Fields) -> Result<Json>)

  /** `get_cache_key`: LegiScan's own, or the default
      `{class name}_{item_id}` whenever the context has an `item_id`. */
  function CacheKey(hook: Hook, context: Fields): (r: Option<string>)
    ensures hook.Custom? ==> (r.Some? <==> HasKey(context, "item_id"))
    ensures hook.Custom? && r.Some? ==>
      r.value == hook.className + "_" + Text(GetOr(context, "item_id", Null))
  {
    match hook
    case LegiScan(h) => LegiScanHook.CacheKey(context)
    case Custom(name, _) =>
      match Lookup(context, "item_id")
      case Some(id) => Some(name + "_" + Text(id))
      case None => None
  }

  /** `hook.process(data, context)`, with the files the hook itself
      touches. */
  function ProcessHook(hook: Hook, data: Json, context: Fields, disk: Disk, api: LegiScanHook.LegiScanApi): (Result<Json>, Disk) {
    match hook
    case LegiScan(h) => LegiScanHook.Process(h, data, context, disk, api)
    case Custom(_, process) => (process(data, context), disk)
  }

  /** The cache file of a key. */
  function CacheFile(cacheDir: string, key: string): string {
    PathIn(cacheDir, key + ".json")
  }

  /** `_load_from_cache`: the parsed file, or None (`Null`) without a cache
      directory or a readable file. */
  function CacheLoad(cacheDir: Option<string>, key: string, disk: Disk): (r: Json)
    ensures cacheDir.None? ==> r == Null
  {
    if cacheDir.None? then Null
    else ReadJson(disk, CacheFile(cacheDir.value, key)).GetOr(Null)
  }

  /** `_save_to_cache`: a str, dict or list is written as JSON; any other
      value leaves the file opened for writing and empty. */
  function CacheSave(cacheDir: Option<string>, key: string, data: Json, disk: Disk): (r: Disk)
    ensures cacheDir.None? ==> r == disk
  {
    if cacheDir.None? then disk
    else disk[CacheFile(cacheDir.value, key) := if data.Str? || data.Obj? || data.Arr? then Parsed(data) else Unreadable]
  }

  /** Saving a str, dict or list and loading it back gives it back. */
  lemma CacheRoundTrip(dir: string, key: string, data: Json, disk: Disk)
    requires data.Str? || data.Obj? || data.Arr?
    ensures CacheLoad(Some(dir), key, CacheSave(Some(dir), key, data, disk)) == data
  {
  }

  /** One hook's turn in `execute_hooks`: a cached value other than None
      replaces the data; otherwise the hook runs, and its result is kept
      (and cached under a non-empty key) unless it raises, in which case the
      data is left as it was. */
  function Step(cacheDir: Option<string>, hook: Hook, context: Fields, api: LegiScanHook.LegiScanApi,
                data: Json, disk: Disk): (Json, Disk)
  {
    var key := CacheKey(hook, context);
    var cached := if key.Some? && key.value != "" then CacheLoad(cacheDir, key.value, disk) else Null;
    if cached != Null then (cached, disk)
    else
      var (r, disk') := ProcessHook(hook, data, context, disk, api);
      if r.Err? then (data, disk')
      else if key.Some? && key.value != "" then (r.value, CacheSave(cacheDir, key.value, r.value, disk'))
      else (r.value, disk')
  }

  /** `execute_hooks` over a list of hooks: each hook's turn starts from
      the previous one's result. */
  function Run(cacheDir: Option<string>, hooks: seq<Hook>, context: Fields, api: LegiScanHook.LegiScanApi,
               data: Json, disk: Disk): (Json, Disk)
    decreases |hooks|
  {
    if |hooks| == 0 then (data, disk)
    else
      var (d, k) := Run(cacheDir, hooks[..|hooks| - 1], context, api, data, disk);
      Step(cacheDir, hooks[|hooks| - 1], context, api, d, k)
  }

  /** Running two lists of hooks one after the other is running their
      concatenation. */
  lemma {:induction false} RunAppend(cacheDir: Option<string>, first: seq<Hook>, second: seq<Hook>, context: Fields,
                                     api: LegiScanHook.LegiScanApi, data: Json, disk: Disk)
    ensures var (d, k) := Run(cacheDir, first, context, api, data, disk);
      Run(cacheDir, first + second, context, api, data, disk) == Run(cacheDir, second, context, api, d, k)
    decreases |second|
  {
    if |second| == 0 {
      assert first + second == first;
    } else {
      var n := |second|;
      assert (first + second)[..|first + second| - 1] == first + second[..n - 1];
      assert (first + second)[|first + second| - 1] == second[n - 1];
      RunAppend(cacheDir, first, second[..n - 1], context, api, data, disk);
    }
  }

  /** A cache hit makes the hook's turn independent of the data it is
      given, and nothing is written. */
  lemma CacheHitIgnoresData(cacheDir: Option<string>, hook: Hook, context: Fields, api: LegiScanHook.LegiScanApi,
                            data1: Json, data2: Json, disk: Disk)
    requires CacheKey(hook, context).Some? && CacheKey(hook, context).value != ""
    requires CacheLoad(cacheDir, CacheKey(hook, context).value, disk) != Null
    ensures Step(cacheDir, hook, context, api, data1, disk) == Step(cacheDir, hook, context, api, data2, disk)
    ensures Step(cacheDir, hook, context, api, data1, disk) == (CacheLoad(cacheDir, CacheKey(hook, context).value, disk), disk)
  {
  }

  /** A hook whose str, dict or list result was cached gives that result
      again on its next turn with the same context, whatever data it is
      then given. */
  lemma CachedResultReplays(dir: string, hook: Hook, context: Fields, api: LegiScanHook.LegiScanApi,
                            data: Json, other: Json, disk: Disk)
    requires hook.Custom? && HasKey(context, "item_id")
    requires CacheLoad(Some(dir), CacheKey(hook, context).value, disk) == Null
    requires hook.process(data, context).Ok?
    requires var v := hook.process(data, context).value; v.Str? || v.Obj? || v.Arr?
    ensures var (v, disk') := Step(Some(dir), hook, context, api, data, disk);
      v == hook.process(data, context).value &&
      Step(Some(dir), hook, context, api, other, disk') == (v, disk')
  {
    var key := CacheKey(hook, context).value;
    assert key != "" by {
      assert |key| >= |hook.className + "_"|;
    }
    CacheRoundTrip(dir, key, hook.process(data, context).value, disk);
  }

  /** A hook that raises, when its turn is not a cache hit, leaves the
      data as it was. */
  lemma FailingHookKeepsData(cacheDir: Option<string>, hook: Hook, context: Fields, api: LegiScanHook.LegiScanApi,
                             data: Json, disk: Disk)
    requires hook.Custom? && hook.process(data, context).Err?
    requires CacheKey(hook, context).None? || CacheLoad(cacheDir, CacheKey(hook, context).value, disk) == Null
    ensures Step(cacheDir, hook, context, api, data, disk) == (data, disk)
  {
  }

  /** Without a cache directory, the other hooks' turns are plain
      function application and leave the disk alone. */
  lemma {:induction false} NoCacheDirIsApplication(hooks: seq<Hook>, context: Fields, api: LegiScanHook.LegiScanApi,
                                                   data: Json, disk: Disk)
    requires forall i :: 0 <= i < |hooks| ==> hooks[i].Custom?
    ensures Run(None, hooks, context, api, data, disk) == (Apply(hooks, context, data), disk)
    decreases |hooks|
  {
    if |hooks| > 0 {
      NoCacheDirIsApplication(hooks[..|hooks| - 1], context, api, data, disk);
    }
  }

  /** Applying `process` hook by hook, keeping the data when one raises. */
  function Apply(hooks: seq<Hook>, context: Fields, data: Json): Json
    requires forall i :: 0 <= i < |hooks| ==> hooks[i].Custom?
    decreases |hooks|
  {
    if |hooks| == 0 then data
    else
      var d := Apply(hooks[..|hooks| - 1], context, data);
      var r := hooks[|hooks| - 1].process(d, context);
      if r.Ok? then r.value else d
  }

  /** The hooks registered at a point, none when the point was never used. */
  function HooksAt(hooks: map<string, seq<Hook>>, timing: string): seq<Hook> {
    if timing in hooks then hooks[timing] else []
  }

  /** `HookManager`: the registered hooks per point and the optional cache
      directory. */
  class HookManager {
    var hooks: map<string, seq<Hook>>
    const cacheDir: Option<string>

    constructor (cacheDir: Option<string>)
      ensures hooks == map[] && this.cacheDir == cacheDir
    {
      hooks := map[];
      this.cacheDir := cacheDir;
    }

    /** `register_hook`: appends the hook to its point's list. */
    method RegisterHook(hook: Hook, timing: string)
      modifies this
      ensures hooks == old(hooks)[timing := HooksAt(old(hooks), timing) + [hook]]
    {
      if timing !in hooks {
        hooks := hooks[timing := []];
      }
      hooks := hooks[timing := hooks[timing] + [hook]];
    }

    /** `_load_from_cache` */
    method LoadFromCache(key: string, fs: FileSystem) returns (r: Json)
      ensures r == CacheLoad(cacheDir, key, fs.files)
    {
      if cacheDir.None? {
        return Null;
      }
      var read := fs.Read(CacheFile(cacheDir.value, key));
      r := if read.Some? then read.value else Null;
    }

    /** `_save_to_cache` */
    method SaveToCache(key: string, data: Json, fs: FileSystem)
      modifies fs
      ensures fs.files == CacheSave(cacheDir, key, data, old(fs.files))
    {
      if cacheDir.None? {
        return;
      }
      if data.Str? || data.Obj? || data.Arr? {
        fs.Write(CacheFile(cacheDir.value, key), Parsed(data));
      } else {
        fs.Write(CacheFile(cacheDir.value, key), Unreadable);
      }
    }

    /** `execute_hooks`: the data after every hook registered at the point
      has had its turn, and the files their turns wrote. */
    method ExecuteHooks(timing: string, data: Json, context: Fields, fs: FileSystem, api: LegiScanHook.LegiScanApi)
      returns (r: Json)
      modifies fs
      ensures (r, fs.files) == Run(cacheDir, HooksAt(hooks, timing), context, api, data, old(fs.files))
    {
      var list := HooksAt(hooks, timing);
      r := data;
      var i := 0;
      while i < |list|
        invariant 0 <= i <= |list|
        invariant (r, fs.files) == Run(cacheDir, list[..i], context, api, data, old(fs.files))
      {
        assert list[..i + 1][..i] == list[..i];
        var hook := list[i];
        var key := CacheKey(hook, context);
        var cached := Null;
        if key.Some? && key.value != "" {
          cached := LoadFromCache(key.value, fs);
        }
        if cached != Null {
          r := cached;
        } else {
          var result: Result<Json>;
          match hook {
            case LegiScan(h) =>
              result := LegiScanHook.ProcessData(h, r, context, fs, api);
            case Custom(_, process) =>
              result := process(r, context);
          }
          if result.Ok? {
            r := result.value;
            if key.Some? && key.value != "" {
              SaveToCache(key.value, r, fs);
            }
          }
        }
        i := i + 1;
      }
      assert list[..i] == list;
    }
  }
}

=== FILE: legiscan_hook.dfy ===
/** The LegiScan enrichment hook: fetches a bill's details (from its cache
    directory when a readable copy is there, else from the LegiScan service,
    caching what the service returns) and appends a text rendering of them to
    the data being analysed. */
module LegiScanHook {
  import opened Wrappers
  import opened PyStrings
  import opened PyJson
  import opened CacheFiles

  const DefaultCacheDir: string := "data/cache/legiscan_cache"

  /** The LegiScan `getBill` call: for an API key and a bill id, the parsed
      response, or None when the request raises. */
  type LegiScanApi = (Json, Json) -> Option<Json>

  /** A hook instance: its API key (any value; only its truth matters) and
      its cache directory. */
  datatype LegiScanHook = LegiScanHook(apiKey: Json, cacheDir: string)

  /** The constructor: the key falls back to `LEGISCAN_API_KEY`, the
      directory to `data/cache/legiscan_cache`. `cacheDir` is the argument
      as a str, which is how the registry passes it from the configuration:
      an empty str is falsy and falls back too. */
  function Create(apiKey: Json, cacheDir: Option<string>, env: Env): (h: LegiScanHook)
    ensures Truthy(apiKey) ==> h.apiKey == apiKey
    ensures !Truthy(apiKey) ==> h.apiKey == EnvValue(env, "LEGISCAN_API_KEY")
    ensures h.cacheDir == if cacheDir.Some? && cacheDir.value != "" then cacheDir.value else DefaultCacheDir
  {
    LegiScanHook(if Truthy(apiKey) then apiKey else EnvValue(env, "LEGISCAN_API_KEY"),
                 if cacheDir.Some? && cacheDir.value != "" then cacheDir.value else DefaultCacheDir)
  }

  /** `get_cache_key`: `legiscan_bill_{item_id}` for a truthy `item_id`. */
  function CacheKey(context: Fields): (r: Option<string>)
    ensures r.Some? <==> Truthy(GetOr(context, "item_id", Null))
    ensures r.Some? ==> StartsWith(r.value, "legiscan_bill_")
    ensures r.Some? ==> r.value[|"legiscan_bill_"|..] == Text(GetOr(context, "item_id", Null))
  {
    var id := GetOr(context, "item_id", Null);
    if Truthy(id) then
      StartsWithAppend("legiscan_bill_", Text(id));
      Some("legiscan_bill_" + Text(id))
    else None
  }

  /** The cache file of one bill. */
  function BillFile(cacheDir: string, billId: Json): string {
    PathIn(cacheDir, "bill_" + Text(billId) + ".json")
  }

  /** `_fetch_bill`: a readable cache file is returned as it is; otherwise the
      service is asked, and a response with status `OK` is cached and its
      `bill` returned. A failed request or another status gives None; a
      response that is not a dict, or whose `alert` is not a dict when the
      status is not `OK`, raises AttributeError. Also the fetch of the
      analysis pass, which uses the same logic. */
  function Fetch(cacheDir: string, apiKey: Json, billId: Json, disk: Disk, api: LegiScanApi): (Result<Json>, Disk) {
    var path := BillFile(cacheDir, billId);
    match ReadJson(disk, path)
    case Some(cached) => (Ok(cached), disk)
    case None =>
      match api(apiKey, billId)
      case None => (Ok(Null), disk)
      case Some(response) =>
        if !response.Obj? then
          (Err(AttributeError("'" + TypeName(response) + "' object has no attribute 'get'")), disk)
        else if GetOr(response.fields, "status", Null) == Str("OK") then
          var bill := GetOr(response.fields, "bill", Null);
          (Ok(bill), disk[path := Parsed(bill)])
        else
          var alert := GetOr(response.fields, "alert", Obj([]));
          if alert.Obj? then (Ok(Null), disk)
          else (Err(AttributeError("'" + TypeName(alert) + "' object has no attribute 'get'")), disk)
  }

  /** A readable cached copy short-circuits the service: whatever the
      service would answer, the cached value is returned and nothing is
      written. */
  lemma FetchCacheHit(cacheDir: string, apiKey: Json, billId: Json, disk: Disk, api: LegiScanApi, v: Json)
    requires BillFile(cacheDir, billId) in disk && disk[BillFile(cacheDir, billId)] == Parsed(v)
    ensures Fetch(cacheDir, apiKey, billId, disk, api) == (Ok(v), disk)
  {
  }

  /** A successful fetch caches the bill: the next fetch of the same bill
      reads it back without asking the service, and no other file changes. */
  lemma FetchCachesBill(cacheDir: string, apiKey: Json, billId: Json, disk: Disk, api: LegiScanApi, api': LegiScanApi)
    requires ReadJson(disk, BillFile(cacheDir, billId)).None?
    requires api(apiKey, billId).Some? && api(apiKey, billId).value.Obj?
    requires GetOr(api(apiKey, billId).value.fields, "status", Null) == Str("OK")
    ensures var (r, disk') := Fetch(cacheDir, apiKey, billId, disk, api);
      r == Ok(GetOr(api(apiKey, billId).value.fields, "bill", Null)) &&
      Fetch(cacheDir, apiKey, billId, disk', api') == (r, disk') &&
      forall p :: p != BillFile(cacheDir, billId) ==> (p in disk' <==> p in disk) && (p in disk ==> disk'[p] == disk[p])
  {
  }

  /** An unreadable cache file is the same as a missing one: the fetch falls
      back to the service. */
  lemma FetchUnreadableFallsBack(cacheDir: string, apiKey: Json, billId: Json, disk: Disk, api: LegiScanApi)
    requires BillFile(cacheDir, billId) in disk && disk[BillFile(cacheDir, billId)] == Unreadable
    ensures Fetch(cacheDir, apiKey, billId, disk, api).0 ==
      Fetch(cacheDir, apiKey, billId, disk - {BillFile(cacheDir, billId)}, api).0
  {
  }

  /** A failed request, or a status other than `OK` with a dict `alert`
      (or none), gives None and writes nothing. */
  lemma FetchFailureIsNone(cacheDir: string, apiKey: Json, billId: Json, disk: Disk, api: LegiScanApi)
    requires ReadJson(disk, BillFile(cacheDir, billId)).None?
    requires api(apiKey, billId).None? ||
      (api(apiKey, billId).value.Obj? &&
       GetOr(api(apiKey, billId).value.fields, "status", Null) != Str("OK") &&
       GetOr(api(apiKey, billId).value.fields, "alert", Obj([])).Obj?)
    ensures Fetch(cacheDir, apiKey, billId, disk, api) == (Ok(Null), disk)
  {
  }

  /** A line `{caption}{value}` when the field is truthy. */
  function FieldLine(caption: string, v: Json): seq<string> {
    if Truthy(v) then [caption + Text(v)] else []
  }

  /** The two lines about the latest text version: only the last entry of
      a non-empty `texts` list is read, and only when it has a truthy
      `doc_id`. */
  function TextsLines(texts: Json): (r: Result<seq<string>>)
    ensures !texts.Arr? || |texts.items| == 0 ==> r == Ok([])
  {
    if !Truthy(texts) || !texts.Arr? then Ok([])
    else
      var latest := texts.items[|texts.items| - 1];
      var docId :- Get(latest, "doc_id", Null);
      if Truthy(docId) then
        Ok(["\nBill Text (Version: " + Text(GetOr(latest.fields, "type", Str("Unknown"))) + "):",
            "[Full text document ID: " + Text(docId) + "]"])
      else Ok([])
  }

  /** Only the last text version matters. */
  lemma TextsLinesLastOnly(a: seq<Json>, b: seq<Json>)
    requires |a| > 0 && |b| > 0 && a[|a| - 1] == b[|b| - 1]
    ensures TextsLines(Arr(a)) == TextsLines(Arr(b))
  {
  }

  /** `sep.join(values)`: every value must be a str; the first that is not
      raises TypeError naming its position. */
  function StrItems(values: seq<Json>): (r: Result<seq<string>>)
    ensures r.Ok? <==> forall i :: 0 <= i < |values| ==> values[i].Str?
    ensures r.Ok? ==> |r.value| == |values| && forall i :: 0 <= i < |values| ==> values[i] == Str(r.value[i])
  {
    StrItemsFrom(values, 0)
  }

  function StrItemsFrom(values: seq<Json>, i: nat): (r: Result<seq<string>>)
    requires i <= |values|
    ensures r.Ok? <==> forall j :: i <= j < |values| ==> values[j].Str?
    ensures r.Ok? ==> |r.value| == |values| - i && forall j :: i <= j < |values| ==> values[j] == Str(r.value[j - i])
    decreases |values| - i
  {
    if i == |values| then Ok([])
    else if !values[i].Str? then
      Err(TypeError("sequence item " + NatText(i) + ": expected str instance, " + TypeName(values[i]) + " found"))
    else
      var rest :- StrItemsFrom(values, i + 1);
      Ok([values[i].s] + rest)
  }

  /** `s.get('name', 'Unknown')` of a sponsor */
  function SponsorName(s: Json): Result<Json> {
    Get(s, "name", Str("Unknown"))
  }

  /** `s.get('subject_name', '')` of a subject */
  function SubjectName(s: Json): Result<Json> {
    Get(s, "subject_name", Str(""))
  }

  /** The sponsors line: the `name` (default `Unknown`) of the first three
      sponsors at most. */
  function SponsorsLines(sponsors: Json): Result<seq<string>> {
    if !Truthy(sponsors) || !sponsors.Arr? then Ok([])
    else
      var firstThree := if |sponsors.items| <= 3 then sponsors.items else sponsors.items[..3];
      var names :- MapAll(SponsorName, firstThree);
      var strs :- StrItems(names);
      Ok(["Sponsors: " + Join(", ", strs)])
  }

  /** Sponsors after the third do not appear. */
  lemma SponsorsFirstThree(sponsors: seq<Json>)
    requires |sponsors| > 3
    ensures SponsorsLines(Arr(sponsors)) == SponsorsLines(Arr(sponsors[..3]))
  {
  }

  /** The subjects line: every subject's `subject_name` (default empty). */
  function SubjectsLines(subjects: Json): Result<seq<string>> {
    if !Truthy(subjects) || !subjects.Arr? then Ok([])
    else
      var names :- MapAll(SubjectName, subjects.items);
      var strs :- StrItems(names);
      Ok(["Subjects: " + Join(", ", strs)])
  }

  /** `_extract_text`: the lines for the bill number, title, description,
      status and status date (each when truthy), the latest text version,
      the sponsors and the subjects, joined by newlines. */
  function ExtractText(bill: Json): (r: Result<string>)
    ensures r.Ok? ==> bill.Obj?
    ensures r.Ok? && Truthy(GetOr(bill.fields, "bill_number", Null)) ==>
      StartsWith(r.value, "Bill Number: " + Text(GetOr(bill.fields, "bill_number", Null)))
  {
    var fs :- if bill.Obj? then Ok(bill.fields)
              else Err(AttributeError("'" + TypeName(bill) + "' object has no attribute 'get'"));
    var texts :- TextsLines(GetOr(fs, "texts", Null));
    var sponsors :- SponsorsLines(GetOr(fs, "sponsors", Null));
    var subjects :- SubjectsLines(GetOr(fs, "subjects", Null));
    Ok(Render(GetOr(fs, "bill_number", Null), MetadataLines(fs) + texts + sponsors + subjects))
  }

  /** The title, description, status and status date lines. */
  function MetadataLines(fs: Fields): seq<string> {
    FieldLine("Title: ", GetOr(fs, "title", Null))
    + FieldLine("Description: ", GetOr(fs, "description", Null))
    + FieldLine("Status: ", GetOr(fs, "status", Null))
    + FieldLine("Status Date: ", GetOr(fs, "status_date", Null))
  }

  /** The bill number's line, when there is one, followed by the other
      lines, joined by newlines. */
  function Render(number: Json, rest: seq<string>): (s: string)
    ensures Truthy(number) ==> StartsWith(s, "Bill Number: " + Text(number))
    ensures !Truthy(number) ==> s == Join("\n", rest)
  {
    var lines := FieldLine("Bill Number: ", number) + rest;
    JoinFirst("\n", lines);
    assert Truthy(number) ==> lines[0] == "Bill Number: " + Text(number);
    assert !Truthy(number) ==> lines == rest;
    Join("\n", lines)
  }

  /** The joined text starts with the first part. */
  lemma JoinFirst(sep: string, parts: seq<string>)
    ensures |parts| > 0 ==> StartsWith(Join(sep, parts), parts[0])
  {
    if |parts| > 1 {
      StartsWithAppend(parts[0], sep + Join(sep, parts[1..]));
      assert Join(sep, parts) == parts[0] + (sep + Join(sep, parts[1..]));
    } else if |parts| == 1 {
      StartsWithAppend(parts[0], "");
      assert parts[0] + "" == parts[0];
    }
  }

  /** A bill dict with no truthy field renders as the empty text. */
  lemma ExtractEmpty(fs: Fields)
    requires forall i :: 0 <= i < |fs| ==> !Truthy(fs[i].1)
    ensures ExtractText(Obj(fs)) == Ok("")
  {
    FalsyField(fs, "texts");
    FalsyField(fs, "sponsors");
    FalsyField(fs, "subjects");
    FalsyField(fs, "bill_number");
    FalsyField(fs, "title");
    FalsyField(fs, "description");
    FalsyField(fs, "status");
    FalsyField(fs, "status_date");
    assert TextsLines(GetOr(fs, "texts", Null)) == Ok([]);
    assert SponsorsLines(GetOr(fs, "sponsors", Null)) == Ok([]);
    assert SubjectsLines(GetOr(fs, "subjects", Null)) == Ok([]);
    assert MetadataLines(fs) == [];
  }

  /** A dict with no truthy value gives a falsy value for every key. */
  lemma FalsyField(fs: Fields, k: string)
    requires forall i :: 0 <= i < |fs| ==> !Truthy(fs[i].1)
    ensures !Truthy(GetOr(fs, k, Null))
  {
    var v := Lookup(fs, k);
    if v.Some? {
      var i :| 0 <= i < |fs| && fs[i] == (k, v.value);
    }
  }

  const Separator: string := "\n\n## Full Bill Details from LegiScan API:\n\n"

  /** `process`: without a key, without a truthy `item_id`, or when nothing
      was fetched, the data is returned unchanged; otherwise the bill's text
      is appended to a str, or stored with the raw bill under
      `legiscan_full_text` and `legiscan_raw` in a dict, and any other value
      is returned unchanged. */
  function Process(hook: LegiScanHook, data: Json, context: Fields, disk: Disk, api: LegiScanApi): (Result<Json>, Disk) {
    var billId := GetOr(context, "item_id", Null);
    if !Truthy(hook.apiKey) || !Truthy(billId) then (Ok(data), disk)
    else
      var (fetched, disk') := Fetch(hook.cacheDir, hook.apiKey, billId, disk, api);
      if fetched.Err? then (Err(fetched.exc), disk')
      else if !Truthy(fetched.value) then (Ok(data), disk')
      else
        var text := ExtractText(fetched.value);
        if text.Err? then (Err(text.exc), disk')
        else if data.Str? then (Ok(Str(data.s + Separator + text.value)), disk')
        else if data.Obj? then
          (Ok(Obj(Put(Put(data.fields, "legiscan_full_text", Str(text.value)), "legiscan_raw", fetched.value))), disk')
        else (Ok(data), disk')
  }

  /** Without a key or a truthy `item_id` the hook neither changes the data
      nor touches the disk. */
  lemma ProcessSkips(hook: LegiScanHook, data: Json, context: Fields, disk: Disk, api: LegiScanApi)
    requires !Truthy(hook.apiKey) || !Truthy(GetOr(context, "item_id", Null))
    ensures Process(hook, data, context, disk, api) == (Ok(data), disk)
  {
  }

  /** Enriching a dict sets the two LegiScan keys and keeps every other key. */
  lemma ProcessDict(hook: LegiScanHook, fs: Fields, context: Fields, disk: Disk, api: LegiScanApi, k: string)
    requires Truthy(hook.apiKey) && Truthy(GetOr(context, "item_id", Null))
    requires var f := Fetch(hook.cacheDir, hook.apiKey, GetOr(context, "item_id", Null), disk, api).0;
      f.Ok? && Truthy(f.value) && ExtractText(f.value).Ok?
    ensures var bill := Fetch(hook.cacheDir, hook.apiKey, GetOr(context, "item_id", Null), disk, api).0.value;
      var r := Process(hook, Obj(fs), context, disk, api).0;
      r.Ok? && r.value.Obj? &&
      Lookup(r.value.fields, k) ==
        if k == "legiscan_raw" then Some(bill)
        else if k == "legiscan_full_text" then Some(Str(ExtractText(bill).value))
        else Lookup(fs, k)
  {
    var bill := Fetch(hook.cacheDir, hook.apiKey, GetOr(context, "item_id", Null), disk, api).0.value;
    var text := ExtractText(bill).value;
    PutLookup(fs, "legiscan_full_text", Str(text), k);
    PutLookup(Put(fs, "legiscan_full_text", Str(text)), "legiscan_raw", bill, k);
  }

  /** `_fetch_bill` on the file system. */
  method FetchBill(hook: LegiScanHook, billId: Json, fs: FileSystem, api: LegiScanApi) returns (r: Result<Json>)
    modifies fs
    ensures (r, fs.files) == Fetch(hook.cacheDir, hook.apiKey, billId, old(fs.files), api)
  {
    var path := BillFile(hook.cacheDir, billId);
    var cached := fs.Read(path);
    if cached.Some? {
      return Ok(cached.value);
    }
    var response := api(hook.apiKey, billId);
    if response.None? {
      return Ok(Null);
    }
    var result := response.value;
    if !result.Obj? {
      return Err(AttributeError("'" + TypeName(result) + "' object has no attribute 'get'"));
    }
    if GetOr(result.fields, "status", Null) == Str("OK") {
      var bill := GetOr(result.fields, "bill", Null);
      fs.Write(path, Parsed(bill));
      return Ok(bill);
    }
    var alert := GetOr(result.fields, "alert", Obj([]));
    if !alert.Obj? {
      return Err(AttributeError("'" + TypeName(alert) + "' object has no attribute 'get'"));
    }
    r := Ok(Null);
  }

  /** `process` on the file system. */
  method ProcessData(hook: LegiScanHook, data: Json, context: Fields, fs: FileSystem, api: LegiScanApi)
    returns (r: Result<Json>)
    modifies fs
    ensures (r, fs.files) == Process(hook, data, context, old(fs.files), api)
  {
    if !Truthy(hook.apiKey) {
      return Ok(data);
    }
    var billId := GetOr(context, "item_id", Null);
    if !Truthy(billId) {
      return Ok(data);
    }
    var fetched := FetchBill(hook, billId, fs, api);
    if fetched.Err? {
      return Err(fetched.exc);
    }
    var bill := fetched.value;
    if !Truthy(bill) {
      return Ok(data);
    }
    var text := ExtractText(bill);
    if text.Err? {
      return Err(text.exc);
    }
    if data.Str? {
      r := Ok(Str(data.s + Separator + text.value));
    } else if data.Obj? {
      r := Ok(Obj(Put(Put(data.fields, "legiscan_full_text", Str(text.value)), "legiscan_raw", bill)));
    } else {
      r := Ok(data);
    }
  }
}

=== FILE: llm_provider.dfy ===
/** The language-model providers (Portkey, Azure OpenAI, Ollama) and the
    factory that picks one from the configuration and the environment.
    A provider is a value: its settings are fixed once it is built. The
    HTTP call is a parameter. */
module LlmProvider {
  import opened Wrappers
  import opened PyStrings
  import opened PyJson
  import AiFilterPass

  const DefaultModel: string := "gpt-4o-mini"
  const PortkeyUrl: string := "https://api.portkey.ai/v1"
  const AzureApiVersion: string := "2024-02-15-preview"
  const OllamaModel: string := "llama3.1:8b-instruct"
  const OllamaUrl: string := "http://localhost:11434/v1"

  const PortkeyKeyMissing: string := "Portkey API key required (set PORTKEY_API_KEY env var or pass api_key)"
  const AzureKeyMissing: string := "Azure OpenAI API key required (set AZURE_OPENAI_API_KEY env var or pass api_key)"
  const AzureEndpointMissing: string := "Azure OpenAI endpoint required (set AZURE_OPENAI_ENDPOINT env var or pass endpoint)"
  const AzureDeploymentMissing: string :=
    "Azure OpenAI deployment name required (set AZURE_OPENAI_DEPLOYMENT env var or pass deployment_name)"

  /** A configured provider; `kwargs` are the extra constructor arguments
      that every payload carries. */
  datatype Provider =
    | Portkey(apiKey: Json, model: Json, baseUrl: string, kwargs: Fields)
    | AzureOpenAI(apiKey: Json, endpoint: string, deploymentName: Json, apiVersion: Json, kwargs: Fields)
    | Ollama(model: Json, baseUrl: string, kwargs: Fields)

  /** `arg or os.getenv(name)` */
  function ArgOrEnv(arg: Json, env: Env, name: string): (r: Json)
    ensures Truthy(arg) ==> r == arg
    ensures !Truthy(arg) ==> r == EnvValue(env, name)
  {
    if Truthy(arg) then arg else EnvValue(env, name)
  }

  /** `url.rstrip('/')`: only a str has `rstrip`. */
  function StripSlashes(url: Json): (r: Result<string>)
    ensures r.Ok? <==> url.Str?
    ensures r.Ok? ==> StartsWith(url.s, r.value) && !EndsWith(r.value, "/")
    ensures r.Ok? ==> forall i :: |r.value| <= i < |url.s| ==> url.s[i] == '/'
    ensures r.Err? ==> r.exc == AttributeError("'" + TypeName(url) + "' object has no attribute 'rstrip'")
  {
    if url.Str? then Ok(RStripChar(url.s, '/'))
    else Err(AttributeError("'" + TypeName(url) + "' object has no attribute 'rstrip'"))
  }

  /** `PortkeyProvider(api_key, model, base_url, **kwargs)`: the key comes
      from the argument or `PORTKEY_API_KEY` and must be truthy. */
  function NewPortkey(apiKey: Json, model: Json, baseUrl: Json, kwargs: Fields, env: Env): (r: Result<Provider>)
    ensures r.Ok? <==> Truthy(ArgOrEnv(apiKey, env, "PORTKEY_API_KEY")) && baseUrl.Str?
    ensures !Truthy(ArgOrEnv(apiKey, env, "PORTKEY_API_KEY")) ==> r == Err(ValueError(PortkeyKeyMissing))
    ensures r.Ok? ==>
      r.value == Portkey(ArgOrEnv(apiKey, env, "PORTKEY_API_KEY"), model, RStripChar(baseUrl.s, '/'), kwargs)
  {
    var key := ArgOrEnv(apiKey, env, "PORTKEY_API_KEY");
    if !Truthy(key) then Err(ValueError(PortkeyKeyMissing))
    else
      var url :- StripSlashes(baseUrl);
      Ok(Portkey(key, model, url, kwargs))
  }

  /** `AzureOpenAIProvider(...)`: key, endpoint and deployment each come
      from the argument or the environment, and are checked in that order. */
  function NewAzure(apiKey: Json, endpoint: Json, deploymentName: Json, apiVersion: Json, kwargs: Fields, env: Env)
    : (r: Result<Provider>)
    ensures var key := ArgOrEnv(apiKey, env, "AZURE_OPENAI_API_KEY");
      var ep := ArgOrEnv(endpoint, env, "AZURE_OPENAI_ENDPOINT");
      var dep := ArgOrEnv(deploymentName, env, "AZURE_OPENAI_DEPLOYMENT");
      (!Truthy(key) ==> r == Err(ValueError(AzureKeyMissing))) &&
      (Truthy(key) && !Truthy(ep) ==> r == Err(ValueError(AzureEndpointMissing))) &&
      (Truthy(key) && Truthy(ep) && !Truthy(dep) ==> r == Err(ValueError(AzureDeploymentMissing))) &&
      (r.Ok? <==> Truthy(key) && Truthy(ep) && Truthy(dep) && ep.Str?) &&
      (r.Ok? ==> r.value == AzureOpenAI(key, RStripChar(ep.s, '/'), dep, apiVersion, kwargs))
  {
    var key := ArgOrEnv(apiKey, env, "AZURE_OPENAI_API_KEY");
    var ep := ArgOrEnv(endpoint, env, "AZURE_OPENAI_ENDPOINT");
    var dep := ArgOrEnv(deploymentName, env, "AZURE_OPENAI_DEPLOYMENT");
    if !Truthy(key) then Err(ValueError(AzureKeyMissing))
    else if !Truthy(ep) then Err(ValueError(AzureEndpointMissing))
    else if !Truthy(dep) then Err(ValueError(AzureDeploymentMissing))
    else
      var url :- StripSlashes(ep);
      Ok(AzureOpenAI(key, url, dep, apiVersion, kwargs))
  }

  /** `OllamaProvider(model, base_url, **kwargs)`: no credentials. */
  function NewOllama(model: Json, baseUrl: Json, kwargs: Fields): (r: Result<Provider>)
    ensures r.Ok? <==> baseUrl.Str?
    ensures r.Ok? ==> r.value == Ollama(model, RStripChar(baseUrl.s, '/'), kwargs)
  {
    var url :- StripSlashes(baseUrl);
    Ok(Ollama(model, url, kwargs))
  }

  /** `get_provider_name` */
  function ProviderName(p: Provider): (r: string)
    ensures p.Portkey? ==> r == "portkey/" + Text(p.model)
    ensures p.AzureOpenAI? ==> r == "azure/" + Text(p.deploymentName)
    ensures p.Ollama? ==> r == "ollama/" + Text(p.model)
  {
    match p
    case Portkey(_, model, _, _) => "portkey/" + Text(model)
    case AzureOpenAI(_, _, deployment, _, _) => "azure/" + Text(deployment)
    case Ollama(model, _, _) => "ollama/" + Text(model)
  }

  /** The URL `chat_completion` posts to. */
  function ChatUrl(p: Provider): string {
    match p
    case Portkey(_, _, baseUrl, _) => baseUrl + "/chat/completions"
    case AzureOpenAI(_, endpoint, deployment, version, _) =>
      endpoint + "/openai/deployments/" + Text(deployment) + "/chat/completions?api-version=" + Text(version)
    case Ollama(_, baseUrl, _) => baseUrl + "/chat/completions"
  }

  /** The request headers. */
  function Headers(p: Provider): Fields {
    match p
    case Portkey(key, _, _, _) => [("Content-Type", Str("application/json")), ("Authorization", Str("Bearer " + Text(key)))]
    case AzureOpenAI(key, _, _, _, _) => [("Content-Type", Str("application/json")), ("api-key", key)]
    case Ollama(_, _, _) => [("Content-Type", Str("application/json"))]
  }

  /** `{k: v for k, v in kwargs.items() if k != key}` */
  function Without(fs: Fields, key: string): (r: Fields)
    ensures !HasKey(r, key)
    ensures forall k :: k != key ==> Lookup(r, k) == Lookup(fs, k)
    decreases |fs|
  {
    if |fs| == 0 then []
    else
      var rest := Without(fs[1..], key);
      LookupCons(fs[0], rest, key);
      assert fs == [fs[0]] + fs[1..];
      forall k | k != key
        ensures Lookup(if fs[0].0 == key then rest else [fs[0]] + rest, k) == Lookup(fs, k)
      {
        LookupCons(fs[0], rest, k);
        LookupCons(fs[0], fs[1..], k);
      }
      if fs[0].0 == key then rest else [fs[0]] + rest
  }

  /** `{**m}` for a value read from a dict: only a dict can be spread. */
  function Spread(m: Json): (r: Result<Fields>)
    ensures r.Ok? <==> m.Obj?
    ensures r.Ok? ==> r.value == m.fields
  {
    if m.Obj? then Ok(m.fields) else Err(TypeError("'" + TypeName(m) + "' object is not a mapping"))
  }

  /** The JSON body `chat_completion` posts. Portkey and Azure put the
      standard fields first and then the constructor's and the call's
      extra arguments over them; Azure names no model. Ollama moves the
      token limit into `options` and ignores a per-call `options`. */
  function Payload(p: Provider, messages: Json, temperature: Json, maxTokens: Json, kwargs: Fields): Result<Fields> {
    match p
    case Portkey(_, model, _, extra) =>
      Ok(Merge(Merge([("model", model), ("messages", messages), ("temperature", temperature), ("max_tokens", maxTokens)],
                     extra), kwargs))
    case AzureOpenAI(_, _, _, _, extra) =>
      Ok(Merge(Merge([("messages", messages), ("temperature", temperature), ("max_tokens", maxTokens)], extra), kwargs))
    case Ollama(model, _, extra) =>
      var options :- Spread(GetOr(extra, "options", Obj([])));
      Ok(Merge([("model", model), ("messages", messages), ("temperature", temperature),
                ("options", Obj(Merge([("num_predict", maxTokens)], options)))],
               Without(kwargs, "options")))
  }

  /** In the Portkey and Azure payloads a call's argument beats the
      constructor's, which beats the standard field. */
  lemma PayloadPrecedence(p: Provider, messages: Json, temperature: Json, maxTokens: Json, kwargs: Fields, k: string)
    requires !p.Ollama? && UniqueKeys(p.kwargs) && UniqueKeys(kwargs)
    ensures var base := if p.Portkey?
                        then [("model", p.model), ("messages", messages), ("temperature", temperature), ("max_tokens", maxTokens)]
                        else [("messages", messages), ("temperature", temperature), ("max_tokens", maxTokens)];
      var r := Payload(p, messages, temperature, maxTokens, kwargs);
      r.Ok? &&
      Lookup(r.value, k) ==
        if HasKey(kwargs, k) then Lookup(kwargs, k)
        else if HasKey(p.kwargs, k) then Lookup(p.kwargs, k)
        else Lookup(base, k)
  {
    var base := if p.Portkey?
                then [("model", p.model), ("messages", messages), ("temperature", temperature), ("max_tokens", maxTokens)]
                else [("messages", messages), ("temperature", temperature), ("max_tokens", maxTokens)];
    MergeLookup(Merge(base, p.kwargs), kwargs, k);
    MergeLookup(base, p.kwargs, k);
  }

  /** Azure's payload names no model unless an extra argument does. */
  lemma AzurePayloadHasNoModel(p: Provider, messages: Json, temperature: Json, maxTokens: Json, kwargs: Fields)
    requires p.AzureOpenAI? && !HasKey(p.kwargs, "model") && !HasKey(kwargs, "model")
    ensures var r := Payload(p, messages, temperature, maxTokens, kwargs);
      r.Ok? && !HasKey(r.value, "model")
  {
    var base := [("messages", messages), ("temperature", temperature), ("max_tokens", maxTokens)];
    MergeMissing(Merge(base, p.kwargs), kwargs, "model");
    MergeMissing(base, p.kwargs, "model");
  }

  /** Ollama's payload: `options` holds the token limit as `num_predict`
      (unless the constructor's options set it) and the constructor's
      options, whatever the call passes as `options`. */
  lemma OllamaOptions(p: Provider, messages: Json, temperature: Json, maxTokens: Json, kwargs: Fields)
    requires p.Ollama? && GetOr(p.kwargs, "options", Obj([])).Obj?
    ensures var opts := GetOr(p.kwargs, "options", Obj([])).fields;
      var r := Payload(p, messages, temperature, maxTokens, kwargs);
      r.Ok? && Lookup(r.value, "options") == Some(Obj(Merge([("num_predict", maxTokens)], opts))) &&
      (!HasKey(opts, "num_predict") ==> Lookup(Merge([("num_predict", maxTokens)], opts), "num_predict") == Some(maxTokens))
  {
    var opts := GetOr(p.kwargs, "options", Obj([])).fields;
    var options := Obj(Merge([("num_predict", maxTokens)], opts));
    var base := [("model", p.model), ("messages", messages), ("temperature", temperature), ("options", options)];
    assert Payload(p, messages, temperature, maxTokens, kwargs) == Ok(Merge(base, Without(kwargs, "options")));
    MergeMissing(base, Without(kwargs, "options"), "options");
    OptionsLast(p.model, messages, temperature, options);
    if !HasKey(opts, "num_predict") {
      MergeMissing([("num_predict", maxTokens)], opts, "num_predict");
    }
  }

  lemma OptionsLast(model: Json, messages: Json, temperature: Json, options: Json)
    ensures Lookup([("model", model), ("messages", messages), ("temperature", temperature), ("options", options)],
                   "options") == Some(options)
  {
    var base := [("model", model), ("messages", messages), ("temperature", temperature), ("options", options)];
    LookupCons(base[0], base[1..], "options");
    LookupCons(base[1], base[2..], "options");
    LookupCons(base[2], base[3..], "options");
    assert base == [base[0]] + ([base[1]] + ([base[2]] + base[3..]));
  }

  /** What `requests.post` gives back: the decoded body of a successful
      reply, a timeout, or another request failure (an HTTP error status or
      a body that is not JSON) with its text. */
  datatype Transport = Response(body: Json) | TimedOut | RequestFailed(msg: string)

  /** The HTTP call: URL, headers, JSON body and timeout. */
  type Post = (string, Fields, Fields, int) -> Transport

  /** How each provider names itself in its error messages. */
  function ErrorLabel(p: Provider): string {
    match p
    case Portkey(_, _, _, _) => "Portkey API"
    case AzureOpenAI(_, _, _, _, _) => "Azure OpenAI API"
    case Ollama(_, _, _) => "Ollama"
  }

  /** `chat_completion`: the reply's first message content. Transport
      failures and a reply without `choices[0].message.content` become a
      plain exception carrying the provider's label; a TypeError from a
      reply of the wrong shape, or from building the payload, propagates. */
  function ChatCompletion(p: Provider, post: Post, messages: Json, temperature: Json, maxTokens: Json,
                          timeout: int, kwargs: Fields): (r: Result<Json>)
    ensures Payload(p, messages, temperature, maxTokens, kwargs).Err? ==>
      r == Payload(p, messages, temperature, maxTokens, kwargs).PropagateFailure()
    ensures var payload := Payload(p, messages, temperature, maxTokens, kwargs);
      payload.Ok? ==>
        match post(ChatUrl(p), Headers(p), payload.value, timeout)
        case TimedOut => r == Err(Failure(ErrorLabel(p) + " request timed out after " + IntText(timeout) + "s"))
        case RequestFailed(m) => r == Err(Failure(ErrorLabel(p) + " request failed: " + m))
        case Response(body) =>
          var content := AiFilterPass.ReplyContent(body);
          (content.Ok? ==> r == content) &&
          (content.Err? && (content.exc.KeyError? || content.exc.IndexError?) ==>
             r == Err(Failure("Unexpected " + ErrorLabel(p) + " response format: " + content.exc.Message()))) &&
          (content.Err? && !content.exc.KeyError? && !content.exc.IndexError? ==> r == content)
  {
    var payload :- Payload(p, messages, temperature, maxTokens, kwargs);
    match post(ChatUrl(p), Headers(p), payload, timeout)
    case TimedOut => Err(Failure(ErrorLabel(p) + " request timed out after " + IntText(timeout) + "s"))
    case RequestFailed(m) => Err(Failure(ErrorLabel(p) + " request failed: " + m))
    case Response(body) =>
      match AiFilterPass.ReplyContent(body)
      case Ok(content) => Ok(content)
      case Err(e) =>
        if e.KeyError? || e.IndexError? then
          Err(Failure("Unexpected " + ErrorLabel(p) + " response format: " + e.Message()))
        else Err(e)
  }

  /** A reply without `choices` is reported as a response-format error. */
  lemma MissingChoicesIsFormatError(p: Provider, post: Post, messages: Json, temperature: Json, maxTokens: Json,
                                    timeout: int, kwargs: Fields, reply: Fields)
    requires Payload(p, messages, temperature, maxTokens, kwargs).Ok?
    requires post(ChatUrl(p), Headers(p), Payload(p, messages, temperature, maxTokens, kwargs).value, timeout)
             == Response(Obj(reply))
    requires !HasKey(reply, "choices")
    ensures ChatCompletion(p, post, messages, temperature, maxTokens, timeout, kwargs) ==
      Err(Failure("Unexpected " + ErrorLabel(p) + " response format: " + ("'" + "choices" + "'")))
  {
    assert AiFilterPass.ReplyContent(Obj(reply)) == Err(KeyError("'" + "choices" + "'"));
  }

  /** `llm.get('model') or config.get('model', 'gpt-4o-mini')` */
  function ResolvedModel(llm: Fields, root: Fields): Json {
    var m := GetOr(llm, "model", Null);
    if Truthy(m) then m else GetOr(root, "model", Str(DefaultModel))
  }

  /** `create_from_config` once the `llm` section (a dict) is read: the
      provider type, lower-cased, picks the constructor. */
  function FromSection(llm: Fields, root: Fields, env: Env): (r: Result<Provider>)
    ensures r.Ok? ==> GetOr(llm, "provider", Str("portkey")).Str?
  {
    var providerJ := GetOr(llm, "provider", Str("portkey"));
    if !providerJ.Str? then Err(AttributeError("'" + TypeName(providerJ) + "' object has no attribute 'lower'"))
    else
      var kind := Lower(providerJ.s);
      var model := ResolvedModel(llm, root);
      if kind == "portkey" then
        NewPortkey(GetOr(llm, "api_key", Null), model, GetOr(llm, "base_url", Str(PortkeyUrl)), [], env)
      else if kind == "azure" then
        NewAzure(GetOr(llm, "api_key", Null), GetOr(llm, "endpoint", Null), GetOr(llm, "deployment_name", Null),
                 GetOr(llm, "api_version", Str(AzureApiVersion)), [], env)
      else if kind == "ollama" then
        NewOllama(model, GetOr(llm, "base_url", Str(OllamaUrl)), [])
      else Err(ValueError("Unknown LLM provider type: " + kind))
  }

  /** `LLMProviderFactory.create_from_config` */
  function CreateFromConfig(config: Json, env: Env): (r: Result<Provider>)
    ensures r.Ok? ==> config.Obj? && GetOr(config.fields, "llm", Obj([])).Obj?
    ensures config.Obj? && GetOr(config.fields, "llm", Obj([])).Obj? ==>
      r == FromSection(GetOr(config.fields, "llm", Obj([])).fields, config.fields, env)
  {
    var llm :- Get(config, "llm", Obj([]));
    if !llm.Obj? then Err(AttributeError("'" + TypeName(llm) + "' object has no attribute 'get'"))
    else FromSection(llm.fields, config.fields, env)
  }

  /** The lower-cased provider type decides the provider; any other type
      is refused by name. */
  lemma ProviderByType(llm: Fields, root: Fields, env: Env)
    requires GetOr(llm, "provider", Str("portkey")).Str?
    ensures var kind := Lower(GetOr(llm, "provider", Str("portkey")).s);
      var r := FromSection(llm, root, env);
      (r.Ok? ==> (r.value.Portkey? <==> kind == "portkey") &&
                 (r.value.AzureOpenAI? <==> kind == "azure") &&
                 (r.value.Ollama? <==> kind == "ollama")) &&
      (kind !in {"portkey", "azure", "ollama"} ==> r == Err(ValueError("Unknown LLM provider type: " + kind)))
  {
  }

  /** The model of a Portkey or Ollama provider is the section's model if
      truthy, else the root model, else `gpt-4o-mini`; its name follows. */
  lemma ModelFallback(llm: Fields, root: Fields, env: Env)
    ensures var r := FromSection(llm, root, env);
      var m := GetOr(llm, "model", Null);
      var model := if Truthy(m) then m else if HasKey(root, "model") then GetOr(root, "model", Null) else Str(DefaultModel);
      r.Ok? && !r.value.AzureOpenAI? ==>
        r.value.model == model &&
        ProviderName(r.value) == (if r.value.Portkey? then "portkey/" else "ollama/") + Text(model)
  {
  }

  /** The Azure provider is built from the section alone: the resolved
      model plays no part. */
  lemma AzureIgnoresModel(llm: Fields, root1: Fields, root2: Fields, env: Env)
    requires GetOr(llm, "provider", Str("portkey")).Str? && Lower(GetOr(llm, "provider", Str("portkey")).s) == "azure"
    ensures FromSection(llm, root1, env) == FromSection(llm, root2, env)
    ensures FromSection(llm, root1, env) ==
      NewAzure(GetOr(llm, "api_key", Null), GetOr(llm, "endpoint", Null), GetOr(llm, "deployment_name", Null),
               GetOr(llm, "api_version", Str(AzureApiVersion)), [], env)
  {
  }

  /** The Portkey and Ollama branches: the section's key and base URL (or
      the provider's default URL) and the resolved model. */
  lemma SectionConstructor(llm: Fields, root: Fields, env: Env)
    requires GetOr(llm, "provider", Str("portkey")).Str?
    ensures var kind := Lower(GetOr(llm, "provider", Str("portkey")).s);
      (kind == "portkey" ==>
         FromSection(llm, root, env) ==
         NewPortkey(GetOr(llm, "api_key", Null), ResolvedModel(llm, root), GetOr(llm, "base_url", Str(PortkeyUrl)), [], env)) &&
      (kind == "ollama" ==>
         FromSection(llm, root, env) == NewOllama(ResolvedModel(llm, root), GetOr(llm, "base_url", Str(OllamaUrl)), []))
  {
  }

  /** An empty configuration gives the default Portkey provider, keyed
      from the environment. */
  lemma EmptyConfigIsDefaultPortkey(env: Env)
    requires "PORTKEY_API_KEY" in env && env["PORTKEY_API_KEY"] != ""
    ensures CreateFromConfig(Obj([]), env) ==
      Ok(Portkey(Str(env["PORTKEY_API_KEY"]), Str(DefaultModel), PortkeyUrl, []))
  {
    KindsAreLowerCase();
    assert RStripChar(PortkeyUrl, '/') == PortkeyUrl;
  }

  /** `os.getenv(name)` counted as set: present and not empty. */
  predicate IsSet(v: Option<string>) {
    v.Some? && v.value != ""
  }

  /** `config or {}` */
  function ConfigOrEmpty(config: Json): (r: Json)
    ensures Truthy(config) ==> r == config
    ensures !Truthy(config) ==> r == Obj([])
  {
    if Truthy(config) then config else Obj([])
  }

  /** The three entries `create_from_env` writes first, as written: each
      env value, or else its fallback read from the config; `base_url`
      falls back to the section's value or None. */
  function EnvFrontAsWritten(cfg: Json, env: Env): (r: Result<Fields>)
    ensures r.Ok? ==> |r.value| == 3 && r.value[0].0 == "provider" && r.value[1].0 == "model" && r.value[2].0 == "base_url"
    ensures r.Ok? && IsSet(GetEnv(env, "LLM_PROVIDER")) ==> r.value[0].1 == Str(env["LLM_PROVIDER"])
    ensures r.Ok? && IsSet(GetEnv(env, "LLM_BASE_URL")) ==> r.value[2].1 == Str(env["LLM_BASE_URL"])
    ensures r.Ok? && !IsSet(GetEnv(env, "LLM_BASE_URL")) ==>
      cfg.Obj? && GetOr(cfg.fields, "llm", Obj([])).Obj? &&
      r.value[2].1 == GetOr(GetOr(cfg.fields, "llm", Obj([])).fields, "base_url", Null)
    ensures cfg.Obj? && GetOr(cfg.fields, "llm", Obj([])).Obj? ==> r.Ok?
  {
    var p := GetEnv(env, "LLM_PROVIDER");
    var m := GetEnv(env, "LLM_MODEL");
    var b := GetEnv(env, "LLM_BASE_URL");
    var provider :- if IsSet(p) then Ok(Str(p.value))
                    else var llm :- Get(cfg, "llm", Obj([])); Get(llm, "provider", Str("portkey"));
    var model :- if IsSet(m) then Ok(Str(m.value))
                 else
                   var llm :- Get(cfg, "llm", Obj([]));
                   var lm :- Get(llm, "model", Null);
                   if Truthy(lm) then Ok(lm) else Get(cfg, "model", Str(DefaultModel));
    var baseUrl :- if IsSet(b) then Ok(Str(b.value))
                   else var llm :- Get(cfg, "llm", Obj([])); Get(llm, "base_url", Null);
    Ok([("provider", provider), ("model", model), ("base_url", baseUrl)])
  }

  /** The `llm` section `create_from_env` builds as written: the three
      entries above, then the config's own `llm` keys over them. */
  function EnvSectionAsWritten(cfg: Json, env: Env): (r: Result<Fields>)
    ensures r.Ok? <==> cfg.Obj? && GetOr(cfg.fields, "llm", Obj([])).Obj?
    ensures r.Ok? ==> r.value == Merge(EnvFrontAsWritten(cfg, env).value, GetOr(cfg.fields, "llm", Obj([])).fields)
  {
    var front :- EnvFrontAsWritten(cfg, env);
    var llm :- Get(cfg, "llm", Obj([]));
    var section :- Spread(llm);
    Ok(Merge(front, section))
  }

  /** `create_from_env` as written: with LLM_PROVIDER, LLM_MODEL or
      LLM_BASE_URL set, the factory gets a config holding only the section
      above; otherwise it gets the config as it is. */
  function CreateFromEnvAsWritten(config: Json, env: Env): Result<Provider> {
    var cfg := ConfigOrEmpty(config);
    if !(IsSet(GetEnv(env, "LLM_PROVIDER")) || IsSet(GetEnv(env, "LLM_MODEL")) || IsSet(GetEnv(env, "LLM_BASE_URL"))) then
      CreateFromConfig(cfg, env)
    else
      var section :- EnvSectionAsWritten(cfg, env);
      CreateFromConfig(Obj([("llm", Obj(section))]), env)
  }

  /** As written, a key the config's section holds keeps the config's
      value, whatever the environment says. */
  lemma AsWrittenConfigKeyWins(config: Fields, env: Env, k: string)
    requires GetOr(config, "llm", Obj([])).Obj? && UniqueKeys(GetOr(config, "llm", Obj([])).fields)
    requires HasKey(GetOr(config, "llm", Obj([])).fields, k)
    ensures var r := EnvSectionAsWritten(Obj(config), env);
      r.Ok? && Lookup(r.value, k) == Lookup(GetOr(config, "llm", Obj([])).fields, k)
  {
    var section := GetOr(config, "llm", Obj([])).fields;
    MergeLookup(EnvFrontAsWritten(Obj(config), env).value, section, k);
  }

  /** As written, a key the section lacks reads the entry written first. */
  lemma AsWrittenFrontKept(config: Fields, env: Env, i: nat)
    requires GetOr(config, "llm", Obj([])).Obj?
    requires i < 3
    requires var front := EnvFrontAsWritten(Obj(config), env);
      front.Ok? && !HasKey(GetOr(config, "llm", Obj([])).fields, front.value[i].0)
    ensures var front := EnvFrontAsWritten(Obj(config), env).value;
      Lookup(EnvSectionAsWritten(Obj(config), env).value, front[i].0) == Some(front[i].1)
  {
    var section := GetOr(config, "llm", Obj([])).fields;
    var front := EnvFrontAsWritten(Obj(config), env).value;
    MergeMissing(front, section, front[i].0);
    assert front == [front[0], front[1], front[2]];
    LookupCons(front[0], [front[1], front[2]], front[i].0);
    LookupCons(front[1], [front[2]], front[i].0);
    LookupCons(front[2], [], front[i].0);
  }

  /** The three provider types are their own lower-case form. */
  lemma KindsAreLowerCase()
    ensures Lower("portkey") == "portkey" && Lower("azure") == "azure" && Lower("ollama") == "ollama"
  {
  }

  /** LLM_PROVIDER=ollama with no base URL anywhere: the Ollama provider is
      handed `base_url: None` and fails instead of using its default URL. */
  lemma AsWrittenNullBaseUrl()
    ensures CreateFromEnvAsWritten(Null, map["LLM_PROVIDER" := "ollama"]) ==
      Err(AttributeError("'" + TypeName(Null) + "' object has no attribute 'rstrip'"))
  {
    var env := map["LLM_PROVIDER" := "ollama"];
    assert GetOr([], "llm", Obj([])) == Obj([]);
    var front := EnvFrontAsWritten(Obj([]), env).value;
    AsWrittenFrontKept([], env, 0);
    AsWrittenFrontKept([], env, 2);
    var section := EnvSectionAsWritten(Obj([]), env).value;
    assert Lookup(section, "provider") == Some(Str("ollama"));
    assert Lookup(section, "base_url") == Some(Null);
    var root := [("llm", Obj(section))];
    LookupCons(root[0], [], "llm");
    assert CreateFromEnvAsWritten(Null, env) == FromSection(section, root, env);
    KindsAreLowerCase();
    SectionConstructor(section, root, env);
  }

  /** LLM_PROVIDER=portkey with a config section naming Ollama: the
      config's provider is built, not the one the environment names. */
  lemma AsWrittenConfigBeatsEnv()
    ensures var config := Obj([("llm", Obj([("provider", Str("ollama")), ("base_url", Str(OllamaUrl))]))]);
      var r := CreateFromEnvAsWritten(config, map["LLM_PROVIDER" := "portkey", "PORTKEY_API_KEY" := "k"]);
      r.Ok? && r.value.Ollama?
  {
    var env := map["LLM_PROVIDER" := "portkey", "PORTKEY_API_KEY" := "k"];
    var llm := [("provider", Str("ollama")), ("base_url", Str(OllamaUrl))];
    var config := [("llm", Obj(llm))];
    LookupCons(config[0], [], "llm");
    assert GetOr(config, "llm", Obj([])) == Obj(llm);
    LookupCons(llm[0], [llm[1]], "provider");
    LookupCons(llm[0], [llm[1]], "base_url");
    LookupCons(llm[1], [], "base_url");
    assert UniqueKeys(llm);
    AsWrittenConfigKeyWins(config, env, "provider");
    AsWrittenConfigKeyWins(config, env, "base_url");
    var section := EnvSectionAsWritten(Obj(config), env).value;
    assert Lookup(section, "provider") == Some(Str("ollama"));
    assert Lookup(section, "base_url") == Some(Str(OllamaUrl));
    var root := [("llm", Obj(section))];
    LookupCons(root[0], [], "llm");
    assert Truthy(Obj(config));
    assert CreateFromEnvAsWritten(Obj(config), env) == FromSection(section, root, env);
    KindsAreLowerCase();
    SectionConstructor(section, root, env);
  }

  /** The environment's settings as `llm` keys: only the variables that
      are set. */
  function EnvEntries(env: Env): Fields {
    EnvEntry("provider", GetEnv(env, "LLM_PROVIDER"))
    + (EnvEntry("model", GetEnv(env, "LLM_MODEL")) + EnvEntry("base_url", GetEnv(env, "LLM_BASE_URL")))
  }

  /** The entries hold each key at most once, and each key reads its
      variable's setting. */
  lemma EnvEntriesLookup(env: Env)
    ensures UniqueKeys(EnvEntries(env))
    ensures Lookup(EnvEntries(env), "provider") == Setting(GetEnv(env, "LLM_PROVIDER"))
    ensures Lookup(EnvEntries(env), "model") == Setting(GetEnv(env, "LLM_MODEL"))
    ensures Lookup(EnvEntries(env), "base_url") == Setting(GetEnv(env, "LLM_BASE_URL"))
  {
    var em := EnvEntry("model", GetEnv(env, "LLM_MODEL"));
    var eb := EnvEntry("base_url", GetEnv(env, "LLM_BASE_URL"));
    EntryThen("model", GetEnv(env, "LLM_MODEL"), eb);
    EntryThen("provider", GetEnv(env, "LLM_PROVIDER"), em + eb);
  }

  /** A variable's value as a setting: its string when it is set. */
  function Setting(v: Option<string>): Option<Json> {
    if IsSet(v) then Some(Str(v.value)) else None
  }

  /** The entry of one variable: `key` with its value when it is set,
      nothing otherwise. */
  function EnvEntry(key: string, v: Option<string>): (r: Fields)
    ensures UniqueKeys(r)
    ensures forall k :: Lookup(r, k) == if k == key then Setting(v) else None
  {
    if IsSet(v) then [(key, Str(v.value))] else []
  }

  /** A variable's entry in front of other keys: its key reads the entry,
      the others read on; a fresh key keeps the keys distinct. */
  lemma EntryThen(key: string, v: Option<string>, rest: Fields)
    ensures forall k :: Lookup(EnvEntry(key, v) + rest, k) ==
                          if k == key && IsSet(v) then Setting(v) else Lookup(rest, k)
    ensures UniqueKeys(rest) && !HasKey(rest, key) ==> UniqueKeys(EnvEntry(key, v) + rest)
  {
    if IsSet(v) {
      var e := (key, Str(v.value));
      forall k | true
        ensures Lookup([e] + rest, k) == if k == key then Some(e.1) else Lookup(rest, k)
      {
        LookupCons(e, rest, k);
      }
      if UniqueKeys(rest) && !HasKey(rest, key) {
        forall i, j | 0 <= i < j < |[e] + rest|
          ensures ([e] + rest)[i].0 != ([e] + rest)[j].0
        {
          assert ([e] + rest)[j] == rest[j - 1];
          if i > 0 {
            assert ([e] + rest)[i] == rest[i - 1];
          }
        }
      }
    } else {
      assert EnvEntry(key, v) + rest == rest;
    }
  }

  /** The `llm` section as the comment of `create_from_env` intends: the
      config's section with the set variables written over it. */
  function EnvSection(cfg: Json, env: Env): (r: Result<Fields>)
    ensures r.Ok? <==> cfg.Obj? && GetOr(cfg.fields, "llm", Obj([])).Obj?
    ensures r.Ok? ==>
      forall k :: Lookup(r.value, k) ==
        if HasKey(EnvEntries(env), k) then Lookup(EnvEntries(env), k)
        else Lookup(GetOr(cfg.fields, "llm", Obj([])).fields, k)
  {
    var llm :- Get(cfg, "llm", Obj([]));
    var section :- Spread(llm);
    EnvEntriesLookup(env);
    forall k
      ensures Lookup(Merge(section, EnvEntries(env)), k) ==
        if HasKey(EnvEntries(env), k) then Lookup(EnvEntries(env), k) else Lookup(section, k)
    {
      MergeLookup(section, EnvEntries(env), k);
    }
    Ok(Merge(section, EnvEntries(env)))
  }

  /** `create_from_env` as intended: with a variable set, the factory gets
      the config with its section replaced by the one above, so the
      config's other keys, the root `model` included, still apply. */
  function CreateFromEnv(config: Json, env: Env): Result<Provider> {
    var cfg := ConfigOrEmpty(config);
    if !(IsSet(GetEnv(env, "LLM_PROVIDER")) || IsSet(GetEnv(env, "LLM_MODEL")) || IsSet(GetEnv(env, "LLM_BASE_URL"))) then
      CreateFromConfig(cfg, env)
    else
      var section :- EnvSection(cfg, env);
      CreateFromConfig(Obj(Put(cfg.fields, "llm", Obj(section))), env)
  }

  /** Without the three variables both readings use the config as it is. */
  lemma NoEnvUsesConfig(config: Json, env: Env)
    requires !IsSet(GetEnv(env, "LLM_PROVIDER")) && !IsSet(GetEnv(env, "LLM_MODEL")) && !IsSet(GetEnv(env, "LLM_BASE_URL"))
    ensures CreateFromEnv(config, env) == CreateFromConfig(ConfigOrEmpty(config), env)
    ensures CreateFromEnvAsWritten(config, env) == CreateFromConfig(ConfigOrEmpty(config), env)
  {
  }

  /** With a variable set, the intended reading builds from the section
      in which the set variables win. */
  lemma EnvSectionUsed(config: Fields, env: Env)
    requires GetOr(config, "llm", Obj([])).Obj?
    requires IsSet(GetEnv(env, "LLM_PROVIDER")) || IsSet(GetEnv(env, "LLM_MODEL")) || IsSet(GetEnv(env, "LLM_BASE_URL"))
    ensures var section := EnvSection(Obj(config), env).value;
      CreateFromEnv(Obj(config), env) == FromSection(section, Put(config, "llm", Obj(section)), env)
  {
    assert ConfigOrEmpty(Obj(config)) == Obj(config) by {
      if !Truthy(Obj(config)) { assert config == []; }
    }
    var section := EnvSection(Obj(config), env).value;
    PutLookup(config, "llm", Obj(section), "llm");
  }

  /** LLM_PROVIDER picks the provider whatever the config's section says. */
  lemma EnvProviderWins(config: Fields, env: Env)
    requires GetOr(config, "llm", Obj([])).Obj?
    requires IsSet(GetEnv(env, "LLM_PROVIDER"))
    ensures var kind := Lower(env["LLM_PROVIDER"]);
      var r := CreateFromEnv(Obj(config), env);
      (r.Ok? ==> (r.value.Portkey? <==> kind == "portkey") &&
                 (r.value.AzureOpenAI? <==> kind == "azure") &&
                 (r.value.Ollama? <==> kind == "ollama")) &&
      (kind !in {"portkey", "azure", "ollama"} ==> r == Err(ValueError("Unknown LLM provider type: " + kind)))
  {
    EnvSectionUsed(config, env);
    var section := EnvSection(Obj(config), env).value;
    EnvEntriesLookup(env);
    assert Lookup(section, "provider") == Some(Str(env["LLM_PROVIDER"]));
    ProviderByType(section, Put(config, "llm", Obj(section)), env);
  }

  /** LLM_MODEL is the model of a Portkey or Ollama provider. */
  lemma EnvModelWins(config: Fields, env: Env)
    requires GetOr(config, "llm", Obj([])).Obj?
    requires IsSet(GetEnv(env, "LLM_MODEL"))
    ensures var r := CreateFromEnv(Obj(config), env);
      r.Ok? && !r.value.AzureOpenAI? ==> r.value.model == Str(env["LLM_MODEL"])
  {
    EnvSectionUsed(config, env);
    var section := EnvSection(Obj(config), env).value;
    var root := Put(config, "llm", Obj(section));
    EnvEntriesLookup(env);
    assert Lookup(section, "model") == Some(Str(env["LLM_MODEL"]));
    assert Truthy(GetOr(section, "model", Null));
    ModelFallback(section, root, env);
    assert CreateFromEnv(Obj(config), env) == FromSection(section, root, env);
  }

  /** When no base URL is given anywhere, a Portkey provider chosen by
      LLM_PROVIDER gets the default URL. */
  lemma DefaultBaseUrlKept(config: Fields, env: Env)
    requires GetOr(config, "llm", Obj([])).Obj? && !HasKey(GetOr(config, "llm", Obj([])).fields, "base_url")
    requires IsSet(GetEnv(env, "LLM_PROVIDER")) && Lower(env["LLM_PROVIDER"]) == "portkey"
    requires !IsSet(GetEnv(env, "LLM_BASE_URL"))
    requires IsSet(GetEnv(env, "PORTKEY_API_KEY"))
    ensures var r := CreateFromEnv(Obj(config), env);
      r.Ok? && r.value.Portkey? && r.value.baseUrl == PortkeyUrl
  {
    EnvSectionUsed(config, env);
    var section := EnvSection(Obj(config), env).value;
    var root := Put(config, "llm", Obj(section));
    PortkeySectionWithoutUrl(config, env);
    SectionConstructor(section, root, env);
    PortkeyDefaultUrl(GetOr(section, "api_key", Null), ResolvedModel(section, root), env);
  }

  lemma PortkeyDefaultUrl(apiKey: Json, model: Json, env: Env)
    requires IsSet(GetEnv(env, "PORTKEY_API_KEY"))
    ensures var r := NewPortkey(apiKey, model, Str(PortkeyUrl), [], env);
      r.Ok? && r.value.Portkey? && r.value.baseUrl == PortkeyUrl
  {
    assert RStripChar(PortkeyUrl, '/') == PortkeyUrl;
  }

  lemma PortkeySectionWithoutUrl(config: Fields, env: Env)
    requires GetOr(config, "llm", Obj([])).Obj? && !HasKey(GetOr(config, "llm", Obj([])).fields, "base_url")
    requires IsSet(GetEnv(env, "LLM_PROVIDER")) && !IsSet(GetEnv(env, "LLM_BASE_URL"))
    ensures var section := EnvSection(Obj(config), env).value;
      Lookup(section, "provider") == Some(Str(env["LLM_PROVIDER"])) && Lookup(section, "base_url") == None
  {
    assert EnvSection(Obj(config), env).Ok?;
    var section := EnvSection(Obj(config), env).value;
    var entries := EnvEntries(env);
    var llm := GetOr(config, "llm", Obj([])).fields;
    EnvEntriesLookup(env);
    assert Lookup(entries, "provider") == Some(Str(env["LLM_PROVIDER"]));
    assert Lookup(entries, "base_url") == None;
    assert HasKey(entries, "provider") && !HasKey(entries, "base_url");
    assert Lookup(section, "provider") ==
      if HasKey(entries, "provider") then Lookup(entries, "provider") else Lookup(llm, "provider");
    assert Lookup(section, "base_url") ==
      if HasKey(entries, "base_url") then Lookup(entries, "base_url") else Lookup(llm, "base_url");
  }

  /** `create_llm_provider`: the factory when the config is truthy and has
      an `llm` entry, else a Portkey provider from the arguments. */
  function CreateLlmProvider(apiKey: Json, model: Json, baseUrl: Json, config: Json, env: Env): (r: Result<Provider>)
    ensures !Truthy(config) ==> r == NewPortkey(apiKey, model, baseUrl, [], env)
    ensures config.Obj? && Truthy(config) ==>
      r == if HasKey(config.fields, "llm") then CreateFromConfig(config, env) else NewPortkey(apiKey, model, baseUrl, [], env)
  {
    if !Truthy(config) then NewPortkey(apiKey, model, baseUrl, [], env)
    else
      var has :- Contains(config, "llm");
      if has then CreateFromConfig(config, env) else NewPortkey(apiKey, model, baseUrl, [], env)
  }
}

=== FILE: local_file_storage.dfy ===
/** The default backend: JSON files under a data directory, with the layout
    of the storage contract. The directory's files are the map `files`, keyed
    by the path relative to the data directory. */
module LocalFileStorage {
  import opened Wrappers
  import opened PyStrings
  import opened PyJson
  import opened Sorting
  import opened StorageProvider

  /** The data directory of a backend config: `config or {}`, then
      `data_directory`, defaulting to `data`; `Path` accepts only a str. */
  function DataDirectory(config: Json): (r: Result<string>)
    ensures !Truthy(config) ==> r == Ok("data")
    ensures Truthy(config) && !config.Obj? ==> r.Err?
    ensures config.Obj? && !HasKey(config.fields, "data_directory") ==> r == Ok("data")
    ensures config.Obj? && HasKey(config.fields, "data_directory") ==>
      (r.Ok? <==> Lookup(config.fields, "data_directory").value.Str?) &&
      (r.Ok? ==> Lookup(config.fields, "data_directory") == Some(Str(r.value)))
  {
    var c := if Truthy(config) then config else Obj([]);
    var d :- Get(c, "data_directory", Str("data"));
    if d.Str? then Ok(d.s)
    else Err(TypeError("expected str, bytes or os.PathLike object, not " + TypeName(d)))
  }

  /** `load_raw_data`: the file, or FileNotFoundError naming its full path. */
  function LoadRaw(dir: string, files: Files, filename: string): (r: Result<Json>)
    ensures r.Ok? <==> RawPath(filename) in files
    ensures r.Ok? ==> r.value == files[RawPath(filename)]
    ensures r.Err? ==> r.exc.FileNotFound?
  {
    if RawPath(filename) in files then Ok(files[RawPath(filename)])
    else Err(FileNotFound("Raw data file not found: " + dir + "/" + RawPath(filename)))
  }

  /** A raw save followed by a load returns the data, whether or not either
      name carries the `.json` extension. */
  lemma RawRoundTrip(dir: string, files: Files, filename: string, d: Json)
    requires !EndsWith(filename, ".json")
    ensures LoadRaw(dir, files[RawPath(filename) := d], filename) == Ok(d)
    ensures LoadRaw(dir, files[RawPath(filename) := d], filename + ".json") == Ok(d)
    ensures LoadRaw(dir, files[RawPath(filename + ".json") := d], filename) == Ok(d)
  {
    RawPathIgnoresExtension(filename);
  }

  /** The first path segment: the name of the directory entry a path lies in. */
  function FirstSegment(s: string): (r: string)
    ensures '/' !in r
  {
    match Find(s, "/")
    case None =>
      assert forall k: nat :: k < |s| ==> !OccursAt(s, "/", k);
      assert forall c :: c in s ==> c != '/' by {
        forall c | c in s ensures c != '/' {
          var k :| 0 <= k < |s| && s[k] == c;
          assert !OccursAt(s, "/", k);
          assert s[k..k + 1] == [s[k]];
        }
      }
      s
    case Some(k) =>
      assert forall j: nat :: j < k ==> !OccursAt(s, "/", j);
      assert forall c :: c in s[..k] ==> c != '/' by {
        forall c | c in s[..k] ensures c != '/' {
          var j :| 0 <= j < k && s[..k][j] == c;
          assert !OccursAt(s, "/", j);
          assert s[j..j + 1] == [s[j]];
        }
      }
      s[..k]
  }

  /** The names of the entries (files or directories) directly inside `dir`. */
  function Entries(files: Files, dir: string): set<string> {
    set k | k in files && StartsWith(k, dir) :: FirstSegment(k[|dir|..])
  }

  /** The entries `dir.glob('*.json')` yields. */
  function JsonEntries(files: Files, dir: string): set<string> {
    set e | e in Entries(files, dir) && EndsWith(e, ".json")
  }

  /** `Path(name).stem` for a name ending in `.json`: the extension is
      dropped, except from `.json` itself, which has no suffix. */
  function Stem(name: string): (r: string)
    requires EndsWith(name, ".json")
  {
    if name == ".json" then name else name[..|name| - 5]
  }

  class LocalFileStorage {
    const dataDirectory: string
    var files: Files

    constructor (dataDirectory: string, existing: Files)
      ensures this.dataDirectory == dataDirectory && files == existing
    {
      this.dataDirectory := dataDirectory;
      files := existing;
    }

    method SaveRawData(filename: string, data: Json)
      modifies this
      ensures files == old(files)[RawPath(filename) := data]
    {
      files := files[RawPath(filename) := data];
    }

    method LoadRawData(filename: string) returns (r: Result<Json>)
      ensures r == LoadRaw(dataDirectory, files, filename)
    {
      var path := RawPath(filename);
      if path !in files {
        return Err(FileNotFound("Raw data file not found: " + dataDirectory + "/" + path));
      }
      r := Ok(files[path]);
    }

    method SaveFilteredResults(runId: string, data: Json)
      modifies this
      ensures files == old(files)[FilteredPath(runId) := data]
    {
      files := files[FilteredPath(runId) := data];
    }

    method LoadFilteredResults(runId: string) returns (r: Result<Json>)
      ensures r == LoadFiltered(files, runId)
    {
      var possible := Candidates(runId);
      var i := 0;
      while i < |possible|
        invariant 0 <= i <= |possible|
        invariant forall j :: 0 <= j < i ==> CandidatePath(possible[j]) !in files
      {
        var path := CandidatePath(possible[i]);
        if path in files {
          FirstExistingAt(files, possible, i);
          return Ok(files[path]);
        }
        i := i + 1;
      }
      r := Err(FileNotFound("Filter results not found for run_id: " + runId));
    }

    method SaveAnalysisResults(runId: string, relevant: Json, notRelevant: Json)
      modifies this
      ensures files == old(files)[RelevantPath(runId) := relevant][NotRelevantPath(runId) := notRelevant]
    {
      files := files[RelevantPath(runId) := relevant];
      files := files[NotRelevantPath(runId) := notRelevant];
    }

    method LoadAnalysisResults(runId: string) returns (r: Result<(Json, Json)>)
      ensures r == LoadAnalysis(files, runId)
    {
      var relevant := Arr([]);
      if RelevantPath(runId) in files { relevant := files[RelevantPath(runId)]; }
      var notRelevant := Arr([]);
      if NotRelevantPath(runId) in files { notRelevant := files[NotRelevantPath(runId)]; }
      if !Truthy(relevant) && !Truthy(notRelevant) {
        return Err(FileNotFound("Analysis results not found for run_id: " + runId));
      }
      r := Ok((relevant, notRelevant));
    }

    method GetBillFromCache(billId: Json) returns (r: Json)
      ensures r == CacheGet(files, billId)
    {
      var path := CachePath(billId);
      if path !in files { return Null; }
      r := files[path];
    }

    method SaveBillToCache(billId: Json, data: Json)
      modifies this
      ensures files == old(files)[CachePath(billId) := data]
    {
      files := files[CachePath(billId) := data];
    }

    /** `p.stem for p in dir.glob('*.json')`, in the order the directory
        yields the paths. */
    static method CollectStems(entries: set<string>) returns (stems: seq<string>)
      requires forall e :: e in entries ==> EndsWith(e, ".json")
      ensures |stems| == |entries|
      ensures forall x :: x in stems <==> exists e :: e in entries && Stem(e) == x
    {
      stems := [];
      var rest := entries;
      while rest != {}
        invariant rest <= entries
        invariant |stems| + |rest| == |entries|
        invariant forall x :: x in stems <==> exists e :: e in entries && e !in rest && Stem(e) == x
        decreases |rest|
      {
        var e :| e in rest;
        stems := stems + [Stem(e)];
        rest := rest - {e};
      }
    }

    /** `sorted(p.stem for p in dir.glob('*.json'))` */
    method ListStems(dir: string) returns (r: seq<string>)
      ensures SortedBy(r, Identity)
      ensures forall x :: x in r <==> exists e :: e in JsonEntries(files, dir) && Stem(e) == x
      ensures |r| == |JsonEntries(files, dir)|
    {
      var stems := CollectStems(JsonEntries(files, dir));
      r := SortBy(stems, Identity);
      assert forall x :: x in r <==> x in multiset(r);
      assert forall x :: x in stems <==> x in multiset(stems);
      assert |r| == |multiset(r)| == |multiset(stems)| == |stems|;
    }

    method ListRawFiles() returns (r: seq<string>)
      ensures SortedBy(r, Identity)
      ensures forall x :: x in r <==> exists e :: e in JsonEntries(files, RawPrefix) && Stem(e) == x
      ensures |r| == |JsonEntries(files, RawPrefix)|
    {
      r := ListStems(RawPrefix);
    }

    method ListFilteredResults() returns (r: seq<string>)
      ensures SortedBy(r, Identity)
      ensures forall x :: x in r <==> exists e :: e in JsonEntries(files, FilteredPrefix) && Stem(e) == x
      ensures |r| == |JsonEntries(files, FilteredPrefix)|
    {
      r := ListStems(FilteredPrefix);
    }

    /** The bill list of the raw file as `get_bill_by_number` locates it. */
    method LocateBills(filename: string) returns (r: Result<Option<seq<Json>>>)
      ensures r == LocatedBills(LoadRaw(dataDirectory, files, filename))
    {
      var loaded := LoadRawData(filename);
      if loaded.Err? {
        // the load raises only FileNotFoundError, which is caught
        return Ok(None);
      }
      var list := BillList(loaded.value);
      if list.Err? {
        return if Caught(list.exc) then Ok(None) else Err(list.exc);
      }
      if list.value.None? {
        return Ok(None);
      }
      var iter := Iter(list.value.value);
      if iter.Err? {
        return if Caught(iter.exc) then Ok(None) else Err(iter.exc);
      }
      r := Ok(Some(iter.value));
    }

    /** The bill list of the raw file as `bill_exists_in_raw` locates it. */
    method LocateBillsAsWritten(filename: string) returns (r: Result<Option<seq<Json>>>)
      ensures r == LocatedBillsAsWritten(LoadRaw(dataDirectory, files, filename))
    {
      var loaded := LoadRawData(filename);
      if loaded.Err? {
        return Ok(None);
      }
      var list := BillListAsWritten(loaded.value);
      if list.Err? {
        return if Caught(list.exc) then Ok(None) else Err(list.exc);
      }
      if list.value.None? {
        return Ok(None);
      }
      var iter := Iter(list.value.value);
      if iter.Err? {
        return if Caught(iter.exc) then Ok(None) else Err(iter.exc);
      }
      r := Ok(Some(iter.value));
    }

    method GetBillByNumber(billNumber: string, filename: string) returns (r: Result<Json>)
      ensures r == BillByNumber(LoadRaw(dataDirectory, files, filename), billNumber)
    {
      var located := LocateBills(filename);
      if located.Err? { return Err(located.exc); }
      if located.value.None? { return Ok(Null); }
      var bills := located.value.value;
      var i := 0;
      while i < |bills|
        invariant 0 <= i <= |bills|
        invariant forall j :: 0 <= j < i ==> !Matches(bills[j], billNumber)
      {
        if Matches(bills[i], billNumber) {
          FindBillAt(bills, billNumber, i);
          return Ok(bills[i]);
        }
        i := i + 1;
      }
      r := Ok(Null);
    }

    /** `bill_exists_in_raw` as this backend writes it; see `BillListAsWritten`. */
    method BillExistsInRaw(billNumber: string, filename: string) returns (r: Result<bool>)
      ensures r == BillExistsAsWritten(LoadRaw(dataDirectory, files, filename), billNumber)
    {
      var located := LocateBillsAsWritten(filename);
      if located.Err? { return Err(located.exc); }
      if located.value.None? { return Ok(false); }
      var bills := located.value.value;
      var i := 0;
      while i < |bills|
        invariant 0 <= i <= |bills|
        invariant forall j :: 0 <= j < i ==> !Matches(bills[j], billNumber)
      {
        if Matches(bills[i], billNumber) {
          return Ok(true);
        }
        i := i + 1;
      }
      r := Ok(false);
    }
  }

  /** The bill list as `bill_exists_in_raw` of this backend locates it: for a
      plain dict it inspects the first value, and when that is a dict it keeps
      the dict itself, whose iteration yields its keys; an empty dict raises
      IndexError. */
  function BillListAsWritten(data: Json): Result<Option<Json>> {
    match data
    case Obj(fs) =>
      var inSummary :-
        if HasKey(fs, "summary") then Contains(Lookup(fs, "summary").value, "masterlist") else Ok(false);
      if inSummary then
        var m :- Index(Lookup(fs, "summary").value, "masterlist");
        Ok(Some(m))
      else if HasKey(fs, "bills") then Ok(Some(Lookup(fs, "bills").value))
      else
        var first :- At(Arr(Values(fs)), 0);
        if first.Obj? then Ok(Some(data)) else Ok(Some(Arr(Values(fs))))
    case Arr(_) => Ok(Some(data))
    case _ => Ok(None)
  }

  function LocatedBillsAsWritten(loaded: Result<Json>): Result<Option<seq<Json>>> {
    match loaded
    case Err(e) => if Caught(e) then Ok(None) else Err(e)
    case Ok(data) =>
      match BillListAsWritten(data)
      case Err(e) => if Caught(e) then Ok(None) else Err(e)
      case Ok(None) => Ok(None)
      case Ok(Some(list)) =>
        match Iter(list)
        case Err(e) => if Caught(e) then Ok(None) else Err(e)
        case Ok(bills) => Ok(Some(bills))
  }

  function BillExistsAsWritten(loaded: Result<Json>, billNumber: string): Result<bool> {
    match LocatedBillsAsWritten(loaded)
    case Err(e) => Err(e)
    case Ok(None) => Ok(false)
    case Ok(Some(bills)) => Ok(AnyMatches(bills, billNumber))
  }

  /** For a plain dict of bill records the as-written check never finds a
      bill: it searches the dict's keys, which are strings. */
  lemma RecordDictNeverMatches(fs: Fields, billNumber: string)
    requires !HasKey(fs, "summary") && !HasKey(fs, "bills")
    requires |fs| > 0 && fs[0].1.Obj?
    ensures BillExistsAsWritten(Ok(Obj(fs)), billNumber) == Ok(false)
  {
    assert At(Arr(Values(fs)), 0) == Ok(fs[0].1);
    var keys := KeyStrs(fs);
    assert forall i :: 0 <= i < |keys| ==> !keys[i].Obj?;
  }

  /** A one-bill raw file keyed by bill number: the lookup finds the bill, the
      as-written existence check reports it missing. */
  lemma BillExistsDisagreesWithLookup()
    ensures var bill := Obj([("bill_number", Str("HB1"))]);
      var data := Obj([("HB1", bill)]);
      BillByNumber(Ok(data), "HB1") == Ok(bill) &&
      BillExistsAsWritten(Ok(data), "HB1") == Ok(false)
  {
    var bill := Obj([("bill_number", Str("HB1"))]);
    var data := Obj([("HB1", bill)]);
    assert Values(data.fields) == [bill];
    assert Matches(bill, "HB1");
    FindBillAt([bill], "HB1", 0);
    RecordDictNeverMatches(data.fields, "HB1");
  }

  /** An empty raw file `{}` makes the as-written check raise IndexError. */
  lemma BillExistsRaisesOnEmptyDict(billNumber: string)
    ensures BillExistsAsWritten(Ok(Obj([])), billNumber).Err?
    ensures BillExistsAsWritten(Ok(Obj([])), billNumber).exc.IndexError?
    ensures BillByNumber(Ok(Obj([])), billNumber) == Ok(Null)
  {
    assert Values([]) == [];
  }
}

=== FILE: pyjson.dfy ===
/** JSON values as the pipeline holds them after `json.load`: Python's None,
    bool, int, float, str, list and insertion-ordered dict, with the Python
    operations the code applies to them (truthiness, `d.get`, `d[k]`, `in`,
    iteration, `len`, `str()`, `json.dumps`). */
module PyJson {
  import opened Wrappers
  import opened PyStrings

  datatype Json =
    | Null
    | Bool(b: bool)
    | Int(i: int)
    | Float(r: real)
    | Str(s: string)
    | Arr(items: seq<Json>)
    /** a dict, in insertion order. A key may be listed twice; `Lookup`
        then sees only its first entry, so the value behaves as the dict
        holding that entry. */
    | Obj(fields: seq<(string, Json)>)

  type Fields = seq<(string, Json)>

  /** `bool(j)` */
  predicate Truthy(j: Json) {
    match j
    case Null => false
    case Bool(b) => b
    case Int(i) => i != 0
    case Float(r) => r != 0.0
    case Str(s) => |s| > 0
    case Arr(a) => |a| > 0
    case Obj(fs) => |fs| > 0
  }

  /** bool, int and float: the values `:.4f` and numeric comparison accept */
  predicate IsNumber(j: Json) {
    j.Bool? || j.Int? || j.Float?
  }

  function NumValue(j: Json): real
    requires IsNumber(j)
  {
    match j
    case Bool(b) => if b then 1.0 else 0.0
    case Int(i) => i as real
    case Float(r) => r
  }

  /** Python's type name, as it appears in exception messages. */
  function TypeName(j: Json): string {
    match j
    case Null => "NoneType"
    case Bool(_) => "bool"
    case Int(_) => "int"
    case Float(_) => "float"
    case Str(_) => "str"
    case Arr(_) => "list"
    case Obj(_) => "dict"
  }

  /** The value stored under `k`: the first entry with that key. */
  function Lookup(fs: Fields, k: string): (r: Option<Json>)
    ensures r.Some? <==> exists i :: 0 <= i < |fs| && fs[i].0 == k
    ensures r.Some? ==> exists i :: 0 <= i < |fs| && fs[i] == (k, r.value)
  {
    if |fs| == 0 then None
    else if fs[0].0 == k then Some(fs[0].1)
    else
      var r := Lookup(fs[1..], k);
      assert forall i :: 1 <= i < |fs| ==> fs[i] == fs[1..][i - 1];
      r
  }

  predicate HasKey(fs: Fields, k: string) {
    Lookup(fs, k).Some?
  }

  /** `d.get(k, default)` on a dict */
  function GetOr(fs: Fields, k: string, default: Json): Json {
    Lookup(fs, k).GetOr(default)
  }

  function Keys(fs: Fields): (r: seq<string>)
    ensures |r| == |fs| && forall i :: 0 <= i < |fs| ==> r[i] == fs[i].0
  {
    seq(|fs|, i requires 0 <= i < |fs| => fs[i].0)
  }

  function Values(fs: Fields): (r: seq<Json>)
    ensures |r| == |fs| && forall i :: 0 <= i < |fs| ==> r[i] == fs[i].1
  {
    seq(|fs|, i requires 0 <= i < |fs| => fs[i].1)
  }

  /** Every entry with key `k` gets value `v`; positions do not change. */
  function Overwrite(fs: Fields, k: string, v: Json): (r: Fields)
    ensures Keys(r) == Keys(fs)
  {
    seq(|fs|, i requires 0 <= i < |fs| => if fs[i].0 == k then (k, v) else fs[i])
  }

  lemma {:induction false} OverwriteLookup(fs: Fields, k: string, v: Json, k': string)
    ensures Lookup(Overwrite(fs, k, v), k') ==
      if k' == k && HasKey(fs, k) then Some(v) else Lookup(fs, k')
  {
    if |fs| > 0 {
      OverwriteLookup(fs[1..], k, v, k');
      assert Overwrite(fs, k, v)[1..] == Overwrite(fs[1..], k, v);
    }
  }

  lemma {:induction false} AppendLookup(fs: Fields, k: string, v: Json, k': string)
    requires !HasKey(fs, k)
    ensures Lookup(fs + [(k, v)], k') == if k' == k then Some(v) else Lookup(fs, k')
  {
    if |fs| > 0 {
      AppendLookup(fs[1..], k, v, k');
      assert (fs + [(k, v)])[1..] == fs[1..] + [(k, v)];
    }
  }

  /** Looking a key up in a dict with one more entry in front. */
  lemma LookupCons(e: (string, Json), fs: Fields, k: string)
    ensures Lookup([e] + fs, k) == if e.0 == k then Some(e.1) else Lookup(fs, k)
  {
    assert ([e] + fs)[1..] == fs;
  }

  /** A key the front part does not hold is looked up in the back part. */
  lemma {:induction false} LookupAfter(front: Fields, back: Fields, k: string)
    requires !HasKey(front, k)
    ensures Lookup(front + back, k) == Lookup(back, k)
  {
    if |front| > 0 {
      assert front[0].0 != k && !HasKey(front[1..], k);
      LookupAfter(front[1..], back, k);
      assert (front + back)[0] == front[0];
      assert (front + back)[1..] == front[1..] + back;
    } else {
      assert front + back == back;
    }
  }

  /** In a dict without repeated keys, each entry is what its key looks up. */
  lemma {:induction false} LookupAt(fs: Fields, i: nat)
    requires UniqueKeys(fs) && i < |fs|
    ensures Lookup(fs, fs[i].0) == Some(fs[i].1)
  {
    if i > 0 {
      LookupAt(fs[1..], i - 1);
      assert fs[1..][i - 1] == fs[i];
    }
  }

  /** `d[k] = v`: an existing key keeps its position, a new key goes last. */
  function Put(fs: Fields, k: string, v: Json): (r: Fields)
    ensures Keys(r) == if HasKey(fs, k) then Keys(fs) else Keys(fs) + [k]
  {
    if HasKey(fs, k) then Overwrite(fs, k, v) else fs + [(k, v)]
  }

  /** After `d[k] = v`, `d[k]` is `v` and every other key is untouched. */
  lemma PutLookup(fs: Fields, k: string, v: Json, k': string)
    ensures Lookup(Put(fs, k, v), k') == if k' == k then Some(v) else Lookup(fs, k')
  {
    if HasKey(fs, k) { OverwriteLookup(fs, k, v, k'); } else { AppendLookup(fs, k, v, k'); }
  }

  /** `{**a, **b}`: b's entries overwrite a's, new keys follow a's keys. */
  function Merge(a: Fields, b: Fields): Fields
    decreases |b|
  {
    if |b| == 0 then a else Merge(Put(a, b[0].0, b[0].1), b[1..])
  }

  /** A Python dict never holds the same key twice. */
  predicate UniqueKeys(fs: Fields) {
    forall i, j :: 0 <= i < j < |fs| ==> fs[i].0 != fs[j].0
  }

  /** Two dicts with no key in common join into one. */
  lemma UniqueAppend(a: Fields, b: Fields)
    requires UniqueKeys(a) && UniqueKeys(b)
    requires forall i, j :: 0 <= i < |a| && 0 <= j < |b| ==> a[i].0 != b[j].0
    ensures UniqueKeys(a + b)
  {
    forall i, j | 0 <= i < j < |a + b|
      ensures (a + b)[i].0 != (a + b)[j].0
    {
      if j >= |a| {
        assert (a + b)[j] == b[j - |a|];
        if i >= |a| {
          assert (a + b)[i] == b[i - |a|];
        }
      }
    }
  }

  /** A key of the merge reads from `b` when `b` has it, and from `a` otherwise. */
  lemma {:induction false} MergeLookup(a: Fields, b: Fields, k: string)
    requires UniqueKeys(b)
    ensures Lookup(Merge(a, b), k) == if HasKey(b, k) then Lookup(b, k) else Lookup(a, k)
    decreases |b|
  {
    if |b| > 0 {
      MergeLookup(Put(a, b[0].0, b[0].1), b[1..], k);
      PutLookup(a, b[0].0, b[0].1, k);
      assert b[0].0 == k ==> !HasKey(b[1..], k);
    }
  }

  /** A key that `b` does not hold reads from `a` after the merge. */
  lemma {:induction false} MergeMissing(a: Fields, b: Fields, k: string)
    requires !HasKey(b, k)
    ensures Lookup(Merge(a, b), k) == Lookup(a, k)
    decreases |b|
  {
    if |b| > 0 {
      assert b[0].0 != k;
      assert Lookup(b[1..], k) == Lookup(b, k);
      MergeMissing(Put(a, b[0].0, b[0].1), b[1..], k);
      PutLookup(a, b[0].0, b[0].1, k);
    }
  }

  /** `j.get(k, default)`; only a dict has `get`. */
  function Get(j: Json, k: string, default: Json): (r: Result<Json>)
    ensures r.Ok? <==> j.Obj?
    ensures j.Obj? ==> r.value == GetOr(j.fields, k, default)
  {
    if j.Obj? then Ok(GetOr(j.fields, k, default))
    else Err(AttributeError("'" + TypeName(j) + "' object has no attribute 'get'"))
  }

  /** `j[k]` with a string key. */
  function Index(j: Json, k: string): (r: Result<Json>)
    ensures r.Ok? <==> j.Obj? && HasKey(j.fields, k)
    ensures r.Ok? ==> Lookup(j.fields, k) == Some(r.value)
  {
    match j
    case Obj(fs) =>
      (match Lookup(fs, k)
       case Some(v) => Ok(v)
       case None => Err(KeyError("'" + k + "'")))
    case Arr(_) => Err(TypeError("list indices must be integers or slices, not str"))
    case Str(_) => Err(TypeError("string indices must be integers, not 'str'"))
    case _ => Err(TypeError("'" + TypeName(j) + "' object is not subscriptable"))
  }

  /** `j[n]` with an integer position; negative positions count from the end. */
  function At(j: Json, n: int): (r: Result<Json>)
    ensures j.Arr? && 0 <= n < |j.items| ==> r == Ok(j.items[n])
    ensures j.Arr? && -|j.items| <= n < 0 ==> r == Ok(j.items[|j.items| + n])
  {
    match j
    case Arr(a) =>
      if 0 <= n < |a| then Ok(a[n])
      else if -|a| <= n < 0 then Ok(a[|a| + n])
      else Err(IndexError("list index out of range"))
    case Str(s) =>
      if 0 <= n < |s| then Ok(Str([s[n]]))
      else if -|s| <= n < 0 then Ok(Str([s[|s| + n]]))
      else Err(IndexError("string index out of range"))
    case Obj(fs) => Err(KeyError(IntText(n)))
    case _ => Err(TypeError("'" + TypeName(j) + "' object is not subscriptable"))
  }

  /** `item in j` for a string item: a key of a dict, an element of a list,
      a substring of a str; other types raise TypeError. */
  function Contains(j: Json, item: string): (r: Result<bool>)
    ensures j.Obj? ==> r == Ok(HasKey(j.fields, item))
    ensures j.Arr? ==> r == Ok(Str(item) in j.items)
    ensures r.Err? <==> !(j.Obj? || j.Arr? || j.Str?)
  {
    match j
    case Obj(fs) => Ok(HasKey(fs, item))
    case Arr(a) => Ok(Str(item) in a)
    case Str(s) => Ok(HasSubstring(s, item))
    case _ => Err(TypeError("argument of type '" + TypeName(j) + "' is not iterable"))
  }

  function Chars(s: string): (r: seq<Json>)
    ensures |r| == |s|
  {
    seq(|s|, i requires 0 <= i < |s| => Str([s[i]]))
  }

  function KeyStrs(fs: Fields): (r: seq<Json>)
    ensures |r| == |fs| && forall i :: 0 <= i < |fs| ==> r[i] == Str(fs[i].0)
  {
    seq(|fs|, i requires 0 <= i < |fs| => Str(fs[i].0))
  }

  /** `for x in j`: a list's elements, a dict's keys, a str's characters. */
  function Iter(j: Json): (r: Result<seq<Json>>)
    ensures j.Arr? ==> r == Ok(j.items)
    ensures r.Err? <==> !(j.Obj? || j.Arr? || j.Str?)
  {
    match j
    case Arr(a) => Ok(a)
    case Obj(fs) => Ok(KeyStrs(fs))
    case Str(s) => Ok(Chars(s))
    case Null => Err(TypeError("'NoneType' object is not iterable"))
    case _ => Err(TypeError("'" + TypeName(j) + "' object is not iterable"))
  }

  /** `len(j)` */
  function Len(j: Json): (r: Result<nat>)
    ensures r.Ok? <==> (j.Obj? || j.Arr? || j.Str?)
    ensures j.Arr? ==> r == Ok(|j.items|)
  {
    match j
    case Arr(a) => Ok(|a|)
    case Obj(fs) => Ok(|fs|)
    case Str(s) => Ok(|s|)
    case _ => Err(TypeError("object of type '" + TypeName(j) + "' has no len()"))
  }

  /** `s.lower()` / `s.upper()` on a value: only a str has them. */
  function LowerOf(j: Json): (r: Result<string>)
    ensures r.Ok? <==> j.Str?
    ensures r.Ok? ==> r.value == Lower(j.s)
  {
    if j.Str? then Ok(Lower(j.s)) else Err(AttributeError("'" + TypeName(j) + "' object has no attribute 'lower'"))
  }

  function UpperOf(j: Json): (r: Result<string>)
    ensures r.Ok? <==> j.Str?
    ensures r.Ok? ==> r.value == Upper(j.s)
  {
    if j.Str? then Ok(Upper(j.s)) else Err(AttributeError("'" + TypeName(j) + "' object has no attribute 'upper'"))
  }

  /** A stand-in for Python's shortest round-trip `repr` of a float: the
      integral part and six decimals. */
  function FloatText(r: real): string {
    var sign := if r < 0.0 then "-" else "";
    var a := if r < 0.0 then -r else r;
    var whole := a.Floor;
    var frac := ((a - whole as real) * 1000000.0).Floor;
    sign + IntText(whole) + "." + IntText(frac)
  }

  /** `str(j)`; containers use `repr` of their elements. */
  function PyStr(j: Json): string {
    match j
    case Str(s) => s
    case _ => Repr(j)
  }

  function Repr(j: Json): string {
    match j
    case Null => "None"
    case Bool(b) => if b then "True" else "False"
    case Int(i) => IntText(i)
    case Float(r) => FloatText(r)
    case Str(s) => "'" + s + "'"
    case Arr(a) => "[" + ReprItems(a) + "]"
    case Obj(fs) => "{" + ReprFields(fs) + "}"
  }

  function ReprItems(a: seq<Json>): string
    decreases a
  {
    if |a| == 0 then ""
    else if |a| == 1 then Repr(a[0])
    else Repr(a[0]) + ", " + ReprItems(a[1..])
  }

  function ReprFields(fs: Fields): string
    decreases fs
  {
    if |fs| == 0 then ""
    else
      assert fs[0] in fs && fs[0].1 < fs[0];
      var entry := "'" + fs[0].0 + "': " + Repr(fs[0].1);
      if |fs| == 1 then entry else entry + ", " + ReprFields(fs[1..])
  }

  /** `repr(list_of_strings)`, as an f-string shows a list of dict keys. */
  function ReprStrings(ks: seq<string>): string {
    "[" + Join(", ", seq(|ks|, i requires 0 <= i < |ks| => "'" + ks[i] + "'")) + "]"
  }

  /** A stand-in for `json.dumps`: compact layout, no string escaping. */
  function Dumps(j: Json): string {
    match j
    case Null => "null"
    case Bool(b) => if b then "true" else "false"
    case Int(i) => IntText(i)
    case Float(r) => FloatText(r)
    case Str(s) => "\"" + s + "\""
    case Arr(a) => "[" + DumpItems(a) + "]"
    case Obj(fs) => "{" + DumpFields(fs) + "}"
  }

  function DumpItems(a: seq<Json>): string
    decreases a
  {
    if |a| == 0 then ""
    else if |a| == 1 then Dumps(a[0])
    else Dumps(a[0]) + ", " + DumpItems(a[1..])
  }

  function DumpFields(fs: Fields): string
    decreases fs
  {
    if |fs| == 0 then ""
    else
      assert fs[0] in fs && fs[0].1 < fs[0];
      var entry := "\"" + fs[0].0 + "\": " + Dumps(fs[0].1);
      if |fs| == 1 then entry else entry + ", " + DumpFields(fs[1..])
  }

  /** `f"{x}"` of a value read with `.get`, the common way the code renders a field. */
  function Text(j: Json): string {
    PyStr(j)
  }

  /** Python `==` between a JSON value and a str literal. */
  predicate IsStr(j: Json, s: string) {
    j == Str(s)
  }

  /** `os.getenv(name)` as a JSON value (None when unset). */
  function EnvValue(env: Env, name: string): (r: Json)
    ensures r == Null <==> name !in env
    ensures name in env ==> r == Str(env[name])
  {
    match GetEnv(env, name)
    case Some(s) => Str(s)
    case None => Null
  }

  /** `os.getenv(name)` for a variable name read from a config value; only a
      str is a valid name. */
  function GetEnvAt(env: Env, name: Json): (r: Result<Option<string>>)
    ensures name.Str? ==> r == Ok(GetEnv(env, name.s))
    ensures r.Err? <==> !name.Str?
  {
    if name.Str? then Ok(GetEnv(env, name.s))
    else Err(TypeError("str expected, not " + TypeName(name)))
  }
}

=== FILE: pystrings.dfy ===
/** Python `str` operations used by the pipeline, on ASCII (`\d`, `isdigit`,
    `lower`, `upper` and `strip` are restricted to their ASCII behaviour). */
module PyStrings {
  import opened Wrappers

  predicate StartsWith(s: string, prefix: string) {
    |prefix| <= |s| && s[..|prefix|] == prefix
  }

  predicate EndsWith(s: string, suffix: string) {
    |suffix| <= |s| && s[|s| - |suffix|..] == suffix
  }

  /** The suffix-removal idiom `s[:-len(suffix)] if s.endswith(suffix) else s`. */
  function DropSuffix(s: string, suffix: string): (r: string)
    ensures EndsWith(s, suffix) ==> r + suffix == s
    ensures !EndsWith(s, suffix) ==> r == s
  {
    if EndsWith(s, suffix) then s[..|s| - |suffix|] else s
  }

  lemma EndsWithAppend(s: string, suffix: string)
    ensures EndsWith(s + suffix, suffix) && (s + suffix)[..|s|] == s
  {
    assert (s + suffix)[|s|..] == suffix;
  }

  lemma StartsWithAppend(prefix: string, s: string)
    ensures StartsWith(prefix + s, prefix) && (prefix + s)[|prefix|..] == s
  {
    assert (prefix + s)[..|prefix|] == prefix;
  }

  /** `c.isspace()`: the ASCII blanks, the separators U+001C to U+001F,
      U+0085, and the Unicode spaces and line and paragraph separators. */
  predicate IsSpace(c: char) {
    c == ' ' || c == '\t' || c == '\n' || c == '\r' || c == '\U{000B}' || c == '\U{000C}' ||
    ('\U{001C}' <= c <= '\U{001F}') || c == '\U{0085}' || c == '\U{00A0}' || c == '\U{1680}' ||
    ('\U{2000}' <= c <= '\U{200A}') || c == '\U{2028}' || c == '\U{2029}' || c == '\U{202F}' ||
    c == '\U{205F}' || c == '\U{3000}'
  }

  function LStrip(s: string): (r: string)
    ensures |r| <= |s| && EndsWith(s, r)
    ensures r == [] || !IsSpace(r[0])
  {
    if |s| > 0 && IsSpace(s[0]) then LStrip(s[1..]) else s
  }

  function RStrip(s: string): (r: string)
    ensures |r| <= |s| && StartsWith(s, r)
    ensures r == [] || !IsSpace(r[|r| - 1])
  {
    if |s| > 0 && IsSpace(s[|s| - 1]) then RStrip(s[..|s| - 1]) else s
  }

  /** `s.strip()` */
  function Strip(s: string): string {
    RStrip(LStrip(s))
  }

  /** `s.rstrip(c)` for a single character */
  function RStripChar(s: string, c: char): (r: string)
    ensures StartsWith(s, r)
    ensures r == [] || r[|r| - 1] != c
    ensures forall i :: |r| <= i < |s| ==> s[i] == c
  {
    if |s| > 0 && s[|s| - 1] == c then RStripChar(s[..|s| - 1], c) else s
  }

  function LowerChar(c: char): char {
    if 'A' <= c <= 'Z' then (c as int + 32) as char else c
  }

  function UpperChar(c: char): char {
    if 'a' <= c <= 'z' then (c as int - 32) as char else c
  }

  function Lower(s: string): (r: string)
    ensures |r| == |s|
  {
    seq(|s|, i requires 0 <= i < |s| => LowerChar(s[i]))
  }

  function Upper(s: string): (r: string)
    ensures |r| == |s|
  {
    seq(|s|, i requires 0 <= i < |s| => UpperChar(s[i]))
  }

  /** `sub in s` */
  predicate HasSubstring(s: string, sub: string)
    decreases |s|
  {
    StartsWith(s, sub) || (|s| > 0 && HasSubstring(s[1..], sub))
  }

  predicate IsDigitChar(c: char) {
    '0' <= c <= '9'
  }

  /** `s.isdigit()` */
  predicate IsDigits(s: string) {
    |s| > 0 && forall i :: 0 <= i < |s| ==> IsDigitChar(s[i])
  }

  /** `sep.join(parts)` */
  function Join(sep: string, parts: seq<string>): string {
    if |parts| == 0 then ""
    else if |parts| == 1 then parts[0]
    else parts[0] + sep + Join(sep, parts[1..])
  }

  predicate OccursAt(s: string, sep: string, k: nat) {
    k + |sep| <= |s| && s[k..k + |sep|] == sep
  }

  /** Position of the first occurrence of `sep` in `s` at or after `i`, if any. */
  function FindFrom(s: string, sep: string, i: nat): (r: Option<nat>)
    requires |sep| > 0 && i <= |s|
    ensures r.Some? ==> i <= r.value && OccursAt(s, sep, r.value)
    ensures r.Some? ==> forall k: nat :: i <= k < r.value ==> !OccursAt(s, sep, k)
    ensures r.None? ==> forall k: nat :: i <= k ==> !OccursAt(s, sep, k)
    decreases |s| - i
  {
    if i + |sep| > |s| then None
    else if s[i..i + |sep|] == sep then Some(i)
    else FindFrom(s, sep, i + 1)
  }

  function Find(s: string, sep: string): Option<nat>
    requires |sep| > 0
  {
    FindFrom(s, sep, 0)
  }

  /** `s.split(sep)` for a non-empty separator. */
  function Split(s: string, sep: string): (r: seq<string>)
    requires |sep| > 0
    ensures |r| >= 1
    decreases |s|
  {
    match Find(s, sep)
    case None => [s]
    case Some(k) => [s[..k]] + Split(s[k + |sep|..], sep)
  }

  /** `s.replace(old, new)`: every non-overlapping occurrence, left to right. */
  function Replace(s: string, pat: string, rep: string): string
    requires |pat| > 0
    decreases |s|
  {
    match Find(s, pat)
    case None => s
    case Some(k) => s[..k] + rep + Replace(s[k + |pat|..], pat, rep)
  }

  function DigitChar(d: nat): char
    requires d < 10
  {
    ('0' as int + d) as char
  }

  function NatText(n: nat): (r: string)
    ensures |r| >= 1
  {
    if n < 10 then [DigitChar(n)] else NatText(n / 10) + [DigitChar(n % 10)]
  }

  /** `str(i)` for an int */
  function IntText(i: int): string {
    if i < 0 then "-" + NatText(-i) else NatText(i)
  }

  /** `f"{n:02d}"` for a non-negative n */
  function Pad2(n: nat): (r: string)
    ensures |r| >= 2
  {
    if n < 10 then "0" + NatText(n) else NatText(n)
  }

  function DigitsValue(s: string): nat
    requires forall i :: 0 <= i < |s| ==> IsDigitChar(s[i])
  {
    if |s| == 0 then 0
    else
      assert IsDigitChar(s[|s| - 1]);
      DigitsValue(s[..|s| - 1]) * 10 + (s[|s| - 1] as int - '0' as int)
  }

  /** `int(s)` for a string: optional surrounding whitespace, optional sign,
      one or more ASCII digits; anything else raises ValueError. */
  function ParseInt(s: string): Result<int> {
    var t := Strip(s);
    if |t| > 0 && (t[0] == '-' || t[0] == '+') && IsDigits(t[1..]) then
      Ok(if t[0] == '-' then -(DigitsValue(t[1..]) as int) else DigitsValue(t[1..]))
    else if IsDigits(t) then Ok(DigitsValue(t))
    else Err(ValueError("invalid literal for int() with base 10: '" + s + "'"))
  }
}

=== FILE: run_analysis_pass.dfy ===
/** The analysis pass script: reads the filter results, looks the relevant
    bills' ids up in the source bills by number, optionally picks a few test
    bills, and runs the shared analysis loop over them, filing each result
    with the bill as the filter pass wrote it. */
module RunAnalysisPass {
  import opened Wrappers
  import opened PyStrings
  import opened PyJson
  import opened BillIndex
  import TestSelection
  import AnalysisLoop
  import AiAnalysisPass

  // ---------------------------------------------------------------------
  // The prompt text of a bill

  /** `"\n**Initial Filter Reason**: {bill['reason']}"` */
  function ReasonLine(reason: Json): string {
    "\n**Initial Filter Reason**: " + PyStr(reason)
  }

  /** `format_bill_for_analysis(bill)`: the three lines, then the reason
      line whenever the bill has a `reason` key, whatever its value. */
  function FormatBill(bill: Json): (r: Result<string>)
    ensures r.Ok? <==> bill.Obj? && HasKey(bill.fields, "bill_number") && HasKey(bill.fields, "title") && HasKey(bill.fields, "url")
    ensures r.Ok? ==>
      var header := AnalysisLoop.Header(GetOr(bill.fields, "bill_number", Null), GetOr(bill.fields, "title", Null),
                                        GetOr(bill.fields, "url", Null));
      StartsWith(r.value, header) &&
      (HasKey(bill.fields, "reason") ==> EndsWith(r.value, ReasonLine(GetOr(bill.fields, "reason", Null)))) &&
      (!HasKey(bill.fields, "reason") ==> r.value == header)
  {
    var _ :- AnalysisLoop.Heading(bill);
    var header := AnalysisLoop.Header(GetOr(bill.fields, "bill_number", Null), GetOr(bill.fields, "title", Null),
                                      GetOr(bill.fields, "url", Null));
    if HasKey(bill.fields, "reason") then
      var line := ReasonLine(GetOr(bill.fields, "reason", Null));
      StartsWithAppend(header, line);
      EndsWithAppend(header, line);
      Ok(header + line)
    else Ok(header)
  }

  // ---------------------------------------------------------------------
  // The test selection

  /** `'pediatric hospice' in bill['title'].lower() or 'pediatric hospice'
      in bill['reason'].lower()`: the reason is read only when the title
      does not mention it. */
  function PediatricHospice(bill: Json): Result<bool> {
    var title :- Index(bill, "title");
    var titleLower :- LowerOf(title);
    if HasSubstring(titleLower, "pediatric hospice") then Ok(true)
    else
      var reason :- Index(bill, "reason");
      var reasonLower :- LowerOf(reason);
      Ok(HasSubstring(reasonLower, "pediatric hospice"))
  }

  /** `'palliative' in bill['title'].lower()` */
  function Palliative(bill: Json): Result<bool> {
    var title :- Index(bill, "title");
    var titleLower :- LowerOf(title);
    Ok(HasSubstring(titleLower, "palliative"))
  }

  /** `a in bill['reason'].lower() or b in bill['reason'].lower()` */
  function ReasonMentions(bill: Json, a: string, b: string): Result<bool> {
    var reason :- Index(bill, "reason");
    var reasonLower :- LowerOf(reason);
    Ok(HasSubstring(reasonLower, a) || HasSubstring(reasonLower, b))
  }

  function Pain(bill: Json): Result<bool> {
    ReasonMentions(bill, "pain medication", "pain management")
  }

  function Workforce(bill: Json): Result<bool> {
    ReasonMentions(bill, "workforce", "loan forgiveness")
  }

  function Payment(bill: Json): Result<bool> {
    ReasonMentions(bill, "medicaid", "payment")
  }

  /** The six passes of `select_test_bills`: the first has no `not in
      selected` check, the others test only bills not yet selected. */
  function Tiers(): (r: seq<TestSelection.Tier>)
    ensures |r| == 6 && !r[0].skipSelected
  {
    [TestSelection.Tier(false, false, PediatricHospice),
     TestSelection.Tier(true, false, Palliative),
     TestSelection.Tier(true, false, Pain),
     TestSelection.Tier(true, false, Workforce),
     TestSelection.Tier(true, false, Payment),
     TestSelection.Tier(true, false, TestSelection.Any)]
  }

  /** A bill every pass can test: a dict with a str title and a str
      reason. */
  predicate Testable(bill: Json) {
    bill.Obj? && GetOr(bill.fields, "title", Null).Str? &&
    HasKey(bill.fields, "reason") && GetOr(bill.fields, "reason", Null).Str?
  }

  lemma TiersAnswer(bill: Json)
    requires Testable(bill)
    ensures forall t :: 0 <= t < 6 ==> Tiers()[t].test(bill).Ok?
    ensures Tiers()[5].test(bill) == Ok(true)
  {
    assert HasKey(bill.fields, "title");
  }

  /** This script's `select_test_bills(bills, count)`: the shared selection
      over this script's six passes (`Tiers`: pediatric hospice, palliative,
      pain, workforce, payment, any bill), which index `reason` and so need
      it. run_direct_analysis.py defines its own copy with four passes and
      a reason that defaults to "" (`RunDirectAnalysis.SelectTestBills`). */
  function SelectTestBills(bills: seq<Json>, count: int): (r: Result<seq<Json>>)
    ensures r.Ok? ==> |r.value| <= TestSelection.Max0(count) && forall x :: x in r.value ==> x in bills
  {
    TestSelection.SelectBounded(Tiers(), bills, count);
    TestSelection.Select(Tiers(), bills, count)
  }

  /** On distinct testable bills the selection is the bills grouped by the
      first pass that accepts them, in input order within a group, cut to
      `count`; it has no duplicates and `min(count, len(bills))` bills. */
  lemma SelectionByPriority(bills: seq<Json>, count: int)
    requires TestSelection.Distinct(bills) && forall b :: b in bills ==> Testable(b)
    ensures SelectTestBills(bills, count) ==
      Ok(TestSelection.Take(TestSelection.Grouped(bills, Tiers(), 6), count))
    ensures var r := SelectTestBills(bills, count).value;
      |r| == (if count <= 0 then 0 else if count < |bills| then count else |bills|) &&
      TestSelection.Distinct(r)
  {
    forall b | b in bills
      ensures forall t :: 0 <= t < 6 ==> Tiers()[t].test(b).Ok?
      ensures Tiers()[5].test(b) == Ok(true)
    {
      TiersAnswer(b);
    }
    var tiers := Tiers();
    assert TestSelection.Settled(tiers, bills);
    TestSelection.SelectIsGrouping(tiers, bills, count);
    TestSelection.FullSelection(tiers, bills, count);
  }

  /** A bill whose title or reason mentions pediatric hospice is in the
      first group. */
  lemma PediatricHospiceFirst(bill: Json)
    requires Testable(bill)
    requires HasSubstring(Lower(GetOr(bill.fields, "title", Null).s), "pediatric hospice") ||
             HasSubstring(Lower(GetOr(bill.fields, "reason", Null).s), "pediatric hospice")
    ensures TestSelection.Priority(bill, Tiers()) == 0
  {
    assert HasKey(bill.fields, "title");
  }

  /** The first pass reads `bill['reason']` of every bill whose title does
      not mention pediatric hospice, before any `not in selected` check: a
      first bill without a `reason` makes the selection raise KeyError,
      whatever the count and the other bills. */
  lemma MissingReasonRaises(bill: Json, rest: seq<Json>, count: int)
    requires bill.Obj? && HasKey(bill.fields, "title") && GetOr(bill.fields, "title", Null).Str?
    requires !HasSubstring(Lower(GetOr(bill.fields, "title", Null).s), "pediatric hospice")
    requires !HasKey(bill.fields, "reason")
    ensures SelectTestBills([bill] + rest, count) == Err(KeyError("'reason'"))
  {
    var bills := [bill] + rest;
    var tiers := Tiers();
    assert Index(bill, "title").Ok?;
    assert "'" + "reason" + "'" == "'reason'";
    assert Index(bill, "reason") == Err(KeyError("'reason'"));
    assert PediatricHospice(bill) == Err(KeyError("'reason'"));
    assert bills[..1] == [bill];
    assert [bill][..0] == [];
    assert TestSelection.Pass(tiers[0], bills[..1], [], count) == Err(KeyError("'reason'"));
    TestSelection.PassStop(tiers[0], bills, [], count, 1);
    assert tiers[..1] == [tiers[0]];
    assert [tiers[0]][..0] == [];
    assert TestSelection.Passes(tiers[..1], bills, count) == Err(KeyError("'reason'"));
    TestSelection.PassesStop(tiers, bills, count, 1);
  }

  // ---------------------------------------------------------------------
  // The run

  /** The script's parts of the shared loop: a filed result and an error
      entry both carry the bill as it came from the filter results. */
  function Script(): AnalysisLoop.Script {
    AnalysisLoop.Script(FormatBill, bill => bill, bill => bill)
  }

  /** `filter_results.get('relevant_bills', [])`, whose length is logged. */
  function RelevantBills(filterResults: Json): (r: Result<seq<Json>>)
    ensures filterResults.Obj? && !HasKey(filterResults.fields, "relevant_bills") ==> r == Ok([])
    ensures filterResults.Obj? && GetOr(filterResults.fields, "relevant_bills", Null).Arr? ==>
      r == Ok(GetOr(filterResults.fields, "relevant_bills", Null).items)
    ensures !filterResults.Obj? ==> r.Err?
  {
    var relevant :- Get(filterResults, "relevant_bills", Arr([]));
    var _ :- Len(relevant);
    Iter(relevant)
  }

  /** The bills the loop goes over. */
  function BillsToProcess(testMode: bool, testCount: int, bills: seq<Json>): Result<seq<Json>> {
    if testMode then SelectTestBills(bills, testCount) else Ok(bills)
  }

  /** The lookup and the bills to process, from the parsed filter results
      and source bills files (each an error when the file is missing). */
  function Setup(settings: (bool, int), filterFile: Result<Json>, sourceFile: Result<Json>)
    : Result<(map<Json, Json>, seq<Json>)>
  {
    var filterResults :- filterFile;
    var relevant :- RelevantBills(filterResults);
    var source :- sourceFile;
    var sourceBills :- Iter(source);
    var lookup :- BillsByNumber(sourceBills);
    var toProcess :- BillsToProcess(settings.0, settings.1, relevant);
    var _ :- AnalysisLoop.Preview(if settings.0 then Arr(toProcess) else GetOr(filterResults.fields, "relevant_bills", Arr([])));
    Ok((lookup, toProcess))
  }

  /** The keyword arguments the script passes to `AIAnalysisPass`. */
  const AnalyzerKeywords: seq<string> := ["api_key", "model", "temperature", "max_tokens", "timeout", "legiscan_api_key"]

  /** The script as written: after the set-up it constructs the analyzer
      with `AnalyzerKeywords`, and only then runs the loop. */
  function RunAsWritten(env: Env, filterFile: Result<Json>, sourceFile: Result<Json>, analyze: AnalysisLoop.Analyzer)
    : Result<Option<(seq<Json>, seq<Json>)>>
  {
    var settings :- TestSelection.Settings(env);
    if GetEnv(env, "PORTKEY_API_KEY").GetOr("") == "" then Ok(None)
    else
      var setup :- Setup(settings, filterFile, sourceFile);
      var _ :- AiAnalysisPass.BindKeywords(AnalyzerKeywords);
      var lists :- AnalysisLoop.Loop(Script(), AnalysisLoop.Attempts(Script(), setup.0, analyze), setup.1);
      Ok(Some(lists))
  }

  /** The constructor takes no `timeout`: binding the script's keywords
      raises at the fifth. */
  lemma TimeoutRejected()
    ensures AiAnalysisPass.BindKeywords(AnalyzerKeywords) == Err(AiAnalysisPass.UnexpectedKeyword("timeout"))
  {
    var ks := AnalyzerKeywords;
    var ps := AiAnalysisPass.InitParameters;
    assert ks[0] == ps[0] && ks[1] == ps[4] && ks[2] == ps[5] && ks[3] == ps[6];
    assert ks[4] !in ps;
  }

  /** As written, the script never writes its result files: a run with a
      key either stops before the analyzer exists or raises TypeError for
      `timeout`, and every run the corrected script completes is one of
      the latter. */
  lemma AsWrittenNeverAnalyzes(env: Env, filterFile: Result<Json>, sourceFile: Result<Json>, analyze: AnalysisLoop.Analyzer)
    ensures var r := RunAsWritten(env, filterFile, sourceFile, analyze); r.Ok? ==> r.value.None?
    ensures TestSelection.Settings(env).Ok? && GetEnv(env, "PORTKEY_API_KEY").GetOr("") != "" &&
            Setup(TestSelection.Settings(env).value, filterFile, sourceFile).Ok? ==>
      RunAsWritten(env, filterFile, sourceFile, analyze) == Err(AiAnalysisPass.UnexpectedKeyword("timeout"))
    ensures var r := Run(env, filterFile, sourceFile, analyze); r.Ok? && r.value.Some? ==>
      RunAsWritten(env, filterFile, sourceFile, analyze) == Err(AiAnalysisPass.UnexpectedKeyword("timeout"))
  {
    TimeoutRejected();
  }

  /** The corrected script: the analyzer is built with the keywords its
      constructor takes (no `timeout`). None when it returns early for want
      of a `PORTKEY_API_KEY`, else the two result lists. */
  function Run(env: Env, filterFile: Result<Json>, sourceFile: Result<Json>, analyze: AnalysisLoop.Analyzer)
    : Result<Option<(seq<Json>, seq<Json>)>>
  {
    var settings :- TestSelection.Settings(env);
    if GetEnv(env, "PORTKEY_API_KEY").GetOr("") == "" then Ok(None)
    else
      var lists :- Analysis(settings, filterFile, sourceFile, analyze);
      Ok(Some(lists))
  }

  /** The run once the key is there: the set-up, then the loop. */
  function Analysis(settings: (bool, int), filterFile: Result<Json>, sourceFile: Result<Json>, analyze: AnalysisLoop.Analyzer)
    : Result<(seq<Json>, seq<Json>)>
  {
    var setup :- Setup(settings, filterFile, sourceFile);
    AnalysisLoop.Loop(Script(), AnalysisLoop.Attempts(Script(), setup.0, analyze), setup.1)
  }

  /** The corrected script to its end: the two result lists it writes, if
      it gets that far, and how it ends. The summary logged after the
      writes can still raise, so a run can fail with its files written. */
  function Main(env: Env, filterFile: Result<Json>, sourceFile: Result<Json>, analyze: AnalysisLoop.Analyzer)
    : (r: (Option<(seq<Json>, seq<Json>)>, Result<()>))
    ensures var run := Run(env, filterFile, sourceFile, analyze);
      r.0 == (if run.Ok? then run.value else None) &&
      (run.Err? ==> r.1 == Err(run.exc)) &&
      (run == Ok(None) ==> r.1 == Ok(()))
  {
    var settings := TestSelection.Settings(env);
    if settings.Err? then (None, Err(settings.exc))
    else if GetEnv(env, "PORTKEY_API_KEY").GetOr("") == "" then (None, Ok(()))
    else
      var setup := Setup(settings.value, filterFile, sourceFile);
      if setup.Err? then (None, Err(setup.exc))
      else
        var lists := AnalysisLoop.Loop(Script(), AnalysisLoop.Attempts(Script(), setup.value.0, analyze), setup.value.1);
        if lists.Err? then (None, Err(lists.exc))
        else (Some(lists.value), AnalysisLoop.Summary(|setup.value.1|, lists.value.0, lists.value.1))
  }

  /** Outside test mode, filter results with an empty `relevant_bills`
      list write two empty result files, and then the summary's
      percentage divides by zero. */
  lemma EmptyRelevantFailsAfterWrite(env: Env, sourceBills: seq<Json>, analyze: AnalysisLoop.Analyzer)
    requires TestSelection.Settings(env).Ok? && !TestSelection.Settings(env).value.0
    requires GetEnv(env, "PORTKEY_API_KEY").GetOr("") != ""
    requires BillsByNumber(sourceBills).Ok?
    ensures Main(env, Ok(Obj([("relevant_bills", Arr([]))])), Ok(Arr(sourceBills)), analyze) ==
      (Some(([], [])), Err(AnalysisLoop.DivisionByZero))
  {
    var fs := [("relevant_bills", Arr([]))];
    LookupCons(fs[0], [], "relevant_bills");
    assert RelevantBills(Obj(fs)) == Ok([]);
    assert AnalysisLoop.Preview(Arr([])).Ok?;
    var settings := TestSelection.Settings(env).value;
    assert Setup(settings, Ok(Obj(fs)), Ok(Arr(sourceBills))) == Ok((BillsByNumber(sourceBills).value, []));
  }

  /** In test mode with a count of zero or less, a set-up that succeeds
      selects no bill: two empty result files are written, and then the
      summary's percentage divides by zero. */
  lemma ZeroTestCountFailsAfterWrite(env: Env, filterFile: Result<Json>, sourceFile: Result<Json>, analyze: AnalysisLoop.Analyzer)
    requires TestSelection.Settings(env).Ok? && TestSelection.Settings(env).value.0 && TestSelection.Settings(env).value.1 <= 0
    requires GetEnv(env, "PORTKEY_API_KEY").GetOr("") != ""
    requires Setup(TestSelection.Settings(env).value, filterFile, sourceFile).Ok?
    ensures Main(env, filterFile, sourceFile, analyze) == (Some(([], [])), Err(AnalysisLoop.DivisionByZero))
  {
    var settings := TestSelection.Settings(env).value;
    var filterResults := filterFile.value;
    var relevant := RelevantBills(filterResults).value;
    assert BillsToProcess(settings.0, settings.1, relevant).Ok?;
    assert Setup(settings, filterFile, sourceFile).value.1 == [];
  }

  /** A relevant analysis with null `categories` files its bill and is
      written out, and then the summary's `extend(None)` raises TypeError
      (the display has already filed the bill a second time). */
  lemma NullCategoriesFailsAfterWrite(env: Env, filterFile: Result<Json>, sourceFile: Result<Json>, analyze: AnalysisLoop.Analyzer,
                                      bill: Json)
    requires TestSelection.Settings(env).Ok? && GetEnv(env, "PORTKEY_API_KEY").GetOr("") != ""
    requires var setup := Setup(TestSelection.Settings(env).value, filterFile, sourceFile);
      setup.Ok? && setup.value.1 == [bill] && AnalysisLoop.Heading(bill).Ok? &&
      var a := AnalysisLoop.Try(Script(), setup.value.0, analyze, bill);
      a.Filed? && AnalysisLoop.IsRelevant(a.analysis) && !HasKey(a.analysis, "error") &&
      GetOr(a.analysis, "categories", Arr([])) == Null
    ensures var r := Main(env, filterFile, sourceFile, analyze);
      r.0.Some? && r.1 == Err(TypeError("'NoneType' object is not iterable"))
  {
    var setup := Setup(TestSelection.Settings(env).value, filterFile, sourceFile).value;
    AnalysisLoop.NullCategoriesStopSummary(Script(), setup.0, analyze, bill);
  }

  /** Without a `PORTKEY_API_KEY` the script returns before it reads any
      file, and writes nothing. */
  lemma NoApiKeyReturns(env: Env, filterFile: Result<Json>, sourceFile: Result<Json>, analyze: AnalysisLoop.Analyzer)
    requires TestSelection.Settings(env).Ok? && GetEnv(env, "PORTKEY_API_KEY").GetOr("") == ""
    ensures Run(env, filterFile, sourceFile, analyze) == Ok(None)
  {
  }

  /** Outside test mode every relevant bill of the filter results is
      processed, in order. */
  lemma ProductionProcessesAll(settings: (bool, int), filterFile: Result<Json>, sourceFile: Result<Json>)
    requires !settings.0 && Setup(settings, filterFile, sourceFile).Ok?
    ensures Setup(settings, filterFile, sourceFile).value.1 == RelevantBills(filterFile.value).value
  {
  }

  /** The preview before the loop slices the title of each of the first
      ten bills: outside test mode a first relevant bill whose title is None
      stops the script with TypeError. */
  lemma NullTitleStopsSetup(settings: (bool, int), filterFile: Result<Json>, sourceFile: Result<Json>, bill: Json, rest: seq<Json>)
    requires !settings.0 && filterFile.Ok? && filterFile.value.Obj?
    requires Lookup(filterFile.value.fields, "relevant_bills") == Some(Arr([bill] + rest))
    requires bill.Obj? && HasKey(bill.fields, "bill_number") && Lookup(bill.fields, "title") == Some(Null)
    ensures Setup(settings, filterFile, sourceFile).Err?
  {
    AnalysisLoop.NullTitleStopsPreview(bill, rest);
  }

  /** A dict under `relevant_bills` has a length but cannot be sliced:
      outside test mode the preview raises even on an empty dict. */
  lemma DictRelevantStopsSetup(settings: (bool, int), sourceFile: Result<Json>, fields: Fields)
    requires !settings.0
    ensures Setup(settings, Ok(Obj([("relevant_bills", Obj(fields))])), sourceFile).Err?
  {
    var filterResults := Obj([("relevant_bills", Obj(fields))]);
    assert Lookup(filterResults.fields, "relevant_bills") == Some(Obj(fields));
    assert AnalysisLoop.Preview(Obj(fields)).Err?;
  }

  /** A run that writes its files files every entry by its analysis's
      `is_relevant`, and its error count covers every exception the loop
      caught. */
  lemma RunRoutes(env: Env, filterFile: Result<Json>, sourceFile: Result<Json>, analyze: AnalysisLoop.Analyzer)
    requires var r := Run(env, filterFile, sourceFile, analyze); r.Ok? && r.value.Some?
    ensures var lists := Run(env, filterFile, sourceFile, analyze).value.value;
      (forall x :: x in lists.0 ==> AnalysisLoop.Flagged(x)) &&
      (forall x :: x in lists.1 ==> !AnalysisLoop.Flagged(x)) &&
      AnalysisLoop.ErrorCount(lists.1).Ok?
  {
    var settings := TestSelection.Settings(env).value;
    RunIsAnalysis(env, filterFile, sourceFile, analyze);
    AnalysisRoutes(settings, filterFile, sourceFile, analyze);
  }

  lemma RunIsAnalysis(env: Env, filterFile: Result<Json>, sourceFile: Result<Json>, analyze: AnalysisLoop.Analyzer)
    requires var r := Run(env, filterFile, sourceFile, analyze); r.Ok? && r.value.Some?
    ensures var settings := TestSelection.Settings(env);
      settings.Ok? && Analysis(settings.value, filterFile, sourceFile, analyze).Ok? &&
      Run(env, filterFile, sourceFile, analyze).value.value == Analysis(settings.value, filterFile, sourceFile, analyze).value
  {
    var settings := TestSelection.Settings(env);
    assert settings.Ok?;
    var a := Analysis(settings.value, filterFile, sourceFile, analyze);
    assert a.Ok?;
  }

  lemma AnalysisRoutes(settings: (bool, int), filterFile: Result<Json>, sourceFile: Result<Json>, analyze: AnalysisLoop.Analyzer)
    requires Analysis(settings, filterFile, sourceFile, analyze).Ok?
    ensures var lists := Analysis(settings, filterFile, sourceFile, analyze).value;
      (forall x :: x in lists.0 ==> AnalysisLoop.Flagged(x)) &&
      (forall x :: x in lists.1 ==> !AnalysisLoop.Flagged(x)) &&
      AnalysisLoop.ErrorCount(lists.1).Ok?
  {
    var setup := Setup(settings, filterFile, sourceFile).value;
    var attempts := AnalysisLoop.Attempts(Script(), setup.0, analyze);
    AnalysisLoop.FiledByRelevance(Script(), attempts, setup.1);
    AnalysisLoop.ErrorsCounted(Script(), attempts, setup.1);
  }

  /** A filed result keeps the bill exactly as the filter results gave it. */
  lemma ResultKeepsBill(bill: Json, analysis: Fields)
    ensures var entry := AnalysisLoop.ResultEntry(Script(), bill, analysis);
      entry.Obj? && GetOr(entry.fields, "bill", Null) == bill
  {
    var fs := AnalysisLoop.ResultEntry(Script(), bill, analysis).fields;
    LookupCons(fs[0], fs[1..], "bill");
  }
}

=== FILE: run_direct_analysis.dfy ===
/** The direct analysis script: reads normalized filter results, finds the
    state and year of the bills from the first bill's LegiScan url, looks
    the bills' ids up in that state's source bills, optionally picks a few
    test bills, and runs the shared analysis loop over them. */
module RunDirectAnalysis {
  import opened Wrappers
  import opened PyStrings
  import opened PyJson
  import opened BillIndex
  import FormatNormalizer
  import TestSelection
  import AnalysisLoop
  import AiAnalysisPass

  // ---------------------------------------------------------------------
  // The state and the year in a LegiScan url

  const Host: string := "legiscan.com/"

  predicate IsUpperChar(c: char) {
    'A' <= c <= 'Z'
  }

  /** `legiscan\.com/([A-Z]{2})/` matches at position `i`. */
  predicate StateAt(url: string, i: nat) {
    i + 16 <= |url| && url[i..i + 13] == Host &&
    IsUpperChar(url[i + 13]) && IsUpperChar(url[i + 14]) && url[i + 15] == '/'
  }

  /** The first position from `i` on where the pattern matches. */
  function FirstStateFrom(url: string, i: nat): (r: Option<nat>)
    ensures r.Some? ==> i <= r.value && StateAt(url, r.value)
    ensures r.Some? ==> forall k: nat :: i <= k < r.value ==> !StateAt(url, k)
    ensures r.None? ==> forall k: nat :: i <= k ==> !StateAt(url, k)
    decreases |url| - i
  {
    if i + 16 > |url| then None
    else if StateAt(url, i) then Some(i)
    else FirstStateFrom(url, i + 1)
  }

  /** `extract_state_from_url`: the two capitals of the leftmost match, in
      lower case; None when nothing matches. */
  function ExtractState(url: string): (r: Option<string>)
    ensures r.Some? <==> exists i: nat :: StateAt(url, i)
    ensures r.Some? ==> |r.value| == 2 && forall c :: c in r.value ==> 'a' <= c <= 'z'
  {
    match FirstStateFrom(url, 0)
    case None => None
    case Some(i) => Some(Lower(url[i + 13..i + 15]))
  }

  /** A url of the usual shape `https://legiscan.com/XX/...` gives state
      `xx`. */
  lemma StateOfLegiScanUrl(state: string, rest: string)
    requires |state| == 2 && IsUpperChar(state[0]) && IsUpperChar(state[1])
    ensures ExtractState("https://" + Host + state + "/" + rest) == Some(Lower(state))
  {
    var url := "https://" + Host + state + "/" + rest;
    assert StateAt(url, 8) by {
      assert url[8..21] == Host;
      assert url[21] == state[0] && url[22] == state[1] && url[23] == '/';
    }
    forall k: nat | k < 8
      ensures !StateAt(url, k)
    {
      assert url[k] != 'l';
    }
    var first := FirstStateFrom(url, 0);
    assert first == Some(8);
    assert url[21..23] == state;
  }

  /** `/dddd` at the very end of the url. */
  function YearAtEnd(url: string): (r: Option<string>)
    ensures r.Some? ==> |r.value| == 4 && IsDigits(r.value) && EndsWith(url, "/" + r.value)
  {
    var n := |url|;
    if n >= 5 && url[n - 5] == '/' && IsDigits(url[n - 4..]) then
      SlashBefore(url, n - 5, n);
      Some(url[n - 4..])
    else None
  }

  /** `/dddd` just before a final newline. */
  function YearBeforeNewline(url: string): (r: Option<string>)
    ensures r.Some? ==> |r.value| == 4 && IsDigits(r.value) && EndsWith(url, "/" + r.value + "\n")
  {
    var n := |url|;
    if n >= 6 && url[n - 1] == '\n' && YearAtEnd(url[..n - 1]).Some? then
      var y := YearAtEnd(url[..n - 1]).value;
      assert url == url[..n - 1] + "\n";
      EndsWithAppend(url[..n - 1], "\n");
      assert url[n - 6..] == url[..n - 1][n - 6..] + "\n";
      Some(y)
    else None
  }

  /** `/(\d{4})$` at the end of the url, where `$` also matches before a
      final newline. */
  function TrailingYear(url: string): (r: Option<string>)
    ensures r.Some? ==> |r.value| == 4 && IsDigits(r.value)
    ensures r.Some? ==> EndsWith(url, "/" + r.value) || EndsWith(url, "/" + r.value + "\n")
  {
    if YearAtEnd(url).Some? then YearAtEnd(url) else YearBeforeNewline(url)
  }

  lemma SlashBefore(url: string, k: nat, e: nat)
    requires k < e <= |url| && url[k] == '/'
    ensures url[k..e] == "/" + url[k + 1..e]
  {
  }

  /** `extract_year_from_url`: the trailing year, `'2025'` when there is
      none. */
  function ExtractYear(url: string): (r: string)
    ensures |r| == 4 && IsDigits(r)
  {
    TrailingYear(url).GetOr("2025")
  }

  /** A url ending in `/` and four digits gives those digits. */
  lemma YearOfUrl(prefix: string, year: string)
    requires |year| == 4 && IsDigits(year)
    ensures ExtractYear(prefix + "/" + year) == year
  {
    var url := prefix + "/" + year;
    assert url[|url| - 5] == '/' && url[|url| - 4..] == year;
  }

  /** A url whose last character is neither a digit nor a newline gives
      the default year. */
  lemma DefaultYear(url: string)
    requires |url| == 0 || !(IsDigitChar(url[|url| - 1]) || url[|url| - 1] == '\n')
    ensures ExtractYear(url) == "2025"
  {
    if |url| >= 4 {
      assert url[|url| - 4..][3] == url[|url| - 1];
    }
  }

  /** `get_source_bills_file(state, year)`, relative to the data directory. */
  function SourceBillsFile(state: string, year: string): string {
    "raw/" + state + "_bills_" + year + ".json"
  }

  /** A two-letter state and a four-digit year are read back from the
      file name: different pairs name different files. */
  lemma SourceBillsFileInjective(s1: string, y1: string, s2: string, y2: string)
    requires |s1| == 2 && |s2| == 2 && |y1| == 4 && |y2| == 4
    requires SourceBillsFile(s1, y1) == SourceBillsFile(s2, y2)
    ensures s1 == s2 && y1 == y2
  {
    var f := SourceBillsFile(s1, y1);
    assert f[4..6] == s1;
    assert SourceBillsFile(s2, y2)[4..6] == s2;
    assert f[13..17] == y1;
    assert SourceBillsFile(s2, y2)[13..17] == y2;
  }

  /** Steps 3 of the script: the first bill's url gives the source bills
      file; no bill raises IndexError, a url that is not a str raises
      TypeError, and a url without a state ends the script with status 1. */
  function SourceFor(bills: seq<Json>): (r: Result<string>)
    ensures r.Ok? ==>
      |bills| > 0 && bills[0].Obj? && GetOr(bills[0].fields, "url", Null).Str? &&
      var url := GetOr(bills[0].fields, "url", Null).s;
      ExtractState(url).Some? && r.value == SourceBillsFile(ExtractState(url).value, ExtractYear(url))
    ensures (|bills| > 0 && bills[0].Obj? && GetOr(bills[0].fields, "url", Null).Str? &&
      ExtractState(GetOr(bills[0].fields, "url", Null).s).None?) ==> r == Err(SystemExit(1))
  {
    if |bills| == 0 then Err(IndexError("list index out of range"))
    else
      var url :- Index(bills[0], "url");
      if !url.Str? then Err(TypeError("expected string or bytes-like object, got '" + TypeName(url) + "'"))
      else
        match ExtractState(url.s)
        case None => Err(SystemExit(1))
        case Some(state) => Ok(SourceBillsFile(state, ExtractYear(url.s)))
  }

  // ---------------------------------------------------------------------
  // The prompt text of a bill

  /** `"\n- {caption}: {extra[key]:.4f}"` when the value is not None. */
  function ScoreLine(extra: Fields, key: string, caption: string, fmt4: real -> string): (r: Result<string>)
    ensures GetOr(extra, key, Null) == Null ==> r == Ok("")
    ensures GetOr(extra, key, Null) != Null ==>
      r.Ok? == IsNumber(GetOr(extra, key, Null)) &&
      (r.Ok? ==> r.value == "\n- " + caption + ": " + fmt4(NumValue(GetOr(extra, key, Null))))
  {
    var v := GetOr(extra, key, Null);
    if v == Null then Ok("")
    else
      var text :- FormatNormalizer.Format4(v, fmt4);
      Ok("\n- " + caption + ": " + text)
  }

  /** `"\n- {caption}: {extra[key]}"` when the value is truthy. */
  function TextLine(extra: Fields, key: string, caption: string): (r: string)
    ensures r == "" <==> !Truthy(GetOr(extra, key, Null))
  {
    var v := GetOr(extra, key, Null);
    if Truthy(v) then "\n- " + caption + ": " + PyStr(v) else ""
  }

  /** The metadata block for a non-empty `extra_metadata` dict. */
  function Metadata(extra: Fields, fmt4: real -> string): (r: Result<string>)
    ensures r.Ok? <==>
      (GetOr(extra, "similarity_score", Null) == Null || IsNumber(GetOr(extra, "similarity_score", Null))) &&
      (GetOr(extra, "distance", Null) == Null || IsNumber(GetOr(extra, "distance", Null)))
    ensures r.Ok? ==> StartsWith(r.value, "\n\n**Additional Metadata**:")
  {
    var score :- ScoreLine(extra, "similarity_score", "Similarity Score", fmt4);
    var distance :- ScoreLine(extra, "distance", "Distance", fmt4);
    var lines := score + distance +
      TextLine(extra, "status_date", "Status Date") + TextLine(extra, "last_action", "Last Action") +
      TextLine(extra, "year", "Year") + TextLine(extra, "session", "Session");
    StartsWithAppend("\n\n**Additional Metadata**:", lines);
    Ok("\n\n**Additional Metadata**:" + lines)
  }

  /** `"\n**Filter Reason**: {reason}"` when the reason is truthy. */
  function ReasonLine(bill: Fields): (r: string)
    ensures r == "" <==> !Truthy(GetOr(bill, "reason", Null))
  {
    var reason := GetOr(bill, "reason", Null);
    if Truthy(reason) then "\n**Filter Reason**: " + PyStr(reason) else ""
  }

  /** What follows the three lines: the reason line, then the metadata
      block when `extra_metadata` (default `{}`) is truthy, which needs it to
      be a dict. */
  function Details(bill: Fields, fmt4: real -> string): (r: Result<string>)
    ensures var extra := GetOr(bill, "extra_metadata", Obj([]));
      !Truthy(extra) ==> r == Ok(ReasonLine(bill))
    ensures var extra := GetOr(bill, "extra_metadata", Obj([]));
      Truthy(extra) && r.Ok? ==>
        extra.Obj? && Metadata(extra.fields, fmt4).Ok? && r.value == ReasonLine(bill) + Metadata(extra.fields, fmt4).value
  {
    var extra := GetOr(bill, "extra_metadata", Obj([]));
    if !Truthy(extra) then Ok(ReasonLine(bill))
    else if !extra.Obj? then Err(AttributeError("'" + TypeName(extra) + "' object has no attribute 'get'"))
    else
      var block :- Metadata(extra.fields, fmt4);
      Ok(ReasonLine(bill) + block)
  }

  /** `format_bill_for_analysis(bill)`; `fmt4` is the `:.4f` formatting of
      a number. */
  function FormatBill(bill: Json, fmt4: real -> string): (r: Result<string>)
    ensures r.Ok? ==> bill.Obj? && HasKey(bill.fields, "bill_number") && HasKey(bill.fields, "title") && HasKey(bill.fields, "url")
    ensures r.Ok? ==> StartsWith(r.value,
      AnalysisLoop.Header(GetOr(bill.fields, "bill_number", Null), GetOr(bill.fields, "title", Null), GetOr(bill.fields, "url", Null)))
  {
    var number :- Index(bill, "bill_number");
    var title :- Index(bill, "title");
    var url :- Index(bill, "url");
    var details :- Details(bill.fields, fmt4);
    StartsWithAppend(AnalysisLoop.Header(number, title, url), details);
    Ok(AnalysisLoop.Header(number, title, url) + details)
  }

  /** A truthy `extra_metadata` that is not a dict raises AttributeError; a
      score or a distance that is not a number raises as `:.4f` does. */
  lemma FormatErrors(bill: Fields, fmt4: real -> string)
    requires HasKey(bill, "bill_number") && HasKey(bill, "title") && HasKey(bill, "url")
    ensures var extra := GetOr(bill, "extra_metadata", Obj([]));
      FormatBill(Obj(bill), fmt4).Err? <==>
        Truthy(extra) && (!extra.Obj? || Metadata(extra.fields, fmt4).Err?)
  {
  }

  // ---------------------------------------------------------------------
  // The test selection

  /** `'pediatric hospice' in title_lower or 'pediatric hospice' in
      reason_lower`, both lowered before either is tested. */
  function PediatricHospice(bill: Json): Result<bool> {
    var title :- Index(bill, "title");
    var titleLower :- LowerOf(title);
    var reasonLower :- LowerOf(GetOr(bill.fields, "reason", Str("")));
    Ok(HasSubstring(titleLower, "pediatric hospice") || HasSubstring(reasonLower, "pediatric hospice"))
  }

  function Palliative(bill: Json): Result<bool> {
    var title :- Index(bill, "title");
    var titleLower :- LowerOf(title);
    Ok(HasSubstring(titleLower, "palliative"))
  }

  function Pain(bill: Json): Result<bool> {
    var reasonLower :- LowerOf(if bill.Obj? then GetOr(bill.fields, "reason", Str("")) else Null);
    Ok(HasSubstring(reasonLower, "pain medication") || HasSubstring(reasonLower, "pain management"))
  }

  /** The four passes of `select_test_bills`: the pain pass lowers the
      reason before its `not in selected` check. */
  function Tiers(): (r: seq<TestSelection.Tier>)
    ensures |r| == 4
  {
    [TestSelection.Tier(false, false, PediatricHospice),
     TestSelection.Tier(true, false, Palliative),
     TestSelection.Tier(true, true, Pain),
     TestSelection.Tier(true, false, TestSelection.Any)]
  }

  /** A bill every pass can test: a dict with a str title and, if any, a
      str reason. */
  predicate Testable(bill: Json) {
    bill.Obj? && GetOr(bill.fields, "title", Null).Str? && GetOr(bill.fields, "reason", Str("")).Str?
  }

  lemma TiersAnswer(bill: Json)
    requires Testable(bill)
    ensures forall t :: 0 <= t < 4 ==> Tiers()[t].test(bill).Ok?
    ensures Tiers()[3].test(bill) == Ok(true)
  {
    assert HasKey(bill.fields, "title");
  }

  /** This script's `select_test_bills(bills, count)`: the shared selection
      over this script's four passes (`Tiers`: pediatric hospice, palliative,
      pain, any bill), which read a missing `reason` as "".
      run_analysis_pass.py defines its own copy with six passes that need
      `reason` (`RunAnalysisPass.SelectTestBills`). */
  function SelectTestBills(bills: seq<Json>, count: int): (r: Result<seq<Json>>)
    ensures r.Ok? ==> |r.value| <= TestSelection.Max0(count) && forall x :: x in r.value ==> x in bills
  {
    TestSelection.SelectBounded(Tiers(), bills, count);
    TestSelection.Select(Tiers(), bills, count)
  }

  /** On distinct testable bills the selection is the bills grouped by the
      first pass that accepts them, in input order within a group, cut to
      `count`; it has no duplicates and `min(count, len(bills))` bills. */
  lemma SelectionByPriority(bills: seq<Json>, count: int)
    requires TestSelection.Distinct(bills) && forall b :: b in bills ==> Testable(b)
    ensures SelectTestBills(bills, count) ==
      Ok(TestSelection.Take(TestSelection.Grouped(bills, Tiers(), 4), count))
    ensures var r := SelectTestBills(bills, count).value;
      |r| == (if count <= 0 then 0 else if count < |bills| then count else |bills|) &&
      TestSelection.Distinct(r)
  {
    forall b | b in bills
      ensures forall t :: 0 <= t < 4 ==> Tiers()[t].test(b).Ok?
      ensures Tiers()[3].test(b) == Ok(true)
    {
      TiersAnswer(b);
    }
    var tiers := Tiers();
    assert TestSelection.Settled(tiers, bills);
    TestSelection.SelectIsGrouping(tiers, bills, count);
    TestSelection.FullSelection(tiers, bills, count);
  }

  /** A bill whose title mentions pediatric hospice comes before every bill
      that only the later passes accept. */
  lemma PediatricHospiceFirst(bill: Json)
    requires Testable(bill) && HasSubstring(Lower(GetOr(bill.fields, "title", Null).s), "pediatric hospice")
    ensures TestSelection.Priority(bill, Tiers()) == 0
  {
    assert HasKey(bill.fields, "title");
  }

  // ---------------------------------------------------------------------
  // The analysis loop

  /** `{'bill_number': ..., 'title': ..., 'url': ..., 'reason': bill.get('reason')}` */
  function BillSummary(bill: Json): Fields {
    var fs := if bill.Obj? then bill.fields else [];
    [("bill_number", GetOr(fs, "bill_number", Null)), ("title", GetOr(fs, "title", Null)),
     ("url", GetOr(fs, "url", Null)), ("reason", GetOr(fs, "reason", Null))]
  }

  /** The `bill` of a filed result: the summary, plus `extra_metadata` when
      the bill's is truthy. */
  function Record(bill: Json): (r: Json)
    ensures r.Obj? && |r.fields| >= 4 && r.fields[..4] == BillSummary(bill)
    ensures |r.fields| == 5 <==> bill.Obj? && Truthy(GetOr(bill.fields, "extra_metadata", Null))
    ensures |r.fields| == 5 ==> r.fields[4] == ("extra_metadata", GetOr(bill.fields, "extra_metadata", Null))
  {
    var extra := if bill.Obj? then GetOr(bill.fields, "extra_metadata", Null) else Null;
    if Truthy(extra) then Obj(BillSummary(bill) + [("extra_metadata", extra)]) else Obj(BillSummary(bill))
  }

  /** The script's parts of the shared loop. */
  function Script(fmt4: real -> string): AnalysisLoop.Script {
    AnalysisLoop.Script(bill => FormatBill(bill, fmt4), Record, bill => Obj(BillSummary(bill)))
  }

  /** The bills the loop goes over. */
  function BillsToProcess(testMode: bool, testCount: int, bills: seq<Json>): Result<seq<Json>> {
    if testMode then SelectTestBills(bills, testCount) else Ok(bills)
  }

  /** The keyword arguments the script passes to `AIAnalysisPass`. */
  const AnalyzerKeywords: seq<string> :=
    ["api_key", "model", "temperature", "max_tokens", "timeout", "legiscan_api_key", "api_delay"]

  /** The script as written: after the set-up it constructs the analyzer
      with `AnalyzerKeywords`, and only then runs the loop. */
  function RunAsWritten(env: Env, bills: seq<Json>, sourceFile: string -> Result<Json>, analyze: AnalysisLoop.Analyzer,
                        fmt4: real -> string): Result<(seq<Json>, seq<Json>)>
  {
    var setup :- Setup(env, bills, sourceFile);
    var _ :- AiAnalysisPass.BindKeywords(AnalyzerKeywords);
    AnalysisLoop.Loop(Script(fmt4), AnalysisLoop.Attempts(Script(fmt4), setup.0, analyze), setup.1)
  }

  /** The constructor takes neither `timeout` nor `api_delay`: binding the
      script's keywords raises at the first of them. */
  lemma TimeoutRejected()
    ensures AiAnalysisPass.BindKeywords(AnalyzerKeywords) == Err(AiAnalysisPass.UnexpectedKeyword("timeout"))
  {
    var ks := AnalyzerKeywords;
    var ps := AiAnalysisPass.InitParameters;
    assert ks[0] == ps[0] && ks[1] == ps[4] && ks[2] == ps[5] && ks[3] == ps[6];
    assert ks[4] !in ps;
  }

  /** As written, the script never writes its result files: once the
      set-up succeeds the constructor raises TypeError for `timeout`, and
      every run the corrected script completes is such a run. */
  lemma AsWrittenNeverAnalyzes(env: Env, bills: seq<Json>, sourceFile: string -> Result<Json>, analyze: AnalysisLoop.Analyzer,
                               fmt4: real -> string)
    ensures RunAsWritten(env, bills, sourceFile, analyze, fmt4).Err?
    ensures Setup(env, bills, sourceFile).Ok? ==>
      RunAsWritten(env, bills, sourceFile, analyze, fmt4) == Err(AiAnalysisPass.UnexpectedKeyword("timeout"))
    ensures Run(env, bills, sourceFile, analyze, fmt4).Ok? ==>
      RunAsWritten(env, bills, sourceFile, analyze, fmt4) == Err(AiAnalysisPass.UnexpectedKeyword("timeout"))
  {
    TimeoutRejected();
  }

  /** The corrected script: the analyzer is built with the keywords its
      constructor takes (no `timeout`, no `api_delay`). The two result
      lists, from the environment, the normalized bills, the parsed source
      bills file (a function of its path, so that a missing file raises)
      and the analysis. */
  function Run(env: Env, bills: seq<Json>, sourceFile: string -> Result<Json>, analyze: AnalysisLoop.Analyzer,
               fmt4: real -> string): Result<(seq<Json>, seq<Json>)>
  {
    var setup :- Setup(env, bills, sourceFile);
    AnalysisLoop.Loop(Script(fmt4), AnalysisLoop.Attempts(Script(fmt4), setup.0, analyze), setup.1)
  }

  /** The corrected script to its end: the two result lists it writes, if
      it gets that far, and how it ends. The summary logged after the
      writes can still raise, so a run can fail with its files written. */
  function Main(env: Env, bills: seq<Json>, sourceFile: string -> Result<Json>, analyze: AnalysisLoop.Analyzer,
                fmt4: real -> string): (r: (Option<(seq<Json>, seq<Json>)>, Result<()>))
    ensures var run := Run(env, bills, sourceFile, analyze, fmt4);
      r.0 == (if run.Ok? then Some(run.value) else None) && (run.Err? ==> r.1 == Err(run.exc))
  {
    var setup := Setup(env, bills, sourceFile);
    if setup.Err? then (None, Err(setup.exc))
    else
      var lists := AnalysisLoop.Loop(Script(fmt4), AnalysisLoop.Attempts(Script(fmt4), setup.value.0, analyze), setup.value.1);
      if lists.Err? then (None, Err(lists.exc))
      else (Some(lists.value), AnalysisLoop.Summary(|setup.value.1|, lists.value.0, lists.value.1))
  }

  /** In test mode with a count of zero or less, a set-up that succeeds
      selects no bill: two empty result files are written, and then the
      summary's percentage divides by zero. */
  lemma ZeroTestCountFailsAfterWrite(env: Env, bills: seq<Json>, sourceFile: string -> Result<Json>, analyze: AnalysisLoop.Analyzer,
                                     fmt4: real -> string)
    requires TestSelection.Settings(env).Ok? && TestSelection.Settings(env).value.0 && TestSelection.Settings(env).value.1 <= 0
    requires Setup(env, bills, sourceFile).Ok?
    ensures Main(env, bills, sourceFile, analyze, fmt4) == (Some(([], [])), Err(AnalysisLoop.DivisionByZero))
  {
    var settings := TestSelection.Settings(env).value;
    assert BillsToProcess(settings.0, settings.1, bills).Ok?;
    assert Setup(env, bills, sourceFile).value.1 == [];
  }

  /** A relevant analysis with null `categories` files its bill and is
      written out, and then the summary's `extend(None)` raises TypeError
      (the display has already filed the bill a second time). */
  lemma NullCategoriesFailsAfterWrite(env: Env, bills: seq<Json>, sourceFile: string -> Result<Json>, analyze: AnalysisLoop.Analyzer,
                                      fmt4: real -> string, bill: Json)
    requires var setup := Setup(env, bills, sourceFile);
      setup.Ok? && setup.value.1 == [bill] && AnalysisLoop.Heading(bill).Ok? &&
      var a := AnalysisLoop.Try(Script(fmt4), setup.value.0, analyze, bill);
      a.Filed? && AnalysisLoop.IsRelevant(a.analysis) && !HasKey(a.analysis, "error") &&
      GetOr(a.analysis, "categories", Arr([])) == Null
    ensures var r := Main(env, bills, sourceFile, analyze, fmt4);
      r.0.Some? && r.1 == Err(TypeError("'NoneType' object is not iterable"))
  {
    var setup := Setup(env, bills, sourceFile).value;
    AnalysisLoop.NullCategoriesStopSummary(Script(fmt4), setup.0, analyze, bill);
  }

  /** Steps 1 to 5: the settings, the key check, the source file, the
      lookup, the bills to process and their preview. */
  function Setup(env: Env, bills: seq<Json>, sourceFile: string -> Result<Json>): Result<(map<Json, Json>, seq<Json>)> {
    var settings :- TestSelection.Settings(env);
    var apiKey := GetEnv(env, "PORTKEY_API_KEY").GetOr("");
    if apiKey == "" then Err(SystemExit(1))
    else
      var path :- SourceFor(bills);
      var source :- sourceFile(path);
      var sourceBills :- Iter(source);
      var lookup :- BillsByNumber(sourceBills);
      var toProcess :- BillsToProcess(settings.0, settings.1, bills);
      var _ :- AnalysisLoop.Preview(Arr(toProcess));
      Ok((lookup, toProcess))
  }

  /** The preview before the loop slices the title of each of the first
      ten bills: outside test mode a first bill whose title is None stops
      the script with TypeError. */
  lemma NullTitleStopsSetup(env: Env, bill: Json, rest: seq<Json>, sourceFile: string -> Result<Json>)
    requires TestSelection.Settings(env).Ok? && !TestSelection.Settings(env).value.0
    requires bill.Obj? && HasKey(bill.fields, "bill_number") && Lookup(bill.fields, "title") == Some(Null)
    ensures Setup(env, [bill] + rest, sourceFile).Err?
  {
    var bills := [bill] + rest;
    AnalysisLoop.NullTitleStopsPreview(bill, rest);
    var settings := TestSelection.Settings(env).value;
    assert BillsToProcess(settings.0, settings.1, bills) == Ok(bills);
  }

  /** Without a `PORTKEY_API_KEY` the script exits with status 1 before it
      reads any bill. */
  lemma NoApiKeyExits(env: Env, bills: seq<Json>, sourceFile: string -> Result<Json>, analyze: AnalysisLoop.Analyzer,
                      fmt4: real -> string)
    requires TestSelection.Settings(env).Ok? && GetEnv(env, "PORTKEY_API_KEY").GetOr("") == ""
    ensures Run(env, bills, sourceFile, analyze, fmt4) == Err(SystemExit(1))
  {
  }

  /** A run that completes files every entry by its analysis's
      `is_relevant`, and its error count covers every exception the loop
      caught. */
  lemma RunRoutes(env: Env, bills: seq<Json>, sourceFile: string -> Result<Json>, analyze: AnalysisLoop.Analyzer,
                  fmt4: real -> string)
    requires Run(env, bills, sourceFile, analyze, fmt4).Ok?
    ensures var lists := Run(env, bills, sourceFile, analyze, fmt4).value;
      (forall x :: x in lists.0 ==> AnalysisLoop.Flagged(x)) &&
      (forall x :: x in lists.1 ==> !AnalysisLoop.Flagged(x)) &&
      AnalysisLoop.ErrorCount(lists.1).Ok?
  {
    var setup := Setup(env, bills, sourceFile).value;
    var lookup := setup.0;
    var toProcess := setup.1;
    var attempts := AnalysisLoop.Attempts(Script(fmt4), lookup, analyze);
    AnalysisLoop.FiledByRelevance(Script(fmt4), attempts, toProcess);
    AnalysisLoop.ErrorsCounted(Script(fmt4), attempts, toProcess);
  }

  /** `filter_file.stem.replace('filter_results_', 'analysis_')` */
  function OutputPrefix(stem: string): string {
    Replace(stem, "filter_results_", "analysis_")
  }

  function RelevantFile(stem: string): string {
    OutputPrefix(stem) + "_relevant.json"
  }

  function NotRelevantFile(stem: string): string {
    OutputPrefix(stem) + "_not_relevant.json"
  }

  /** A stem without `filter_results_` is kept as it is. */
  lemma PrefixWithoutPattern(stem: string)
    requires forall k: nat :: !OccursAt(stem, "filter_results_", k)
    ensures OutputPrefix(stem) == stem
  {
    assert Find(stem, "filter_results_").None?;
  }

  /** A stem starting with `filter_results_` starts with `analysis_`
      instead. */
  lemma PrefixReplacesLeading(rest: string)
    requires forall k: nat :: !OccursAt(rest, "filter_results_", k)
    ensures OutputPrefix("filter_results_" + rest) == "analysis_" + rest
  {
    var stem := "filter_results_" + rest;
    assert OccursAt(stem, "filter_results_", 0);
    assert Find(stem, "filter_results_") == Some(0);
    assert stem[15..] == rest;
    PrefixWithoutPattern(rest);
  }

  /** The two output files of a run are different files. */
  lemma OutputFilesDiffer(stem: string)
    ensures RelevantFile(stem) != NotRelevantFile(stem)
  {
    var p := OutputPrefix(stem);
    assert RelevantFile(stem)[|p|..|p| + 2] == "_r";
    assert NotRelevantFile(stem)[|p|..|p| + 2] == "_n";
  }
}

=== FILE: run_filter_pass.dfy ===
/** The filter-pass script: reads a file of bills, sends them to the
    filter in batches, sorts the answers into relevant and not relevant,
    and builds the results file. The filter call, the storage read and
    the pause between batches are parameters or recorded events. */
module RunFilterPass {
  import opened Wrappers
  import opened PyStrings
  import opened PyJson
  import opened Chunking
  import opened BillIndex

  const DefaultBatchSize: nat := 50
  const DefaultTimeout: nat := 180
  const DefaultInput: string := "ct_bills_2025"

  /** The bill record kept for one `searchresult` entry. */
  function SearchBill(v: Fields): Json {
    Obj([("bill_id", GetOr(v, "bill_id", Null)),
         ("bill_number", GetOr(v, "bill_number", Null)),
         ("title", GetOr(v, "title", Str(""))),
         ("description", GetOr(v, "description", GetOr(v, "title", Str("")))),
         ("url", GetOr(v, "url", Str("")))])
  }

  /** A kept record carries the entry's number, and its description falls
      back to the title when the entry has none. */
  lemma SearchBillFields(v: Fields)
    ensures var b := SearchBill(v).fields;
      GetOr(b, "bill_number", Null) == GetOr(v, "bill_number", Null) &&
      GetOr(b, "description", Null) ==
        (if HasKey(v, "description") then GetOr(v, "description", Null) else GetOr(v, "title", Str("")))
  {
    var b := SearchBill(v).fields;
    var tail := b[2..];
    assert b == [b[0]] + ([b[1]] + tail);
    LookupCons(b[0], [b[1]] + tail, "bill_number");
    LookupCons(b[1], tail, "bill_number");
    LookupCons(b[0], [b[1]] + tail, "description");
    LookupCons(b[1], tail, "description");
    DescriptionThird(tail);
  }

  /** The record's tail starts with the title and then the description. */
  lemma DescriptionThird(tail: Fields)
    requires |tail| == 3 && tail[0].0 == "title" && tail[1].0 == "description"
    ensures Lookup(tail, "description") == Some(tail[1].1)
  {
    assert tail == [tail[0]] + ([tail[1]] + [tail[2]]);
    LookupCons(tail[0], [tail[1]] + [tail[2]], "description");
    LookupCons(tail[1], [tail[2]], "description");
  }

  /** An entry of `searchresult` that becomes a bill: not the `summary`
      entry, and a dict with a `bill_number`. */
  predicate Kept(entry: (string, Json)) {
    entry.0 != "summary" && entry.1.Obj? && HasKey(entry.1.fields, "bill_number")
  }

  /** The bills of a `searchresult` dict, in its order. */
  function SearchBills(entries: Fields): seq<Json>
    decreases |entries|
  {
    if |entries| == 0 then []
    else
      var last := entries[|entries| - 1];
      SearchBills(entries[..|entries| - 1]) + (if Kept(last) then [SearchBill(last.1.fields)] else [])
  }

  /** The bills are exactly the records of the kept entries. */
  lemma {:induction false} SearchBillsExactly(entries: Fields)
    ensures forall b :: b in SearchBills(entries) ==>
      exists i :: 0 <= i < |entries| && Kept(entries[i]) && b == SearchBill(entries[i].1.fields)
    ensures forall i :: 0 <= i < |entries| && Kept(entries[i]) ==> SearchBill(entries[i].1.fields) in SearchBills(entries)
    ensures |SearchBills(entries)| <= |entries|
    decreases |entries|
  {
    if |entries| > 0 {
      var front := entries[..|entries| - 1];
      SearchBillsExactly(front);
      forall b | b in SearchBills(entries)
        ensures exists i :: 0 <= i < |entries| && Kept(entries[i]) && b == SearchBill(entries[i].1.fields)
      {
        if b in SearchBills(front) {
          var i :| 0 <= i < |front| && Kept(front[i]) && b == SearchBill(front[i].1.fields);
          assert entries[i] == front[i];
        } else {
          assert Kept(entries[|entries| - 1]) && b == SearchBill(entries[|entries| - 1].1.fields);
        }
      }
      forall i | 0 <= i < |entries| && Kept(entries[i])
        ensures SearchBill(entries[i].1.fields) in SearchBills(entries)
      {
        if i < |entries| - 1 {
          assert entries[i] == front[i];
        }
      }
    }
  }

  /** `parse_bills_data`: a list is the bills; a dict whose `status` is
      `OK` gives the kept entries of its `searchresult` (default `{}`),
      which must be a dict; anything else gives no bills. */
  function ParseBills(data: Json): (r: Result<seq<Json>>)
    ensures data.Arr? ==> r == Ok(data.items)
    ensures !data.Arr? && !(data.Obj? && GetOr(data.fields, "status", Null) == Str("OK")) ==> r == Ok([])
  {
    if data.Arr? then Ok(data.items)
    else if data.Obj? && GetOr(data.fields, "status", Null) == Str("OK") then
      var searchResult := GetOr(data.fields, "searchresult", Obj([]));
      if searchResult.Obj? then Ok(SearchBills(searchResult.fields))
      else Err(AttributeError("'" + TypeName(searchResult) + "' object has no attribute 'items'"))
    else Ok([])
  }

  /** `parse_bills_data` with its loop over the search results. */
  method ParseBillsData(data: Json) returns (r: Result<seq<Json>>)
    ensures r == ParseBills(data)
  {
    if data.Arr? {
      return Ok(data.items);
    }
    var bills: seq<Json> := [];
    if data.Obj? && GetOr(data.fields, "status", Null) == Str("OK") {
      var searchResult := GetOr(data.fields, "searchresult", Obj([]));
      if !searchResult.Obj? {
        return Err(AttributeError("'" + TypeName(searchResult) + "' object has no attribute 'items'"));
      }
      var entries := searchResult.fields;
      var i := 0;
      while i < |entries|
        invariant 0 <= i <= |entries|
        invariant bills == SearchBills(entries[..i])
      {
        assert entries[..i + 1][..i] == entries[..i];
        var (key, value) := entries[i];
        if key != "summary" && value.Obj? && HasKey(value.fields, "bill_number") {
          bills := bills + [SearchBill(value.fields)];
        }
        i := i + 1;
      }
      assert entries[..i] == entries;
    }
    r := Ok(bills);
  }

  /** `filter_pass.filter_batch(json.dumps(batch))`: the reply to one
      batch of bills. */
  type FilterBatch = seq<Json> -> Result<Json>

  /** Whether the display loop of a batch gets through a result: it must
      be a dict; for a relevant one, its identifier must be hashable, the
      bill found for it (default `{'title': 'Unknown'}`) must have a
      sliceable `title`, and the reason must be sliceable. */
  predicate Displayable(result: Json, index: map<Json, Json>) {
    result.Obj? &&
    var number := GetOr(result.fields, "bill_identifier", Str("Unknown"));
    var reason := GetOr(result.fields, "reason", Str("No reason provided"));
    (Truthy(GetOr(result.fields, "relevant", Bool(false))) ==>
      Hashable(number) &&
      var bill := if number in index then index[number] else Obj([("title", Str("Unknown"))]);
      bill.Obj? && HasKey(bill.fields, "title") && Sliceable(GetOr(bill.fields, "title", Null)) && Sliceable(reason))
  }

  predicate Sliceable(j: Json) {
    j.Str? || j.Arr?
  }

  /** One batch inside its `try`: the reply's `results` (default `[]`),
      which must have a length and be iterable, and must get through the
      display loop. A failing batch's error is only logged, so its message
      is not kept. */
  function BatchResults(batch: seq<Json>, filterBatch: FilterBatch, index: map<Json, Json>): Result<seq<Json>> {
    var reply :- filterBatch(batch);
    var results :- Get(reply, "results", Arr([]));
    var _ :- Len(results);
    var list := Iter(results).value;
    if AllDisplayable(list, index) then Ok(list)
    else Err(TypeError("a result the display loop cannot show"))
  }

  /** The display loop over a batch's results. */
  predicate AllDisplayable(results: seq<Json>, index: map<Json, Json>)
    decreases |results|
  {
    |results| == 0 ||
    (AllDisplayable(results[..|results| - 1], index) && Displayable(results[|results| - 1], index))
  }

  lemma {:induction false} AllDisplayableEach(results: seq<Json>, index: map<Json, Json>)
    ensures AllDisplayable(results, index) <==> forall x :: x in results ==> Displayable(x, index)
    decreases |results|
  {
    if |results| > 0 {
      var front := results[..|results| - 1];
      AllDisplayableEach(front, index);
      assert results == front + [results[|results| - 1]];
    }
  }

  /** A batch's results all got through the display loop. */
  lemma BatchResultsDisplayable(batch: seq<Json>, filterBatch: FilterBatch, index: map<Json, Json>)
    ensures var r := BatchResults(batch, filterBatch, index);
      r.Ok? ==> forall x :: x in r.value ==> Displayable(x, index)
  {
    var r := BatchResults(batch, filterBatch, index);
    if r.Ok? {
      AllDisplayableEach(r.value, index);
    }
  }

  /** What a batch adds to `all_results`: its results, or nothing when it
      raised. */
  function Added(outcome: Result<seq<Json>>): seq<Json> {
    if outcome.Ok? then outcome.value else []
  }

  /** `all_results` after the first `k` batches. */
  function AllResults(bills: seq<Json>, size: nat, filterBatch: FilterBatch, index: map<Json, Json>, k: nat): seq<Json>
    requires size > 0 && k <= NumChunks(|bills|, size)
  {
    if k == 0 then []
    else AllResults(bills, size, filterBatch, index, k - 1) + Added(BatchResults(Chunk(bills, size, k - 1), filterBatch, index))
  }

  /** Whether batch `j` got through its `try`. */
  predicate BatchSucceeds(bills: seq<Json>, size: nat, filterBatch: FilterBatch, index: map<Json, Json>, j: nat)
    requires size > 0 && j < NumChunks(|bills|, size)
  {
    BatchResults(Chunk(bills, size, j), filterBatch, index).Ok?
  }

  /** The batches after which the loop pauses, among the first `k`: those
      that succeeded and are not the last. */
  function Pauses(bills: seq<Json>, size: nat, filterBatch: FilterBatch, index: map<Json, Json>, k: nat): seq<nat>
    requires size > 0 && k <= NumChunks(|bills|, size)
  {
    PausesAfter(Succeeded(bills, size, filterBatch, index), NumChunks(|bills|, size), k)
  }

  /** Which batches got through their `try`. */
  function Succeeded(bills: seq<Json>, size: nat, filterBatch: FilterBatch, index: map<Json, Json>): nat -> bool
    requires size > 0
  {
    (j: nat) => j < NumChunks(|bills|, size) && BatchSucceeds(bills, size, filterBatch, index, j)
  }

  /** The pauses among the first `k` of `n` batches, given which succeeded. */
  function PausesAfter(ok: nat -> bool, n: nat, k: nat): seq<nat> {
    if k == 0 then [] else PausesAfter(ok, n, k - 1) + (if ok(k - 1) && k - 1 < n - 1 then [k - 1] else [])
  }

  lemma {:induction false} PauseAfterAt(ok: nat -> bool, n: nat, k: nat, i: nat)
    requires i < |PausesAfter(ok, n, k)|
    ensures var p := PausesAfter(ok, n, k);
      p[i] < k && p[i] < n - 1 && ok(p[i]) && (i > 0 ==> p[i - 1] < p[i])
  {
    var q := PausesAfter(ok, n, k - 1);
    var p := PausesAfter(ok, n, k);
    assert p[..|q|] == q;
    if i < |q| {
      PauseAfterAt(ok, n, k - 1, i);
      assert p[i] == q[i];
      if i > 0 {
        assert p[i - 1] == q[i - 1];
      }
    } else {
      assert p[i] == k - 1;
      if i > 0 {
        PauseAfterAt(ok, n, k - 1, i - 1);
        assert p[i - 1] == q[i - 1];
      }
    }
  }

  /** Pause `i` among the first `k` batches comes after a batch that
      succeeded and is not the last, and after pause `i - 1`. */
  lemma PauseAt(bills: seq<Json>, size: nat, filterBatch: FilterBatch, index: map<Json, Json>, k: nat, i: nat)
    requires size > 0 && k <= NumChunks(|bills|, size)
    requires i < |Pauses(bills, size, filterBatch, index, k)|
    ensures var p := Pauses(bills, size, filterBatch, index, k);
      p[i] < k && p[i] < NumChunks(|bills|, size) - 1 && BatchSucceeds(bills, size, filterBatch, index, p[i]) &&
      (i > 0 ==> p[i - 1] < p[i])
  {
    PauseAfterAt(Succeeded(bills, size, filterBatch, index), NumChunks(|bills|, size), k, i);
  }

  /** The pauses are in increasing order, each after a batch that
      succeeded, and never after the last batch. */
  lemma PausesBetweenBatches(bills: seq<Json>, size: nat, filterBatch: FilterBatch, index: map<Json, Json>, k: nat)
    requires size > 0 && k <= NumChunks(|bills|, size)
    ensures var p := Pauses(bills, size, filterBatch, index, k);
      forall i :: 0 <= i < |p| ==> p[i] < k && p[i] < NumChunks(|bills|, size) - 1 &&
                                   BatchSucceeds(bills, size, filterBatch, index, p[i]) &&
                                   (i > 0 ==> p[i - 1] < p[i])
  {
    var p := Pauses(bills, size, filterBatch, index, k);
    forall i | 0 <= i < |p|
      ensures p[i] < k && p[i] < NumChunks(|bills|, size) - 1 && BatchSucceeds(bills, size, filterBatch, index, p[i]) &&
              (i > 0 ==> p[i - 1] < p[i])
    {
      PauseAt(bills, size, filterBatch, index, k, i);
    }
  }

  /** The last batch is never followed by a pause. */
  lemma NoPauseAfterLastBatch(bills: seq<Json>, size: nat, filterBatch: FilterBatch, index: map<Json, Json>)
    requires size > 0 && |bills| > 0
    ensures NumChunks(|bills|, size) - 1 !in Pauses(bills, size, filterBatch, index, NumChunks(|bills|, size))
  {
    PausesBetweenBatches(bills, size, filterBatch, index, NumChunks(|bills|, size));
  }

  /** Every result gathered got through the display loop. */
  lemma {:induction false} AllResultsDisplayable(bills: seq<Json>, size: nat, filterBatch: FilterBatch, index: map<Json, Json>, k: nat)
    requires size > 0 && k <= NumChunks(|bills|, size)
    ensures forall x :: x in AllResults(bills, size, filterBatch, index, k) ==> Displayable(x, index)
  {
    if k > 0 {
      AllResultsDisplayable(bills, size, filterBatch, index, k - 1);
      BatchResultsDisplayable(Chunk(bills, size, k - 1), filterBatch, index);
    }
  }

  /** The batch loop: batch `i` is `bills[i*size : min(i*size + size, n)]`;
      a batch that raises is skipped; the loop pauses after each successful
      batch but the last. */
  method RunBatches(bills: seq<Json>, batchSize: nat, filterBatch: FilterBatch, index: map<Json, Json>)
    returns (allResults: seq<Json>, pauses: seq<nat>)
    requires batchSize > 0
    ensures allResults == AllResults(bills, batchSize, filterBatch, index, NumChunks(|bills|, batchSize))
    ensures pauses == Pauses(bills, batchSize, filterBatch, index, NumChunks(|bills|, batchSize))
  {
    var numBatches := NumChunks(|bills|, batchSize);
    allResults := [];
    pauses := [];
    var batchNum: nat := 0;
    while batchNum < numBatches
      invariant batchNum <= numBatches
      invariant allResults == AllResults(bills, batchSize, filterBatch, index, batchNum)
      invariant pauses == Pauses(bills, batchSize, filterBatch, index, batchNum)
    {
      allResults, pauses := NextBatch(bills, batchSize, batchNum, filterBatch, index, allResults, pauses);
      batchNum := batchNum + 1;
    }
    assert batchNum == numBatches;
  }

  /** One turn of the batch loop: the batch's results are added, and a
      pause follows a successful batch that is not the last. */
  method NextBatch(bills: seq<Json>, batchSize: nat, batchNum: nat, filterBatch: FilterBatch, index: map<Json, Json>,
                   results: seq<Json>, paused: seq<nat>) returns (allResults: seq<Json>, pauses: seq<nat>)
    requires batchSize > 0 && batchNum < NumChunks(|bills|, batchSize)
    requires results == AllResults(bills, batchSize, filterBatch, index, batchNum)
    requires paused == Pauses(bills, batchSize, filterBatch, index, batchNum)
    ensures allResults == AllResults(bills, batchSize, filterBatch, index, batchNum + 1)
    ensures pauses == Pauses(bills, batchSize, filterBatch, index, batchNum + 1)
  {
    allResults, pauses := results, paused;
    var outcome := ProcessBatch(bills, batchSize, batchNum, filterBatch, index);
    BatchStep(bills, batchSize, filterBatch, index, batchNum, outcome);
    if outcome.Ok? {
      allResults := allResults + outcome.value;
      if batchNum < NumChunks(|bills|, batchSize) - 1 {
        pauses := pauses + [batchNum];
      }
    }
  }

  /** What one more batch adds to the gathered results and to the pauses. */
  lemma BatchStep(bills: seq<Json>, size: nat, filterBatch: FilterBatch, index: map<Json, Json>, k: nat,
                  outcome: Result<seq<Json>>)
    requires size > 0 && k < NumChunks(|bills|, size)
    requires outcome == BatchResults(Chunk(bills, size, k), filterBatch, index)
    ensures AllResults(bills, size, filterBatch, index, k + 1) == AllResults(bills, size, filterBatch, index, k) + Added(outcome)
    ensures Pauses(bills, size, filterBatch, index, k + 1) ==
      Pauses(bills, size, filterBatch, index, k) + (if outcome.Ok? && k < NumChunks(|bills|, size) - 1 then [k] else [])
  {
    assert outcome.Ok? == BatchSucceeds(bills, size, filterBatch, index, k);
  }

  /** One turn of the batch loop: the slice bounds of batch `batchNum`, and
      the batch sent. */
  method ProcessBatch(bills: seq<Json>, batchSize: nat, batchNum: nat, filterBatch: FilterBatch, index: map<Json, Json>)
    returns (outcome: Result<seq<Json>>)
    requires batchSize > 0 && batchNum < NumChunks(|bills|, batchSize)
    ensures outcome == BatchResults(Chunk(bills, batchSize, batchNum), filterBatch, index)
  {
    var startIdx := batchNum * batchSize;
    ChunkIsSlice(bills, batchSize, batchNum);
    var endIdx := Min(startIdx + batchSize, |bills|);
    var batchBills := bills[startIdx..endIdx];
    outcome := BatchResults(batchBills, filterBatch, index);
  }

  /** Batch `i` is the slice between its bounds. */
  lemma ChunkIsSlice(bills: seq<Json>, size: nat, i: nat)
    requires size > 0 && i < NumChunks(|bills|, size)
    ensures i * size <= Min(i * size + size, |bills|) <= |bills|
    ensures Chunk(bills, size, i) == bills[i * size..Min(i * size + size, |bills|)]
  {
    ChunkBounds(|bills|, size, i);
  }

  /** The bill filed under an unknown identifier. */
  function Placeholder(number: Json): Json {
    Obj([("bill_number", number), ("title", Str("Unknown")), ("url", Str("N/A"))])
  }

  /** `{'bill': bill, 'reason': reason}` for one result: the bill from the
      index, or the placeholder. */
  function ResultItem(result: Fields, index: map<Json, Json>): (r: Result<Json>)
    ensures r.Ok? ==> r.value.Obj?
  {
    var number := GetOr(result, "bill_identifier", Str("Unknown"));
    if !Hashable(number) then Err(TypeError("unhashable type: '" + TypeName(number) + "'"))
    else
      var bill := if number in index then index[number] else Placeholder(number);
      Ok(Obj([("bill", bill), ("reason", GetOr(result, "reason", Str("No reason provided")))]))
  }

  predicate IsRelevant(result: Json)
    requires result.Obj?
  {
    Truthy(GetOr(result.fields, "relevant", Bool(false)))
  }

  /** The organizing loop: each result's item goes to the relevant list
      when its `relevant` (default False) is truthy, else to the other. */
  function Partition(results: seq<Json>, index: map<Json, Json>): (r: Result<(seq<Json>, seq<Json>)>)
    decreases |results|
  {
    if |results| == 0 then Ok(([], []))
    else
      var lists :- Partition(results[..|results| - 1], index);
      var last := results[|results| - 1];
      if !last.Obj? then Err(AttributeError("'" + TypeName(last) + "' object has no attribute 'get'"))
      else
        var item :- ResultItem(last.fields, index);
        if IsRelevant(last) then Ok((lists.0 + [item], lists.1)) else Ok((lists.0, lists.1 + [item]))
  }

  /** How many results are relevant. */
  function RelevantCount(results: seq<Json>): nat
    requires forall x :: x in results ==> x.Obj?
    decreases |results|
  {
    if |results| == 0 then 0
    else
      assert results[|results| - 1] in results;
      RelevantCount(results[..|results| - 1]) + if IsRelevant(results[|results| - 1]) then 1 else 0
  }

  /** Every result lands in exactly one list: the relevant list holds one
      item per relevant result, the other one per remaining result. */
  lemma {:induction false} PartitionCounts(results: seq<Json>, index: map<Json, Json>)
    requires Partition(results, index).Ok?
    ensures forall x :: x in results ==> x.Obj?
    ensures var lists := Partition(results, index).value;
      |lists.0| == RelevantCount(results) && |lists.0| + |lists.1| == |results|
    decreases |results|
  {
    if |results| > 0 {
      var front := results[..|results| - 1];
      PartitionCounts(front, index);
      assert forall x :: x in results ==> x in front || x == results[|results| - 1];
    }
  }

  /** Results whose identifiers are hashable are always organized. */
  lemma {:induction false} PartitionSucceeds(results: seq<Json>, index: map<Json, Json>)
    requires forall x :: x in results ==> x.Obj? && Hashable(GetOr(x.fields, "bill_identifier", Str("Unknown")))
    ensures Partition(results, index).Ok?
    decreases |results|
  {
    if |results| > 0 {
      assert results[|results| - 1] in results;
      PartitionSucceeds(results[..|results| - 1], index);
    }
  }

  /** The organizing loop, appending to the two lists. */
  method OrganizeResults(allResults: seq<Json>, index: map<Json, Json>) returns (r: Result<(seq<Json>, seq<Json>)>)
    ensures r == Partition(allResults, index)
  {
    var relevantBills: seq<Json> := [];
    var notRelevantBills: seq<Json> := [];
    var i := 0;
    while i < |allResults|
      invariant 0 <= i <= |allResults|
      invariant Partition(allResults[..i], index) == Ok((relevantBills, notRelevantBills))
    {
      assert allResults[..i + 1][..i] == allResults[..i];
      var result := allResults[i];
      if !result.Obj? {
        PartitionStops(allResults, index, i + 1);
        return Err(AttributeError("'" + TypeName(result) + "' object has no attribute 'get'"));
      }
      var item := ResultItem(result.fields, index);
      if item.Err? {
        PartitionStops(allResults, index, i + 1);
        return Err(item.exc);
      }
      if Truthy(GetOr(result.fields, "relevant", Bool(false))) {
        relevantBills := relevantBills + [item.value];
      } else {
        notRelevantBills := notRelevantBills + [item.value];
      }
      i := i + 1;
    }
    assert allResults[..i] == allResults;
    r := Ok((relevantBills, notRelevantBills));
  }

  lemma {:induction false} PartitionStops(results: seq<Json>, index: map<Json, Json>, n: nat)
    requires n <= |results| && Partition(results[..n], index).Err?
    ensures Partition(results, index) == Partition(results[..n], index)
    decreases |results|
  {
    if |results| > n {
      assert results[..|results| - 1][..n] == results[..n];
      PartitionStops(results[..|results| - 1], index, n);
    } else {
      assert results[..n] == results;
    }
  }

  /** One entry of the saved lists: the bill's number and title (both
      required), its url (default `N/A`) and the reason. */
  function OutputEntry(item: Json): Result<Json> {
    var bill :- Index(item, "bill");
    var number :- Index(bill, "bill_number");
    var title :- Index(bill, "title");
    var url := GetOr(bill.fields, "url", Str("N/A"));
    var reason :- Index(item, "reason");
    Ok(Obj([("bill_number", number), ("title", title), ("url", url), ("reason", reason)]))
  }

  /** The saved results: the summary, then the two lists. */
  function OutputData(total: nat, relevant: seq<Json>, notRelevant: seq<Json>, sourceFile: string): Result<Json> {
    var relevantEntries :- MapAll(OutputEntry, relevant);
    var notRelevantEntries :- MapAll(OutputEntry, notRelevant);
    Ok(Obj([("summary", Obj([("total_analyzed", Int(total)),
                             ("relevant_count", Int(|relevant|)),
                             ("not_relevant_count", Int(|notRelevant|)),
                             ("source_file", Str(sourceFile))])),
            ("relevant_bills", Arr(relevantEntries)),
            ("not_relevant_bills", Arr(notRelevantEntries))]))
  }

  /** The saved summary records the three counts it is given. */
  lemma SummaryCounts(total: nat, relevant: seq<Json>, notRelevant: seq<Json>, sourceFile: string)
    requires OutputData(total, relevant, notRelevant, sourceFile).Ok?
    ensures var out := OutputData(total, relevant, notRelevant, sourceFile).value;
      out.Obj? && GetOr(out.fields, "summary", Null).Obj? &&
      var s := GetOr(out.fields, "summary", Null).fields;
      GetOr(s, "total_analyzed", Null) == Int(total) &&
      GetOr(s, "relevant_count", Null) == Int(|relevant|) &&
      GetOr(s, "not_relevant_count", Null) == Int(|notRelevant|)
  {
    var fs := OutputData(total, relevant, notRelevant, sourceFile).value.fields;
    LookupCons(fs[0], fs[1..], "summary");
    var s := fs[0].1.fields;
    var s3 := [s[3]];
    var s2 := [s[2]] + s3;
    var s1 := [s[1]] + s2;
    assert s == [s[0]] + s1;
    LookupCons(s[0], s1, "total_analyzed");
    LookupCons(s[0], s1, "relevant_count");
    LookupCons(s[1], s2, "relevant_count");
    LookupCons(s[0], s1, "not_relevant_count");
    LookupCons(s[1], s2, "not_relevant_count");
    LookupCons(s[2], s3, "not_relevant_count");
  }

  /** The summary's counts add up: everything analyzed is relevant or not. */
  lemma SummaryAddsUp(results: seq<Json>, index: map<Json, Json>, sourceFile: string)
    requires Partition(results, index).Ok?
    ensures forall x :: x in results ==> x.Obj?
    ensures var lists := Partition(results, index).value;
      var out := OutputData(|results|, lists.0, lists.1, sourceFile);
      out.Ok? ==>
        out.value.Obj? && GetOr(out.value.fields, "summary", Null).Obj? &&
        var s := GetOr(out.value.fields, "summary", Null).fields;
        GetOr(s, "total_analyzed", Null) == Int(|results|) &&
        GetOr(s, "relevant_count", Null) == Int(RelevantCount(results)) &&
        GetOr(s, "not_relevant_count", Null) == Int(|results| - RelevantCount(results))
  {
    PartitionCounts(results, index);
    var lists := Partition(results, index).value;
    if OutputData(|results|, lists.0, lists.1, sourceFile).Ok? {
      SummaryCounts(|results|, lists.0, lists.1, sourceFile);
    }
  }

  /** The input name with one trailing `.json` removed. */
  function InputName(arg: Option<string>): (r: string)
    ensures arg.None? ==> r == DefaultInput
    ensures arg.Some? && EndsWith(arg.value, ".json") ==> r + ".json" == arg.value
    ensures arg.Some? && !EndsWith(arg.value, ".json") ==> r == arg.value
  {
    DropSuffix(arg.GetOr(DefaultInput), ".json")
  }

  /** How a run ends: stopped early with a message, or with the results
      to save under the input's name. */
  datatype Outcome = Stopped(message: string) | Finished(name: string, output: Json, pauses: seq<nat>)

  /** `main` from the API key on: the key must be set; the bills are read
      (`load`) and parsed; an empty file stops the run; the batches, the
      organizing loop and the saved results follow. An exception the
      script does not catch ends it with that exception. */
  function FilterPass(arg: Option<string>, apiKey: Option<string>, load: string -> Result<Json>,
                      batchSize: nat, filterBatch: FilterBatch): Result<Outcome>
    requires batchSize > 0
  {
    var name := InputName(arg);
    if apiKey.None? || apiKey.value == "" then Ok(Stopped("ERROR: PORTKEY_API_KEY environment variable not set"))
    else
      match load(name)
      case Err(e) =>
        if e.FileNotFound? then Ok(Stopped("ERROR: " + name + " not found in storage"))
        else Ok(Stopped("ERROR: Could not load data: " + e.Message()))
      case Ok(data) =>
        var bills :- ParseBills(data);
        if |bills| == 0 then Ok(Stopped("ERROR: No bills found in file"))
        else
          var index :- BillsByNumber(bills);
          var n := NumChunks(|bills|, batchSize);
          var allResults := AllResults(bills, batchSize, filterBatch, index, n);
          var lists :- Partition(allResults, index);
          var output :- OutputData(|allResults|, lists.0, lists.1, name);
          Ok(Finished(name, output, Pauses(bills, batchSize, filterBatch, index, n)))
  }

  /** The organizing loop gets through every gathered result unless a
      result that is not relevant has an unhashable identifier: the display
      loop already let through only dicts, and relevant ones with hashable
      identifiers. */
  lemma GatheredResultsOrganized(bills: seq<Json>, size: nat, filterBatch: FilterBatch, index: map<Json, Json>)
    requires size > 0
    requires forall x :: x in AllResults(bills, size, filterBatch, index, NumChunks(|bills|, size)) && x.Obj? && !IsRelevant(x) ==>
      Hashable(GetOr(x.fields, "bill_identifier", Str("Unknown")))
    ensures Partition(AllResults(bills, size, filterBatch, index, NumChunks(|bills|, size)), index).Ok?
  {
    AllResultsDisplayable(bills, size, filterBatch, index, NumChunks(|bills|, size));
    PartitionSucceeds(AllResults(bills, size, filterBatch, index, NumChunks(|bills|, size)), index);
  }

  /** `main`, with the loops. */
  method Run(arg: Option<string>, apiKey: Option<string>, load: string -> Result<Json>,
              batchSize: nat, filterBatch: FilterBatch) returns (r: Result<Outcome>)
    requires batchSize > 0
    ensures r == FilterPass(arg, apiKey, load, batchSize, filterBatch)
  {
    var inputFilename := InputName(arg);
    if apiKey.None? || apiKey.value == "" {
      return Ok(Stopped("ERROR: PORTKEY_API_KEY environment variable not set"));
    }
    var data := load(inputFilename);
    if data.Err? {
      if data.exc.FileNotFound? {
        return Ok(Stopped("ERROR: " + inputFilename + " not found in storage"));
      }
      return Ok(Stopped("ERROR: Could not load data: " + data.exc.Message()));
    }
    var bills := ParseBillsData(data.value);
    if bills.Err? {
      return Err(bills.exc);
    }
    if |bills.value| == 0 {
      return Ok(Stopped("ERROR: No bills found in file"));
    }
    var billsByNumber := BillsByNumber(bills.value);
    if billsByNumber.Err? {
      return Err(billsByNumber.exc);
    }
    var allResults, pauses := RunBatches(bills.value, batchSize, filterBatch, billsByNumber.value);
    var lists := OrganizeResults(allResults, billsByNumber.value);
    if lists.Err? {
      return Err(lists.exc);
    }
    var output := OutputData(|allResults|, lists.value.0, lists.value.1, inputFilename);
    if output.Err? {
      return Err(output.exc);
    }
    r := Ok(Finished(inputFilename, output.value, pauses));
  }
}

=== FILE: sorting.dfy ===
/** Python's `<` on str (code-point lexicographic order) and the two sorts
    the storage backends perform: `sorted()` of distinct names, and an
    `ORDER BY` on a key. */
module Sorting {

  /** `a < b` on Python strings */
  predicate Below(a: string, b: string) {
    if |a| == 0 then |b| > 0
    else if |b| == 0 then false
    else if a[0] != b[0] then a[0] < b[0]
    else Below(a[1..], b[1..])
  }

  /** `a <= b` */
  predicate AtMost(a: string, b: string) {
    !Below(b, a)
  }

  lemma {:induction false} BelowIrreflexive(a: string)
    ensures !Below(a, a)
  {
    if |a| > 0 { BelowIrreflexive(a[1..]); }
  }

  lemma {:induction false} BelowTransitive(a: string, b: string, c: string)
    requires Below(a, b) && Below(b, c)
    ensures Below(a, c)
  {
    if |a| > 0 && |b| > 0 && |c| > 0 && a[0] == b[0] && b[0] == c[0] {
      BelowTransitive(a[1..], b[1..], c[1..]);
    }
  }

  lemma {:induction false} BelowTotal(a: string, b: string)
    requires a != b
    ensures Below(a, b) || Below(b, a)
  {
    if |a| > 0 && |b| > 0 && a[0] == b[0] {
      assert a == [a[0]] + a[1..] && b == [b[0]] + b[1..];
      BelowTotal(a[1..], b[1..]);
    }
  }

  lemma BelowAsymmetric(a: string, b: string)
    requires Below(a, b)
    ensures !Below(b, a)
  {
    if Below(b, a) {
      BelowTransitive(a, b, a);
      BelowIrreflexive(a);
    }
  }

  lemma AtMostTransitive(a: string, b: string, c: string)
    requires AtMost(a, b) && AtMost(b, c)
    ensures AtMost(a, c)
  {
    if Below(c, a) {
      if a == b {
      } else {
        BelowTotal(a, b);
        BelowTransitive(c, a, b);
      }
    }
  }

  predicate StrictlySorted(s: seq<string>) {
    forall i, j :: 0 <= i < j < |s| ==> Below(s[i], s[j])
  }

  lemma ConsSorted(x: string, s: seq<string>)
    requires StrictlySorted(s)
    requires forall y :: y in s ==> Below(x, y)
    ensures StrictlySorted([x] + s)
  {
    var r := [x] + s;
    forall i, j | 0 <= i < j < |r| ensures Below(r[i], r[j]) {
      if i > 0 { assert r[i] == s[i - 1] && r[j] == s[j - 1]; }
      else { assert r[j] in s; }
    }
  }

  /** Inserts a new name into a strictly sorted list. */
  function Insert(s: seq<string>, x: string): (r: seq<string>)
    requires StrictlySorted(s) && x !in s
    ensures StrictlySorted(r)
    ensures forall y :: y in r <==> y in s || y == x
    ensures |r| == |s| + 1
  {
    if |s| == 0 then [x]
    else if Below(x, s[0]) then
      assert forall y :: y in s ==> Below(x, y) by {
        forall y | y in s ensures Below(x, y) {
          if y != s[0] {
            var j :| 0 <= j < |s| && s[j] == y;
            BelowTransitive(x, s[0], y);
          }
        }
      }
      ConsSorted(x, s);
      [x] + s
    else
      BelowTotal(x, s[0]);
      var rest := Insert(s[1..], x);
      assert forall y :: y in rest ==> Below(s[0], y) by {
        forall y | y in rest ensures Below(s[0], y) {
          if y != x {
            var j :| 0 <= j < |s[1..]| && s[1..][j] == y;
            assert s[j + 1] == y;
          }
        }
      }
      ConsSorted(s[0], rest);
      assert s == [s[0]] + s[1..];
      [s[0]] + rest
  }

  /** `sorted(names)` of a set of distinct names. */
  method SortedNames(names: set<string>) returns (r: seq<string>)
    ensures StrictlySorted(r)
    ensures forall x :: x in r <==> x in names
    ensures |r| == |names|
  {
    r := [];
    var rest := names;
    while rest != {}
      invariant rest <= names
      invariant StrictlySorted(r)
      invariant forall x :: x in r <==> x in names && x !in rest
      invariant |r| + |rest| == |names|
      decreases |rest|
    {
      var x :| x in rest;
      r := Insert(r, x);
      rest := rest - {x};
    }
  }

  /** Two strictly sorted lists with the same names are equal, so the sorted
      listing of a set of names is determined by the set. */
  lemma {:induction false} SortedUnique(a: seq<string>, b: seq<string>)
    requires StrictlySorted(a) && StrictlySorted(b)
    requires forall x :: x in a <==> x in b
    ensures a == b
  {
    assert |a| > 0 ==> a[0] in b;
    assert |b| > 0 ==> b[0] in a;
    if |a| > 0 && |b| > 0 {
      if a[0] != b[0] {
        BelowTotal(a[0], b[0]);
        assert a[0] in a && b[0] in b;
        if Below(a[0], b[0]) {
          var j :| 0 <= j < |b| && b[j] == a[0];
          assert j > 0;
          BelowAsymmetric(b[0], b[j]);
        } else {
          assert false;
        }
      } else {
        forall x ensures x in a[1..] <==> x in b[1..] {
          if x in a[1..] {
            var i :| 1 <= i < |a| && a[i] == x;
            BelowAsymmetric(a[0], a[i]);
            assert x != a[0] && x in a;
            var j :| 0 <= j < |b| && b[j] == x;
            assert j != 0;
            assert b[1..][j - 1] == x;
          }
          if x in b[1..] {
            var i :| 1 <= i < |b| && b[i] == x;
            BelowAsymmetric(b[0], b[i]);
            assert x != b[0] && x in b;
            var j :| 0 <= j < |a| && a[j] == x;
            assert j != 0;
            assert a[1..][j - 1] == x;
          }
        }
        SortedUnique(a[1..], b[1..]);
        assert a == [a[0]] + a[1..] && b == [b[0]] + b[1..];
      }
    }
  }

  /** The key of a plain `sorted()` of strings. */
  function Identity(s: string): string {
    s
  }

  /** Rows in non-decreasing order of `key` (ties in any order). */
  predicate SortedBy<T>(s: seq<T>, key: T -> string) {
    forall i, j :: 0 <= i < j < |s| ==> AtMost(key(s[i]), key(s[j]))
  }

  /** Stable insertion of one row: after every row whose key is not greater. */
  function InsertBy<T>(s: seq<T>, x: T, key: T -> string): (r: seq<T>)
    ensures multiset(r) == multiset(s) + multiset{x}
  {
    if |s| == 0 then [x]
    else if Below(key(x), key(s[0])) then [x] + s
    else
      assert s == [s[0]] + s[1..];
      [s[0]] + InsertBy(s[1..], x, key)
  }

  lemma HeadSortedBy<T>(h: T, s: seq<T>, key: T -> string)
    requires SortedBy(s, key)
    requires forall y :: y in multiset(s) ==> AtMost(key(h), key(y))
    ensures SortedBy([h] + s, key)
  {
    var r := [h] + s;
    forall i, j | 0 <= i < j < |r| ensures AtMost(key(r[i]), key(r[j])) {
      if i == 0 { assert r[j] == s[j - 1] && r[j] in multiset(s); }
      else { assert r[i] == s[i - 1] && r[j] == s[j - 1]; }
    }
  }

  lemma {:induction false} InsertBySorted<T>(s: seq<T>, x: T, key: T -> string)
    requires SortedBy(s, key)
    ensures SortedBy(InsertBy(s, x, key), key)
  {
    if |s| > 0 {
      if Below(key(x), key(s[0])) {
        BelowAsymmetric(key(x), key(s[0]));
        forall y | y in multiset(s) ensures AtMost(key(x), key(y)) {
          var k :| 0 <= k < |s| && s[k] == y;
          if k > 0 { assert AtMost(key(s[0]), key(s[k])); } else { BelowIrreflexive(key(s[0])); }
          AtMostTransitive(key(x), key(s[0]), key(y));
        }
        HeadSortedBy(x, s, key);
      } else {
        InsertBySorted(s[1..], x, key);
        var rest := InsertBy(s[1..], x, key);
        forall y | y in multiset(rest) ensures AtMost(key(s[0]), key(y)) {
          if y != x {
            assert y in multiset(s[1..]);
            var k :| 0 <= k < |s[1..]| && s[1..][k] == y;
            assert s[k + 1] == y;
          }
        }
        HeadSortedBy(s[0], rest, key);
      }
    }
  }

  /** `ORDER BY key`: a permutation of the rows in key order. */
  method SortBy<T>(rows: seq<T>, key: T -> string) returns (r: seq<T>)
    ensures SortedBy(r, key)
    ensures multiset(r) == multiset(rows)
  {
    r := [];
    var i := 0;
    while i < |rows|
      invariant 0 <= i <= |rows|
      invariant SortedBy(r, key)
      invariant multiset(r) == multiset(rows[..i])
    {
      InsertBySorted(r, rows[i], key);
      r := InsertBy(r, rows[i], key);
      assert rows[..i + 1] == rows[..i] + [rows[i]];
      i := i + 1;
    }
    assert rows[..i] == rows;
  }
}

=== FILE: split_results_file.dfy ===
/** The results-file splitter: cuts the `results` list of a filter-results
    file into chunk files of at most `chunk_size` entries, written next to
    the input as `{stem}_chunkNN.json`. */
module SplitResultsFile {
  import opened Wrappers
  import opened PyStrings
  import opened PyJson
  import opened Chunking
  import CacheFiles

  /** `f"{stem}_chunk{n:02d}.json"` */
  function ChunkName(stem: string, n: nat): string {
    stem + "_chunk" + Pad2(n) + ".json"
  }

  /** A chunk file is named after the input's stem and ends in `.json`. */
  lemma ChunkNameShape(stem: string, n: nat)
    ensures StartsWith(ChunkName(stem, n), stem + "_chunk") && EndsWith(ChunkName(stem, n), ".json")
  {
    var r := ChunkName(stem, n);
    assert r[..|stem + "_chunk"|] == stem + "_chunk";
    assert r[|r| - 5..] == ".json";
  }

  /** Below 100, the two digits are the tens and the units. */
  lemma Pad2Digits(n: nat)
    requires n < 100
    ensures Pad2(n) == [DigitChar(n / 10), DigitChar(n % 10)]
  {
    if n >= 10 {
      assert NatText(n / 10) == [DigitChar(n / 10)];
    }
  }

  lemma DigitCharInjective(a: nat, b: nat)
    requires a < 10 && b < 10 && DigitChar(a) == DigitChar(b)
    ensures a == b
  {
  }

  /** Chunk files below the hundredth get different names. */
  lemma ChunkNamesDistinct(stem: string, a: nat, b: nat)
    requires a < 100 && b < 100 && a != b
    ensures ChunkName(stem, a) != ChunkName(stem, b)
  {
    Pad2Digits(a);
    Pad2Digits(b);
    var na := ChunkName(stem, a);
    var nb := ChunkName(stem, b);
    assert na[|stem| + 6..|stem| + 8] == Pad2(a);
    assert nb[|stem| + 6..|stem| + 8] == Pad2(b);
    if na == nb {
      assert Pad2(a) == Pad2(b);
      DigitCharInjective(a / 10, b / 10);
      DigitCharInjective(a % 10, b % 10);
      assert false;
    }
  }

  /** The length of a list or a str. */
  function Size(piece: Json): nat
    requires piece.Arr? || piece.Str?
  {
    if piece.Arr? then |piece.items| else |piece.s|
  }

  /** A chunk file's content: the chunk's length and the chunk. */
  function ChunkData(piece: Json): Json
    requires piece.Arr? || piece.Str?
  {
    Obj([("total_results", Int(Size(piece))), ("results", piece)])
  }

  /** A chunk file records its own length under `total_results`. */
  lemma ChunkDataFields(piece: Json)
    requires piece.Arr? || piece.Str?
    ensures var d := ChunkData(piece);
      d.Obj? && GetOr(d.fields, "total_results", Null) == Int(Size(piece)) && GetOr(d.fields, "results", Null) == piece
  {
    LookupCons(("total_results", Int(Size(piece))), [("results", piece)], "results");
  }

  /** `results[i*size : min(i*size + size, n)]` on a list or a str. */
  function Piece(results: Json, size: nat, i: nat): (r: Json)
    requires results.Arr? || results.Str?
    requires size > 0 && i < NumChunks(Size(results), size)
    ensures r.Arr? || r.Str?
  {
    if results.Arr? then Arr(Chunk(results.items, size, i)) else Str(Chunk(results.s, size, i))
  }

  /** Chunk `i` is the slice between its bounds. */
  lemma PieceIsSlice(results: Json, size: nat, i: nat)
    requires results.Arr? || results.Str?
    requires size > 0 && i < NumChunks(Size(results), size)
    ensures i * size <= Min(i * size + size, Size(results)) <= Size(results)
    ensures Piece(results, size, i) ==
      if results.Arr? then Arr(results.items[i * size..Min(i * size + size, Size(results))])
      else Str(results.s[i * size..Min(i * size + size, Size(results))])
  {
    ChunkBounds(Size(results), size, i);
  }

  /** The chunk files of a list or a str of results, in order, by name. */
  function ChunkList(results: Json, stem: string, size: nat): (r: seq<(string, Json)>)
    requires results.Arr? || results.Str?
    requires size > 0
    ensures |r| == NumChunks(Size(results), size)
    ensures forall i :: 0 <= i < |r| ==> r[i] == (ChunkName(stem, i + 1), ChunkData(Piece(results, size, i)))
  {
    var n := NumChunks(Size(results), size);
    seq(n, i requires 0 <= i < n => (ChunkName(stem, i + 1), ChunkData(Piece(results, size, i))))
  }

  /** The chunk files of a parsed input, in order, by name: the input needs
      `results` (else exit status 1); a dict `results` has a length but
      cannot be sliced, which raises once there is a first chunk to cut
      (with Python 3.11's message; from Python 3.12 a dict raises KeyError
      with the slice as its key). */
  function ChunkFiles(data: Json, stem: string, size: nat): (r: Result<seq<(string, Json)>>)
    requires size > 0
    ensures r.Ok? ==> forall i :: 0 <= i < |r.value| ==> r.value[i].0 == ChunkName(stem, i + 1)
  {
    var has :- Contains(data, "results");
    if !has then Err(SystemExit(1))
    else
      var results :- Index(data, "results");
      var total :- Len(results);
      if results.Obj? then
        if total == 0 then Ok([]) else Err(TypeError("unhashable type: 'slice'"))
      else
        Ok(ChunkList(results, stem, size))
  }

  /** The files on disk after writing `writes` in order. */
  function Written(files: CacheFiles.Disk, dir: string, writes: seq<(string, Json)>): CacheFiles.Disk
    decreases |writes|
  {
    if |writes| == 0 then files
    else
      var last := writes[|writes| - 1];
      Written(files, dir, writes[..|writes| - 1])[CacheFiles.PathIn(dir, last.0) := CacheFiles.Parsed(last.1)]
  }

  /** For a list of results, the chunk files cover it: their `results`
      concatenate back to it, each file's `total_results` is its length,
      every file but the last holds exactly `size` entries, and there are
      `ceil(n / size)` files. */
  lemma ChunkFilesCover(data: Fields, stem: string, size: nat)
    requires size > 0 && HasKey(data, "results") && GetOr(data, "results", Null).Arr?
    ensures var results := GetOr(data, "results", Null).items;
      var r := ChunkFiles(Obj(data), stem, size);
      r.Ok? && |r.value| == NumChunks(|results|, size) &&
      (forall i :: 0 <= i < |r.value| ==>
        r.value[i].1 == ChunkData(Arr(Chunks(results, size)[i]))) &&
      (forall i :: 0 <= i < |r.value| - 1 ==> |Chunks(results, size)[i]| == size) &&
      Concat(Chunks(results, size)) == results
  {
    ChunksConcat(GetOr(data, "results", Null).items, size);
  }

  /** A file without `results` ends the script with exit status 1 and
      writes nothing. */
  lemma MissingResultsExits(data: Fields, stem: string, size: nat)
    requires size > 0 && !HasKey(data, "results")
    ensures ChunkFiles(Obj(data), stem, size) == Err(SystemExit(1))
  {
  }

  /** The input file as the splitter reads it: a missing file exits with
      status 1, one that does not parse raises. */
  function ReadInput(files: CacheFiles.Disk, path: string): Result<Json> {
    if path !in files then Err(SystemExit(1))
    else match files[path]
      case Parsed(v) => Ok(v)
      case Unreadable => Err(JsonDecodeError("Expecting value"))
  }

  /** `split_results_file(input_file, chunk_size)`; `dir` and `stem` are
      the input path's parent and stem. The chunk files are written one by
      one into the directory the input is in. */
  method SplitResults(fs: CacheFiles.FileSystem, inputPath: string, dir: string, stem: string, chunkSize: nat)
    returns (r: Result<nat>)
    requires chunkSize > 0
    modifies fs
    ensures var data := ReadInput(old(fs.files), inputPath);
      match data
      case Err(e) => r == Err(e) && fs.files == old(fs.files)
      case Ok(v) =>
        match ChunkFiles(v, stem, chunkSize)
        case Err(e) => r == Err(e) && fs.files == old(fs.files)
        case Ok(writes) => r == Ok(|writes|) && fs.files == Written(old(fs.files), dir, writes)
  {
    if inputPath !in fs.files {
      return Err(SystemExit(1));
    }
    if fs.files[inputPath].Unreadable? {
      return Err(JsonDecodeError("Expecting value"));
    }
    var data := fs.files[inputPath].value;
    var has := Contains(data, "results");
    if has.Err? {
      return Err(has.exc);
    }
    if !has.value {
      return Err(SystemExit(1));
    }
    var results := Index(data, "results");
    if results.Err? {
      return Err(results.exc);
    }
    var totalBills := Len(results.value);
    if totalBills.Err? {
      return Err(totalBills.exc);
    }
    var total := totalBills.value;
    var numChunks := (total + chunkSize - 1) / chunkSize;
    assert numChunks == NumChunks(total, chunkSize);
    if results.value.Obj? {
      if numChunks > 0 {
        return Err(TypeError("unhashable type: 'slice'"));
      }
      return Ok(0);
    }
    assert total == Size(results.value);
    WriteChunks(fs, results.value, dir, stem, chunkSize);
    r := Ok(numChunks);
  }

  /** The files on disk once the first `k` chunks are written. */
  function FirstChunksWritten(files: CacheFiles.Disk, dir: string, results: Json, stem: string, size: nat, k: nat): CacheFiles.Disk
    requires results.Arr? || results.Str?
    requires size > 0 && k <= NumChunks(Size(results), size)
  {
    if k == 0 then files
    else
      FirstChunksWritten(files, dir, results, stem, size, k - 1)
        [CacheFiles.PathIn(dir, ChunkName(stem, k)) := CacheFiles.Parsed(ChunkData(Piece(results, size, k - 1)))]
  }

  lemma {:induction false} FirstChunksWrittenInOrder(files: CacheFiles.Disk, dir: string, results: Json, stem: string, size: nat, k: nat)
    requires results.Arr? || results.Str?
    requires size > 0 && k <= NumChunks(Size(results), size)
    ensures FirstChunksWritten(files, dir, results, stem, size, k) == Written(files, dir, ChunkList(results, stem, size)[..k])
  {
    var writes := ChunkList(results, stem, size);
    if k == 0 {
      assert writes[..0] == [];
    } else {
      FirstChunksWrittenInOrder(files, dir, results, stem, size, k - 1);
      var path := CacheFiles.PathIn(dir, ChunkName(stem, k));
      var file := CacheFiles.Parsed(ChunkData(Piece(results, size, k - 1)));
      assert writes[..k][..k - 1] == writes[..k - 1];
      assert writes[..k][k - 1] == (ChunkName(stem, k), ChunkData(Piece(results, size, k - 1)));
      calc {
        Written(files, dir, writes[..k]);
        Written(files, dir, writes[..k - 1])[path := file];
        FirstChunksWritten(files, dir, results, stem, size, k - 1)[path := file];
        FirstChunksWritten(files, dir, results, stem, size, k);
      }
    }
  }

  /** One turn of the loop: chunk `i`, cut with the slice bounds, is
      written as file `i + 1`. */
  method WriteChunk(fs: CacheFiles.FileSystem, results: Json, dir: string, stem: string, chunkSize: nat, i: nat)
    requires results.Arr? || results.Str?
    requires chunkSize > 0 && i < NumChunks(Size(results), chunkSize)
    modifies fs
    ensures fs.files == old(fs.files)[CacheFiles.PathIn(dir, ChunkName(stem, i + 1)) :=
                                      CacheFiles.Parsed(ChunkData(Piece(results, chunkSize, i)))]
  {
    var total := if results.Arr? then |results.items| else |results.s|;
    var startIdx := i * chunkSize;
    var endIdx := Min(startIdx + chunkSize, total);
    PieceIsSlice(results, chunkSize, i);
    var piece := if results.Arr? then Arr(results.items[startIdx..endIdx])
                 else Str(results.s[startIdx..endIdx]);
    fs.Write(CacheFiles.PathIn(dir, ChunkName(stem, i + 1)), CacheFiles.Parsed(ChunkData(piece)));
  }

  /** The loop of `split_results_file`: cuts chunk `i` with the slice
      bounds and writes it under its name, for every chunk in order. */
  method WriteChunks(fs: CacheFiles.FileSystem, results: Json, dir: string, stem: string, chunkSize: nat)
    requires results.Arr? || results.Str?
    requires chunkSize > 0
    modifies fs
    ensures fs.files == Written(old(fs.files), dir, ChunkList(results, stem, chunkSize))
  {
    var total := if results.Arr? then |results.items| else |results.s|;
    var numChunks := NumChunks(total, chunkSize);
    ghost var before := fs.files;
    var i := 0;
    while i < numChunks
      invariant 0 <= i <= numChunks
      invariant fs.files == FirstChunksWritten(before, dir, results, stem, chunkSize, i)
    {
      WriteChunk(fs, results, dir, stem, chunkSize, i);
      i := i + 1;
    }
    FirstChunksWrittenInOrder(before, dir, results, stem, chunkSize, numChunks);
    assert ChunkList(results, stem, chunkSize)[..numChunks] == ChunkList(results, stem, chunkSize);
  }
}

=== FILE: storage_factory.dfy ===
/** Choosing the storage backend from the configuration, and the environment
    override of that choice. */
module StorageProviderFactory {
  import opened Wrappers
  import opened PyJson
  import LocalFileStorage
  import AzureBlobStorage
  import DatabaseStorage

  /** The provider `create` builds, with the settings its constructor checked. */
  datatype Backend =
    | Local(dataDirectory: string)
    | AzureBlob(azure: AzureBlobStorage.AzureSettings)
    | Database(database: DatabaseStorage.DbSettings)

  /** `config.get('storage', {}).get('backend', 'local')` */
  function SelectedBackend(config: Json): (r: Result<Json>)
    ensures r.Ok? <==> config.Obj? && GetOr(config.fields, "storage", Obj([])).Obj?
    ensures config.Obj? && !HasKey(config.fields, "storage") ==> r == Ok(Str("local"))
  {
    var storage :- Get(config, "storage", Obj([]));
    Get(storage, "backend", Str("local"))
  }

  /** The sub-config of one backend, `{}` when absent. */
  function SubConfig(config: Json, name: string): Json
    requires config.Obj? && GetOr(config.fields, "storage", Obj([])).Obj?
  {
    GetOr(GetOr(config.fields, "storage", Obj([])).fields, name, Obj([]))
  }

  /** `StorageProviderFactory.create`: the backend named by `storage.backend`
      (default `local`), built from its own sub-config; any other name raises
      ValueError. */
  function Create(config: Json, env: Env): (r: Result<Backend>)
    ensures config.Obj? && !HasKey(config.fields, "storage") ==> r == Ok(Local("data"))
    ensures r.Ok? ==> SelectedBackend(config).Ok?
    ensures r.Ok? && r.value.Local? ==> SelectedBackend(config).value == Str("local")
    ensures r.Ok? && r.value.AzureBlob? ==> SelectedBackend(config).value == Str("azure_blob")
    ensures r.Ok? && r.value.Database? ==> SelectedBackend(config).value == Str("database")
    ensures SelectedBackend(config).Ok? && SelectedBackend(config).value !in {Str("local"), Str("azure_blob"), Str("database")} ==>
      r == Err(ValueError("Unknown storage backend: " + Text(SelectedBackend(config).value)))
  {
    var backend :- SelectedBackend(config);
    if backend == Str("local") then
      var dir :- LocalFileStorage.DataDirectory(SubConfig(config, "local"));
      Ok(Local(dir))
    else if backend == Str("azure_blob") then
      var settings :- AzureBlobStorage.Settings(SubConfig(config, "azure_blob"), env);
      Ok(AzureBlob(settings))
    else if backend == Str("database") then
      var settings :- DatabaseStorage.Settings(SubConfig(config, "database"), env);
      Ok(Database(settings))
    else
      Err(ValueError("Unknown storage backend: " + Text(backend)))
  }

  /** `d[k] = v`; only a dict supports item assignment with a str key. */
  function SetItem(j: Json, k: string, v: Json): (r: Result<Json>)
    ensures r.Ok? <==> j.Obj?
    ensures r.Ok? ==> r.value == Obj(Put(j.fields, k, v))
  {
    match j
    case Obj(fs) => Ok(Obj(Put(fs, k, v)))
    case Arr(_) => Err(TypeError("list indices must be integers or slices, not str"))
    case _ => Err(TypeError("'" + TypeName(j) + "' object does not support item assignment"))
  }

  /** The config after `create_from_env`'s override: a non-empty
      `STORAGE_BACKEND` is written into `config['storage']['backend']`,
      creating `storage` when missing. */
  function OverrideBackend(config: Json, envBackend: Option<string>): (r: Result<Json>)
    ensures envBackend.None? || envBackend.value == "" ==> r == Ok(config)
  {
    if envBackend.None? || envBackend.value == "" then Ok(config)
    else
      var has :- Contains(config, "storage");
      var withStorage :- if has then Ok(config) else SetItem(config, "storage", Obj([]));
      var storage :- Index(withStorage, "storage");
      var updated :- SetItem(storage, "backend", Str(envBackend.value));
      Ok(Obj(Put(withStorage.fields, "storage", updated)))
  }

  /** The override wins: for a dict config whose `storage`, if present, is a
      dict, the overridden config selects the environment's backend and keeps
      every other top-level key. */
  lemma EnvBackendWins(config: Json, name: string, key: string)
    requires config.Obj? && name != ""
    requires GetOr(config.fields, "storage", Obj([])).Obj?
    ensures OverrideBackend(config, Some(name)).Ok?
    ensures SelectedBackend(OverrideBackend(config, Some(name)).value) == Ok(Str(name))
    ensures key != "storage" ==>
      Lookup(OverrideBackend(config, Some(name)).value.fields, key) == Lookup(config.fields, key)
  {
    var withStorage, storage := OverrideSteps(config, name);
    var updated := Obj(Put(storage.fields, "backend", Str(name)));
    PutLookup(storage.fields, "backend", Str(name), "backend");
    PutLookup(withStorage.fields, "storage", updated, "storage");
    PutLookup(withStorage.fields, "storage", updated, key);
    if key != "storage" {
      PutLookup(config.fields, "storage", Obj([]), key);
    }
  }

  /** The dict the override writes into and the `storage` dict it updates. */
  lemma OverrideSteps(config: Json, name: string) returns (withStorage: Json, storage: Json)
    requires config.Obj? && name != ""
    requires GetOr(config.fields, "storage", Obj([])).Obj?
    ensures withStorage == if HasKey(config.fields, "storage") then config
                           else Obj(Put(config.fields, "storage", Obj([])))
    ensures withStorage.Obj? && storage.Obj?
    ensures OverrideBackend(config, Some(name)) ==
      Ok(Obj(Put(withStorage.fields, "storage", Obj(Put(storage.fields, "backend", Str(name))))))
  {
    withStorage := if HasKey(config.fields, "storage") then config
                   else Obj(Put(config.fields, "storage", Obj([])));
    PutLookup(config.fields, "storage", Obj([]), "storage");
    storage := Lookup(withStorage.fields, "storage").value;
  }

  /** An unknown backend name in the environment makes `create` raise. */
  lemma UnknownEnvBackend(config: Json, name: string, env: Env)
    requires config.Obj? && name !in {"", "local", "azure_blob", "database"}
    requires GetOr(config.fields, "storage", Obj([])).Obj?
    ensures OverrideBackend(config, Some(name)).Ok?
    ensures Create(OverrideBackend(config, Some(name)).value, env) ==
      Err(ValueError("Unknown storage backend: " + name))
  {
    EnvBackendWins(config, name, "storage");
  }

  /** A caller's config dict, which `create_from_env` mutates in place. */
  class ConfigDict {
    var value: Json

    constructor (value: Json)
      ensures this.value == value
    {
      this.value := value;
    }
  }

  /** `create_from_env`: without a config, the parsed `config.json` when the
      file exists (`fileConfig`), else `{}`; the environment override is
      applied to the caller's dict itself, which keeps the change. */
  method CreateFromEnv(config: ConfigDict?, fileConfig: Option<Json>, env: Env) returns (r: Result<Backend>)
    modifies config
    ensures var base := if config == null then fileConfig.GetOr(Obj([])) else old(config.value);
      var over := OverrideBackend(base, GetEnv(env, "STORAGE_BACKEND"));
      (over.Err? ==> r == Err(over.exc)) && (over.Ok? ==> r == Create(over.value, env)) &&
      (config != null ==> config.value == if over.Ok? then over.value else old(config.value))
  {
    var base := if config == null then fileConfig.GetOr(Obj([])) else config.value;
    var over := OverrideBackend(base, GetEnv(env, "STORAGE_BACKEND"));
    if over.Err? {
      return Err(over.exc);
    }
    if config != null {
      config.value := over.value;
    }
    r := Create(over.value, env);
  }
}

=== FILE: storage_provider.dfy ===
/** The storage contract shared by the file-like backends (a local data
    directory and a blob container): the path layout under which each kind of
    data is kept, what a load returns for the store's current contents, and the
    raw-data bill lookup. A store is a map from a path relative to the data
    directory (or a blob name) to the JSON document stored there. */
module StorageProvider {
  import opened Wrappers
  import opened PyStrings
  import opened PyJson

  type Files = map<string, Json>

  const RawPrefix := "raw/"
  const FilteredPrefix := "filtered/"
  const AnalyzedPrefix := "analyzed/"
  const CachePrefix := "cache/legiscan_cache/"
  const FilterRunPrefix := "filter_results_"
  const AnalysisRunPrefix := "analysis_"

  /** `raw/{filename}.json`, after one trailing `.json` is removed. */
  function RawPath(filename: string): (r: string)
    ensures StartsWith(r, RawPrefix) && EndsWith(r, ".json")
  {
    StartsWithAppend(RawPrefix, DropSuffix(filename, ".json") + ".json");
    EndsWithAppend(RawPrefix + DropSuffix(filename, ".json"), ".json");
    RawPrefix + DropSuffix(filename, ".json") + ".json"
  }

  /** A name without the extension and the same name with `.json` appended
      address one file. */
  lemma RawPathIgnoresExtension(filename: string)
    requires !EndsWith(filename, ".json")
    ensures RawPath(filename + ".json") == RawPath(filename)
  {
    EndsWithAppend(filename, ".json");
  }

  /** Names that differ after the extension is removed address different files. */
  lemma RawPathInjective(a: string, b: string)
    requires DropSuffix(a, ".json") != DropSuffix(b, ".json")
    ensures RawPath(a) != RawPath(b)
  {
    var x, y := DropSuffix(a, ".json"), DropSuffix(b, ".json");
    assert RawPath(a)[4..|RawPath(a)| - 5] == x;
  }

  /** The name a filter run is saved under: `filter_results_` is added when
      missing, then one trailing `.json` is removed. */
  function FilteredName(runId: string): string {
    DropSuffix(if StartsWith(runId, FilterRunPrefix) then runId else FilterRunPrefix + runId, ".json")
  }

  function FilteredPath(runId: string): string {
    FilteredPrefix + FilteredName(runId) + ".json"
  }

  /** The names `load_filtered_results` tries, in order. */
  function Candidates(runId: string): (r: seq<string>)
    ensures |r| == 4
  {
    [runId, FilterRunPrefix + runId, runId + ".json", FilterRunPrefix + runId + ".json"]
  }

  /** The file a candidate name refers to: `.json` is added only when missing. */
  function CandidatePath(c: string): string {
    FilteredPrefix + (if EndsWith(c, ".json") then c else c + ".json")
  }

  /** The file a filter run is saved to is among the ones a load tries: the
      first candidate when the run id already carries the prefix, else the
      second. */
  lemma SavedFilteredIsCandidate(runId: string)
    ensures FilteredPath(runId) ==
      CandidatePath(Candidates(runId)[if StartsWith(runId, FilterRunPrefix) then 0 else 1])
  {
    var name := if StartsWith(runId, FilterRunPrefix) then runId else FilterRunPrefix + runId;
    if EndsWith(name, ".json") {
      assert DropSuffix(name, ".json") + ".json" == name;
    }
  }

  /** The first candidate whose file exists. */
  function FirstExisting(files: Files, cands: seq<string>): (r: Option<string>)
    ensures r.Some? ==> r.value in files
    ensures r.Some? ==> exists i :: (0 <= i < |cands| && CandidatePath(cands[i]) == r.value &&
      forall j :: 0 <= j < i ==> CandidatePath(cands[j]) !in files)
    ensures r.None? <==> forall i :: 0 <= i < |cands| ==> CandidatePath(cands[i]) !in files
  {
    if |cands| == 0 then None
    else if CandidatePath(cands[0]) in files then Some(CandidatePath(cands[0]))
    else
      var r := FirstExisting(files, cands[1..]);
      assert forall i :: 1 <= i < |cands| ==> cands[i] == cands[1..][i - 1];
      if r.Some? then
        ghost var i :| 0 <= i < |cands[1..]| && CandidatePath(cands[1..][i]) == r.value &&
          forall j :: 0 <= j < i ==> CandidatePath(cands[1..][j]) !in files;
        assert CandidatePath(cands[i + 1]) == r.value;
        assert forall j :: 0 <= j < i + 1 ==> CandidatePath(cands[j]) !in files by {
          forall j | 0 <= j < i + 1 ensures CandidatePath(cands[j]) !in files {
            if j > 0 { assert cands[j] == cands[1..][j - 1]; }
          }
        }
        r
      else r
  }

  /** The first existing candidate is determined by its position. */
  lemma FirstExistingAt(files: Files, cands: seq<string>, i: nat)
    requires i < |cands| && CandidatePath(cands[i]) in files
    requires forall j :: 0 <= j < i ==> CandidatePath(cands[j]) !in files
    ensures FirstExisting(files, cands) == Some(CandidatePath(cands[i]))
  {
    var r := FirstExisting(files, cands);
    var k :| 0 <= k < |cands| && CandidatePath(cands[k]) == r.value &&
      forall j :: 0 <= j < k ==> CandidatePath(cands[j]) !in files;
    if k < i { assert CandidatePath(cands[k]) !in files; }
  }

  /** What `load_filtered_results` returns: the first existing candidate. */
  function LoadFiltered(files: Files, runId: string): Result<Json> {
    match FirstExisting(files, Candidates(runId))
    case Some(p) => Ok(files[p])
    case None => Err(FileNotFound("Filter results not found for run_id: " + runId))
  }

  /** A filter save followed by a load returns the saved document, unless a
      run id without the prefix also names a file of its own, which the load
      finds first. */
  lemma FilteredRoundTrip(files: Files, runId: string, d: Json)
    ensures LoadFiltered(files[FilteredPath(runId) := d], runId) ==
      if StartsWith(runId, FilterRunPrefix) || CandidatePath(runId) !in files then Ok(d)
      else Ok(files[CandidatePath(runId)])
  {
    var f' := files[FilteredPath(runId) := d];
    var cs := Candidates(runId);
    SavedFilteredIsCandidate(runId);
    if !StartsWith(runId, FilterRunPrefix) {
      FirstCandidateDiffers(runId);
    }
  }

  /** Without the prefix, the first candidate is never the file the save wrote. */
  lemma FirstCandidateDiffers(runId: string)
    requires !StartsWith(runId, FilterRunPrefix)
    ensures CandidatePath(runId) != FilteredPath(runId)
  {
    var name := FilterRunPrefix + runId;
    if EndsWith(name, ".json") {
      assert |FilteredName(runId)| + 5 == |name|;
    }
    assert |CandidatePath(runId)| != |FilteredPath(runId)|;
  }

  /** A filter load finds nothing exactly when no candidate file exists. */
  lemma FilteredMissing(files: Files, runId: string)
    ensures LoadFiltered(files, runId).Err? <==>
      forall c :: c in Candidates(runId) ==> CandidatePath(c) !in files
  {
    var cs := Candidates(runId);
    assert forall c :: c in cs <==> exists i :: 0 <= i < |cs| && cs[i] == c;
  }

  /** The name both analysis files start with. */
  function AnalysisName(runId: string): string {
    DropSuffix(if StartsWith(runId, AnalysisRunPrefix) then runId else AnalysisRunPrefix + runId, ".json")
  }

  function RelevantPath(runId: string): string {
    AnalyzedPrefix + AnalysisName(runId) + "_relevant.json"
  }

  function NotRelevantPath(runId: string): string {
    AnalyzedPrefix + AnalysisName(runId) + "_not_relevant.json"
  }

  lemma AnalysisPathsDiffer(runId: string)
    ensures RelevantPath(runId) != NotRelevantPath(runId)
  {
    var n := |AnalyzedPrefix + AnalysisName(runId)|;
    assert RelevantPath(runId)[n + 1] == 'r';
    assert NotRelevantPath(runId)[n + 1] == 'n';
  }

  /** What `load_analysis_results` returns: a missing file reads as `[]`, and
      two falsy lists raise. */
  function LoadAnalysis(files: Files, runId: string): (r: Result<(Json, Json)>)
    ensures r.Ok? ==> Truthy(r.value.0) || Truthy(r.value.1)
  {
    var relevant := if RelevantPath(runId) in files then files[RelevantPath(runId)] else Arr([]);
    var notRelevant := if NotRelevantPath(runId) in files then files[NotRelevantPath(runId)] else Arr([]);
    if !Truthy(relevant) && !Truthy(notRelevant) then
      Err(FileNotFound("Analysis results not found for run_id: " + runId))
    else Ok((relevant, notRelevant))
  }

  /** Saving both lists and loading them back returns them, unless both are
      empty, which loads as "not found". */
  lemma AnalysisRoundTrip(files: Files, runId: string, relevant: Json, notRelevant: Json)
    ensures LoadAnalysis(files[RelevantPath(runId) := relevant][NotRelevantPath(runId) := notRelevant], runId) ==
      if Truthy(relevant) || Truthy(notRelevant) then Ok((relevant, notRelevant))
      else Err(FileNotFound("Analysis results not found for run_id: " + runId))
  {
    AnalysisPathsDiffer(runId);
  }

  /** `cache/legiscan_cache/bill_{bill_id}.json`; the id is rendered with `str`. */
  function CachePath(billId: Json): string {
    CachePrefix + "bill_" + PyStr(billId) + ".json"
  }

  /** Ids rendered differently have different cache files. */
  lemma CachePathInjective(a: Json, b: Json)
    requires PyStr(a) != PyStr(b)
    ensures CachePath(a) != CachePath(b)
  {
    var x, y := PyStr(a), PyStr(b);
    var n := |CachePrefix + "bill_"|;
    if |x| == |y| {
      assert CachePath(a)[n..n + |x|] == x;
      assert CachePath(b)[n..n + |y|] == y;
    } else {
      assert |CachePath(a)| != |CachePath(b)|;
    }
  }

  /** `get_bill_from_cache`: the cached document, or None (`Null`) on a miss. */
  function CacheGet(files: Files, billId: Json): Json {
    if CachePath(billId) in files then files[CachePath(billId)] else Null
  }

  /** Saving to the cache changes only the entry of that id. */
  lemma CacheSaveGet(files: Files, billId: Json, d: Json, other: Json)
    ensures CacheGet(files[CachePath(billId) := d], other) ==
      if PyStr(other) == PyStr(billId) then d else CacheGet(files, other)
  {
    if PyStr(other) != PyStr(billId) { CachePathInjective(other, billId); }
  }

  /** The exceptions the raw-data bill lookups catch. */
  predicate Caught(e: Exc) {
    e.FileNotFound? || e.JsonDecodeError? || e.KeyError?
  }

  /** Where the bill list of a raw-data document is: `summary.masterlist`, then
      `bills`, then the values of a plain dict, or the document itself when it
      is a list. `None` means the document has no bill list at all. */
  function BillList(data: Json): (r: Result<Option<Json>>)
    ensures data.Arr? ==> r == Ok(Some(data))
    ensures !data.Arr? && !data.Obj? ==> r == Ok(None)
  {
    match data
    case Obj(fs) =>
      var inSummary :-
        if HasKey(fs, "summary") then Contains(Lookup(fs, "summary").value, "masterlist") else Ok(false);
      if inSummary then
        var m :- Index(Lookup(fs, "summary").value, "masterlist");
        Ok(Some(m))
      else if HasKey(fs, "bills") then Ok(Some(Lookup(fs, "bills").value))
      else Ok(Some(Arr(Values(fs))))
    case Arr(_) => Ok(Some(data))
    case _ => Ok(None)
  }

  /** `isinstance(bill, dict) and bill.get('bill_number') == bill_number` */
  predicate Matches(bill: Json, billNumber: string) {
    bill.Obj? && GetOr(bill.fields, "bill_number", Null) == Str(billNumber)
  }

  /** The first bill with that number. */
  function FindBill(bills: seq<Json>, billNumber: string): (r: Option<Json>)
    ensures r.None? <==> forall i :: 0 <= i < |bills| ==> !Matches(bills[i], billNumber)
    ensures r.Some? ==> exists i :: (0 <= i < |bills| && bills[i] == r.value && Matches(r.value, billNumber) &&
      forall j :: 0 <= j < i ==> !Matches(bills[j], billNumber))
  {
    if |bills| == 0 then None
    else if Matches(bills[0], billNumber) then Some(bills[0])
    else
      var r := FindBill(bills[1..], billNumber);
      assert forall i :: 1 <= i < |bills| ==> bills[i] == bills[1..][i - 1];
      if r.Some? then
        ghost var i :| 0 <= i < |bills[1..]| && bills[1..][i] == r.value && Matches(r.value, billNumber) &&
          forall j :: 0 <= j < i ==> !Matches(bills[1..][j], billNumber);
        assert bills[i + 1] == r.value;
        assert forall j :: 0 <= j < i + 1 ==> !Matches(bills[j], billNumber) by {
          forall j | 0 <= j < i + 1 ensures !Matches(bills[j], billNumber) {
            if j > 0 { assert bills[j] == bills[1..][j - 1]; }
          }
        }
        r
      else r
  }

  /** The first match is determined by the position of the first match. */
  lemma FindBillAt(bills: seq<Json>, billNumber: string, i: nat)
    requires i < |bills| && Matches(bills[i], billNumber)
    requires forall j :: 0 <= j < i ==> !Matches(bills[j], billNumber)
    ensures FindBill(bills, billNumber) == Some(bills[i])
  {
    var r := FindBill(bills, billNumber);
    var k :| 0 <= k < |bills| && bills[k] == r.value && Matches(r.value, billNumber) &&
      forall j :: 0 <= j < k ==> !Matches(bills[j], billNumber);
    assert k == i;
  }

  /** The bills a lookup searches, for the result of loading the raw file:
      `None` when the lookup answers "no bill" without searching (a caught
      exception, or a document with no bill list); a TypeError raised while
      locating or iterating the list escapes. */
  function LocatedBills(loaded: Result<Json>): (r: Result<Option<seq<Json>>>)
    ensures loaded.Err? && Caught(loaded.exc) ==> r == Ok(None)
    ensures r.Err? ==> !Caught(r.exc)
  {
    match loaded
    case Err(e) => if Caught(e) then Ok(None) else Err(e)
    case Ok(data) =>
      match BillList(data)
      case Err(e) => if Caught(e) then Ok(None) else Err(e)
      case Ok(None) => Ok(None)
      case Ok(Some(list)) =>
        match Iter(list)
        case Err(e) => if Caught(e) then Ok(None) else Err(e)
        case Ok(bills) => Ok(Some(bills))
  }

  /** `get_bill_by_number`: the first matching bill, or None (`Null`). */
  function BillByNumber(loaded: Result<Json>, billNumber: string): (r: Result<Json>)
    ensures loaded.Err? && Caught(loaded.exc) ==> r == Ok(Null)
    ensures r.Ok? && r.value != Null ==> Matches(r.value, billNumber)
  {
    match LocatedBills(loaded)
    case Err(e) => Err(e)
    case Ok(None) => Ok(Null)
    case Ok(Some(bills)) => Ok(FindBill(bills, billNumber).GetOr(Null))
  }

  /** True when some bill in the list has that number. */
  predicate AnyMatches(bills: seq<Json>, billNumber: string) {
    exists i :: 0 <= i < |bills| && Matches(bills[i], billNumber)
  }

  /** `bill_exists_in_raw` as both the blob backend and the database mean it:
      the same bill list, searched for any match. */
  function BillExists(loaded: Result<Json>, billNumber: string): Result<bool> {
    match LocatedBills(loaded)
    case Err(e) => Err(e)
    case Ok(None) => Ok(false)
    case Ok(Some(bills)) => Ok(AnyMatches(bills, billNumber))
  }

  /** A bill exists exactly when the lookup finds it, and both raise alike. */
  lemma BillExistsAgrees(loaded: Result<Json>, billNumber: string)
    ensures BillExists(loaded, billNumber).Ok? <==> BillByNumber(loaded, billNumber).Ok?
    ensures BillExists(loaded, billNumber).Ok? ==>
      BillExists(loaded, billNumber).value == (BillByNumber(loaded, billNumber).value != Null)
  {
    if LocatedBills(loaded).Ok? && LocatedBills(loaded).value.Some? {
      var bills := LocatedBills(loaded).value.value;
      var f := FindBill(bills, billNumber);
      if f.Some? {
        var i :| 0 <= i < |bills| && bills[i] == f.value && Matches(f.value, billNumber) &&
          forall j :: 0 <= j < i ==> !Matches(bills[j], billNumber);
      }
    }
  }
}

=== FILE: test_selection.dfy ===
/** `select_test_bills`, shared by the two analysis scripts: passes over the
    bills in priority order, each appending the bills its test accepts,
    until `count` bills are chosen; the last pass takes any bill. */
module TestSelection {
  import opened Wrappers
  import opened PyStrings
  import opened PyJson

  /** One priority pass: whether it passes over bills already selected
      (`if bill not in selected and ...`), whether its test is computed
      before that check (so that it raises even for a selected bill), and
      its test, which may raise. */
  datatype Tier = Tier(skipSelected: bool, eager: bool, test: Json -> Result<bool>)

  /** The fill pass's test: any bill. */
  function Any(bill: Json): Result<bool> {
    Ok(true)
  }

  /** `TEST_MODE` (`'true'` in any case) and `int(TEST_COUNT)`, default 5:
      whether the scripts select test bills, and how many. */
  function Settings(env: Env): (r: Result<(bool, int)>)
    ensures r.Ok? ==> (r.value.0 <==> Lower(GetEnv(env, "TEST_MODE").GetOr("false")) == "true")
  {
    var testMode := Lower(GetEnv(env, "TEST_MODE").GetOr("false")) == "true";
    var testCount :- ParseInt(GetEnv(env, "TEST_COUNT").GetOr("5"));
    Ok((testMode, testCount))
  }

  /** Without `TEST_COUNT` the count is 5. */
  lemma DefaultCount(env: Env)
    requires GetEnv(env, "TEST_COUNT").None?
    ensures Settings(env).Ok? && Settings(env).value.1 == 5
  {
    var five := "5";
    assert LStrip(five) == five;
    assert RStrip(five) == five;
    assert IsDigits(five);
    assert five[..0] == "";
    assert DigitsValue(five) == 5;
  }

  /** The selection so far, and whether it has been returned. */
  datatype Scan = Scan(selected: seq<Json>, done: bool)

  /** `xs[:n]` */
  function SliceTo<T>(xs: seq<T>, n: int): (r: seq<T>)
    ensures |r| <= |xs| && r == xs[..|r|]
    ensures 0 <= n ==> |r| == if n < |xs| then n else |xs|
  {
    if n >= |xs| then xs
    else if n >= 0 then xs[..n]
    else if |xs| + n >= 0 then xs[..|xs| + n]
    else []
  }

  /** One bill in a pass: appended when the pass does not skip it and its
      test holds; once `count` bills are in, the pass returns
      `selected[:count]`. */
  function Visit(tier: Tier, bill: Json, selected: seq<Json>, count: int): Result<Scan> {
    if tier.skipSelected && bill in selected then
      if tier.eager && tier.test(bill).Err? then Err(tier.test(bill).exc) else Ok(Scan(selected, false))
    else
      var hit :- tier.test(bill);
      if !hit then Ok(Scan(selected, false))
      else if |selected| + 1 >= count then Ok(Scan(SliceTo(selected + [bill], count), true))
      else Ok(Scan(selected + [bill], false))
  }

  /** One pass over `bills`, from `selected`. */
  function Pass(tier: Tier, bills: seq<Json>, selected: seq<Json>, count: int): Result<Scan>
    decreases |bills|
  {
    if |bills| == 0 then Ok(Scan(selected, false))
    else
      var prev :- Pass(tier, bills[..|bills| - 1], selected, count);
      if prev.done then Ok(prev) else Visit(tier, bills[|bills| - 1], prev.selected, count)
  }

  /** The passes in order; a pass that returns ends the selection. */
  function Passes(tiers: seq<Tier>, bills: seq<Json>, count: int): Result<Scan>
    decreases |tiers|
  {
    if |tiers| == 0 then Ok(Scan([], false))
    else
      var prev :- Passes(tiers[..|tiers| - 1], bills, count);
      if prev.done then Ok(prev) else Pass(tiers[|tiers| - 1], bills, prev.selected, count)
  }

  /** `select_test_bills(bills, count)` with the script's passes. */
  function Select(tiers: seq<Tier>, bills: seq<Json>, count: int): Result<seq<Json>> {
    var scan :- Passes(tiers, bills, count);
    Ok(scan.selected)
  }

  function Max0(n: int): nat {
    if n < 0 then 0 else n
  }

  /** What holds of every selection: its bills come from the input; a
      returned one holds `count` bills (none for a count below one);
      otherwise it holds fewer than `count`, or none. */
  predicate Fits(scan: Scan, bills: seq<Json>, count: int) {
    (forall x :: x in scan.selected ==> x in bills) &&
    if scan.done then |scan.selected| == Max0(count)
    else |scan.selected| < count || |scan.selected| == 0
  }

  lemma VisitFits(tier: Tier, bill: Json, selected: seq<Json>, count: int, bills: seq<Json>)
    requires bill in bills && Fits(Scan(selected, false), bills, count)
    ensures var r := Visit(tier, bill, selected, count); r.Ok? ==> Fits(r.value, bills, count)
  {
    var r := Visit(tier, bill, selected, count);
    if r.Ok? && r.value.done {
      var full := selected + [bill];
      assert forall x :: x in full ==> x in bills;
      assert forall x :: x in r.value.selected ==> x in full;
    }
  }

  lemma {:induction false} PassFits(tier: Tier, xs: seq<Json>, selected: seq<Json>, count: int, bills: seq<Json>)
    requires forall x :: x in xs ==> x in bills
    requires Fits(Scan(selected, false), bills, count)
    ensures var r := Pass(tier, xs, selected, count); r.Ok? ==> Fits(r.value, bills, count)
    decreases |xs|
  {
    if |xs| > 0 {
      PassFits(tier, xs[..|xs| - 1], selected, count, bills);
      var prev := Pass(tier, xs[..|xs| - 1], selected, count);
      if prev.Ok? && !prev.value.done {
        VisitFits(tier, xs[|xs| - 1], prev.value.selected, count, bills);
      }
    }
  }

  lemma {:induction false} PassesFit(tiers: seq<Tier>, bills: seq<Json>, count: int)
    ensures var r := Passes(tiers, bills, count); r.Ok? ==> Fits(r.value, bills, count)
    decreases |tiers|
  {
    if |tiers| > 0 {
      PassesFit(tiers[..|tiers| - 1], bills, count);
      var prev := Passes(tiers[..|tiers| - 1], bills, count);
      if prev.Ok? && !prev.value.done {
        PassFits(tiers[|tiers| - 1], bills, prev.value.selected, count, bills);
      }
    }
  }

  /** Whatever the passes, the selection holds at most `count` bills, all
      taken from the input. */
  lemma SelectBounded(tiers: seq<Tier>, bills: seq<Json>, count: int)
    ensures var r := Select(tiers, bills, count);
      r.Ok? ==> |r.value| <= Max0(count) && forall x :: x in r.value ==> x in bills
  {
    PassesFit(tiers, bills, count);
  }

  /** The first tier, from `t` on, whose test accepts the bill; `|tiers|`
      when none does. */
  function PriorityFrom(bill: Json, tiers: seq<Tier>, t: nat): (r: nat)
    requires t <= |tiers|
    ensures t <= r <= |tiers|
    decreases |tiers| - t
  {
    if t == |tiers| then t
    else if tiers[t].test(bill) == Ok(true) then t
    else PriorityFrom(bill, tiers, t + 1)
  }

  /** The pass that selects the bill, when every test answers. */
  function Priority(bill: Json, tiers: seq<Tier>): nat {
    PriorityFrom(bill, tiers, 0)
  }

  lemma {:induction false} PriorityLeast(bill: Json, tiers: seq<Tier>, t: nat, s: nat)
    requires t <= s < |tiers|
    ensures PriorityFrom(bill, tiers, t) == s <==>
      tiers[s].test(bill) == Ok(true) && PriorityFrom(bill, tiers, t) >= s
    ensures PriorityFrom(bill, tiers, t) > s ==> tiers[s].test(bill) != Ok(true)
    decreases |tiers| - t
  {
    if t < s && tiers[t].test(bill) != Ok(true) {
      PriorityLeast(bill, tiers, t + 1, s);
    }
  }

  /** The bills of `xs` whose priority is `t`, in order. */
  function Group(xs: seq<Json>, tiers: seq<Tier>, t: nat): seq<Json>
    decreases |xs|
  {
    if |xs| == 0 then []
    else Group(xs[..|xs| - 1], tiers, t) + if Priority(xs[|xs| - 1], tiers) == t then [xs[|xs| - 1]] else []
  }

  /** Groups `0 .. t-1`, one after the other. */
  function Grouped(bills: seq<Json>, tiers: seq<Tier>, t: nat): seq<Json> {
    if t == 0 then [] else Grouped(bills, tiers, t - 1) + Group(bills, tiers, t - 1)
  }

  /** The bills of `xs` whose priority is below `t`, in order. */
  function Below(xs: seq<Json>, tiers: seq<Tier>, t: nat): seq<Json>
    decreases |xs|
  {
    if |xs| == 0 then []
    else Below(xs[..|xs| - 1], tiers, t) + if Priority(xs[|xs| - 1], tiers) < t then [xs[|xs| - 1]] else []
  }

  predicate Distinct(xs: seq<Json>) {
    forall i, j :: 0 <= i < j < |xs| ==> xs[i] != xs[j]
  }

  predicate IsPrefix(a: seq<Json>, b: seq<Json>) {
    |a| <= |b| && b[..|a|] == a
  }

  /** The conditions under which the selection is the grouping: the input
      holds no bill twice, every test answers on every bill, and every
      pass after the first skips bills already selected. */
  predicate Settled(tiers: seq<Tier>, bills: seq<Json>) {
    Distinct(bills) &&
    (forall t, b :: 0 <= t < |tiers| && b in bills ==> tiers[t].test(b).Ok?) &&
    (forall t :: 0 < t < |tiers| ==> tiers[t].skipSelected)
  }

  lemma {:induction false} GroupMember(xs: seq<Json>, tiers: seq<Tier>, t: nat, x: Json)
    ensures x in Group(xs, tiers, t) <==> x in xs && Priority(x, tiers) == t
    decreases |xs|
  {
    if |xs| > 0 {
      GroupMember(xs[..|xs| - 1], tiers, t, x);
      assert xs == xs[..|xs| - 1] + [xs[|xs| - 1]];
    }
  }

  lemma {:induction false} GroupedMember(bills: seq<Json>, tiers: seq<Tier>, t: nat, x: Json)
    ensures x in Grouped(bills, tiers, t) <==> x in bills && Priority(x, tiers) < t
  {
    if t > 0 {
      var before := Grouped(bills, tiers, t - 1);
      var group := Group(bills, tiers, t - 1);
      GroupedMember(bills, tiers, t - 1, x);
      GroupMember(bills, tiers, t - 1, x);
      assert Grouped(bills, tiers, t) == before + group;
      assert x in before + group <==> x in before || x in group;
    }
  }

  lemma {:induction false} GroupGrows(xs: seq<Json>, tiers: seq<Tier>, t: nat, i: nat)
    requires i <= |xs|
    ensures IsPrefix(Group(xs[..i], tiers, t), Group(xs, tiers, t))
    decreases |xs|
  {
    if i == |xs| {
      assert xs[..i] == xs;
    } else {
      var front := xs[..|xs| - 1];
      GroupGrows(front, tiers, t, i);
      assert front[..i] == xs[..i];
    }
  }

  lemma {:induction false} GroupedGrows(bills: seq<Json>, tiers: seq<Tier>, t: nat, u: nat)
    requires t <= u
    ensures IsPrefix(Grouped(bills, tiers, t), Grouped(bills, tiers, u))
    decreases u
  {
    if t < u {
      GroupedGrows(bills, tiers, t, u - 1);
    }
  }

  /** The selection after the first `i` bills of pass `t` is a prefix of the
      whole grouping. */
  lemma InPrefix(bills: seq<Json>, tiers: seq<Tier>, t: nat, i: nat)
    requires t < |tiers| && i <= |bills|
    ensures IsPrefix(Grouped(bills, tiers, t) + Group(bills[..i], tiers, t), Grouped(bills, tiers, |tiers|))
  {
    var g := Grouped(bills, tiers, t);
    GroupGrows(bills, tiers, t, i);
    GroupedGrows(bills, tiers, t + 1, |tiers|);
    var all := Grouped(bills, tiers, |tiers|);
    var h := g + Group(bills[..i], tiers, t);
    assert IsPrefix(h, Grouped(bills, tiers, t + 1)) by {
      assert Grouped(bills, tiers, t + 1) == g + Group(bills, tiers, t);
    }
  }

  /** `xs[:count]` for a count that cannot be negative. */
  function Take(xs: seq<Json>, count: int): (r: seq<Json>)
    ensures |r| == if count <= 0 then 0 else if count < |xs| then count else |xs|
  {
    if count <= 0 then [] else if count >= |xs| then xs else xs[..count]
  }

  /** The expected scan once the selection has reached `h`, a prefix of
      the grouping `all`. */
  function State(h: seq<Json>, all: seq<Json>, count: int): Scan {
    if |h| > 0 && |h| >= count then Scan(Take(all, count), true) else Scan(h, false)
  }

  /** One bill of pass `t`: it is appended exactly when its priority is `t`. */
  lemma VisitHits(bills: seq<Json>, tiers: seq<Tier>, count: int, t: nat, i: nat)
    requires Settled(tiers, bills) && t < |tiers| && i < |bills|
    ensures var h := Grouped(bills, tiers, t) + Group(bills[..i], tiers, t);
      var b := bills[i];
      Visit(tiers[t], b, h, count) ==
        if Priority(b, tiers) != t then Ok(Scan(h, false))
        else if |h| + 1 >= count then Ok(Scan(SliceTo(h + [b], count), true))
        else Ok(Scan(h + [b], false))
  {
    var b := bills[i];
    var h := Grouped(bills, tiers, t) + Group(bills[..i], tiers, t);
    GroupedMember(bills, tiers, t, b);
    GroupMember(bills[..i], tiers, t, b);
    assert b !in bills[..i];
    assert b in h <==> Priority(b, tiers) < t;
    assert tiers[t].test(b).Ok?;
    PriorityLeast(b, tiers, 0, t);
  }

  /** One bill of pass `t` takes the selection to the next expected scan. */
  lemma VisitState(bills: seq<Json>, tiers: seq<Tier>, count: int, t: nat, i: nat)
    requires Settled(tiers, bills) && t < |tiers| && i < |bills|
    requires var h := Grouped(bills, tiers, t) + Group(bills[..i], tiers, t);
      !(|h| > 0 && |h| >= count)
    ensures var h := Grouped(bills, tiers, t) + Group(bills[..i], tiers, t);
      Visit(tiers[t], bills[i], h, count) ==
      Ok(State(Grouped(bills, tiers, t) + Group(bills[..i + 1], tiers, t), Grouped(bills, tiers, |tiers|), count))
  {
    var b := bills[i];
    var g := Grouped(bills, tiers, t);
    var h := g + Group(bills[..i], tiers, t);
    var all := Grouped(bills, tiers, |tiers|);
    assert bills[..i + 1][..i] == bills[..i];
    var h' := g + Group(bills[..i + 1], tiers, t);
    assert h' == h + if Priority(b, tiers) == t then [b] else [];
    VisitHits(bills, tiers, count, t, i);
    if Priority(b, tiers) == t && |h| + 1 >= count {
      InPrefix(bills, tiers, t, i + 1);
      ReturnedIsTake(h, b, all, count);
    }
  }

  /** Where a pass returns, `selected[:count]` is the first `count` bills
      of the grouping. */
  lemma ReturnedIsTake(h: seq<Json>, b: Json, all: seq<Json>, count: int)
    requires IsPrefix(h + [b], all) && !(|h| > 0 && |h| >= count) && |h| + 1 >= count
    ensures SliceTo(h + [b], count) == Take(all, count)
  {
  }

  /** Pass `t` started from groups `0 .. t-1` reaches group `t` bill by bill. */
  lemma {:induction false} PassState(bills: seq<Json>, tiers: seq<Tier>, count: int, t: nat, i: nat)
    requires Settled(tiers, bills) && t < |tiers| && i <= |bills|
    requires var g := Grouped(bills, tiers, t); !(|g| > 0 && |g| >= count)
    ensures Pass(tiers[t], bills[..i], Grouped(bills, tiers, t), count) ==
      Ok(State(Grouped(bills, tiers, t) + Group(bills[..i], tiers, t), Grouped(bills, tiers, |tiers|), count))
  {
    var g := Grouped(bills, tiers, t);
    var all := Grouped(bills, tiers, |tiers|);
    if i == 0 {
      assert bills[..0] == [];
      assert g + Group(bills[..0], tiers, t) == g;
    } else {
      PassState(bills, tiers, count, t, i - 1);
      assert bills[..i][..i - 1] == bills[..i - 1];
      assert bills[..i][i - 1] == bills[i - 1];
      var h := g + Group(bills[..i - 1], tiers, t);
      var h' := g + Group(bills[..i], tiers, t);
      assert |h'| >= |h|;
      if !(|h| > 0 && |h| >= count) {
        VisitState(bills, tiers, count, t, i - 1);
      }
    }
  }

  /** After the first `t` passes the selection is groups `0 .. t-1`, or it
      has been returned. */
  lemma {:induction false} PassesState(bills: seq<Json>, tiers: seq<Tier>, count: int, t: nat)
    requires Settled(tiers, bills) && t <= |tiers|
    ensures Passes(tiers[..t], bills, count) == Ok(State(Grouped(bills, tiers, t), Grouped(bills, tiers, |tiers|), count))
  {
    if t > 0 {
      PassesState(bills, tiers, count, t - 1);
      assert tiers[..t][..t - 1] == tiers[..t - 1];
      var g := Grouped(bills, tiers, t - 1);
      assert |Grouped(bills, tiers, t)| >= |g|;
      if !(|g| > 0 && |g| >= count) {
        PassState(bills, tiers, count, t - 1, |bills|);
        assert bills[..|bills|] == bills;
      }
    }
  }

  /** On settled input the selection is the first `count` bills of the
      grouping: the bills of pass 0, then those of pass 1, and so on, each
      group in input order. */
  lemma SelectIsGrouping(tiers: seq<Tier>, bills: seq<Json>, count: int)
    requires Settled(tiers, bills)
    ensures Select(tiers, bills, count) == Ok(Take(Grouped(bills, tiers, |tiers|), count))
  {
    PassesState(bills, tiers, count, |tiers|);
    assert tiers[..|tiers|] == tiers;
  }

  lemma {:induction false} BelowStep(xs: seq<Json>, tiers: seq<Tier>, t: nat)
    ensures |Below(xs, tiers, t + 1)| == |Below(xs, tiers, t)| + |Group(xs, tiers, t)|
    decreases |xs|
  {
    if |xs| > 0 {
      BelowStep(xs[..|xs| - 1], tiers, t);
    }
  }

  lemma {:induction false} GroupedLength(bills: seq<Json>, tiers: seq<Tier>, t: nat)
    ensures |Grouped(bills, tiers, t)| == |Below(bills, tiers, t)|
  {
    if t > 0 {
      GroupedLength(bills, tiers, t - 1);
      BelowStep(bills, tiers, t - 1);
    } else {
      BelowNone(bills, tiers);
    }
  }

  lemma {:induction false} BelowNone(xs: seq<Json>, tiers: seq<Tier>)
    ensures Below(xs, tiers, 0) == []
    decreases |xs|
  {
    if |xs| > 0 {
      BelowNone(xs[..|xs| - 1], tiers);
    }
  }

  lemma {:induction false} BelowAll(xs: seq<Json>, tiers: seq<Tier>)
    requires forall x :: x in xs ==> Priority(x, tiers) < |tiers|
    ensures Below(xs, tiers, |tiers|) == xs
    decreases |xs|
  {
    if |xs| > 0 {
      var front := xs[..|xs| - 1];
      var last := xs[|xs| - 1];
      assert forall x :: x in front ==> x in xs;
      BelowAll(front, tiers);
      assert last in xs;
      assert Priority(last, tiers) < |tiers|;
      calc {
        Below(xs, tiers, |tiers|);
        Below(front, tiers, |tiers|) + [last];
        front + [last];
        { assert xs == front + [last]; }
        xs;
      }
    }
  }

  lemma {:induction false} GroupDistinct(xs: seq<Json>, tiers: seq<Tier>, t: nat)
    requires Distinct(xs)
    ensures Distinct(Group(xs, tiers, t))
    decreases |xs|
  {
    if |xs| > 0 {
      var front := xs[..|xs| - 1];
      var last := xs[|xs| - 1];
      GroupDistinct(front, tiers, t);
      GroupMember(front, tiers, t, last);
      assert last !in front;
      DistinctAppend(Group(front, tiers, t), if Priority(last, tiers) == t then [last] else []);
    }
  }

  lemma DistinctAppend(a: seq<Json>, b: seq<Json>)
    requires Distinct(a) && Distinct(b) && forall x :: x in a ==> x !in b
    ensures Distinct(a + b)
  {
    forall i, j | 0 <= i < j < |a + b|
      ensures (a + b)[i] != (a + b)[j]
    {
      if i < |a| && j >= |a| {
        assert (a + b)[i] in a;
        assert (a + b)[j] == b[j - |a|];
      }
    }
  }

  lemma {:induction false} GroupedDistinct(bills: seq<Json>, tiers: seq<Tier>, t: nat)
    requires Distinct(bills)
    ensures Distinct(Grouped(bills, tiers, t))
  {
    if t > 0 {
      var g := Grouped(bills, tiers, t - 1);
      var grp := Group(bills, tiers, t - 1);
      GroupedDistinct(bills, tiers, t - 1);
      GroupDistinct(bills, tiers, t - 1);
      forall x | x in g
        ensures x !in grp
      {
        GroupedMember(bills, tiers, t - 1, x);
        GroupMember(bills, tiers, t - 1, x);
      }
      DistinctAppend(g, grp);
    }
  }

  /** With a last pass that takes any bill, settled input gives
      `min(count, len(bills))` bills and none twice. */
  lemma FullSelection(tiers: seq<Tier>, bills: seq<Json>, count: int)
    requires Settled(tiers, bills) && |tiers| > 0
    requires forall b :: b in bills ==> tiers[|tiers| - 1].test(b) == Ok(true)
    ensures var r := Select(tiers, bills, count);
      r.Ok? && |r.value| == (if count <= 0 then 0 else if count < |bills| then count else |bills|) &&
      Distinct(r.value)
  {
    SelectIsGrouping(tiers, bills, count);
    var all := Grouped(bills, tiers, |tiers|);
    forall b | b in bills
      ensures Priority(b, tiers) < |tiers|
    {
      PriorityLeast(b, tiers, 0, |tiers| - 1);
    }
    BelowAll(bills, tiers);
    GroupedLength(bills, tiers, |tiers|);
    GroupedDistinct(bills, tiers, |tiers|);
    var r := Take(all, count);
    assert forall i, j :: 0 <= i < j < |r| ==> r[i] == all[i] && r[j] == all[j];
  }

  /** The passes, with their loops over the bills. */
  method SelectTestBills(bills: seq<Json>, tiers: seq<Tier>, count: int) returns (r: Result<seq<Json>>)
    ensures r == Select(tiers, bills, count)
  {
    var selected: seq<Json> := [];
    var t := 0;
    while t < |tiers|
      invariant 0 <= t <= |tiers|
      invariant Passes(tiers[..t], bills, count) == Ok(Scan(selected, false))
    {
      assert tiers[..t + 1][..t] == tiers[..t];
      var scan := RunPass(tiers[t], bills, selected, count);
      if scan.Err? || scan.value.done {
        PassesStop(tiers, bills, count, t + 1);
        return if scan.Err? then Err(scan.exc) else Ok(scan.value.selected);
      }
      selected := scan.value.selected;
      t := t + 1;
    }
    assert tiers[..t] == tiers;
    r := Ok(selected);
  }

  /** One pass: the loop over the bills. */
  method RunPass(tier: Tier, bills: seq<Json>, selected0: seq<Json>, count: int) returns (r: Result<Scan>)
    ensures r == Pass(tier, bills, selected0, count)
  {
    var selected := selected0;
    var i := 0;
    while i < |bills|
      invariant 0 <= i <= |bills|
      invariant Pass(tier, bills[..i], selected0, count) == Ok(Scan(selected, false))
    {
      assert bills[..i + 1][..i] == bills[..i];
      var bill := bills[i];
      var skip := tier.skipSelected && bill in selected;
      if tier.eager || !skip {
        var hit := tier.test(bill);
        if hit.Err? {
          PassStop(tier, bills, selected0, count, i + 1);
          return Err(hit.exc);
        }
        if hit.value && !skip {
          selected := selected + [bill];
          if |selected| >= count {
            PassStop(tier, bills, selected0, count, i + 1);
            return Ok(Scan(SliceTo(selected, count), true));
          }
        }
      }
      i := i + 1;
    }
    assert bills[..i] == bills;
    r := Ok(Scan(selected, false));
  }

  /** A pass that raised or returned after `n` bills stays so. */
  lemma {:induction false} PassStop(tier: Tier, bills: seq<Json>, selected: seq<Json>, count: int, n: nat)
    requires n <= |bills|
    requires var r := Pass(tier, bills[..n], selected, count); r.Err? || r.value.done
    ensures Pass(tier, bills, selected, count) == Pass(tier, bills[..n], selected, count)
    decreases |bills|
  {
    if n < |bills| {
      assert bills[..|bills| - 1][..n] == bills[..n];
      PassStop(tier, bills[..|bills| - 1], selected, count, n);
    } else {
      assert bills[..n] == bills;
    }
  }

  lemma {:induction false} PassesStop(tiers: seq<Tier>, bills: seq<Json>, count: int, n: nat)
    requires n <= |tiers|
    requires var r := Passes(tiers[..n], bills, count); r.Err? || r.value.done
    ensures Passes(tiers, bills, count) == Passes(tiers[..n], bills, count)
    decreases |tiers|
  {
    if n < |tiers| {
      assert tiers[..|tiers| - 1][..n] == tiers[..n];
      PassesStop(tiers[..|tiers| - 1], bills, count, n);
    } else {
      assert tiers[..n] == tiers;
    }
  }
}

=== FILE: wrappers.dfy ===
/** Failure-compatible wrappers shared by every module of the model, and the
    Python exception classes that the modelled code raises or catches. */
module Wrappers {

  datatype Option<+T> = None | Some(value: T) {
    predicate IsFailure() { None? }

    function PropagateFailure<U>(): Option<U>
      requires None?
    {
      None
    }

    function Extract(): T
      requires Some?
    {
      value
    }

    function GetOr(default: T): T {
      match this
      case Some(v) => v
      case None => default
    }
  }

  /** A Python exception; `msg` is what `str(e)` gives. */
  datatype Exc =
    | ValueError(msg: string)
    | KeyError(msg: string)
    | TypeError(msg: string)
    | AttributeError(msg: string)
    | IndexError(msg: string)
    | ZeroDivisionError(msg: string)
    | FileNotFound(msg: string)
    | JsonDecodeError(msg: string)
    /** requests.exceptions.RequestException, Timeout included */
    | RequestError(msg: string)
    /** any error raised by the database driver */
    | DatabaseError(msg: string)
    /** a plain `Exception(msg)` */
    | Failure(msg: string)
    /** sys.exit(code) */
    | SystemExit(code: int)
  {
    /** `str(e)` */
    function Message(): string {
      if SystemExit? then "exit" else msg
    }
  }

  /** The outcome of a Python call: a value, or the exception it raised. */
  datatype Result<+T> = Ok(value: T) | Err(exc: Exc) {
    predicate IsFailure() { Err? }

    function PropagateFailure<U>(): Result<U>
      requires Err?
    {
      Err(exc)
    }

    function Extract(): T
      requires Ok?
    {
      value
    }
  }

  /** The process environment, `os.environ`. */
  type Env = map<string, string>

  /** `os.getenv(name)` */
  function GetEnv(env: Env, name: string): Option<string> {
    if name in env then Some(env[name]) else None
  }

  /** A Python for-loop appending `f(x)` for each `x`, in order: the first
      call that raises ends the loop with its exception. */
  function MapAll<T, U>(f: T -> Result<U>, xs: seq<T>): (r: Result<seq<U>>)
    ensures r.Ok? ==> |r.value| == |xs|
  {
    if |xs| == 0 then Ok([])
    else
      var prev :- MapAll(f, xs[..|xs| - 1]);
      var last :- f(xs[|xs| - 1]);
      Ok(prev + [last])
  }

  /** The loop succeeds exactly when every call does, and then its i-th
      output is the i-th call's value. */
  lemma {:induction false} MapAllOk<T, U>(f: T -> Result<U>, xs: seq<T>)
    ensures MapAll(f, xs).Ok? <==> forall i :: 0 <= i < |xs| ==> f(xs[i]).Ok?
    ensures MapAll(f, xs).Ok? ==> forall i :: 0 <= i < |xs| ==> MapAll(f, xs).value[i] == f(xs[i]).value
  {
    if |xs| > 0 {
      var init := xs[..|xs| - 1];
      MapAllOk(f, init);
      assert forall i :: 0 <= i < |init| ==> init[i] == xs[i];
      if MapAll(f, init).Ok? && f(xs[|xs| - 1]).Ok? {
        assert MapAll(f, xs) == Ok(MapAll(f, init).value + [f(xs[|xs| - 1]).value]);
      }
    }
  }

  /** A failing loop raises the exception of the first call that fails. */
  lemma {:induction false} MapAllFirstError<T, U>(f: T -> Result<U>, xs: seq<T>)
    requires MapAll(f, xs).Err?
    ensures exists i ::
      0 <= i < |xs| && f(xs[i]).Err? && MapAll(f, xs).exc == f(xs[i]).exc &&
      forall j :: 0 <= j < i ==> f(xs[j]).Ok?
  {
    var init := xs[..|xs| - 1];
    assert forall i :: 0 <= i < |init| ==> init[i] == xs[i];
    if MapAll(f, init).Err? {
      MapAllFirstError(f, init);
      var i :| 0 <= i < |init| && f(init[i]).Err? && MapAll(f, init).exc == f(init[i]).exc &&
        forall j :: 0 <= j < i ==> f(init[j]).Ok?;
      assert f(xs[i]).Err?;
    } else {
      MapAllOk(f, init);
      assert f(xs[|xs| - 1]).Err?;
    }
  }

  /** One more step of the loop: the prefix's outputs and the next call's. */
  lemma MapAllNext<T, U>(f: T -> Result<U>, xs: seq<T>, i: nat)
    requires i < |xs|
    ensures MapAll(f, xs[..i]).Ok? && f(xs[i]).Ok? ==>
      MapAll(f, xs[..i + 1]) == Ok(MapAll(f, xs[..i]).value + [f(xs[i]).value])
    ensures MapAll(f, xs[..i]).Ok? && f(xs[i]).Err? ==> MapAll(f, xs[..i + 1]) == Err(f(xs[i]).exc)
  {
    assert xs[..i + 1][..i] == xs[..i];
  }

  /** Once a prefix of the loop has raised, the whole loop raises the same. */
  lemma {:induction false} MapAllStops<T, U>(f: T -> Result<U>, xs: seq<T>, n: nat)
    requires n <= |xs| && MapAll(f, xs[..n]).Err?
    ensures MapAll(f, xs) == MapAll(f, xs[..n])
    decreases |xs| - n
  {
    if n < |xs| {
      assert xs[..n + 1][..n] == xs[..n];
      MapAllStops(f, xs, n + 1);
    } else {
      assert xs[..n] == xs;
    }
  }

  /** A loop whose every call maps its own output to itself maps its output
      to itself. */
  lemma MapAllFixed<T>(f: T -> Result<T>, xs: seq<T>)
    requires MapAll(f, xs).Ok?
    requires forall x :: f(x).Ok? ==> f(f(x).value) == f(x)
    ensures MapAll(f, MapAll(f, xs).value) == MapAll(f, xs)
  {
    var out := MapAll(f, xs).value;
    MapAllOk(f, xs);
    assert forall i :: 0 <= i < |out| ==> f(out[i]) == Ok(out[i]) by {
      forall i | 0 <= i < |out| ensures f(out[i]) == Ok(out[i]) {
        assert f(xs[i]).Ok?;
      }
    }
    MapAllOk(f, out);
  }
}
